=== FILE: README.md ===
# AVR assembly simulator — a Dafny model

This project models the core of a teaching simulator for a subset of AVR
(ATmega-style) assembly. The simulator reads an assembly file, lexes it into
token lines, assembles it in two passes (labels first, then instructions and
the `.data` section), and interprets the resulting instruction list one step
at a time over a data memory of 0x900 cells and a status register. It also
encodes each instruction as the 16- or 32-bit binary word the AVR Instruction
Set Manual gives it.

The repository holds three generations of the same program, and the model
keeps them apart where they differ:

- `sim.py` is the current, single-file simulator and the primary
  reference. The lexer and parser dialect `Current` and the interpreter
  variant `Checked` stand for it.
- `lib/avr_lexer.py` and `sim/avr_parser.py` are the older lexer and parser
  (dialect `Older`). They have fewer mnemonics, no `.def`, no operand range
  checks, and the lexer does not reduce numbers modulo 256.
- `lib/avr_interpreter.py` is the library interpreter (variant `Layered`). It
  adds 0x100 to data addresses and keeps a PUSH/POP balance per subroutine
  layer.
- `sim/avr_interpreter.py` is the older interpreter (variant `Counted`). It
  also adds 0x100 and keeps a single PUSH/POP balance. `sim/avr_reg.py` and
  `sim/avr_pos.py` are its Register and Position classes.

Module layout, following the program's own structure:

| module | file | what it models |
|---|---|---|
| `Base` | base.dfy | `Result`/`Option`, the byte type, and the error values the program produces (`IllegalCharError`, `InvalidInstructionError`, the interpreter's RET and stack errors, and Python exceptions as `Crash`) |
| `Text`, `Bits` | text.dfy, bits.dfy | the Python string and integer built-ins the program leans on: `int(s, base)`, `str(n)`, `upper`, `split`, `rstrip`, `bin`, and the binary helpers `make_8_bit_binary`, `make_n_bit_binary` and `twos_comp` |
| `Position`, `Register` | position.dfy, register.dfy | the `Position` and `Register` classes |
| `Tokens`, `Lexer` | tokens.dfy, lexer.dfy | token kinds and the `Lexer` class |
| `Syntax`, `Tables`, `Directives` | syntax.dfy, tables.dfy, directives.dfy | `INST_REQUIREMENTS`, `INST_OPERANDS`, `BACKSLASH_VALS`, the error messages, and the `.byte`/`.space`/`.string` data directives |
| `Program`, `TwoPass` | program.dfy, twopass.dfy | the instruction list the parser emits (with its `None` placeholder after two-word instructions) and the label pass that both parsers share |
| `Parser`, `OldParser` | parser.dfy, oldparser.dfy | `Parser.parse`, `inst_parse`, `data_label_parse` and `check_operands`, in the current and the older generation |
| `Alu` | alu.dfy | the flag formulas (`get_H`, `get_V`, `get_C`, …) and the arithmetic of every ALU instruction |
| `Machine` | machine.dfy | data memory (registers, linked SP/SREG/PC cells, plain numbers), program counter, stack pointer, X/Y/Z pointers, and the memory set-up in `run` |
| `Exec`, `Stack`, `Step` | exec.dfy, stack.dfy, step.dfy | `Interpreter.step`: the instruction groups, PUSH/POP/CALL/RET with their per-generation balance checks, PRINTF, and the dispatcher |
| `ExecLaws` | execlaws.dfy | what single instructions leave in the registers, and the store-then-load and output-then-input round trips |
| `Encoder`, `EncoderLaws` | encoder.dfy, encoderlaws.dfy | `get_binary_instruction` and the read-back laws of its bit templates |

Python exceptions that the program does not catch (a `KeyError`, a
`ValueError` from `int()`, an `AttributeError` on an error object, a `None`
compared with a string) end the run. The model makes each of them an
explicit `Err(Crash(…))`, and its contracts say when one can occur. Integers
are unbounded, as in Python. Every `% 256` and every 8/16-bit split the
program performs is written out.

## Model

| member | source | states |
|---|---|---|
| Position.Advance | sim.py:100-106 | moving over one character adds one to the index; a newline starts the next line at column 0, any other character adds one to the column; file name and text are kept |
| Position.Copy | sim.py:108-109 | a copy agrees with the original in every field (positions are values, so later advances of one leave the other alone) |
| Position.AdvanceAllCounts | sim.py:100-106 | walking over a whole text moves the index by its length and the line number by the number of newlines in it |
| Register.Store | sim.py:146-148 | `set_value` stores a byte congruent to the given integer modulo 256, and keeps a value already in 0..255 |
| Register.Com | sim.py:174-175 | the complement and the value add up to 255 |
| Register.Neg | sim.py:177-178 | the negation and the value add up to 0 modulo 256, and the negation is zero exactly when the value is |
| Register.Inc | sim.py:180-181 | increment gives value + 1, and 255 wraps to 0 |
| Register.Dec | sim.py:183-184 | decrement gives value − 1, and 0 wraps to 255 |
| Register.OrBit | sim.py:166-168 | `value \| 2**bit` sets bit `i` and leaves the other seven bits as they were |
| Register.AndNotBit | sim.py:170-172 | `value & (255 - 2**bit)` clears bit `i` and leaves the other bits as they were; for a bit number above 7 the byte is unchanged |
| Register.NewInstruct | sim.py:143-144 | the start of an instruction clears the display flag and keeps name and value |
| Register.SetValue | sim.py:146-148 | any integer is stored congruent modulo 256, and the register is marked changed |
| Register.GetBits | sim.py:150-158 | the bit string has eight characters, all binary digits, and reads back as the register's value |
| Register.Clr | sim.py:160-161 | the value becomes 0 and the register is marked changed |
| Register.Ser | sim.py:163-164 | the value becomes 255 and the register is marked changed |
| Register.SetBit | sim.py:166-168 | bit `i` is set, no other bit changes, and the display flag is left alone because `set_bit` assigns the field directly |
| Register.ClearBit | sim.py:170-172 | bit `i` is cleared, no other bit changes, a bit number above 7 leaves the value unchanged, and the display flag is left alone |
| Register.ComReg | sim.py:174-175 | the register's new value and its old value add up to 255, and it is marked changed |
| Register.NegReg | sim.py:177-178 | the new and old values add up to 0 modulo 256, and it is marked changed |
| Register.IncReg | sim.py:180-181 | the register takes the wrapping increment and is marked changed |
| Register.DecReg | sim.py:183-184 | the register takes the wrapping decrement and is marked changed |
| Register.IncDecInverse | sim.py:180-184 | `inc` and `dec` undo each other on every byte, across the 255/0 wrap too |
| Register.ComInvolution | sim.py:174-175 | `com` applied twice gives back the value |
| Register.SetClearBit | sim.py:166-172 | setting and then clearing a bit that was clear gives back the value |
| Text.Upper | sim.py:377-387 | `str.upper()` keeps the length and maps each character to its upper case |
| Text.PyIntDigits | sim.py:286-287 | `int(s, base)` on a plain digit string of that base is its positional value |
| Text.PlainValue | sim.py:286-287 | a plain digit string needs no grouping and is read as its positional value |
| Text.PyIntGrouped | sim.py:286 | `int()` accepts one underscore between digits: `a_b` is read as the digits of `a` and `b` joined, in any base |
| Text.GroupedJoin | sim.py:286 | the digits `int()` reads from `a_b` are those of `a` followed by those of `b` |
| Text.PyIntBadGrouping | sim.py:286 | a doubled, leading or trailing underscore makes `int()` raise |
| Text.IntToStringRoundTrip | sim.py:1004 | `int(str(n)) == n` for every integer, so a register named from a number is read back as that number |
| Text.PyIntNegated | sim.py:1004 | `int("-" + d)` is the negated value of the digits `d` |
| Text.NatToStringValue | sim.py:1004 | the digits `str(n)` writes read back as `n` |
| Text.AfterLast | sim.py:1004 | `s.split(c)[-1]` is the suffix after the last `c`: it holds no `c`, and a `c` precedes it unless it is all of `s` |
| Text.SecondLastPiece | sim.py:1012 | `s.split(c)[-2]` exists exactly when `s` contains `c` |
| Text.StripRightChar | sim.py:1012 | `s.rstrip(c)` is a prefix of `s` that does not end in `c`, and everything it drops is `c` |
| Text.RegisterNameSplits | sim.py:1004 | splitting `R<n>` at its last `R` gives back the digits of `n` |
| Bits.DigitsValue | sim.py:2333-2337 | the digits of `bin(v)` read back as `v`, and their count is the bit length of `v` |
| Bits.DigitsBit | sim.py:150-158 | counting from the right, the characters of `bin(v)` are the bits of `v` |
| Bits.Bits8Bit | sim.py:150-158 | character `7 - i` of the eight-character string is bit `i`, so the simulator's `R[0]` is bit 7 and `R[4]` is bit 3 |
| Bits.Bits8Value | sim.py:2333-2337 | `make_8_bit_binary` of a byte is an eight-character binary string whose value is the byte |
| Bits.PadValue | sim.py:2364-2367 | padding with leading zeros keeps the binary value |
| Bits.MakeNBitFits | sim.py:2354-2368 | for a value below 2^n, `make_n_bit_binary` gives exactly n binary digits whose value is the input |
| Bits.MakeNBitOverflow | sim.py:2362 | for a value of 2^n or more, `make_n_bit_binary` gives n + 1 characters rather than n, because it keeps `b[0:n+1]` |
| Bits.TwosCompRoundTrip | sim.py:2370-2386 | for every value the width can represent, `twos_comp(v, bits)` is a `bits`-wide binary string whose two's-complement reading is `v` |
| Program.Width | sim.py:1286 | an instruction takes two program words exactly when it is CALL, JMP, LDS or STS, and one word otherwise |
| Program.Emitted | sim.py:849-851 | an instruction adds its own slot, followed by the `None` placeholder when it takes two words |
| Program.EmitKeepsAligned | sim.py:849-851 | appending an instruction's slots keeps every placeholder right after a two-word instruction |
| Tokens.PointerSpelling | sim.py:548-556 | every pointer token has a non-empty spelling |
| Tokens.Mnemonics | sim.py:430 | the current generation knows every mnemonic the older one knows, and ADIW, MOVW, SBIW, SBRC, SBRS and TST besides |
| Tokens.Directives | sim.py:563 | `.def` is a directive of the current generation and not of the older one |
| Tokens.KindName | sim.py:539-561 | a kind's `TT_` name is non-empty, and a pointer's name is its spelling |
| Syntax.ShowValue | sim.py:792 | `str(value)` of a text value is the text itself, and of a number is a decimal string that `int()` reads back as that number |
| Syntax.ShowToken | sim.py:790-801 | an argument error names the token by its value, or by its `TT_` kind name when it carries no value |
| Syntax.LineError | sim.py:784-786 | an error at parser line `k` is reported with the source line number `line_nums[k]`; a line without a recorded number makes the lookup raise |
| Syntax.GluedError | sim.py:866-868 | a message glued together with `+` around a token value is reported when the value is a string, and raises when the value is a number or `None` |
| Syntax.Unescape | sim.py:1081-1087 | a backslash escape has a meaning exactly for `n`, `'`, `"`, `t` and `\` |
| Syntax.Decode | sim.py:937-950 | decoding a string operand gives at most one code per character, and fails only by raising, on an escape missing from the table |
| Syntax.Codes | sim.py:950 | the data bytes of a plain string are the `ord` of each character, one per character |
| Syntax.DecodeEscaped | sim.py:937-950 | decoding undoes escaping: a string written with escapes decodes to the codes of the characters it denotes |
| Directives.ByteSyntaxStep | sim.py:872-898 | the `.byte` operand shape, read one integer and comma at a time: an integer, then either the end of the line or a comma and more of the same |
| Directives.ByteValues | sim.py:872-898 | `.byte` succeeds exactly when its operands are integers separated by single commas with no trailing comma; it then stores one value per integer, each reduced modulo 256 in the current parser and kept as written in the older one |
| Directives.StringValues | sim.py:931-952 | `.string`/`.ascii`/`.asciz` succeed only on a line of strings and commas |
| Directives.StringOperand | sim.py:931-952 | a string operand written with escapes contributes exactly the codes of the characters it denotes, ahead of the rest of the line |
| Directives.Fill | sim.py:928-929 | `.space n, v` stores `n` copies of `v`, and none when `n` is not positive |
| Tables.Requirements | sim.py:1090 | every known mnemonic has at least one argument requirement, and an entry starting with `None` is exactly `[None]` |
| Tables.Rules | sim.py:1188 | every mnemonic in the operand table has at least one operand rule |
| Lexer.DigitRunEnd | sim.py:272-274 | a decimal literal is the longest run of digits: every character before the end is a digit, and the one at the end is not |
| Lexer.StopEnd | sim.py:272 | a prefixed literal runs up to the first newline, space, comma or semicolon, and the characters before that stop are none of them |
| Lexer.ScanNumber | sim.py:265-291 | `make_number` yields an INT token after consuming at least one character of its line; in the current lexer the value lies in 0..255; the only failure is `int()` raising |
| Lexer.ScanBased | sim.py:276-287 | a `0b`/`0o`/`0x` literal yields an INT token, reduced to 0..255 in the current lexer, and raises a ValueError when `int()` rejects the digits |
| Lexer.ScanDecimal | sim.py:272-291 | a decimal literal always yields an INT token within its line, in 0..255 for the current lexer |
| Lexer.StringEnd | sim.py:317-323 | the closing quote found is the first quote not escaped by an odd run of backslashes; when there is none, no unescaped quote occurs before the end of the line |
| Lexer.ScanString | sim.py:310-329 | a closed string yields STR holding the characters between the quotes (backslashes kept) plus a NUL in a `.string`/`.asciz` line; an unclosed one yields the error object as a token, and the step past it swallows the newline |
| Lexer.PointerRunEnd | sim.py:335-337 | the pointer run is the longest run of X, Y, Z, '-', '+' and spaces |
| Lexer.DropSpaces | sim.py:336 | the spelling of a pointer run has no spaces |
| Lexer.PointerKind | sim.py:344-358 | a spelling names a pointer token exactly when it is one of the nine pointer spellings, and that token's spelling is the input |
| Lexer.ScanPointer | sim.py:331-358 | `make_XYZ` yields a pointer token whose spelling is the run without spaces, or for `-` followed by digits the negated number modulo 256; a run reaching the end of the text raises, and any other spelling is an InvalidInstructionError |
| Lexer.IdEnd | sim.py:403-409 | an identifier is the longest run of letters, digits and `._()` |
| Lexer.Classify | sim.py:377-399 | an identifier is a mnemonic, register, directive, built-in function, `lo8(…)`/`hi8(…)` or string, tried in that order, and is left without any token exactly when it is a longer-than-five identifier ending in `)` that none of these accepts |
| Lexer.ScanWord | sim.py:360-399 | an identifier followed by `:` is a label, or in the current lexer a register pair after a mnemonic or comma; a word never crosses its line, and the only failure is the unclassified identifier |
| Lexer.Push | sim.py:224-226 | a token joins the end of the current line and nothing else changes |
| Lexer.EndLine | sim.py:215-221 | a newline closes a non-empty line, records its number, moves the line counter on and clears the string context; an empty line records nothing |
| Lexer.ReadToken | sim.py:224-257 | the token starting at a character that is not blank, newline or comment consumes at least that character and, unless it is an unclosed string, stays within its line |
| Lexer.LexStep | sim.py:211-257 | one round of `make_tokens` moves forward and keeps the lines already closed; only a newline closes a line |
| Lexer.TokenStep | sim.py:224-252 | a token-producing round appends exactly one token, keeps the line counter unless an unclosed string swallowed a newline, and turns on the string context after a `.string`/`.asciz` directive |
| Lexer.MakeTokens | sim.py:205-263 | `make_tokens` from any point keeps the lines already closed, and its result is well formed: every line holds a token and line numbers are increasing from 1 |
| Lexer.Lex | sim.py:205-263 | the lexer's result over a whole file is well formed |
| Lexer.IllegalCharacter | sim.py:253-257 | a character no branch accepts stops the lexer with an IllegalCharError that names it and its line |
| Lexer.BlankAddsNothing | sim.py:213-223 | blanks and comments up to the end of the text add no tokens |
| Lexer.DecimalNumber | sim.py:265-291 | a decimal literal is read in base 10 and reduced modulo 256 in the current lexer, and kept as written in the older one |
| Lexer.PrefixedNumber | sim.py:276-289 | `0b…`, `0o…` and `0x…` are read in base 2, 8 and 16 up to the next stop character, and reduced modulo 256 in the current lexer |
| Lexer.GroupedHex | sim.py:276-287 | the literal `0x1_F` is read as 31, because `int("1_F", 16)` accepts the underscore |
| Lexer.TokensKept | sim.py:215-219 | the tokens of the line being read reach the output as the start of its line |
| Lexer.NotCrossed | sim.py:227-229 | a token in an error-free result did not come from an unclosed string that crossed its newline |
| Lexer.LineNumbersFrom | sim.py:209-221 | when every string is closed, `line_nums` from any point extends the numbers so far by the reference numbering of the rest of the text |
| Lexer.LineNumbers | sim.py:209-221 | when every string is closed, `line_nums` lists, in order, the 1-based number of every newline-ended line that holds a token; a last line without a newline has no number |
| Lexer.Handoff | sim.py:227-229 | the token lists reach the parser unchanged exactly when no error object is among them; otherwise the model stops at once with the AttributeError that reading the error's `type` raises |
| Lexer.UnclosedString | sim.py:227-229 | on the text `"a`, newline, `,`, newline, the unclosed string swallows its newline: the comma joins the error token's line, that line takes number 2, and handing it to the parser raises an AttributeError |
| Lexer.UnclosedScan | sim.py:319 | on an unclosed string `make_string` returns an error object whose text is the string so far in quotes, and the scan stops on the newline |
| Lexer.FirstLineEnd | sim.py:411-414 | a comment runs up to the first newline at or after its start, or to the end of the text when there is none |
| TwoPass.Tok | sim.py:603-614 | `self.tok` after moving to token `t` is that token, or `None` exactly when `t` is past the end of the line |
| TwoPass.Header | sim.py:616-634 | the header is accepted exactly when the first line is `.section` followed by `.text` or `.data`; it reports which one, and otherwise the "First line must be …" error on line `line_nums[0]`; both parser generations share it |
| TwoPass.Global | sim.py:741-751 | `.global` is accepted exactly when no instruction has been emitted yet and it names a label of the file, and it changes nothing |
| TwoPass.EmitPrefix | sim.py:702-760 | the text pass only appends to the instruction list, and it changes nothing else the label pass produced |
| TwoPass.EmitAligned | sim.py:849-851 | the text pass keeps every `None` placeholder right after a two-word instruction |
| TwoPass.EmitCounted | sim.py:700-760 | each line's instruction lands after the words the text pass emitted for the lines before it, and the code ends after the words of all lines |
| TwoPass.BranchOffsetAsWritten | sim.py:806-813 | as written, a relative label operand is accepted exactly when its offset from the next word is within −2048..2047, whatever the mnemonic, and then it is that offset |
| TwoPass.CountLabels | sim.py:667-692 | the label pass, as written or corrected, keeps every label it was given, and fails only on a directive other than `.global`/`.end` or a line starting with anything but a label, instruction or function |
| TwoPass.LabelPlaces | sim.py:667-692 | a label defined on line `j`, and not again later, gets the number of program words that version of the label pass charges to the lines before `j` |
| TwoPass.LabelsKept | sim.py:667-692 | labels that no later line defines keep the place they already had |
| TwoPass.CountFrame | sim.py:667-692 | the label pass reads only the lines from where it starts |
| Parser.Space | sim.py:900-929 | `.space n[, v]` needs between two and five tokens and an integer count; it stores max(n, 0) bytes, each in 0..255, and with a fill value all of them equal that value |
| Parser.Definition | sim.py:954-979 | `.def` succeeds only on a four-token line of a name, `=` and a register |
| Parser.DataLabel | sim.py:853-870 | a data label is bound to the data length plus 0x100 before its directive adds bytes; the data only grows, and code and text labels are untouched |
| Parser.RunOff | sim.py:642-658 | a data section without `.section .text` never succeeds: it raises, reports an error, or loops for ever on a token it cannot pass |
| Parser.DataSection | sim.py:642-658 | the data loop stops at the first `.section .text` line, keeps code and text labels, only appends data, and keeps every data label between 0x100 and 0x100 plus the data's length |
| Parser.Front | sim.py:616-658 | passes `TwoPass.Header` and fails with its error; the text section opens at line 0 exactly for a `.text` header and otherwise on the first `.section .text` line, with nothing emitted yet; every data label lies between 0x100 and 0x100 plus the data's length |
| Parser.Reach | sim.py:806-813 | a relative instruction reaches 64 words (conditional branch) or 2048 words (relative jump or call) |
| Parser.ReachOf | sim.py:806-813 | as written every relative instruction reaches 2048 words; as intended, a branch reaches 64 |
| Parser.BranchOffset | sim.py:806-813 | as intended, a relative label operand is accepted exactly when its offset from the next word is within the instruction's reach; the offset then lands on the label, and otherwise the error names the label |
| Parser.FarBranch | sim.py:808 | `BRNE far` with `far` 100 words ahead passes the as-written offset check and is refused only by the operand range check, whose message shows the offset 99; the intended check refuses it naming `far` |
| Parser.FarBranchCaught | sim.py:806-810 | the intended check refuses a branch 100 words ahead with "Label too far away" |
| Parser.RangeRefused | sim.py:1045-1050 | a number outside a range rule's bounds is refused on the line being checked |
| Parser.OperandOf | sim.py:803-836 | a label becomes its offset for relative instructions, accepted within the reach, and its address otherwise; a data name becomes its address, if that lies within 0..65535; `lo8`/`hi8` give the low or high byte of a data address; a comma contributes nothing |
| Parser.Operands | sim.py:776-847 | every argument token is of a kind its requirement allows, and there are exactly as many as required, or none for a mnemonic without arguments |
| Parser.CheckOne | sim.py:996-1078 | one operand passes its rule exactly when the rule admits it, and a register pair is then replaced by its low register |
| Parser.CheckPair | sim.py:1003-1018 | a register pair is accepted exactly when its low register is in the allowed list and the high register is the next one |
| Parser.CheckRules | sim.py:996-1078 | the operands pass exactly when every rule that applies admits its operand, and they come out settled |
| Parser.PassesStep | sim.py:996-1078 | passing from rule `i` is rule `i` admitting its operand, where it applies, and passing from `i + 1` |
| Parser.SettledStep | sim.py:996-1078 | settling from `i` is settling from `i + 1` and then by rule `i` |
| Parser.CheckOperands | sim.py:985-996 | an instruction without operands is not checked; otherwise it passes exactly when its mnemonic has a row of rules and every rule admits its operand, and the operand count is kept |
| Parser.Substitute | sim.py:709-714 | `.def` substitution keeps the line's length and shape, and replaces only tokens with register tokens |
| Parser.Instruction | sim.py:716-728 | an accepted instruction appends its slot and, for a two-word instruction, the placeholder; nothing else changes, and only known mnemonics are accepted |
| Parser.EmitLine | sim.py:702-758 | a line the text pass accepts starts with an instruction, label or directive, and it adds exactly the words of its instruction, none for a line without one |
| Parser.Emit | sim.py:700-760 | the text pass lays out every line, each instruction after the words emitted for the lines before it |
| Parser.Assemble | sim.py:667-766 | an assembled program is aligned, and its data is the data section's |
| Parser.Parse | sim.py:616-766 | the parser as intended yields an aligned program whose data is what the data section collected, and it succeeds only with a well-formed header |
| Parser.ParseAsWritten | sim.py:616-766 | the parser as written yields an aligned program whose data is what the data section collected |
| Parser.LabelsAddressCode | sim.py:667-760 | the two passes agree: a label defined on line `j` names the word where the text pass placed line `j`'s instruction, and never lies beyond the program; with the corrected label pass always, as written only when no label in the text section is followed by anything but an instruction |
| Parser.EmitFrame | sim.py:702-760 | the text pass reads only the lines from where it starts |
| Parser.AsWrittenSkipsSecondLine | sim.py:661-664 | as written, in a file that opens with `.section .text`, replacing the second line by any other line leaves the result unchanged: the parser never reads it |
| Parser.TextFront | sim.py:620-631 | a file that opens with `.section .text` starts in the text section with nothing collected |
| Parser.SampleAsWritten | sim.py:661-664 | as written, the file `.section .text` / `main:` / `RJMP main` / `.end` is rejected with "Illegal argument given: main" on line 3, because the label line is never counted |
| Parser.SampleCorrected | sim.py:661-664 | with the text section starting on the line after its header, the same file assembles to `RJMP -1` |
| Parser.ParseFrom | sim.py:695-697 | the intended parser assembles from the line after the one that opened the text section |
| Parser.ParseAsWrittenFrom | sim.py:661-664 | the parser as written assembles from the line it computes as the text start |
| OldParser.Space | sim/avr_parser.py:270-294 | `label: .space n[, v]` needs three or five tokens and an integer count; the fill value is not checked |
| OldParser.DataLabel | sim/avr_parser.py:232-245 | a data label is bound to the data length, with no 0x100 added; `.byte` values are kept as written and only appended |
| OldParser.RunOff | sim/avr_parser.py:66-81 | a data section without `.section .text` never succeeds |
| OldParser.DataSection | sim/avr_parser.py:66-81 | only labelled lines add data, other lines are passed over, the loop stops at the first `.section .text`, and every data label stays an offset within the data |
| OldParser.Front | sim/avr_parser.py:42-81 | `TwoPass.Header`, shared with the current parser, then the older data loop; the text section opens on the first `.section .text` line, and every data label is an offset between 0 and the data's length |
| OldParser.OperandOf | sim/avr_parser.py:189-219 | a label becomes its offset or address, a data name its address, a comma nothing; there is no range check, and an unknown name is silently dropped |
| OldParser.Operands | sim/avr_parser.py:170-228 | argument tokens must match their requirements in kind and number |
| OldParser.Instruction | sim/avr_parser.py:119-130 | an accepted instruction appends its slot and, for a two-word instruction, the placeholder, without any operand range check |
| OldParser.EmitLine | sim/avr_parser.py:119-157 | a label line is passed over whatever follows the label on it |
| OldParser.Emit | sim/avr_parser.py:119-157 | the older text pass lays out every line as its label pass counted it |
| OldParser.Assemble | sim/avr_parser.py:89-159 | an assembled program is aligned and carries the data section's data; how the file ends is not checked |
| OldParser.Parse | sim/avr_parser.py:42-159 | the older parser as intended yields an aligned program whose data is what the data section collected |
| OldParser.ParseAsWritten | sim/avr_parser.py:84-87 | as written, the older parser agrees with the intended one whenever the file opens with a data section |
| OldParser.LabelsAddressNextInstruction | sim/avr_parser.py:89-110 | in the older parser a label names the first instruction after it, wherever that is |
| OldParser.SampleAsWritten | sim/avr_parser.py:84-87 | as written, the older parser never sees the sample's label and emits `RJMP` with no operand |
| OldParser.SampleCorrected | sim/avr_parser.py:84-87 | with the intended text start, the older parser gives the sample's jump its offset of −1 |
| OldParser.ParseFrom | sim/avr_parser.py:111-115 | the older parser as intended starts assembling on the line after the one that opened the text section, with no code emitted yet |
| OldParser.ParseAsWrittenFrom | sim/avr_parser.py:83-86 | as written, the older parser starts assembling where its extra line skip leaves it, with no code emitted yet |
| OldParser.PlacedAt | sim/avr_parser.py:89-97 | a label-only line names the slot of the next instruction line below it, and that slot holds that instruction |
| TwoPass.Words | sim.py:702-728 | the text pass emits words for a line exactly when the line carries an instruction (first, or after a label in the current parser), and at most two |
| TwoPass.ChargedAsWritten | sim.py:670-680 | as written, the current label pass charges a label line one word, or two for a double-length name, for whatever follows the label; this equals the words the text pass emits exactly when the label is not followed by something other than an instruction |
| TwoPass.Charge | sim.py:667-680 | the corrected label pass charges a line the words the text pass emits for it, and so does the pass as written unless a label is followed by something other than an instruction |
| TwoPass.ChargesPlain | sim.py:667-760 | over a stretch of lines the label pass's charges add up to the words the text pass emits: always once corrected, and as written when no label there is followed by anything but an instruction |
| Parser.ShiftedAsWritten | sim.py:670-676 | as written, in `.section .data` / `.section .text` / `start: .global start` / `main: NOP` / `RJMP main` / `.end` the label `main` is counted at word 1, so the jump assembles to `RJMP -1`, a jump to itself |
| Parser.ShiftedCorrected | sim.py:670-676 | with the corrected label pass the same file assembles to `RJMP -2`, a jump back to the `NOP` |
| Alu.TopChar | sim.py:2333-2337 | character 0 of a byte's 8-character binary string is `1` exactly when the byte is at least 128 |
| Alu.MidChar | sim.py:2333-2337 | character 4 of that string is `1` exactly when bit 3 of the byte is set |
| Alu.Signed | sim.py:2370-2386 | the two's-complement reading of a byte lies in −128..127 and is congruent to the byte modulo 256 |
| Alu.Arith | sim.py:2239-2258 | writing H, V, N, Z and C sets S to N xor V and leaves I and T alone |
| Alu.CarryRule | sim.py:2254-2258 | the carry formula of `get_C` on the top bits of the operands and the truncated result is true exactly when the true sum carries out |
| Alu.OverflowRule | sim.py:2242-2246 | the overflow formula of `get_V` for a sum is true exactly when the signed sum leaves −128..127 |
| Alu.BorrowRule | sim.py:2168-2185 | the borrow formula the subtractions use is true exactly when the subtrahend plus the borrow in exceeds the minuend |
| Alu.UnderflowRule | sim.py:2168-2185 | the overflow formula the subtractions use is true exactly when the signed difference leaves −128..127 |
| Alu.SumNibble | sim.py:2233-2237 | the low nibble of a truncated sum is the truncated sum of the low nibbles |
| Alu.DiffNibble | sim.py:2168-2185 | the low nibble of a truncated difference is the truncated difference of the low nibbles |
| Alu.SumHalf | sim.py:2233-2237 | `get_H` on bit 3 of a sum is true exactly when the low nibbles carry |
| Alu.SumOverflow | sim.py:2242-2246 | `get_V` on bit 7 of a sum is true exactly when the signed sum overflows |
| Alu.SumCarry | sim.py:2254-2258 | `get_C` on bit 7 of a sum is true exactly when the sum is 256 or more |
| Alu.Add | sim.py:1350-1386 | `ADD` and `ADC` store the sum modulo 256; C, H and V are the carry, half carry and signed overflow of the true sum; N and Z come from the result, S is N xor V, and I and T are kept |
| Alu.DiffHalf | sim.py:2168-2185 | the half-borrow formula is true exactly when the low nibble of the minuend is below that of the subtrahend plus the borrow in |
| Alu.DiffOverflow | sim.py:2168-2185 | the overflow formula of a difference is true exactly when the signed difference overflows |
| Alu.DiffBorrow | sim.py:2168-2185 | the borrow formula of a difference is true exactly when the minuend is below the subtrahend plus the borrow in |
| Alu.Sub | sim.py:2027-2045 | `SUB`, `SUBI`, `SBC`, `CP`, `CPC` and `CPI` compute the difference modulo 256, with C, H and V the borrow, half borrow and signed overflow of the true difference; Z is set only for a zero result, and for `SBC`/`CPC` only if Z was already set |
| Alu.Logic | sim.py:1411-1438 | the logical instructions keep their result, clear V, take N and Z from the result and set S to N, and leave the other flags alone |
| Alu.Bitwise | sim.py:1411-1424 | Python's `&`, `|` and `^` on numbers below 2^n give, bit by bit, the operation applied to the operands' bits |
| Alu.Com | sim.py:1672-1684 | `COM` gives 255 minus the operand, sets C, clears V, and takes N, Z and S from the result |
| Alu.NegHalf | sim.py:1901-1915 | `NEG` sets H exactly when the operand's low nibble is at most 8 |
| Alu.Neg | sim.py:1901-1915 | `NEG` gives the two's-complement negation; V is set exactly for 0x80, Z is set exactly when the result is NOT zero, and C is kept |
| Alu.Inc | sim.py:1770-1782 | `INC` adds one modulo 256; V is set exactly for 127, Z exactly for 255, and H and C are kept |
| Alu.Dec | sim.py:1738-1750 | `DEC` subtracts one modulo 256; V is set exactly for 128, Z exactly for 1, and H and C are kept |
| Alu.Shifted | sim.py:1439-1453 | after a shift, V is N xor C, and S (V xor N) equals C |
| Alu.Asr | sim.py:1439-1453 | `ASR` halves the signed value rounding down, puts bit 0 into C, keeps the sign in N, and leaves H alone |
| Alu.Lsl | sim.py:1814-1829 | `LSL` doubles modulo 256 and puts bit 7 into C and bit 3 into H; N and Z are read from the operand, so V always comes out clear |
| Alu.Lsr | sim.py:1830-1843 | `LSR` halves, puts bit 0 into C, clears N, sets V to C, and leaves H alone |
| Alu.Rol | sim.py:1998-2012 | `ROL` rotates left through the carry: the old carry enters bit 0 and bit 7 leaves into C, so no bit is lost |
| Alu.Ror | sim.py:2013-2026 | `ROR` rotates right through the carry: the old carry enters bit 7, bit 0 leaves into C, and N is the old carry |
| Alu.Swap | sim.py:2204-2209 | `SWAP` exchanges the high and low nibbles |
| Alu.SwapTwice | sim.py:2204-2209 | swapping twice gives back the operand |
| Alu.Clr | sim.py:1648-1654 | `CLR` clears S, V and N, sets Z, and leaves the other flags alone |
| Alu.Split | sim.py:2052-2075 | a 16-bit result is written back as a low and a high byte that read back as the value modulo 2^16 |
| Alu.AdiwRule | sim.py:1387-1410 | for K in 0..63, the simulator's C and V tests on bit 15 of the result and bit 7 of the old high byte are the carry and the signed overflow of the word sum |
| Alu.SbiwRule | sim.py:2052-2075 | for K in 0..63, the same test on a word difference is its signed overflow |
| Alu.Adiw | sim.py:1387-1410 | `ADIW` adds K to the register pair modulo 2^16; N and Z come from the word, and for K in 0..63 C is the carry and V the signed overflow |
| Alu.Sbiw | sim.py:2052-2075 | `SBIW` subtracts K from the pair modulo 2^16; V is the signed overflow, and C is set equal to V |
| Alu.SbiwMissesBorrow | sim.py:2052-2075 | `SBIW` of 1 from 0x0000 wraps to 0xFFFF, a borrow, yet leaves C clear |
| Alu.Mul | sim.py:1859-1900 | `MUL`, `MULS` and `MULSU` put the unsigned product into R1:R0, set Z when it is zero and C from its bit 15, and keep the other flags |
| Alu.MulsUnsigned | sim.py:1873-1886 | `MULS` of 0xFF by 0xFF gives 0xFE01, although −1 times −1 is 1 |
| Alu.NegOfZero | sim.py:1901-1915 | `NEG` of 0 gives 0 with Z clear |
| Alu.LslOfTopBit | sim.py:1814-1829 | `LSL` of 0x80 gives 0 with Z clear and N set |
| Machine.Index | sim.py:1787-1795 | a data-memory index is a Python list index: it succeeds exactly within −len..len−1, and a negative one counts from the end |
| Machine.LinkValue | sim.py:1320-1326 | the stack-pointer and program-counter registers read as bytes; the status register, a list of flags, does not |
| Machine.GetValue | sim.py:1369-1372 | reading a register cell gives its byte; reading a cell a plain store has overwritten with a number fails |
| Machine.SetLink | sim.py:146-148 | setting the SP or PC link stores the value modulo 256 and touches neither memory nor flags; a store to the SREG link is a `Crash` at once, earlier than in the source (see Left out) |
| Machine.SetValue | sim.py:146-148 | after `set_value`, the cell reads back as the value modulo 256; memory keeps its size and nothing else changes; cell 0x5F crashes at the store (see Left out) |
| Machine.Fetch | sim.py:1809-1813 | a load reads a cell only when it holds a bare number, and gives that number |
| Machine.Put | sim.py:2163-2167 | a store makes the cell the bare number given, whatever it held before, and changes nothing else |
| Machine.SetBit | sim.py:2046-2051 | `SBI` sets bit `b` of the I/O register and keeps the other seven bits |
| Machine.ClearBit | sim.py:1612-1617 | `CBI` clears bit `b` of the I/O register and keeps the other bits; a bit number above 7 leaves the byte as it was |
| Machine.SetPc | sim.py:2339-2346 | setting the program counter stores the value modulo 2^16 in its two bytes and changes nothing else |
| Machine.Advance | sim.py:2339-2352 | moving the counter by `n` words adds `n` modulo 2^16 and changes nothing else |
| Machine.IncSp | sim.py:2304-2315 | the stack pointer moves up by one and wraps from the last memory cell to 0; nothing else changes |
| Machine.DecSp | sim.py:2317-2328 | the stack pointer moves down by one and wraps from 0 to the last memory cell; nothing else changes |
| Machine.SpMovesInverse | sim.py:2304-2331 | within memory, moving the stack pointer up and then down, or down and then up, gives back the same state |
| Machine.LowReg | sim.py:2260-2266 | X, Y and Z keep their low bytes in R26, R28 and R30 |
| Machine.PointerIn | sim.py:2260-2266 | `get_XYZ` picks X if the spelling contains `X`, else Y if it contains `Y`, else Z if it contains `Z` |
| Machine.PointerValue | sim.py:2260-2266 | a pointer value exists only when the spelling names a pointer |
| Machine.BumpUp | sim.py:2268-2284 | incrementing a pointer adds one to its register pair modulo 2^16 and leaves every other cell alone |
| Machine.BumpDown | sim.py:2286-2302 | decrementing a pointer subtracts one from its register pair modulo 2^16 and leaves every other cell alone |
| Machine.BumpInverse | sim.py:2268-2302 | incrementing and then decrementing a pointer, or the reverse, gives back the same memory |
| Machine.UpThenDown | sim.py:2268-2302 | an increment followed by a decrement gives back the same memory |
| Machine.DownThenUp | sim.py:2268-2302 | a decrement followed by an increment gives back the same memory |
| Machine.SameWord | sim.py:2268-2302 | two states that differ at most in a pointer's registers, and agree on its value, are equal |
| Machine.PostIncrement | sim.py:2268-2284 | only a spelling with `+` steps a pointer: the one its first character names, and otherwise the state is unchanged |
| Machine.PreDecrement | sim.py:2286-2302 | only a spelling with `-` steps a pointer: the one its second character names, and otherwise the state is unchanged |
| Machine.FreshMemory | sim.py:3651-3686 | fresh data memory has 0x900 cells: register objects below 0x100, zeros above, and SPL, SPH and SREG at 0x5D..0x5F; only the library generations also link PCL and PCH at 0x5B and 0x5C |
| Machine.LoadProgram | sim.py:3616-3620 | program memory holds the assembled words and then `NOP`s up to 0x4000 words |
| Machine.LoadData | sim.py:3622-3624 | the data bytes land from 0x100 on as bare numbers, everything else is kept, and data that runs past memory fails |
| Machine.Cleared | sim.py:3666-3667 | the status register starts with all eight flags clear |
| Machine.StackTop | sim.py:3673-3680 | the simulator's stack pointer starts at the last memory cell 0x8FF |
| Machine.Reset | sim.py:1308-1334 | an interpreter starts at PC 0, not ended, with the given memory, flags clear, its stack balance at zero, and the stack pointer at its starting value |
| Machine.Boot | sim.py:3616-3686 | start-up succeeds exactly when the data fits from 0x100 on; the data is then in place and the machine is in its reset state |
| Exec.OperandAt | sim.py:1350-1352 | operand `i` of the current instruction exists exactly when the instruction has that many operands |
| Exec.RegNumber | sim.py:1350-1352 | `int(op[1:])` succeeds exactly when the operand is a spelling whose tail reads as a decimal integer, and gives that integer |
| Exec.Number | sim.py:1783-1786 | `int(op)` succeeds on a number, or on a spelling that reads as a decimal integer, and gives its value |
| Exec.Spelling | sim.py:1787-1790 | a pointer operand is a spelling, and is passed on unchanged |
| Exec.RegOpNumber | sim.py:849-851 | the register operand the parser emits for register `n` reads back as `n` |
| Exec.NumberOf | sim.py:835-836 | a number operand reads back as itself |
| Exec.SregIndex | sim.py:1454-1458 | a status-register index is a Python list index into eight entries: −8..7 succeed and a negative one counts from the end |
| Exec.Commit | sim.py:1369-1386 | an arithmetic instruction succeeds exactly when its destination can be written; then it writes the result, moves on one word and installs the new flags |
| Exec.TwoReg | sim.py:1350-1386 | a register-register instruction succeeds only when both operands name registers, and it keeps the machine well formed, its stack balance and its end flag |
| Exec.OneReg | sim.py:1672-1684 | a single-register instruction succeeds only when its operand names a register, and it keeps the machine well formed, its stack balance and its end flag |
| Exec.Immediate | sim.py:1933-1946 | a register-immediate instruction succeeds only with a register and a number, keeps the machine well formed and its stack balance, and for `ORI`, `SBR`, `SUBI` and `CPI` only with K in 0..255 |
| Exec.FlagOf | sim.py:1632-1671 | each named flag instruction addresses one of the eight status entries |
| Exec.FlagOp | sim.py:1632-1671 | a named flag instruction always succeeds, sets (`SE*`) or clears (`CL*`) its flag, moves on one word, and changes nothing else |
| Exec.BranchTest | sim.py:1471-1560 | each named branch tests a status entry that exists |
| Exec.Branch | sim.py:1471-1560 | a named branch succeeds exactly when its offset is a number; taken, it moves to pc + k + 1, otherwise to pc + 1, modulo 2^16, and only the counter changes |
| Exec.BitBranch | sim.py:1459-1470 | `BRBS`/`BRBC` succeed exactly when `7 − s` is a valid list index; they jump k + 1 words when entry `7 − s` is set (clear), else one word, and only the counter changes |
| Exec.Jump | sim.py:1783-1786 | `JMP k` sets the counter to k, `RJMP k` moves it k + 1 words, `NOP` one word, and only the counter changes |
| Exec.Skip | sim.py:2090-2109 | `SBRC`/`SBRS` fail for a negative bit number and when a skip would look past program memory; otherwise they skip two words, or three over a two-word instruction's placeholder, when the bit is clear (set), and move one word on otherwise |
| Exec.Io | sim.py:1947-1952 | the I/O instructions keep the machine well formed, its stack balance and its end flag |
| Exec.Offset | lib/avr_interpreter.py:472-475 | the library generations add 0x100 to every data address; the current simulator adds nothing |
| Exec.Memory | sim.py:1787-1813 | the load and store instructions keep the machine well formed, its stack balance and its end flag |
| Exec.LoadVia | sim.py:1787-1795 | `LD` keeps the machine well formed, its stack balance and its end flag |
| Exec.LoadDisplaced | sim.py:1796-1803 | `LDD` keeps the machine well formed, its stack balance and its end flag |
| Exec.LoadDirect | sim.py:1809-1813 | `LDS` keeps the machine well formed, its stack balance and its end flag |
| Exec.StoreVia | sim.py:2146-2154 | `ST` keeps the machine well formed, its stack balance and its end flag |
| Exec.StoreDisplaced | sim.py:2155-2162 | `STD` keeps the machine well formed, its stack balance and its end flag |
| Exec.StoreDirect | sim.py:2163-2167 | `STS` keeps the machine well formed, its stack balance and its end flag |
| Exec.Exchange | sim.py:2224-2231 | `XCH` keeps the machine well formed, its stack balance and its end flag |
| ExecLaws.Written | sim.py:146-148 | writing to a cell that holds a register object replaces just that cell by the value modulo 256 |
| ExecLaws.Wrote | sim.py:2339-2346 | the state after one cell is replaced and the counter moves on `n` words keeps the flags |
| ExecLaws.Compared | sim.py:1685-1702 | the state after a comparison has the new flags, the same memory and the counter one word on |
| ExecLaws.SubZero | sim.py:2168-2185 | a subtraction without borrow sets Z exactly when the two bytes are equal |
| ExecLaws.Committed | sim.py:1369-1386 | committing a byte to a general register replaces only that register, installs the flags and moves on one word |
| ExecLaws.MemoryDispatch | sim.py:1809-1813 | the memory group runs `STS` and `LDS` as the direct store and load |
| ExecLaws.AddStep | sim.py:1369-1386 | `ADD Rd, Rr` replaces only Rd, by the sum modulo 256; C says whether the sum reached 256 and Z whether the result is zero; the counter moves one word |
| ExecLaws.SubStep | sim.py:2168-2185 | `SUB Rd, Rr` replaces only Rd, by the difference modulo 256; C says whether Rd was below Rr and Z whether they were equal |
| ExecLaws.CpStep | sim.py:1685-1702 | `CP Rd, Rr` sets the same flags and counter as `SUB Rd, Rr` but leaves memory unchanged |
| ExecLaws.MovStep | sim.py:1844-1848 | `MOV Rd, Rr` gives Rd the byte of Rr, keeps the flags and every other cell, and moves one word |
| ExecLaws.IncStep | sim.py:1770-1782 | `INC Rd` replaces only Rd, by Rd + 1 modulo 256; V is set exactly when Rd was 127, and C is kept |
| ExecLaws.LdiStep | sim.py:1804-1808 | `LDI Rd, K` stores K modulo 256 for any K, keeps the flags and every other cell, and moves one word |
| ExecLaws.SubiStep | sim.py:2186-2203 | `SUBI Rd, K` for K in 0..255 replaces only Rd, by Rd − K modulo 256, and C says whether Rd was below K |
| ExecLaws.OutThenIn | sim.py:1947-1952 | `OUT A, Rr` followed by `IN Rd, A` gives Rd the byte of Rr, each step changing one cell and moving one word |
| ExecLaws.StsThenLds | sim.py:2163-2167 | in every generation, `STS k, Rr` followed by `LDS Rd, k` stores Rr's byte as a bare number at k plus the generation's offset and then gives Rd that byte, each moving two words |
| Stack.FrameSize | lib/avr_interpreter.py:226-236 | a call pushes two return-address bytes in the current simulator and three in the library generations |
| Stack.AddTop | lib/avr_interpreter.py:626 | adding to the top balance changes only the last entry, by exactly the amount added |
| Stack.CloseOpened | lib/avr_interpreter.py:646-651 | closing the layer a call opened and taking the call's three bytes off the layer below gives back the balances from before the call |
| Stack.TextAt | sim.py:1587-1597 | the text at an address is the run of numbers, each a character code, up to the first cell holding 0 |
| Stack.PrintFrom | sim.py:1587-1597 | the `PRINTF` loop changes only X's two registers and needs X to hold register objects |
| Stack.TextAtAgrees | sim.py:1587-1597 | two memories that agree on every bare number hold the same texts |
| Stack.PrintUnfold | sim.py:1587-1597 | one round of the `PRINTF` loop reads the cell X points at, steps X up, and stops at 0 |
| Stack.PrintReadsText | sim.py:1587-1597 | `PRINTF` succeeds exactly when there is a text at X, prints exactly that text, and leaves X just past its terminating 0 |
| Stack.PopAddress | sim.py:1577-1583 | taking the string address off the stack keeps the machine well formed, its balances and its end flag |
| Stack.PushByte | sim.py:1601-1608 | putting a byte back on the stack stores it in the push slot, moves SP one down and changes nothing else |
| Stack.Printf | sim.py:1577-1611 | `CALL PRINTF` reports what it printed and leaves the balances and the end flag alone |
| Stack.PushReturn | sim.py:1569-1573 | a call's frame moves SP down by the frame size and changes only memory and SP |
| Stack.Call | sim.py:1566-1611 | `CALL` never reports a fault; a call to a label moves SP down by the frame, jumps to the target, opens a new layer in the layered library and charges three bytes in the older package |
| Stack.CallFrom | sim.py:1569-1575 | a call to a label jumps to its operand, moves SP down by the frame size, keeps the flags, and updates the balances as its generation does |
| Stack.Land | lib/avr_interpreter.py:233-236 | after the frame is pushed the counter is at the target, and the balances are charged: a new layer for the layered library, three bytes for the older package |
| Stack.Below | sim.py:2317-2328 | the address one below on the stack wraps from 0 to the last memory cell |
| Stack.Above | sim.py:2304-2315 | the address one above on the stack wraps from the last memory cell to 0 |
| Stack.AboveBelow | sim.py:2304-2328 | within memory, one above and one below undo each other |
| Stack.PushSlot | sim.py:1963-1971 | the current simulator pushes into the cell SP points at, the library generations into the one below it |
| Stack.Push | sim.py:1963-1971 | the current simulator refuses a push when SP is below 0x100, with a stack-overflow report and the machine unchanged; otherwise the push goes ahead |
| Stack.Pushed | sim.py:1968-1971 | a push that goes ahead stores the byte of the register its operand names |
| Stack.PushCharged | lib/avr_interpreter.py:617-622 | a push writes the byte into the push slot, moves SP one down and the counter one on, and charges one to the balance |
| Stack.PushOne | sim.py:1968-1971 | the byte goes into the push slot, SP moves one down and the counter one on; nothing else changes |
| Stack.Charge | lib/avr_interpreter.py:626 | the balance is charged to the top layer in the layered library and to the single counter in the older package |
| Stack.AdvancedPast | sim.py:2339-2352 | a step that leaves the counter alone followed by an advance of `n` is an advance of `n` |
| Stack.PopSlot | sim.py:1953-1958 | the current simulator pops from the cell above SP, the library generations from the cell at SP |
| Stack.Pop | sim.py:1953-1962 | with nothing to pop the current simulator and the layered library report "No elements left to pop." and change nothing, and the older package leaves the machine unchanged, counter included; otherwise the register takes the popped byte and the balance is charged −1 |
| Stack.PopChecked | sim.py:1955-1958 | the current simulator's pop needs a bare number above SP and a register operand, and keeps flags and balances |
| Stack.PopFramed | lib/avr_interpreter.py:607-613 | the library pop needs a bare number at SP and a register operand, and takes one off the balance |
| Stack.PopInto | sim.py:1957 | the register takes the popped number modulo 256; nothing else changes |
| Stack.PushedState | sim.py:1963-1971 | a push that went ahead leaves the pushed byte in the push slot, SP one down, the counter one on and one more on the balance |
| Stack.PushIsCharged | sim.py:1963-1971 | a push that went ahead is the charged push of its register's byte |
| Stack.ChargedState | lib/avr_interpreter.py:617-622 | the charged push leaves the byte in the push slot, SP one down, the counter one on and one more on the balance |
| Stack.PoppedState | sim.py:1953-1962 | a pop that may go ahead into a general register writes the popped byte into it, moves SP one up and the counter one on, and takes one off the balance |
| Stack.PoppedChecked | sim.py:1953-1962 | the same for the current simulator |
| Stack.PoppedFramed | lib/avr_interpreter.py:607-616 | the same for the library generations |
| Stack.PopReadsPush | sim.py:1953-1971 | after a push, a pop is allowed, reads back the pushed byte from its slot, and the balance returns to its old value |
| Stack.PushThenPop | sim.py:1953-1971 | `PUSH r` followed by `POP d` gives `d` the byte `r` held; memory differs only in `d` and in the freed stack cell |
| Stack.PushThenPopStack | sim.py:1953-1971 | `PUSH r` followed by `POP d` restores SP and the balances and moves the counter two words |
| Stack.TwoAdvances | sim.py:2339-2352 | two advances of one word make an advance of two |
| Stack.UndoTop | lib/avr_interpreter.py:617-627 | charging a layer and taking the charge back restores the balances |
| Stack.ReturnAddress | sim.py:1990-1997 | two stack cells give the return address 256 × high + low, and only when both hold bare numbers |
| Stack.Ret | sim.py:1977-1997 | `RET` ends the program when SP is at its starting value, reports a bad stack pointer one below it in the current simulator, keeps the flags, and only ever changes memory by ending |
| Stack.ReturnChecked | sim.py:1987-1997 | the current simulator's return takes two bytes off the stack without touching memory or flags |
| Stack.ReturnFramed | lib/avr_interpreter.py:636-660 | the library return takes three bytes off the stack and leaves memory and flags alone; a reported fault leaves the counter where it was |
| Stack.Settled | lib/avr_interpreter.py:646-651 | a balanced return changes only the balances |
| Stack.Imbalance | lib/avr_interpreter.py:641-644 | an unbalanced layer is reported as a return error |
| Stack.Settle | lib/avr_interpreter.py:641-651 | the older package reports "Too many pops" when its balance drops below zero, the layered library reports an unbalanced top layer by its surplus, closing the last layer ends the program, and a balanced return jumps to 256 × high + low |
| Step.BranchNamesKnown | sim.py:1471-1560 | the named conditional branches are exactly the mnemonics that have a flag test |
| Step.Execute | sim.py:1346-2231 | every instruction outside the stack group keeps the machine well formed, its balances and its end flag |
| Step.Step | sim.py:1338-2231 | a step past the end or after the end marks the program ended; a step onto a two-word instruction's placeholder fails; an instruction the generation does not know is passed over with nothing changed, counter included; only `RET` ends the program, only `CALL` prints, and only `PUSH`, `POP` and `RET` report faults, each at the current counter |
| Step.TwoPushed | sim.py:1569-1573 | two bytes pushed in turn land in the push slot and the cell below it |
| Step.ReturnPushed | sim.py:1569-1573 | a call's frame holds the return address's low byte in the push slot and its high byte just below it |
| Step.ZeroPushed | lib/avr_interpreter.py:231-232 | the library generations' third frame byte, 0, lands below the other two and leaves them alone |
| Step.CallPushesFrame | sim.py:1566-1575 | `CALL k` pushes the frame for the word after the call, jumps to `k`, and charges the balances as its generation does |
| Step.FrameLanded | sim.py:1566-1575 | the frame pushed from the word after the call survives the jump |
| Step.CallLands | sim.py:1566-1575 | a call to a number moves two words on, pushes the frame, and lands on the target |
| Step.RetChecked | sim.py:1987-1997 | the current simulator's `RET` over a frame takes it off and returns to its address |
| Step.FramedReads | lib/avr_interpreter.py:636-640 | the library `RET` reads the three frame bytes and moves SP up three cells |
| Step.SettledIgnoresSp | lib/avr_interpreter.py:641-651 | settling the balances does not depend on the stack pointer |
| Step.SettledReturn | lib/avr_interpreter.py:641-660 | a balanced library return settles its balances and jumps to the frame's address |
| Step.SettledState | lib/avr_interpreter.py:641-660 | the state a balanced library return settles into is the return the frame describes |
| Step.RetFramed | lib/avr_interpreter.py:628-660 | the library `RET` over a balanced frame takes it off and returns to its address |
| Step.RetPopsFrame | sim.py:1977-1997 | in every generation, `RET` over a frame whose address bytes sit above SP takes the frame off, restores SP above it and jumps to the address |
| Step.StepIsCall | sim.py:1566 | the step at a `CALL` is that call |
| Step.StepIsRet | sim.py:1977 | the step at a `RET` is that return |
| Step.CallStep | sim.py:1566-1575 | a step at `CALL k` pushes the frame for a return to the word after the call and moves the counter to `k` |
| Step.RetStep | sim.py:1977-1997 | a step at `RET` over a frame returns through it |
| Step.CallBalances | lib/avr_interpreter.py:226-236 | the frame a call leaves is one its return can take off, and taking it off restores SP, flags and balances as they were before the call, for a stack pointer the call can use (`Step.CallFits`) |
| Step.RetAfterCall | sim.py:1977-1997 | the return after a call comes back to the word after the call with SP, flags and balances as before, for a stack pointer the call can use (`Step.CallFits`) |
| Step.ReturnAfterCall | sim.py:1338-1345 | the step at the `RET` the call reached is that return |
| Step.CallThenReturn | sim.py:1566-1997 | `CALL k` followed by the `RET` at `k` comes back to the word after the call, with the stack pointer, the flags and the push/pop balance as they were, in all three generations, whenever the stack pointer leaves room for the frame (`Step.CallFits`) |
| Encoder.TruncHalf | sim.py:2405 | Python's `int(x / 2)` halves and truncates toward zero, for negative `x` too |
| Encoder.ReadAll | sim.py:2399-2403 | reading a template's operands gives one field per read |
| Encoder.Cut | sim.py:2397 | Python's `s[lo:hi]` is the slice whenever the bounds lie within the string |
| Encoder.From | sim.py:2397 | Python's `s[lo:]` is the suffix whenever `lo` lies within the string |
| Encoder.Layout | sim.py:2388-2835 | a template lays out one word, or two for the two-word instructions |
| Encoder.Laid | sim.py:2388-2835 | a template fails exactly when one of its reads fails, with the first read's error, and otherwise lays out what was read |
| Encoder.Fill | sim.py:2513-2518 | `CALL PRINTF` has its own pair of words, a `CALL` with no operand raises, and every other template is laid out from its reads |
| Encoder.Encode | sim.py:2388-2835 | a mnemonic without an entry, or one the library's encoder lacks, encodes to nothing; otherwise the encoding is its entry's template filled from the operands |
| EncoderLaws.ReadsInOrder | sim.py:2399-2403 | a template's reads succeed exactly when every field reads, and then give the fields in order |
| EncoderLaws.FirstFailure | sim.py:2399-2403 | a failing read list fails with the error of its first failing field |
| EncoderLaws.ReadOne | sim.py:2591-2593 | a one-operand template reads as its single field |
| EncoderLaws.ReadTwo | sim.py:2399-2403 | a two-operand template reads left to right, and its first failure wins |
| EncoderLaws.FiveBits | sim.py:2354-2368 | a register number below 32 fills exactly five bits with its binary digits |
| EncoderLaws.RegRead | sim.py:2400 | a register operand `Rn` reads as `n` in five bits |
| EncoderLaws.NumRead | sim.py:2415 | a number operand reads as its digits at the width asked |
| EncoderLaws.OffsetRead | sim.py:2428 | a branch offset reads as its two's complement |
| EncoderLaws.InverseRead | sim.py:2527 | `CBR` reads its constant as 255 − K in eight bits |
| EncoderLaws.LowFour | sim.py:2416 | a five-bit register field without its first bit holds the register number modulo 16 |
| EncoderLaws.Encoded | sim.py:2388-2835 | an entry encodes as its template filled |
| EncoderLaws.Filled | sim.py:2388-2835 | a template whose operands all read lays them out |
| EncoderLaws.Failed | sim.py:2388-2835 | a template whose operands do not all read fails as its first failing read |
| EncoderLaws.TwoRegFields | sim.py:2399-2403 | `ADD Rd, Rr` and the other two-register forms give the opcode, bit 4 of `r`, the five bits of `d`, and the low four bits of `r` |
| EncoderLaws.SameRegTwice | sim.py:2638-2640 | the one-register alias template fills as the two-register template with its operand given twice, errors included |
| EncoderLaws.AliasEntries | sim.py:2638-2640 | `LSL`, `ROL`, `CLR` and `TST` have the opcodes of `ADD`, `ADC`, `EOR` and `AND`, and only the simulator's encoder has `TST` |
| EncoderLaws.ImmEntries | sim.py:2525-2528 | `CBR` has the opcode of `ANDI` with an inverted constant, and `SBR` has the template of `ORI` |
| EncoderLaws.AliasOf | sim.py:2638-2640 | a register alias encodes exactly as its instruction with the register given twice |
| EncoderLaws.LslIsAdd | sim.py:2638-2640 | `LSL Rd` encodes exactly as `ADD Rd, Rd`, whatever the operand |
| EncoderLaws.RolIsAdc | sim.py:2710-2712 | `ROL Rd` encodes exactly as `ADC Rd, Rd` |
| EncoderLaws.ClrIsEor | sim.py:2542-2544 | `CLR Rd` encodes exactly as `EOR Rd, Rd` |
| EncoderLaws.TstIsAnd | sim.py:2824-2826 | `TST Rd` encodes as `AND Rd, Rd` in the simulator's encoder, and to nothing in the library's |
| EncoderLaws.InvertedReads | sim.py:2525-2528 | the inverted immediate template reads 255 − K where the plain one reads K |
| EncoderLaws.InvertedImm | sim.py:2525-2528 | `CBR`'s template with K fills as `ANDI`'s with 255 − K, errors included |
| EncoderLaws.CbrIsAndi | sim.py:2525-2528 | `CBR Rd, K` encodes exactly as `ANDI Rd, 255 − K` |
| EncoderLaws.SbrIsOri | sim.py:2733-2736 | `SBR Rd, K` encodes exactly as `ORI Rd, K` |
| EncoderLaws.OneRegFields | sim.py:2591-2593 | `INC Rd`, `PUSH Rr` and the other one-register forms put the register's five bits between the template's two fixed parts |
| EncoderLaws.ImmFields | sim.py:2628-2631 | `LDI Rd, K` and its kin, for K in 0..255, give the opcode, the high half of K, the low four bits of `d`, and the low half of K |
| EncoderLaws.SevenBits | sim.py:2370-2386 | an offset in −64..63 is seven bits of two's complement |
| EncoderLaws.BranchFields | sim.py:2445-2447 | `BREQ k` and the other one-flag branches give `11110`, the clear-or-set bit, k in seven-bit two's complement, and the flag's number |
| EncoderLaws.BitBranchFields | sim.py:2427-2435 | `BRBS s, k` and `BRBC s, k` give the same word with `s` in the last three bits |
| EncoderLaws.LoadFields | sim.py:2599-2618 | `LD Rd, p` for a pointer spelling the source knows gives the pointer's first four bits, `000`, the five bits of `d`, and the pointer's last four |
| EncoderLaws.StoreFields | sim.py:2776-2796 | `ST p, Rr` gives the same word with `001` in place of `000` |
| EncoderLaws.PointerCodeNames | sim.py:2599-2618 | no two pointer spellings share their bits, so the word names the spelling |
| EncoderLaws.LdsFields | sim.py:2633-2636 | `LDS Rd, k` in the simulator's encoder gives `1001000`, the five bits of `d` and `0000`, then the sixteen bits of k |
| EncoderLaws.StsFields | sim.py:2805-2808 | `STS k, Rr` gives the same with `1001001` |
| EncoderLaws.SixteenBits | sim.py:2354-2368 | an address below 2^16 fills sixteen bits with its digits |
| EncoderLaws.FarFields | sim.py:2513-2518 | `CALL k` and `JMP k`, for k below 2^22, split k into five bits, the template's `mid`, one bit, and then the last sixteen bits in the second word |
| EncoderLaws.LayoutEditions | lib/avr_interpreter.py:986-1391 | every template but the direct loads and stores lays its fields out the same in both encoders |
| EncoderLaws.EditionsAgree | lib/avr_interpreter.py:986-1391 | a mnemonic both encoders have, other than `LDS` and `STS`, encodes the same in both, whatever its operands |
| EncoderLaws.DirectEditions | lib/avr_interpreter.py:1222-1226 | the library's `LDS`/`STS` string is the simulator's two words joined, and both fail alike |

## Left out

- The graphical front end (`App` and its widgets, sim.py:2837-3598), the console and file dialogs, and the command-line entry points are left out: they are I/O around the core. A program's text reaches the model as a string, and what `PRINTF` would write reaches it as a value.
- Timing, sleeps and the run loop's pacing are left out: the model steps one instruction at a time and has no clock.
- Floating point is left out. The one place the encoder divides (`int(x / 2)`) is modelled as a halving truncated toward zero. This equals the float result for every integer below 2^53 in magnitude.
- Every exception the program does not catch is one value, `Crash(…)`. The model keeps the exception's kind and message text but no traceback, and nothing after the crash.
- The display flag `changed` of a register object is kept by the `Register` module but not inside `Machine` cells. It only drives the front end's highlighting, and no instruction reads it.
- The status register's object is not kept in data memory. Its eight flags are the `sreg` field, and cell 0x5F holds a link to them. The source's register there holds a list of eight flags. Reading that cell as a number gives a `Crash` in the model; the exact Python exception is not distinguished. Storing a number into it is different in the source: `set_value` (sim.py:146-148) replaces the list by the number modulo 256 and the instruction completes. The source fails only at the next flag read or write, such as `self.sreg.value[7]` (sim.py:1353) or `self.sreg.value[2] = ...` (sim.py:1362). This deferred failure is not modelled.
- Machine.SetLink: a store to the status-register link gives `Crash(StatusGetsNumber)` at the store itself. In all three generations `OUT 0x3F, Rr` (sim.py:1947-1951, lib/avr_interpreter.py:601-605, sim/avr_interpreter.py:600-604) stores the number and goes on, and the program crashes only at its next flag access. A program that stores into SREG and then ends, or only reads the cell back, runs to its end in the source but crashes in the model. Modelling this would need a status register that can hold either eight flags or a number, with every flag access checking which.
- Machine.SetValue: inherits `Machine.SetLink`'s early crash for cell 0x5F. The instruction that reaches it is `OUT 0x3F, Rr`. `STS`, `ST` and `STD` do not use `set_value`: they replace the cell with a bare number (sim.py:2146-2166), as `Machine.Put` does.
- Text.PyInt: reads ASCII digits and strips ASCII whitespace only. Python's `int()` also accepts the decimal digits and the whitespace of other scripts. A based literal in the lexer runs up to the next stop character, so such characters can reach `int()` there; the model reports them as a `ValueError`.
- Lexer.ScanBased: reads digits through `Text.PyInt`, so it has the same ASCII-only limit.
- Lexer.ScanNumber: reads based literals through `Lexer.ScanBased`, so it has the same ASCII-only limit.
- Lexer.Handoff: a file holding an error object stops with `Crash(ErrorHasNoType)` before parsing starts. The source raises only when the parser reads that token's `type` (sim.py:227-229), so a file that the label pass refuses on an earlier line reports that line's error instead, and an error object on a line the parser never reaches raises nothing.
- Exec.Immediate: `ORI`, `SBR`, `SUBI` and `CPI` are modelled only for K in 0..255, and any other K gives `Crash(ImmediateRange)`. The source goes on with a wide K. `ORI`/`SBR` store (Rd | K) mod 256 and, reading the flags off a binary string of nine or more characters, set N and S and clear V and Z. `SUBI`/`CPI` read their flag bits off K's wide binary string. A negative K raises a `ValueError` only after the store. Such a K reaches the interpreter only through the older lexer and parser, which neither reduce numbers modulo 256 nor check ranges; the current parser refuses it.
- Machine.SetBit: a bit number of 8 or more gives `Crash(BitAboveSeven)`. The source's `set_bit` (sim.py:166-168) stores `value | 2**b`, a number of 256 or more, with no reduction. In this model a cell holds a byte, so such a store cannot be represented. The bit number reaches `set_bit` unchecked only from the older parser.
- Register.SetBit: requires a bit number below 8, for the same reason as `Machine.SetBit`.
- Register.OrBit: requires a bit number below 8, for the same reason as `Machine.SetBit`.
- Exec.TwoReg: its contract states only that the machine stays well formed, keeps its balances and end flag, and that both operands read as registers. What the individual instructions compute is stated by the `Alu` functions they call, and for `ADD`, `SUB` and `CP` by `ExecLaws.AddStep`, `ExecLaws.SubStep` and `ExecLaws.CpStep`.
- Exec.OneReg: the contract states well-formedness, the unchanged balances and a register operand. `INC` is the only one-register instruction with a whole-step law (`ExecLaws.IncStep`).
- Exec.Io: the contract states well-formedness and the unchanged balances. `OUT` and `IN` are tied together only by `ExecLaws.OutThenIn`; `SBI` and `CBI` have no whole-step law.
- Exec.Memory: the contract states well-formedness and the unchanged balances. `ExecLaws.MemoryDispatch` ties it to the direct load and store.
- Exec.LoadVia: the contract states well-formedness and the unchanged balances. The pointer's pre-decrement and post-increment are not stated as laws.
- Exec.LoadDisplaced: the contract states well-formedness and the unchanged balances, not the cell it reads.
- Exec.LoadDirect: the contract states well-formedness and the unchanged balances. What it reads is stated only through `ExecLaws.StsThenLds`.
- Exec.StoreVia: the contract states well-formedness and the unchanged balances, not the cell it writes.
- Exec.StoreDisplaced: the contract states well-formedness and the unchanged balances, not the cell it writes.
- Exec.StoreDirect: the contract states well-formedness and the unchanged balances. What it writes is stated only through `ExecLaws.StsThenLds`.
- Exec.Exchange: the contract states well-formedness and the unchanged balances, not the swap itself.
- Stack.PushThenPop: the round trip is proved for a stack pointer at or below 0x8FF, a destination that is a general register other than the push slot, and non-negative balances.
- Stack.PushThenPopStack: the same frame conditions as `Stack.PushThenPop`.
- Step.CallThenReturn: the round trip is proved only under `Step.CallFits`. In the simulator, a call at SP 1 pushes its second byte to cell 0 and leaves SP at 0x8FF, so the `RET` ends the program instead of returning (sim.py:1980-1981); at SP 0 the second byte goes to cell 0x8FF and SP is left at 0x8FE, where the `RET` reports "Invalid stack pointer" (sim.py:1983-1984). In the library generations a call at SP 3 leaves SP at 0, which their `RET` also reads as the end of the program (lib/avr_interpreter.py:631-632).
- Step.CallBalances: the same stack pointer condition as `Step.CallThenReturn`.
- Step.RetAfterCall: the same stack pointer condition as `Step.CallThenReturn`.
- Encoder templates without a read-back law: `Ser`, `Movw`, `Muls`, `Mulsu`, `Fixed`, `Status`, `IoBit`, `RegBit`, `Port`, `Displaced`, `WordImm` and `Rjmp`. They are encoded by `Encoder.Encode` as the source lays them out, but no lemma reads their fields back.
- The library encoder's `LDS`/`STS` strings are tied to the simulator's encoder only by `EncoderLaws.DirectEditions` (the same words joined), and not by field laws of their own.

## Findings

| source | as written | input that shows it | evidently intended | confidence | as-written member | corrected member |
|---|---|---|---|---|---|---|
| sim.py:661-664, sim.py:695-697 (also sim/avr_parser.py:83-86, 111-115) | after `.section .text` the parser saves its position and then calls `next_line` once more before the label pass and again after the reset, so the first line of the text section is never read | `.section .text` / `main:` / `RJMP main` / `.end`: the label `main` is never recorded and `RJMP main` is refused with "Illegal argument given: main" (the older parser emits `RJMP` with no operand) | the text section starts on the line after the header, so `main` is word 0 and `RJMP main` gets offset −1 | not executed | Parser.ParseAsWritten, Parser.AsWrittenSkipsSecondLine, Parser.SampleAsWritten, OldParser.ParseAsWritten, OldParser.SampleAsWritten | Parser.Parse, Parser.SampleCorrected, OldParser.Parse, OldParser.SampleCorrected |
| sim.py:808 (also sim/avr_parser.py:194 with `'RC'`) | the branch-range test compares the method `inst[:2].upper` itself with `'BR'`, which never holds, so a branch to a label is only checked against the 12-bit reach of ±2048 | `BRNE far` with `far` 100 words ahead: the offset 99 passes the label test, and the instruction is refused later by the operand rules with "Address value … out of bounds" instead of naming the label | a conditional branch to a label more than 64 words away is refused with "Label too far away to access from 'far'" | not executed | TwoPass.BranchOffsetAsWritten, Parser.FarBranch | Parser.BranchOffset, Parser.FarBranchCaught |
| sim.py:670-676 (with sim.py:733-751) | the label pass charges every `label: X` line one word, two if `X` is a double-length name, whatever `X` is; the text pass emits nothing for `label: .global x`, so every later label is one word too high | `.section .data` / `.section .text` / `start: .global start` / `main: NOP` / `RJMP main` / `.end`: `main` is placed at word 1 and the jump assembles to `RJMP -1`, a jump to itself | a label line is charged only the words of the instruction it carries, so `main` is word 0 and the jump gets offset −2 | not executed | TwoPass.ChargedAsWritten, Parser.ShiftedAsWritten | TwoPass.Words, TwoPass.ChargesPlain, Parser.LabelsAddressCode, Parser.ShiftedCorrected |

=== FILE: alu.dfy ===
/** The arithmetic and logic of the interpreters: the value each instruction
    computes and the status flags it sets. Every body uses the simulator's own
    bit formulas (bit 7 is the character `R[0]` of the 8-character string, bit 3
    is `R[4]`); every contract states what those formulas amount to in
    arithmetic, so the places where they differ from the AVR manual show up as
    contracts that say something other than the manual does. */
module Alu {
  import opened Base
  import opened Bits

  // The status register is a list of eight bits in the order I, T, H, S, V, N, Z, C.
  const FlagI: nat := 0
  const FlagT: nat := 1
  const FlagH: nat := 2
  const FlagS: nat := 3
  const FlagV: nat := 4
  const FlagN: nat := 5
  const FlagZ: nat := 6
  const FlagC: nat := 7

  predicate Sreg(s: seq<bool>) { |s| == 8 }

  /** Bit 7 of a byte: the character `R[0]` of its 8-character string. */
  predicate B7(v: Byte) { v >= 128 }

  /** Bit 3 of a byte: the character `R[4]`. */
  predicate B3(v: Byte) { v % 16 >= 8 }

  /** The bit tests above are the characters the simulator reads. */
  lemma TopChar(v: Byte)
    ensures |Bits8(v)| == 8
    ensures Bits8(v)[0] == '1' <==> B7(v)
  {
    Bits8Bit(v, 7);
    TopBit(v);
  }

  /** Bit 3 is the character the simulator reads as `R[4]`. */
  lemma MidChar(v: Byte)
    ensures |Bits8(v)| == 8
    ensures Bits8(v)[4] == '1' <==> B3(v)
  {
    Bits8Bit(v, 3);
    MidBit(v);
  }

  /** The two's-complement reading of a byte. */
  function Signed(v: Byte): (x: int)
    ensures -128 <= x < 128 && (x - v) % 256 == 0
  {
    if v >= 128 then v - 256 else v
  }

  function CarryIn(c: bool): (n: nat)
    ensures n <= 1
  {
    if c then 1 else 0
  }

  /** A result byte and the status register after it. */
  datatype Alu = Alu(r: Byte, sreg: seq<bool>)

  /** The five arithmetic flags written at once; I and T never change here. */
  function Arith(s: seq<bool>, h: bool, v: bool, n: bool, z: bool, c: bool): (t: seq<bool>)
    requires Sreg(s)
    ensures Sreg(t) && t[FlagI] == s[FlagI] && t[FlagT] == s[FlagT]
    ensures t[FlagH] == h && t[FlagV] == v && t[FlagN] == n && t[FlagZ] == z && t[FlagC] == c
    ensures t[FlagS] == (n != v)
  {
    s[FlagH := h][FlagV := v][FlagN := n][FlagS := (v != n)][FlagZ := z][FlagC := c]
  }

  // ------------------------------------------------------- carry formulas

  /** The simulator's carry formula for the top bit (weight `h`) of a sum
      `x + y + c` whose truncated result is `r` is the carry out of the sum. */
  lemma CarryRule(x: int, y: int, c: int, r: int, h: int)
    requires h > 0 && 0 <= x < 2 * h && 0 <= y < 2 * h && 0 <= c <= 1
    requires 0 <= r < 2 * h && (r == x + y + c || r == x + y + c - 2 * h)
    ensures ((x >= h && y >= h) || (y >= h && r < h) || (x >= h && r < h)) <==> x + y + c >= 2 * h
  {
  }

  /** The simulator's overflow formula for a byte sum is the sum of the
      signed readings leaving the signed range. */
  lemma OverflowRule(x: Byte, y: Byte, c: int, r: Byte)
    requires 0 <= c <= 1 && (r == x + y + c || r == x + y + c - 256)
    ensures ((x >= 128 && y >= 128 && r < 128) || (x < 128 && y < 128 && r >= 128)) <==>
            !(-128 <= Signed(x) + Signed(y) + c < 128)
  {
  }

  /** The simulator's borrow formula for the top bit (weight `h`) of a
      difference `x - y - c` whose truncated result is `r` is the borrow. */
  lemma BorrowRule(x: int, y: int, c: int, r: int, h: int)
    requires h > 0 && 0 <= x < 2 * h && 0 <= y < 2 * h && 0 <= c <= 1
    requires 0 <= r < 2 * h && (r == x - y - c || r == x - y - c + 2 * h)
    ensures ((y >= h && r >= h) || (y >= h && x < h) || (r >= h && x < h)) <==> x < y + c
  {
  }

  /** The simulator's overflow formula for a byte difference. */
  lemma UnderflowRule(x: Byte, y: Byte, c: int, r: Byte)
    requires 0 <= c <= 1 && (r == x - y - c || r == x - y - c + 256)
    ensures ((r >= 128 && y >= 128 && x < 128) || (r < 128 && y < 128 && x >= 128)) <==>
            !(-128 <= Signed(x) - Signed(y) - c < 128)
  {
  }

  // ------------------------------------------------------------ add and subtract

  /** The low nibble of a truncated sum is the truncated sum of the nibbles. */
  lemma SumNibble(rd: Byte, rr: Byte, c: nat, r: Byte)
    requires c <= 1 && r == (rd + rr + c) % 256
    ensures r % 16 == (rd % 16 + rr % 16 + c) % 16
  {
    var t := rd % 16 + rr % 16 + c;
    var k := rd / 16 + rr / 16 - 16 * ((rd + rr + c) / 256);
    assert r == 16 * k + t;
    DivUnique(r, 16, k + t / 16, t % 16);
  }

  /** The low nibble of a truncated difference is the truncated difference
      of the nibbles. */
  lemma DiffNibble(rd: Byte, rr: Byte, c: nat, r: Byte)
    requires c <= 1 && r == (rd - rr - c) % 256
    ensures r % 16 == (rd % 16 - rr % 16 - c) % 16
  {
    var t := rd % 16 - rr % 16 - c;
    var k := rd / 16 - rr / 16 - 16 * ((rd - rr - c) / 256);
    assert r == 16 * k + t;
    DivUnique(r, 16, k + t / 16, t % 16);
  }

  /** The simulator's H, V and C formulas for a sum `rd + rr + c` that
      truncates to `r`. */
  function SumHalf(rd: Byte, rr: Byte, c: nat, r: Byte): (h: bool)
    requires c <= 1 && r == (rd + rr + c) % 256
    ensures h <==> rd % 16 + rr % 16 + c >= 16
  {
    SumNibble(rd, rr, c, r);
    CarryRule(rd % 16, rr % 16, c, r % 16, 8);
    (B3(rd) && B3(rr)) || (B3(rr) && !B3(r)) || (B3(rd) && !B3(r))
  }

  function SumOverflow(rd: Byte, rr: Byte, c: nat, r: Byte): (v: bool)
    requires c <= 1 && r == (rd + rr + c) % 256
    ensures v <==> !(-128 <= Signed(rd) + Signed(rr) + c < 128)
  {
    OverflowRule(rd, rr, c, r);
    (B7(rd) && B7(rr) && !B7(r)) || (!B7(rd) && !B7(rr) && B7(r))
  }

  function SumCarry(rd: Byte, rr: Byte, c: nat, r: Byte): (carry: bool)
    requires c <= 1 && r == (rd + rr + c) % 256
    ensures carry <==> rd + rr + c >= 256
  {
    CarryRule(rd, rr, c, r, 128);
    (B7(rd) && B7(rr)) || (B7(rr) && !B7(r)) || (B7(rd) && !B7(r))
  }

  /** `ADD` and `ADC`: the sum modulo 256, with the half carry, signed overflow
      and carry of the true sum. */
  function Add(rd: Byte, rr: Byte, carry: bool, s: seq<bool>): (o: Alu)
    requires Sreg(s)
    ensures Sreg(o.sreg) && o.sreg[FlagI] == s[FlagI] && o.sreg[FlagT] == s[FlagT]
    ensures o.r == (rd + rr + CarryIn(carry)) % 256
    ensures o.sreg[FlagC] <==> rd + rr + CarryIn(carry) >= 256
    ensures o.sreg[FlagH] <==> rd % 16 + rr % 16 + CarryIn(carry) >= 16
    ensures o.sreg[FlagV] <==> !(-128 <= Signed(rd) + Signed(rr) + CarryIn(carry) < 128)
    ensures o.sreg[FlagN] <==> o.r >= 128
    ensures o.sreg[FlagZ] <==> o.r == 0
    ensures o.sreg[FlagS] <==> (o.sreg[FlagN] != o.sreg[FlagV])
  {
    var c := CarryIn(carry);
    var r := (rd + rr + c) % 256;
    Alu(r, Arith(s, SumHalf(rd, rr, c, r), SumOverflow(rd, rr, c, r), B7(r), r == 0, SumCarry(rd, rr, c, r)))
  }

  /** The simulator's H, V and C formulas for a difference `rd - rr - c`
      that truncates to `r`. */
  function DiffHalf(rd: Byte, rr: Byte, c: nat, r: Byte): (h: bool)
    requires c <= 1 && r == (rd - rr - c) % 256
    ensures h <==> rd % 16 < rr % 16 + c
  {
    DiffNibble(rd, rr, c, r);
    BorrowRule(rd % 16, rr % 16, c, r % 16, 8);
    (B3(rr) && B3(r)) || (B3(rr) && !B3(rd)) || (B3(r) && !B3(rd))
  }

  function DiffOverflow(rd: Byte, rr: Byte, c: nat, r: Byte): (v: bool)
    requires c <= 1 && r == (rd - rr - c) % 256
    ensures v <==> !(-128 <= Signed(rd) - Signed(rr) - c < 128)
  {
    UnderflowRule(rd, rr, c, r);
    (B7(r) && B7(rr) && !B7(rd)) || (!B7(r) && !B7(rr) && B7(rd))
  }

  function DiffBorrow(rd: Byte, rr: Byte, c: nat, r: Byte): (borrow: bool)
    requires c <= 1 && r == (rd - rr - c) % 256
    ensures borrow <==> rd < rr + c
  {
    BorrowRule(rd, rr, c, r, 128);
    (B7(r) && B7(rr)) || (B7(rr) && !B7(rd)) || (B7(r) && !B7(rd))
  }

  /** `SUB`, `SUBI`, `SBC`, `CP`, `CPI` and `CPC`: the difference modulo 256,
      with the borrows and signed overflow of the true difference. When `keepZ`
      holds (`CPC`) Z can only stay set; otherwise (including `SBC`, where the
      manual keeps it too) Z tells whether this result is zero. */
  function Sub(rd: Byte, rr: Byte, borrow: bool, keepZ: bool, s: seq<bool>): (o: Alu)
    requires Sreg(s)
    ensures Sreg(o.sreg) && o.sreg[FlagI] == s[FlagI] && o.sreg[FlagT] == s[FlagT]
    ensures o.r == (rd - rr - CarryIn(borrow)) % 256
    ensures o.sreg[FlagC] <==> rd < rr + CarryIn(borrow)
    ensures o.sreg[FlagH] <==> rd % 16 < rr % 16 + CarryIn(borrow)
    ensures o.sreg[FlagV] <==> !(-128 <= Signed(rd) - Signed(rr) - CarryIn(borrow) < 128)
    ensures o.sreg[FlagN] <==> o.r >= 128
    ensures o.sreg[FlagZ] <==> o.r == 0 && (keepZ ==> s[FlagZ])
    ensures o.sreg[FlagS] <==> (o.sreg[FlagN] != o.sreg[FlagV])
  {
    var c := CarryIn(borrow);
    var r := (rd - rr - c) % 256;
    Alu(r, Arith(s, DiffHalf(rd, rr, c, r), DiffOverflow(rd, rr, c, r), B7(r), r == 0 && (keepZ ==> s[FlagZ]), DiffBorrow(rd, rr, c, r)))
  }

  // ------------------------------------------------------------------ logic

  /** `AND`, `ANDI`, `OR`, `ORI`, `EOR`, `CBR`, `SBR` and `TST`: V cleared, N and
      Z from the result, S equal to N; H and C untouched. */
  function Logic(r: Byte, s: seq<bool>): (o: Alu)
    requires Sreg(s)
    ensures o.r == r && Sreg(o.sreg)
    ensures !o.sreg[FlagV] && (o.sreg[FlagN] <==> r >= 128) && (o.sreg[FlagS] <==> r >= 128)
    ensures o.sreg[FlagZ] <==> r == 0
    ensures forall i :: 0 <= i < 8 && i !in {FlagV, FlagN, FlagS, FlagZ} ==> o.sreg[i] == s[i]
  {
    Alu(r, s[FlagV := false][FlagN := B7(r)][FlagS := B7(r)][FlagZ := r == 0])
  }

  /** Python's `&`, `|` and `^` on numbers below 2^n: `f` applied bit by bit. */
  function Bitwise(f: (bool, bool) -> bool, a: nat, b: nat, n: nat): (r: nat)
    requires a < Pow2(n) && b < Pow2(n)
    ensures r < Pow2(n)
    ensures forall i :: 0 <= i < n ==> (Bit(r, i) <==> f(Bit(a, i), Bit(b, i)))
  {
    if n == 0 then 0
    else
      var h := Bitwise(f, a / 2, b / 2, n - 1);
      var low := if f(a % 2 == 1, b % 2 == 1) then 1 else 0;
      assert (2 * h + low) / 2 == h && (2 * h + low) % 2 == low;
      2 * h + low
  }

  function And(a: Byte, b: Byte): (r: Byte) {
    assert Pow2(8) == 256 by { assert Pow2(4) == 16; }
    Bitwise((x, y) => x && y, a, b, 8)
  }

  function Or(a: Byte, b: Byte): (r: Byte) {
    assert Pow2(8) == 256 by { assert Pow2(4) == 16; }
    Bitwise((x, y) => x || y, a, b, 8)
  }

  function Xor(a: Byte, b: Byte): (r: Byte) {
    assert Pow2(8) == 256 by { assert Pow2(4) == 16; }
    Bitwise((x, y) => x != y, a, b, 8)
  }

  // ------------------------------------------------------------ one operand

  /** `COM`: the ones' complement; V cleared, C set. H untouched. */
  function Com(rd: Byte, s: seq<bool>): (o: Alu)
    requires Sreg(s)
    ensures o.r + rd == 255 && Sreg(o.sreg)
    ensures !o.sreg[FlagV] && o.sreg[FlagC] && (o.sreg[FlagN] <==> o.r >= 128) && (o.sreg[FlagZ] <==> rd == 255)
    ensures (o.sreg[FlagS] <==> o.r >= 128) && o.sreg[FlagH] == s[FlagH]
    ensures o.sreg[FlagI] == s[FlagI] && o.sreg[FlagT] == s[FlagT]
  {
    var r := 255 - rd;
    Alu(r, s[FlagV := false][FlagN := r > 127][FlagS := r > 127][FlagZ := r == 0][FlagC := true])
  }

  /** The simulator's H formula for `NEG`. */
  function NegHalf(rd: Byte, r: Byte): (h: bool)
    requires r == (0 - rd) % 256
    ensures h <==> rd % 16 <= 8
  {
    DiffNibble(0, rd, 0, r);
    B3(r) || !B3(rd)
  }

  /** `NEG` as the simulator computes it: the two's-complement negation, but Z
      is set when the result is NOT zero, H is set when the low nibble of the
      operand is at most 8 (the manual: when it is not 0), and C is left alone
      (the manual: set unless the result is 0). */
  function Neg(rd: Byte, s: seq<bool>): (o: Alu)
    requires Sreg(s)
    ensures Sreg(o.sreg) && (o.r + rd) % 256 == 0
    ensures o.sreg[FlagZ] <==> o.r != 0
    ensures o.sreg[FlagH] <==> rd % 16 <= 8
    ensures o.sreg[FlagV] <==> rd == 128
    ensures (o.sreg[FlagN] <==> o.r >= 128) && (o.sreg[FlagS] <==> (o.sreg[FlagN] != o.sreg[FlagV]))
    ensures o.sreg[FlagC] == s[FlagC] && o.sreg[FlagI] == s[FlagI] && o.sreg[FlagT] == s[FlagT]
  {
    var r := (0 - rd) % 256;
    var h := NegHalf(rd, r);
    var v := r == 128;
    Alu(r, s[FlagH := h][FlagV := v][FlagN := B7(r)][FlagS := (v != B7(r))][FlagZ := r != 0])
  }

  /** `INC`: V exactly when the result is 0x80. */
  function Inc(rd: Byte, s: seq<bool>): (o: Alu)
    requires Sreg(s)
    ensures Sreg(o.sreg) && o.r == (rd + 1) % 256
    ensures (o.sreg[FlagV] <==> rd == 127) && (o.sreg[FlagN] <==> o.r >= 128) && (o.sreg[FlagZ] <==> rd == 255)
    ensures o.sreg[FlagS] <==> (o.sreg[FlagN] != o.sreg[FlagV])
    ensures forall i :: 0 <= i < 8 && i !in {FlagV, FlagN, FlagS, FlagZ} ==> o.sreg[i] == s[i]
  {
    var r := (rd + 1) % 256;
    Alu(r, s[FlagV := r == 128][FlagN := B7(r)][FlagS := ((r == 128) != B7(r))][FlagZ := r == 0])
  }

  /** `DEC`: V exactly when the result is 0x7F. */
  function Dec(rd: Byte, s: seq<bool>): (o: Alu)
    requires Sreg(s)
    ensures Sreg(o.sreg) && o.r == (rd - 1) % 256
    ensures (o.sreg[FlagV] <==> rd == 128) && (o.sreg[FlagN] <==> o.r >= 128) && (o.sreg[FlagZ] <==> rd == 1)
    ensures o.sreg[FlagS] <==> (o.sreg[FlagN] != o.sreg[FlagV])
    ensures forall i :: 0 <= i < 8 && i !in {FlagV, FlagN, FlagS, FlagZ} ==> o.sreg[i] == s[i]
  {
    var r := (rd - 1) % 256;
    Alu(r, s[FlagV := r == 127][FlagN := B7(r)][FlagS := ((r == 127) != B7(r))][FlagZ := r == 0])
  }

  /** The flags a shift or rotate sets from its result and carry out: V is
      N xor C and S is V xor N. */
  function Shifted(s: seq<bool>, n: bool, z: bool, c: bool): (t: seq<bool>)
    requires Sreg(s)
    ensures Sreg(t) && t[FlagN] == n && t[FlagZ] == z && t[FlagC] == c
    ensures t[FlagV] == (n != c) && t[FlagS] == c
    ensures t[FlagI] == s[FlagI] && t[FlagT] == s[FlagT]
  {
    s[FlagN := n][FlagZ := z][FlagC := c][FlagV := (n != c)][FlagS := ((n != c) != n)]
  }

  /** `ASR`: shifts right keeping bit 7; C takes the bit shifted out. */
  function Asr(rd: Byte, s: seq<bool>): (o: Alu)
    requires Sreg(s)
    ensures Sreg(o.sreg) && Signed(o.r) == Signed(rd) / 2
    ensures (o.sreg[FlagC] <==> rd % 2 == 1) && (o.sreg[FlagN] <==> rd >= 128) && (o.sreg[FlagZ] <==> o.r == 0)
    ensures o.sreg[FlagH] == s[FlagH]
  {
    var r := rd / 2 + (if B7(rd) then 128 else 0);
    Alu(r, Shifted(s, B7(r), r == 0, rd % 2 == 1)[FlagH := s[FlagH]])
  }

  /** `LSL` as the simulator computes it: the result is the operand doubled
      modulo 256 and C is the bit shifted out, but N and Z are taken from the
      operand rather than the result, so V (N xor C) is always clear. */
  function Lsl(rd: Byte, s: seq<bool>): (o: Alu)
    requires Sreg(s)
    ensures Sreg(o.sreg) && o.r == (2 * rd) % 256
    ensures (o.sreg[FlagC] <==> rd >= 128) && (o.sreg[FlagH] <==> rd % 16 >= 8)
    ensures (o.sreg[FlagN] <==> rd >= 128) && (o.sreg[FlagZ] <==> rd == 0) && !o.sreg[FlagV]
    ensures o.sreg[FlagI] == s[FlagI] && o.sreg[FlagT] == s[FlagT]
  {
    var r := (2 * rd) % 256;
    Alu(r, Shifted(s, B7(rd), rd == 0, B7(rd))[FlagH := B3(rd)])
  }

  /** `LSR`: halves the operand; C takes bit 0, N is cleared. */
  function Lsr(rd: Byte, s: seq<bool>): (o: Alu)
    requires Sreg(s)
    ensures Sreg(o.sreg) && o.r == rd / 2
    ensures (o.sreg[FlagC] <==> rd % 2 == 1) && !o.sreg[FlagN] && (o.sreg[FlagZ] <==> rd < 2)
    ensures o.sreg[FlagV] == o.sreg[FlagC] && o.sreg[FlagH] == s[FlagH]
  {
    var r := rd / 2;
    Alu(r, Shifted(s, false, r == 0, rd % 2 == 1))
  }

  /** `ROL`: rotates left through the carry. */
  function Rol(rd: Byte, s: seq<bool>): (o: Alu)
    requires Sreg(s)
    ensures Sreg(o.sreg) && o.r == (2 * rd + CarryIn(s[FlagC])) % 256
    ensures 2 * rd + CarryIn(s[FlagC]) == (if o.sreg[FlagC] then 256 else 0) + o.r
    ensures (o.sreg[FlagN] <==> o.r >= 128) && (o.sreg[FlagZ] <==> o.r == 0) && (o.sreg[FlagH] <==> rd % 16 >= 8)
    ensures o.sreg[FlagV] == (o.sreg[FlagN] != o.sreg[FlagC])
  {
    var r := (2 * rd + CarryIn(s[FlagC])) % 256;
    Alu(r, Shifted(s, B7(r), r == 0, B7(rd))[FlagH := B3(rd)])
  }

  /** `ROR`: rotates right through the carry. */
  function Ror(rd: Byte, s: seq<bool>): (o: Alu)
    requires Sreg(s)
    ensures Sreg(o.sreg) && o.r == 128 * CarryIn(s[FlagC]) + rd / 2
    ensures 2 * o.r + CarryIn(o.sreg[FlagC]) == 256 * CarryIn(s[FlagC]) + rd
    ensures (o.sreg[FlagN] <==> s[FlagC]) && (o.sreg[FlagZ] <==> o.r == 0) && o.sreg[FlagH] == s[FlagH]
  {
    var r := 128 * CarryIn(s[FlagC]) + rd / 2;
    Alu(r, Shifted(s, s[FlagC], r == 0, rd % 2 == 1))
  }

  /** `SWAP`: exchanges the two nibbles. */
  function Swap(rd: Byte): (r: Byte)
    ensures r % 16 == rd / 16 && r / 16 == rd % 16
  {
    (rd % 16) * 16 + rd / 16
  }

  lemma SwapTwice(rd: Byte)
    ensures Swap(Swap(rd)) == rd
  {
  }

  /** `CLR`: the flags of a zero result (S, V and N clear, Z set). */
  function Clr(s: seq<bool>): (t: seq<bool>)
    requires Sreg(s)
    ensures Sreg(t) && !t[FlagS] && !t[FlagV] && !t[FlagN] && t[FlagZ]
    ensures forall i :: 0 <= i < 8 && i !in {FlagS, FlagV, FlagN, FlagZ} ==> t[i] == s[i]
  {
    s[FlagS := false][FlagV := false][FlagN := false][FlagZ := true]
  }

  // ------------------------------------------------------------ word and product

  /** A 16-bit result, as the low and high byte written back. */
  datatype Wide = Wide(lo: Byte, hi: Byte, sreg: seq<bool>)

  function Split(w: int, s: seq<bool>): (o: Wide)
    ensures 256 * o.hi + o.lo == w % 0x1_0000 && o.sreg == s
  {
    var x := w % 0x1_0000;
    Wide(x % 256, x / 256, s)
  }

  /** For a small K, bit 15 of the truncated word sum against bit 7 of the
      high byte gives the carry and the signed overflow. */
  lemma AdiwRule(lo: Byte, hi: Byte, k: int, r: int)
    requires r == (256 * hi + lo + k) % 0x1_0000
    ensures 0 <= k < 64 ==> ((r < 0x8000 && B7(hi)) <==> 256 * hi + lo + k >= 0x1_0000)
    ensures 0 <= k < 64 ==> ((r >= 0x8000 && !B7(hi)) <==> 256 * hi + lo < 0x8000 <= 256 * hi + lo + k)
  {
  }

  /** For a small K, the same comparison on a difference gives its signed
      overflow. */
  lemma SbiwRule(lo: Byte, hi: Byte, k: int, r: int)
    requires r == (256 * hi + lo - k) % 0x1_0000
    ensures 0 <= k < 64 ==> ((r < 0x8000 && B7(hi)) <==> 256 * hi + lo - k < 0x8000 <= 256 * hi + lo)
  {
  }

  /** `ADIW`: adds K to the pair; for the K the tables allow (0..63) C is the
      carry out of bit 15 and V the signed overflow. */
  function Adiw(lo: Byte, hi: Byte, k: int, s: seq<bool>): (o: Wide)
    requires Sreg(s)
    ensures Sreg(o.sreg) && 256 * o.hi + o.lo == (256 * hi + lo + k) % 0x1_0000
    ensures (o.sreg[FlagN] <==> o.hi >= 128) && (o.sreg[FlagZ] <==> o.hi == 0 && o.lo == 0)
    ensures 0 <= k < 64 ==> (o.sreg[FlagC] <==> 256 * hi + lo + k >= 0x1_0000)
    ensures 0 <= k < 64 ==> (o.sreg[FlagV] <==> 256 * hi + lo < 0x8000 <= 256 * hi + lo + k)
    ensures o.sreg[FlagS] == (o.sreg[FlagN] != o.sreg[FlagV]) && o.sreg[FlagH] == s[FlagH]
  {
    var r := (256 * hi + lo + k) % 0x1_0000;
    AdiwRule(lo, hi, k, r);
    var r15 := r >= 0x8000;
    var v := r15 && !B7(hi);
    var c := !r15 && B7(hi);
    Split(r, s[FlagN := r15][FlagZ := r == 0][FlagV := v][FlagS := (v != r15)][FlagC := c])
  }

  /** `SBIW` as the simulator computes it: subtracts K from the pair; V is the
      signed overflow, but C is given the same formula as V (the `ADIW` form)
      instead of the borrow. */
  function Sbiw(lo: Byte, hi: Byte, k: int, s: seq<bool>): (o: Wide)
    requires Sreg(s)
    ensures Sreg(o.sreg) && 256 * o.hi + o.lo == (256 * hi + lo - k) % 0x1_0000
    ensures (o.sreg[FlagN] <==> o.hi >= 128) && (o.sreg[FlagZ] <==> o.hi == 0 && o.lo == 0)
    ensures 0 <= k < 64 ==> (o.sreg[FlagV] <==> 256 * hi + lo - k < 0x8000 <= 256 * hi + lo)
    ensures o.sreg[FlagC] == o.sreg[FlagV]
    ensures o.sreg[FlagS] == (o.sreg[FlagN] != o.sreg[FlagV]) && o.sreg[FlagH] == s[FlagH]
  {
    var r := (256 * hi + lo - k) % 0x1_0000;
    SbiwRule(lo, hi, k, r);
    var r15 := r >= 0x8000;
    var v := !r15 && B7(hi);
    Split(r, s[FlagN := r15][FlagZ := r == 0][FlagV := v][FlagS := (v != r15)][FlagC := v])
  }

  /** `SBIW` of 1 from 0 wraps around to 0xFFFF, a borrow, yet leaves C clear. */
  lemma SbiwMissesBorrow(s: seq<bool>)
    requires Sreg(s)
    ensures var o := Sbiw(0, 0, 1, s); o.hi == 255 && o.lo == 255 && !o.sreg[FlagC]
  {
  }

  /** `MUL`, `MULS` and `MULSU` alike: the unsigned product in R1:R0, Z when it
      is zero and C from its bit 15. */
  function Mul(rd: Byte, rr: Byte, s: seq<bool>): (o: Wide)
    requires Sreg(s)
    ensures Sreg(o.sreg) && 256 * o.hi + o.lo == rd * rr
    ensures (o.sreg[FlagZ] <==> rd * rr == 0) && (o.sreg[FlagC] <==> rd * rr >= 0x8000)
    ensures forall i :: 0 <= i < 8 && i != FlagZ && i != FlagC ==> o.sreg[i] == s[i]
  {
    var r := rd * rr;
    ProductFits(rd, rr);
    Split(r, s[FlagZ := r == 0][FlagC := r >= 32768])
  }

  lemma ProductFits(a: Byte, b: Byte)
    ensures 0 <= a * b < 0x1_0000
  {
    assert a * b <= 255 * b by { MulMono(a, 255, b); }
  }

  lemma MulMono(a: nat, c: nat, b: nat)
    requires a <= c
    ensures a * b <= c * b
  {
  }

  /** `MULS` multiplies as if unsigned: -1 times -1 gives 0xFE01, not 1. */
  lemma MulsUnsigned(s: seq<bool>)
    requires Sreg(s)
    ensures var o := Mul(255, 255, s); o.hi == 0xFE && o.lo == 0x01 && Signed(255) * Signed(255) == 1
  {
  }

  /** `NEG` of 0: the result is zero but Z comes out clear. */
  lemma NegOfZero(s: seq<bool>)
    requires Sreg(s)
    ensures Neg(0, s).r == 0 && !Neg(0, s).sreg[FlagZ]
  {
  }

  /** `LSL` of 0x80: the result is zero but Z comes out clear and N set. */
  lemma LslOfTopBit(s: seq<bool>)
    requires Sreg(s)
    ensures Lsl(128, s).r == 0 && !Lsl(128, s).sreg[FlagZ] && Lsl(128, s).sreg[FlagN]
  {
  }
}

=== FILE: base.dfy ===
/** Shared vocabulary of the model: bytes, the error kinds the simulator reports,
    and a failure-compatible Result type for the lexer, parser and interpreters. */
module Base {

  /** A value held by an 8-bit register or a data-memory cell. */
  type Byte = x: int | 0 <= x < 256

  /** A 16-bit quantity: a program counter, a stack pointer or an X/Y/Z pointer. */
  type Word = x: int | 0 <= x < 0x1_0000

  datatype Option<+T> = None | Some(value: T)

  /** The error classes of the simulator. Lexer and parser errors carry the source
      line they point at. `Crash` stands for a Python exception the program does
      not catch (a missing dictionary key, a failed `int()` conversion, an
      attribute of `None`): the simulator stops with a traceback. `Diverges`
      stands for a loop that never ends. */
  datatype Error =
    | IllegalChar(ln: int, details: string)
    | InvalidInstruction(ln: int, details: string)
    | UnexpectedValue(details: string)
    | RetError(details: string)
    | StackOverflow(details: string)
    | Crash(details: string)
    | Diverges(details: string)

  datatype Result<+T> = Ok(value: T) | Err(error: Error) {
    predicate IsFailure() { Err? }

    function PropagateFailure<U>(): Result<U>
      requires Err?
    {
      Err(error)
    }

    function Extract(): T
      requires Ok?
    {
      value
    }
  }

  /** The 16-bit number whose high byte is `hi` and low byte is `lo`. */
  function Join(hi: Byte, lo: Byte): (w: Word)
    ensures w / 256 == hi && w % 256 == lo
  {
    256 * hi + lo
  }

  // ------------------------------------------------------------ what a crash reports

  const ListIndexError := "IndexError: list index out of range"
  const ListAssignIndexError := "IndexError: list assignment index out of range"
  const StringIndexError := "IndexError: string index out of range"
  const IntLiteralError := "ValueError: invalid literal for int()"
  const IntHasNoValue := "AttributeError: 'int' object has no attribute 'value'"
  const IntHasNoSetValue := "AttributeError: 'int' object has no attribute 'set_value'"
  const RegisterAsNumber := "TypeError: a register object used as a number"
  const ParserHasNoToken := "AttributeError: 'Parser' object has no attribute 'tok'"
  const NoneHasNoLen := "TypeError: object of type 'NoneType' has no len()"
  const NoneHasNoType := "AttributeError: 'NoneType' object has no attribute 'type'"
  const NoneNotSubscriptable := "TypeError: 'NoneType' object is not subscriptable"
  const IntNotSubscriptable := "TypeError: 'int' object is not subscriptable"
  const IntNotIterable := "TypeError: argument of type 'int' is not iterable"
  const AndWithFloat := "TypeError: unsupported operand types for &: 'int' and 'float'"
  const FloatBitMask := "TypeError: a float bit mask"
  const StatusIsList := "TypeError: the status register holds a list"
  const StatusGetsNumber := "the status register would hold a number"
  const BitAboveSeven := "a bit number above 7 leaves the byte range"
  const NoSuchPointer := "TypeError: no pointer named"
  const NotAPointer := "KeyError: not a pointer"
  const ChrRangeError := "ValueError: chr() arg not in range(0x110000)"
  const RegisterOperandError := "ValueError: invalid register operand"
  const RegisterPairError := "ValueError: invalid register pair"
  const ImmediateRange := "an immediate outside 0..255"
  const NoneInString := "TypeError: 'in <string>' requires string as left operand, not NoneType"
  const ErrorHasNoType := "AttributeError: 'InvalidInstructionError' object has no attribute 'type'"
  const Unclassified := "unclassified identifier: the lexer returns no token and no error"
  const DataNeverEnds := "the data section never ends"
  const CompareStrInt := "TypeError: '>=' not supported between instances of 'str' and 'int'"
  const SubtractStr := "TypeError: unsupported operand type(s) for -: 'int' and 'str'"
}

=== FILE: bits.dfy ===
/** Binary strings as the simulator builds them with Python's `bin()`, and the
    numeric bit view used by the flag formulas. Strings are most significant
    bit first, as Python prints them. */
module Bits {
  import opened Base

  function Pow2(n: nat): (r: nat)
    ensures r >= 1
  {
    if n == 0 then 1 else 2 * Pow2(n - 1)
  }

  /** Bit `i` (0 = least significant) of a non-negative number. */
  predicate Bit(v: nat, i: nat) {
    if i == 0 then v % 2 == 1 else Bit(v / 2, i - 1)
  }

  function DigitChar(b: nat): (c: char)
    requires b < 2
    ensures c == '0' || c == '1'
  {
    if b == 0 then '0' else '1'
  }

  predicate IsBinary(s: string) {
    forall k :: 0 <= k < |s| ==> s[k] == '0' || s[k] == '1'
  }

  /** The value of a string of '0'/'1' characters, as `int(s, 2)` reads it. */
  function BinValue(s: string): (v: nat)
    requires IsBinary(s)
    ensures v < Pow2(|s|)
  {
    if s == [] then 0
    else (if s[0] == '1' then Pow2(|s| - 1) else 0) + BinValue(s[1..])
  }

  /** The digits of `bin(v)` after the `0b` prefix: "0" for zero, no leading zeros otherwise. */
  function Digits(v: nat): (s: string)
    ensures IsBinary(s) && |s| >= 1
    ensures v > 0 ==> s[0] == '1'
  {
    if v < 2 then [DigitChar(v)] else Digits(v / 2) + [DigitChar(v % 2)]
  }

  /** `bin(v)[2:]`: for a negative number Python prints `-0b…`, so the slice keeps the 'b'. */
  function BinTail(v: int): string {
    if v >= 0 then Digits(v) else "b" + Digits(-v)
  }

  function Zeros(n: nat): (s: string)
    ensures |s| == n && IsBinary(s)
    ensures forall k :: 0 <= k < n ==> s[k] == '0'
  {
    if n == 0 then [] else "0" + Zeros(n - 1)
  }

  /** Left-pads `s` with '0' up to length `n`; longer strings are kept as they are. */
  function PadLeft(s: string, n: nat): (r: string)
    ensures |r| == if |s| < n then n else |s|
    ensures r[|r| - |s|..] == s
    ensures forall k :: 0 <= k < |r| - |s| ==> r[k] == '0'
  {
    if |s| < n then Zeros(n - |s|) + s else s
  }

  /** `make_n_bit_binary(v, n)`: `bin(v)[2:]` padded to n characters, but when the
      digits are longer than n the FIRST n+1 of them are returned. */
  function MakeNBit(v: int, n: nat): string {
    var b := BinTail(v);
    if |b| > n then b[0..n + 1] else PadLeft(b, n)
  }

  /** `make_8_bit_binary` and `Register.get_bits`: padded to at least 8, never cut. */
  function Bits8(v: int): string {
    PadLeft(BinTail(v), 8)
  }

  /** `twos_comp(v, bits)`. */
  function TwosComp(v: int, bits: nat): string
    requires bits >= 1
  {
    if v >= 0 then "0" + MakeNBit(v, bits - 1)
    else "1" + PadLeft(BinTail(Pow2(bits - 1) + v), bits - 1)
  }

  /** The two's-complement reading of a bit string. */
  function TwosValue(s: string): int
    requires IsBinary(s)
  {
    if s != [] && s[0] == '1' then BinValue(s) - Pow2(|s|) else BinValue(s)
  }

  // ----------------------------------------------------------- arithmetic

  lemma {:induction false} MulAtLeast(p: int, k: int)
    requires p > 0 && k >= 1
    ensures p * k >= p
  {
    if k > 1 {
      MulAtLeast(p, k - 1);
      assert p * k == p * (k - 1) + p;
    }
  }

  lemma MulStep(p: int, a: int, b: int)
    requires p > 0
    ensures a > b ==> p * a >= p * b + p
  {
    if a > b {
      MulAtLeast(p, a - b);
      assert p * (a - b) == p * a - p * b;
    }
  }

  /** Euclidean division is determined by its quotient/remainder equation. */
  lemma DivUnique(a: int, p: int, q: int, r: int)
    requires p > 0 && 0 <= r < p && a == p * q + r
    ensures a / p == q && a % p == r
  {
    var q', r' := a / p, a % p;
    MulStep(p, q', q);
    MulStep(p, q, q');
  }

  lemma DivDiv(v: nat, p: nat)
    requires p > 0
    ensures (v / 2) / p == v / (2 * p)
  {
    var q, r := v / (2 * p), v % (2 * p);
    var m := p * q;
    assert v == 2 * m + r;
    DivUnique(v, 2, m + r / 2, r % 2);
    DivUnique(v / 2, p, q, r / 2);
  }

  /** The recursive bit is the usual `(v / 2^i) % 2`. */
  lemma {:induction false} BitDiv(v: nat, i: nat)
    ensures Bit(v, i) <==> (v / Pow2(i)) % 2 == 1
  {
    if i > 0 {
      BitDiv(v / 2, i - 1);
      DivDiv(v, Pow2(i - 1));
    }
  }

  /** Setting a clear bit by adding its weight changes that bit and no other. */
  lemma {:induction false} AddBit(b: nat, i: nat, j: nat)
    requires !Bit(b, i)
    ensures Bit(b + Pow2(i), i)
    ensures j != i ==> (Bit(b + Pow2(i), j) <==> Bit(b, j))
  {
    if i > 0 {
      assert (b + Pow2(i)) / 2 == b / 2 + Pow2(i - 1);
      AddBit(b / 2, i - 1, if j > 0 then j - 1 else 0);
    }
  }

  /** Clearing a set bit by subtracting its weight changes that bit and no other. */
  lemma {:induction false} SubBit(b: nat, i: nat, j: nat)
    requires Bit(b, i)
    ensures b >= Pow2(i) && !Bit(b - Pow2(i), i)
    ensures j != i ==> (Bit(b - Pow2(i), j) <==> Bit(b, j))
  {
    if i > 0 {
      SubBit(b / 2, i - 1, if j > 0 then j - 1 else 0);
      assert (b - Pow2(i)) / 2 == b / 2 - Pow2(i - 1);
    }
  }

  lemma Pow2Values()
    ensures Pow2(3) == 8 && Pow2(4) == 16 && Pow2(7) == 128
  {
    assert Pow2(1) == 2 && Pow2(2) == 4;
  }

  /** Bit 7 of a byte is its high half. */
  lemma TopBit(v: Byte)
    ensures Bit(v, 7) <==> v >= 128
  {
    BitDiv(v, 7);
    Pow2Values();
    DivUnique(v, 128, if v >= 128 then 1 else 0, if v >= 128 then v - 128 else v);
  }

  /** Bit 3 of a byte is the high half of its low nibble. */
  lemma MidBit(v: Byte)
    ensures Bit(v, 3) <==> v % 16 >= 8
  {
    BitDiv(v, 3);
    Pow2Values();
    var q := v / 8;
    DivUnique(v, 16, q / 2, 8 * (q % 2) + v % 8);
  }

  lemma {:induction false} BitAbove(v: nat, i: nat)
    requires v < Pow2(i)
    ensures !Bit(v, i)
  {
    if i > 0 { BitAbove(v / 2, i - 1); }
  }

  /** Counting from the right, the characters of `bin(v)` are the bits of v. */
  lemma {:induction false} DigitsBit(v: nat, i: nat)
    requires i < |Digits(v)|
    ensures Digits(v)[|Digits(v)| - 1 - i] == '1' <==> Bit(v, i)
  {
    if v >= 2 && i > 0 {
      DigitsBit(v / 2, i - 1);
      assert Digits(v)[|Digits(v)| - 1 - i] == Digits(v / 2)[|Digits(v / 2)| - 1 - (i - 1)];
    }
  }

  /** Character `7 - i` of the eight-character string is bit i: the simulator's
      `R[0]` is bit 7 and `R[4]` is bit 3. */
  lemma Bits8Bit(v: Byte, i: nat)
    requires i < 8
    ensures |Bits8(v)| == 8
    ensures Bits8(v)[7 - i] == '1' <==> Bit(v, i)
  {
    DigitsFit(v, 8);
    if i < |Digits(v)| { Bits8Digit(v, i); } else { Bits8Pad(v, i); }
  }

  lemma Bits8Digit(v: Byte, i: nat)
    requires i < |Digits(v)| <= 8
    ensures Bits8(v)[7 - i] == '1' <==> Bit(v, i)
  {
    Bits8Char(v, i);
    DigitsBit(v, i);
  }

  lemma Bits8Char(v: nat, i: nat)
    requires i < |Digits(v)| <= 8
    ensures |Bits8(v)| == 8 && Bits8(v)[7 - i] == Digits(v)[|Digits(v)| - 1 - i]
  {
    Bits8Pads(v);
    PaddedChar(Digits(v), 8, i);
  }

  lemma Bits8Pads(v: nat)
    ensures Bits8(v) == PadLeft(Digits(v), 8)
  {
  }

  lemma Bits8Pad(v: Byte, i: nat)
    requires |Digits(v)| <= i < 8
    ensures Bits8(v)[7 - i] == '0' && !Bit(v, i)
  {
    var d := Digits(v);
    PaddedZero(d, 8, i);
    DigitsValue(v);
    PowMono(|d|, i);
    BitAbove(v, i);
  }

  lemma PaddedChar(d: string, n: nat, i: nat)
    requires |d| <= n && i < |d|
    ensures PadLeft(d, n)[n - 1 - i] == d[|d| - 1 - i]
  {
    if |d| < n {
      assert PadLeft(d, n) == Zeros(n - |d|) + d;
    }
  }

  lemma PaddedZero(d: string, n: nat, i: nat)
    requires |d| <= i < n
    ensures PadLeft(d, n)[n - 1 - i] == '0'
  {
  }

  // ---------------------------------------------------------------- lemmas

  lemma {:induction false} BinValueAppend(s: string, c: char)
    requires IsBinary(s) && (c == '0' || c == '1')
    ensures IsBinary(s + [c])
    ensures BinValue(s + [c]) == 2 * BinValue(s) + (if c == '1' then 1 else 0)
  {
    if s == [] {
    } else {
      assert (s + [c])[1..] == s[1..] + [c];
      BinValueAppend(s[1..], c);
    }
  }

  /** Binary digits written after others shift them up by their own count. */
  lemma MulTwice(x: int, y: int)
    ensures 2 * (x * y) == x * (2 * y)
  {
  }

  lemma {:induction false} BinValueConcat(a: string, b: string)
    requires IsBinary(a) && IsBinary(b)
    ensures IsBinary(a + b)
    ensures BinValue(a + b) == BinValue(a) * Pow2(|b|) + BinValue(b)
    decreases |b|
  {
    if b == [] {
      assert a + b == a;
    } else {
      var front, c := b[..|b| - 1], b[|b| - 1];
      assert b == front + [c];
      assert a + b == (a + front) + [c];
      BinValueConcat(a, front);
      BinValueAppend(a + front, c);
      BinValueAppend(front, c);
      var va, p := BinValue(a), Pow2(|front|);
      assert Pow2(|b|) == 2 * p;
      MulTwice(va, p);
    }
  }

  lemma {:induction false} BinValueZeros(z: string, s: string)
    requires IsBinary(s) && IsBinary(z)
    requires forall k :: 0 <= k < |z| ==> z[k] == '0'
    ensures IsBinary(z + s) && BinValue(z + s) == BinValue(s)
  {
    if z != [] {
      assert (z + s)[1..] == z[1..] + s;
      assert (z + s)[0] == '0';
      assert forall k :: 0 <= k < |z[1..]| ==> z[1..][k] == z[k + 1];
      BinValueZeros(z[1..], s);
      assert BinValue(z + s) == BinValue((z + s)[1..]);
    } else {
      assert z + s == s;
    }
  }

  /** `int(bin(v)[2:], 2) == v`, and the digit count is the bit length. */
  lemma {:induction false} DigitsValue(v: nat)
    ensures BinValue(Digits(v)) == v
    ensures v > 0 ==> Pow2(|Digits(v)| - 1) <= v
  {
    if v >= 2 {
      DigitsValue(v / 2);
      BinValueAppend(Digits(v / 2), DigitChar(v % 2));
    }
  }

  lemma DigitsFit(v: nat, n: nat)
    requires v < Pow2(n) && n >= 1
    ensures |Digits(v)| <= n
  {
    DigitsValue(v);
    if |Digits(v)| > n {
      PowMono(n, |Digits(v)| - 1);
    }
  }

  lemma DigitsOverflow(v: nat, n: nat)
    requires v >= Pow2(n)
    ensures |Digits(v)| > n
  {
    DigitsValue(v);
  }

  lemma {:induction false} PowMono(a: nat, b: nat)
    requires a <= b
    ensures Pow2(a) <= Pow2(b)
  {
    if a < b { PowMono(a, b - 1); }
  }

  /** Padding with zeros keeps the value. */
  lemma PadValue(s: string, n: nat)
    requires IsBinary(s)
    ensures IsBinary(PadLeft(s, n)) && BinValue(PadLeft(s, n)) == BinValue(s)
  {
    if |s| < n { BinValueZeros(Zeros(n - |s|), s); }
  }

  /** For a value that fits, `make_n_bit_binary` is an n-character binary string of that value. */
  lemma MakeNBitFits(v: nat, n: nat)
    requires v < Pow2(n) && n >= 1
    ensures |MakeNBit(v, n)| == n && IsBinary(MakeNBit(v, n))
    ensures BinValue(MakeNBit(v, n)) == v
  {
    DigitsFit(v, n);
    DigitsValue(v);
    PadValue(Digits(v), n);
  }

  /** For a value that does not fit, `make_n_bit_binary` returns n+1 characters, not n. */
  lemma MakeNBitOverflow(v: nat, n: nat)
    requires v >= Pow2(n)
    ensures |MakeNBit(v, n)| == n + 1
  {
    DigitsOverflow(v, n);
  }

  /** `get_bits`: an 8-character string whose binary value is the register's value. */
  lemma Bits8Value(v: Byte)
    ensures |Bits8(v)| == 8 && IsBinary(Bits8(v)) && BinValue(Bits8(v)) == v
  {
    DigitsFit(v, 8);
    DigitsValue(v);
    PadValue(Digits(v), 8);
  }

  /** `twos_comp(v, bits)` is a bits-wide string whose two's-complement value is v,
      for every v the width can represent. */
  lemma TwosCompRoundTrip(v: int, bits: nat)
    requires bits >= 2 && -(Pow2(bits - 1) as int) <= v < Pow2(bits - 1)
    ensures |TwosComp(v, bits)| == bits && IsBinary(TwosComp(v, bits))
    ensures TwosValue(TwosComp(v, bits)) == v
  {
    if v >= 0 {
      TwosCompPositive(v, bits);
    } else {
      TwosCompNegative(v, bits);
    }
  }

  lemma TwosCompPositive(v: nat, bits: nat)
    requires bits >= 2 && v < Pow2(bits - 1)
    ensures |TwosComp(v, bits)| == bits && IsBinary(TwosComp(v, bits))
    ensures TwosValue(TwosComp(v, bits)) == v
  {
    var t := MakeNBit(v, bits - 1);
    MakeNBitFits(v, bits - 1);
    PositiveShape(v, bits);
    BinValueLead('0', t);
  }

  lemma PositiveShape(v: nat, bits: nat)
    requires bits >= 1
    ensures TwosComp(v, bits) == "0" + MakeNBit(v, bits - 1)
  {
  }

  lemma TwosCompNegative(v: int, bits: nat)
    requires bits >= 2 && -(Pow2(bits - 1) as int) <= v < 0
    ensures |TwosComp(v, bits)| == bits && IsBinary(TwosComp(v, bits))
    ensures TwosValue(TwosComp(v, bits)) == v
  {
    var u: nat := Pow2(bits - 1) + v;
    var t := PadLeft(Digits(u), bits - 1);
    PaddedDigits(u, bits - 1);
    NegativeShape(v, bits);
    BinValueLead('1', t);
    assert Pow2(bits) == 2 * Pow2(bits - 1);
  }

  lemma NegativeShape(v: int, bits: nat)
    requires bits >= 1 && -(Pow2(bits - 1) as int) <= v < 0
    ensures TwosComp(v, bits) == "1" + PadLeft(Digits(Pow2(bits - 1) + v), bits - 1)
  {
  }

  /** The digits of a value that fits, padded to the width, read back as it. */
  lemma PaddedDigits(u: nat, n: nat)
    requires n >= 1 && u < Pow2(n)
    ensures var t := PadLeft(Digits(u), n); |t| == n && IsBinary(t) && BinValue(t) == u
  {
    DigitsFit(u, n);
    DigitsValue(u);
    PadValue(Digits(u), n);
  }

  /** A leading binary digit adds its weight. */
  lemma BinValueLead(c: char, t: string)
    requires (c == '0' || c == '1') && IsBinary(t)
    ensures IsBinary([c] + t) && |[c] + t| == |t| + 1
    ensures BinValue([c] + t) == (if c == '1' then Pow2(|t|) else 0) + BinValue(t)
  {
    assert ([c] + t)[1..] == t;
  }
}

=== FILE: directives.dfy ===
/** The data directives' argument readers that both parsers share: `.byte`
    lists, `.string`/`.ascii`/`.asciz` operands and the fill of `.space`. */
module Directives {
  import opened Base
  import opened Tokens
  import opened Syntax

  predicate ShapedLine(line: seq<Token>) {
    forall t :: t in line ==> Shaped(t)
  }

  /** The integer an `INT` token carries. */
  function NumOf(t: Token): int {
    if t.value.Num? then t.value.n else 0
  }

  /** The text a name, label, directive or string token carries. */
  function TextOf(t: Token): string {
    if t.value.Text? then t.value.s else ""
  }

  /** The shape `.byte` accepts: integers separated by single commas, at least
      one integer, no trailing comma. */
  predicate ByteSyntax(s: seq<Token>) {
    |s| % 2 == 1 &&
    forall i :: 0 <= i < |s| ==> s[i].kind == (if i % 2 == 0 then INT else COMMA)
  }

  /** `ByteSyntax` one integer (and comma) at a time. */
  lemma ByteSyntaxStep(s: seq<Token>)
    ensures ByteSyntax(s) <==>
              |s| >= 1 && s[0].kind == INT && (|s| == 1 || (s[1].kind == COMMA && ByteSyntax(s[2..])))
  {
    if |s| >= 2 && s[0].kind == INT && s[1].kind == COMMA && ByteSyntax(s[2..]) {
      forall i | 2 <= i < |s|
        ensures s[i].kind == (if i % 2 == 0 then INT else COMMA)
      {
        assert s[i] == s[2..][i - 2];
      }
    }
  }

  /** The `.byte` values from token `t` on, where an integer is expected; the
      current parser reduces each modulo 256 (`wrap`), the older one keeps it.
      The first token out of place is the error, and a line that ends where an
      integer is due ends "with a comma". */
  function ByteValues(line: seq<Token>, t: nat, wrap: bool, lineNums: seq<int>, k: int): (r: Result<seq<int>>)
    requires ShapedLine(line) && t <= |line|
    ensures r.Ok? <==> ByteSyntax(line[t..])
    ensures r.Ok? ==> |r.value| == (|line| - t + 1) / 2
    ensures r.Ok? ==> forall i :: 0 <= i < |r.value| ==>
              r.value[i] == (if wrap then NumOf(line[t + 2 * i]) % 256 else NumOf(line[t + 2 * i]))
    decreases |line| - t
  {
    ByteSyntaxStep(line[t..]);
    if t >= |line| then LineError(lineNums, k, TrailingComma)
    else if line[t].kind != INT then
      GluedError(lineNums, k, "Expected integer, instead got '", line[t].value, "'")
    else
      assert line[t] in line;
      var v := if wrap then line[t].value.n % 256 else line[t].value.n;
      if t + 1 >= |line| then Ok([v])
      else if line[t + 1].kind != COMMA then
        GluedError(lineNums, k, "Expected comma, instead got '", line[t + 1].value, "'")
      else
        assert line[t..][2..] == line[t + 2..];
        var rest :- ByteValues(line, t + 2, wrap, lineNums, k);
        Ok([v] + rest)
  }

  /** The data bytes of `.string`, `.ascii` and `.asciz` operands from token `t`
      on: every operand must be a string or a comma, and each string adds its
      decoded characters. */
  function StringValues(line: seq<Token>, t: nat, lineNums: seq<int>, k: int): (r: Result<seq<int>>)
    requires ShapedLine(line) && t <= |line|
    ensures r.Ok? ==> forall i :: t <= i < |line| ==> line[i].kind in {STR, COMMA}
    decreases |line| - t
  {
    if t >= |line| then Ok([])
    else if line[t].kind !in {STR, COMMA} then
      LineError(lineNums, k, "'" + ShowValue(line[t].value) + "'" + " is not a string")
    else
      assert line[t] in line;
      var here :- if line[t].kind == STR then Decode(line[t].value.s, 0, false) else Ok([]);
      var rest :- StringValues(line, t + 1, lineNums, k);
      Ok(here + rest)
  }

  /** A string operand written with escapes contributes exactly the codes of
      the characters it denotes. */
  lemma StringOperand(line: seq<Token>, t: nat, lineNums: seq<int>, k: int, s: string)
    requires ShapedLine(line) && t < |line| && line[t] == Token(STR, Text(EscapeAll(s)))
    requires StringValues(line, t + 1, lineNums, k).Ok?
    ensures StringValues(line, t, lineNums, k) ==
              Ok(Codes(s) + StringValues(line, t + 1, lineNums, k).value)
  {
    assert EscapeAll(s) + [] == EscapeAll(s);
    DecodeEscaped(s, []);
    assert Decode([], 0, false) == Ok([]);
    assert Codes(s) + [] == Codes(s);
    assert Decode(EscapeAll(s), 0, false) == Ok(Codes(s));
  }

  /** `range(n)` copies of `v`: none when `n` is not positive. */
  function Fill(n: int, v: int): (r: seq<int>)
    ensures |r| == (if n > 0 then n else 0) && forall i :: 0 <= i < |r| ==> r[i] == v
  {
    seq(if n > 0 then n else 0, _ => v)
  }
}

=== FILE: encoder.dfy ===
/** `get_binary_instruction`: an instruction's machine words as strings of
    binary digits, most significant bit first. Each mnemonic fills a fixed
    opcode template of the AVR Instruction Set Manual with its operands' bits,
    and each operand is read the way the interpreter reads it: a register by
    the number after its first character, a number as it stands. */
module Encoder {
  import opened Base
  import opened Program
  import opened Alu
  import opened Exec
  import opened Bits

  /** The simulator's encoder, or the library's copy: the library has no entry
      for the mnemonics in `SimulatorOnly` and writes `LDS`/`STS` as one
      32-character string rather than a list of two words. */
  datatype Edition = Simulator | Library

  // ------------------------------------------------------------ operands

  type Width = n: nat | n >= 1 witness 1

  /** How a template reads one operand. `i` indexes the operands, one less
      than the index into the instruction list; `n` is the width asked of
      `make_n_bit_binary` or `twos_comp`.
      - `Reg`: the register's number.
      - `Num`: the number itself.
      - `Inverse`: 255 minus the number, which must be a Python int.
      - `PairIndex`: which of R24, R26, R28, R30 the register is, as
        `int((d - 24) / 2)` computes it.
      - `Offset`: a signed offset in two's complement; it must be an int.
      - `Spelled`: a pointer operand, kept as it is spelled. */
  datatype Read =
    | Reg(i: nat, n: nat)
    | Num(i: nat, n: nat)
    | Inverse(i: nat, n: nat)
    | PairIndex(i: nat, n: nat)
    | Offset(i: nat, w: Width)
    | Spelled(i: nat)

  /** Python's `int(x / 2)`: true division, then truncation toward zero. */
  function TruncHalf(x: int): (h: int)
    ensures x >= 0 ==> h == x / 2
    ensures x < 0 ==> h == -((-x) / 2)
  {
    if x >= 0 then x / 2 else -((-x) / 2)
  }

  /** One operand as the template needs it. A number compared with a pointer
      spelling never matches, so it reads as the empty spelling. */
  function ReadField(rd: Read, ops: seq<Operand>): Result<string> {
    match rd
    case Reg(i, n) =>
      var x :- RegNumber(ops, i);
      Ok(MakeNBit(x, n))
    case Num(i, n) =>
      var x :- Number(ops, i);
      Ok(MakeNBit(x, n))
    case Inverse(i, n) =>
      var o :- OperandAt(ops, i);
      if o.OInt? then Ok(MakeNBit(255 - o.n, n)) else Err(Crash(SubtractStr))
    case PairIndex(i, n) =>
      var x :- RegNumber(ops, i);
      Ok(MakeNBit(TruncHalf(x - 24), n))
    case Offset(i, w) =>
      var o :- OperandAt(ops, i);
      if o.OInt? then Ok(TwosComp(o.n, w)) else Err(Crash(CompareStrInt))
    case Spelled(i) =>
      var o :- OperandAt(ops, i);
      Ok(if o.OStr? then o.s else "")
  }

  /** The template's operands read left to right, as the source computes its
      local variables: the first read that raises is the instruction's error. */
  function ReadAll(plan: seq<Read>, ops: seq<Operand>): (r: Result<seq<string>>)
    ensures r.Ok? ==> |r.value| == |plan|
  {
    if plan == [] then Ok([])
    else
      var x :- ReadField(plan[0], ops);
      var rest :- ReadAll(plan[1..], ops);
      assert forall k :: 1 <= k < |plan| ==> plan[k] == plan[1..][k - 1];
      Ok([x] + rest)
  }

  // ------------------------------------------------------------ shapes

  /** The templates of the encoder's entries. Codes are the fixed opcode bits
      around the operands; the comment on each gives the word it builds. */
  datatype Shape =
    | TwoReg(code: string)                    // code + r[0] + d + r[1:]
    | SameReg(code: string)                   // code + d[0] + d + d[1:]
    | OneReg(pre: string, at: nat, post: string) // pre + d + post, d from operand `at`
    | Imm(code: string, inverted: bool)       // code + K[0:4] + d[1:] + K[4:]
    | Ser                                     // 11101111 + d[1:] + 1111
    | Movw                                    // 00000001 + d[:4] + r[:4]
    | Muls                                    // 00000010 + d[1:] + r[1:]
    | Mulsu                                   // 000000110 + d[2:] + 0 + r[2:]
    | Branch(clear: string, bit: string)      // 11110 + clear + k + bit
    | BitBranch(clear: string)                // 11110 + clear + k + s
    | Fixed(word: string)
    | Status(pre: string)                     // pre + s + 1000
    | Far(mid: string, printf: bool)          // [1001010 + k[0:5] + mid + k[5], k[6:]]
    | IoBit(pre: string)                      // pre + A + b
    | RegBit(pre: string)                     // pre + r + 0 + b
    | Port(input: bool)                       // 1011 + (0 | 1) + A[0:2] + r + A[2:]
    | Pointer(load: bool)                     // lead + (000 | 001) + r + tail
    | Displaced(load: bool)                   // 10 + q[0] + 0 + q[1:3] + (0 | 1) + r + y + q[3:]
    | Direct(load: bool)                      // 100100 + (0 | 1) + r + 0000, then k
    | WordImm(pre: string)                    // pre + K[0:2] + d + K[2:]
    | Rjmp                                    // 1100 + k

  /** A mnemonic's entry: its template, and whether the library's copy of the
      encoder has it too. */
  datatype Entry = Entry(shape: Shape, everywhere: bool)

  function Everywhere(s: Shape): Option<Entry> {
    Some(Entry(s, true))
  }

  function SimulatorOnly(s: Shape): Option<Entry> {
    Some(Entry(s, false))
  }

  /**
   * `get_binary_instruction`'s chain of cases, one entry per mnemonic,
   * dispatched on the first letter (and, for the
   * crowded letters, the second) so that a lookup compares few strings.
   */
  function Table(name: string): Option<Entry> {
    if |name| < 2 then None
    else match name[0]
      case 'A' => TableA(name)
      case 'B' => TableB(name)
      case 'C' => TableC(name)
      case 'D' => TableD(name)
      case 'E' => TableE(name)
      case 'I' => TableI(name)
      case 'J' => TableJ(name)
      case 'L' => TableL(name)
      case 'M' => TableM(name)
      case 'N' => TableN(name)
      case 'O' => TableO(name)
      case 'P' => TableP(name)
      case 'R' => TableR(name)
      case 'S' => TableS(name)
      case 'T' => TableT(name)
      case 'X' => TableX(name)
      case _ => None
  }

  /** Mnemonics starting with `A`. */
  function TableA(name: string): Option<Entry> {
    if name == "ADC" then Everywhere(TwoReg("000111"))
    else if name == "ADD" then Everywhere(TwoReg("000011"))
    else if name == "ADIW" then SimulatorOnly(WordImm("10010110"))
    else if name == "AND" then Everywhere(TwoReg("001000"))
    else if name == "ANDI" then Everywhere(Imm("0111", false))
    else if name == "ASR" then SimulatorOnly(OneReg("1001010", 0, "0101"))
    else None
  }

  /** Mnemonics starting with `B`, dispatched on the second letter. */
  function TableB(name: string): Option<Entry>
    requires |name| >= 2
  {
    match name[1]
      case 'C' => TableBC(name)
      case 'R' => TableBR(name)
      case 'S' => TableBS(name)
      case _ => None
  }

  /** Mnemonics starting with `BC`. */
  function TableBC(name: string): Option<Entry> {
    if name == "BCLR" then Everywhere(Status("100101001"))
    else None
  }

  /** Mnemonics starting with `BR`. */
  function TableBR(name: string): Option<Entry> {
    if name == "BRBC" then Everywhere(BitBranch("1"))
    else if name == "BRBS" then Everywhere(BitBranch("0"))
    else if name == "BRCC" then Everywhere(Branch("1", "000"))
    else if name == "BRCS" then Everywhere(Branch("0", "000"))
    else if name == "BREQ" then Everywhere(Branch("0", "001"))
    else if name == "BRGE" then Everywhere(Branch("1", "100"))
    else if name == "BRHC" then Everywhere(Branch("1", "101"))
    else if name == "BRHS" then Everywhere(Branch("0", "101"))
    else if name == "BRID" then Everywhere(Branch("1", "111"))
    else if name == "BRIE" then Everywhere(Branch("0", "111"))
    else if name == "BRLO" then Everywhere(Branch("0", "000"))
    else if name == "BRLT" then Everywhere(Branch("0", "100"))
    else if name == "BRMI" then Everywhere(Branch("0", "010"))
    else if name == "BRNE" then Everywhere(Branch("1", "001"))
    else if name == "BRPL" then Everywhere(Branch("1", "010"))
    else if name == "BRSH" then Everywhere(Branch("1", "000"))
    else if name == "BRTC" then Everywhere(Branch("1", "110"))
    else if name == "BRTS" then Everywhere(Branch("0", "110"))
    else if name == "BRVC" then Everywhere(Branch("1", "011"))
    else if name == "BRVS" then Everywhere(Branch("0", "011"))
    else None
  }

  /** Mnemonics starting with `BS`. */
  function TableBS(name: string): Option<Entry> {
    if name == "BSET" then Everywhere(Status("100101000"))
    else None
  }

  /** Mnemonics starting with `C`, dispatched on the second letter. */
  function TableC(name: string): Option<Entry>
    requires |name| >= 2
  {
    match name[1]
      case 'A' => TableCA(name)
      case 'B' => TableCB(name)
      case 'L' => TableCL(name)
      case 'O' => TableCO(name)
      case 'P' => TableCP(name)
      case _ => None
  }

  /** Mnemonics starting with `CA`. */
  function TableCA(name: string): Option<Entry> {
    if name == "CALL" then Everywhere(Far("111", true))
    else None
  }

  /** Mnemonics starting with `CB`. */
  function TableCB(name: string): Option<Entry> {
    if name == "CBI" then Everywhere(IoBit("10011000"))
    else if name == "CBR" then Everywhere(Imm("0111", true))
    else None
  }

  /** Mnemonics starting with `CL`. */
  function TableCL(name: string): Option<Entry> {
    if name == "CLC" then Everywhere(Fixed("1001010010001000"))
    else if name == "CLH" then Everywhere(Fixed("1001010011011000"))
    else if name == "CLI" then Everywhere(Fixed("1001010011111000"))
    else if name == "CLN" then Everywhere(Fixed("1001010010101000"))
    else if name == "CLR" then Everywhere(SameReg("001001"))
    else if name == "CLS" then Everywhere(Fixed("1001010011001000"))
    else if name == "CLT" then Everywhere(Fixed("1001010011101000"))
    else if name == "CLV" then Everywhere(Fixed("1001010010111000"))
    else if name == "CLZ" then Everywhere(Fixed("1001010010011000"))
    else None
  }

  /** Mnemonics starting with `CO`. */
  function TableCO(name: string): Option<Entry> {
    if name == "COM" then Everywhere(OneReg("1001010", 0, "0000"))
    else None
  }

  /** Mnemonics starting with `CP`. */
  function TableCP(name: string): Option<Entry> {
    if name == "CP" then Everywhere(TwoReg("000101"))
    else if name == "CPC" then Everywhere(TwoReg("000001"))
    else if name == "CPI" then Everywhere(Imm("0011", false))
    else None
  }

  /** Mnemonics starting with `D`. */
  function TableD(name: string): Option<Entry> {
    if name == "DEC" then Everywhere(OneReg("1001010", 0, "1010"))
    else None
  }

  /** Mnemonics starting with `E`. */
  function TableE(name: string): Option<Entry> {
    if name == "EOR" then Everywhere(TwoReg("001001"))
    else None
  }

  /** Mnemonics starting with `I`. */
  function TableI(name: string): Option<Entry> {
    if name == "IN" then Everywhere(Port(true))
    else if name == "INC" then Everywhere(OneReg("1001010", 0, "0011"))
    else None
  }

  /** Mnemonics starting with `J`. */
  function TableJ(name: string): Option<Entry> {
    if name == "JMP" then Everywhere(Far("110", false))
    else None
  }

  /** Mnemonics starting with `L`. */
  function TableL(name: string): Option<Entry> {
    if name == "LD" then Everywhere(Pointer(true))
    else if name == "LDD" then Everywhere(Displaced(true))
    else if name == "LDI" then Everywhere(Imm("1110", false))
    else if name == "LDS" then Everywhere(Direct(true))
    else if name == "LSL" then Everywhere(SameReg("000011"))
    else if name == "LSR" then Everywhere(OneReg("1001010", 0, "0110"))
    else None
  }

  /** Mnemonics starting with `M`. */
  function TableM(name: string): Option<Entry> {
    if name == "MOV" then Everywhere(TwoReg("001011"))
    else if name == "MOVW" then SimulatorOnly(Movw)
    else if name == "MUL" then Everywhere(TwoReg("100111"))
    else if name == "MULS" then Everywhere(Muls)
    else if name == "MULSU" then Everywhere(Mulsu)
    else None
  }

  /** Mnemonics starting with `N`. */
  function TableN(name: string): Option<Entry> {
    if name == "NEG" then Everywhere(OneReg("1001010", 0, "0001"))
    else if name == "NOP" then Everywhere(Fixed("0000000000000000"))
    else None
  }

  /** Mnemonics starting with `O`. */
  function TableO(name: string): Option<Entry> {
    if name == "OR" then Everywhere(TwoReg("001010"))
    else if name == "ORI" then Everywhere(Imm("0110", false))
    else if name == "OUT" then Everywhere(Port(false))
    else None
  }

  /** Mnemonics starting with `P`. */
  function TableP(name: string): Option<Entry> {
    if name == "POP" then Everywhere(OneReg("1001000", 0, "1111"))
    else if name == "PUSH" then Everywhere(OneReg("1001001", 0, "1111"))
    else None
  }

  /** Mnemonics starting with `R`. */
  function TableR(name: string): Option<Entry> {
    if name == "RET" then Everywhere(Fixed("1001010100001000"))
    else if name == "RJMP" then SimulatorOnly(Rjmp)
    else if name == "ROL" then Everywhere(SameReg("000111"))
    else if name == "ROR" then Everywhere(OneReg("1001010", 0, "0111"))
    else None
  }

  /** Mnemonics starting with `S`, dispatched on the second letter. */
  function TableS(name: string): Option<Entry>
    requires |name| >= 2
  {
    match name[1]
      case 'B' => TableSB(name)
      case 'E' => TableSE(name)
      case 'T' => TableST(name)
      case 'U' => TableSU(name)
      case 'W' => TableSW(name)
      case _ => None
  }

  /** Mnemonics starting with `SB`. */
  function TableSB(name: string): Option<Entry> {
    if name == "SBC" then Everywhere(TwoReg("000010"))
    else if name == "SBI" then Everywhere(IoBit("10011010"))
    else if name == "SBIW" then SimulatorOnly(WordImm("10010111"))
    else if name == "SBR" then Everywhere(Imm("0110", false))
    else if name == "SBRC" then SimulatorOnly(RegBit("1111110"))
    else if name == "SBRS" then SimulatorOnly(RegBit("1111111"))
    else None
  }

  /** Mnemonics starting with `SE`. */
  function TableSE(name: string): Option<Entry> {
    if name == "SEC" then Everywhere(Fixed("1001010000001000"))
    else if name == "SEH" then Everywhere(Fixed("1001010001011000"))
    else if name == "SEI" then Everywhere(Fixed("1001010001111000"))
    else if name == "SEN" then Everywhere(Fixed("1001010000101000"))
    else if name == "SER" then Everywhere(Ser)
    else if name == "SES" then Everywhere(Fixed("1001010001001000"))
    else if name == "SET" then Everywhere(Fixed("1001010001101000"))
    else if name == "SEV" then Everywhere(Fixed("1001010000111000"))
    else if name == "SEZ" then Everywhere(Fixed("1001010000011000"))
    else None
  }

  /** Mnemonics starting with `ST`. */
  function TableST(name: string): Option<Entry> {
    if name == "ST" then Everywhere(Pointer(false))
    else if name == "STD" then Everywhere(Displaced(false))
    else if name == "STS" then Everywhere(Direct(false))
    else None
  }

  /** Mnemonics starting with `SU`. */
  function TableSU(name: string): Option<Entry> {
    if name == "SUB" then Everywhere(TwoReg("000110"))
    else if name == "SUBI" then Everywhere(Imm("0101", false))
    else None
  }

  /** Mnemonics starting with `SW`. */
  function TableSW(name: string): Option<Entry> {
    if name == "SWAP" then Everywhere(OneReg("1001010", 0, "0010"))
    else None
  }

  /** Mnemonics starting with `T`. */
  function TableT(name: string): Option<Entry> {
    if name == "TST" then SimulatorOnly(SameReg("001000"))
    else None
  }

  /** Mnemonics starting with `X`. */
  function TableX(name: string): Option<Entry> {
    if name == "XCH" then Everywhere(OneReg("1001001", 1, "0100"))
    else None
  }

  /** `CALL PRINTF`'s two words. */
  const PrintfWords: seq<string> := ["1001010111111111", "1111111111111111"]

  /** A pointer spelling's first four bits and last four in `LD`/`ST`. */
  function PointerCode(p: string): Option<(string, string)> {
    if p == "X" then Some(("1001", "1100")) else if p == "X+" then Some(("1001", "1101"))
    else if p == "-X" then Some(("1001", "1110")) else if p == "Y" then Some(("1000", "1000"))
    else if p == "Y+" then Some(("1001", "1001")) else if p == "-Y" then Some(("1001", "1010"))
    else if p == "Z" then Some(("1000", "0000")) else if p == "Z+" then Some(("1001", "0001"))
    else if p == "-Z" then Some(("1001", "0010")) else None
  }

  /** The displacement pointer's bit in `LDD`/`STD`. */
  function DisplacedCode(p: string): Option<string> {
    if p == "Y+" then Some("1") else if p == "Z+" then Some("0") else None
  }

  // ------------------------------------------------------------ templates

  /** The operands each template reads, in the order the source reads them.
      Every template but the loads and stores and `OUT`/`STS` reads the
      register first; `ST`, `STD`, `OUT` and `STS` follow their operand order. */
  function PlanOf(s: Shape): seq<Read> {
    match s
    case TwoReg(_) => [Reg(0, 5), Reg(1, 5)]
    case Movw => [Reg(0, 5), Reg(1, 5)]
    case Muls => [Reg(0, 5), Reg(1, 5)]
    case Mulsu => [Reg(0, 5), Reg(1, 5)]
    case SameReg(_) => [Reg(0, 5)]
    case Ser => [Reg(0, 5)]
    case OneReg(_, at, _) => [Reg(at, 5)]
    case Imm(_, inverted) => [Reg(0, 5), if inverted then Inverse(1, 8) else Num(1, 8)]
    case Branch(_, _) => [Offset(0, 7)]
    case BitBranch(_) => [Num(0, 3), Offset(1, 7)]
    case Fixed(_) => []
    case Status(_) => [Num(0, 3)]
    case Far(_, _) => [Num(0, 22)]
    case IoBit(_) => [Num(0, 5), Num(1, 3)]
    case RegBit(_) => [Reg(0, 5), Num(1, 3)]
    case Port(input) => if input then [Reg(0, 5), Num(1, 6)] else [Num(0, 6), Reg(1, 5)]
    case Pointer(load) => if load then [Reg(0, 5), Spelled(1)] else [Reg(1, 5), Spelled(0)]
    case Displaced(load) =>
      if load then [Reg(0, 5), Num(2, 6), Spelled(1)] else [Reg(2, 5), Num(1, 6), Spelled(0)]
    case Direct(load) => if load then [Reg(0, 5), Num(1, 16)] else [Num(0, 16), Reg(1, 5)]
    case WordImm(_) => [PairIndex(0, 2), Num(1, 6)]
    case Rjmp => [Offset(0, 12)]
  }

  /** Python's `s[lo:hi]`, clamped to the string. */
  function Cut(s: string, lo: nat, hi: nat): (r: string)
    ensures lo <= hi <= |s| ==> r == s[lo..hi]
  {
    var h := if hi <= |s| then hi else |s|;
    var l := if lo <= h then lo else h;
    s[l..h]
  }

  /** Python's `s[lo:]`. */
  function From(s: string, lo: nat): (r: string)
    ensures lo <= |s| ==> r == s[lo..]
  {
    Cut(s, lo, |s|)
  }

  function One(w: string): Option<seq<string>> {
    Some([w])
  }

  /** The words a template makes of its read operands `f`, in `PlanOf`'s
      order; `None` for a pointer spelling the source has no branch for. */
  function Layout(e: Edition, s: Shape, f: seq<string>): (r: Option<seq<string>>)
    requires |f| == |PlanOf(s)|
    ensures r.Some? ==> 1 <= |r.value| <= 2
  {
    match s
    case TwoReg(code) => One(code + Cut(f[1], 0, 1) + f[0] + From(f[1], 1))
    case SameReg(code) => One(code + Cut(f[0], 0, 1) + f[0] + From(f[0], 1))
    case OneReg(pre, _, post) => One(pre + f[0] + post)
    case Imm(code, _) => One(code + Cut(f[1], 0, 4) + From(f[0], 1) + From(f[1], 4))
    case Ser => One("11101111" + From(f[0], 1) + "1111")
    case Movw => One("00000001" + Cut(f[0], 0, 4) + Cut(f[1], 0, 4))
    case Muls => One("00000010" + From(f[0], 1) + From(f[1], 1))
    case Mulsu => One("000000110" + From(f[0], 2) + "0" + From(f[1], 2))
    case Branch(c, b) => One("11110" + c + f[0] + b)
    case BitBranch(c) => One("11110" + c + f[1] + f[0])
    case Fixed(w) => One(w)
    case Status(pre) => One(pre + f[0] + "1000")
    case Far(mid, _) => Some(["1001010" + Cut(f[0], 0, 5) + mid + Cut(f[0], 5, 6), From(f[0], 6)])
    case IoBit(pre) => One(pre + f[0] + f[1])
    case RegBit(pre) => One(pre + f[0] + "0" + f[1])
    case Port(input) =>
      if input then One("10110" + Cut(f[1], 0, 2) + f[0] + From(f[1], 2))
      else One("10111" + Cut(f[0], 0, 2) + f[1] + From(f[0], 2))
    case Pointer(load) =>
      var code := PointerCode(f[1]);
      if code.None? then None
      else One(code.value.0 + (if load then "000" else "001") + f[0] + code.value.1)
    case Displaced(load) =>
      var y := DisplacedCode(f[2]);
      if y.None? then None
      else One("10" + Cut(f[1], 0, 1) + "0" + Cut(f[1], 1, 3) + (if load then "0" else "1") + f[0] + y.value + From(f[1], 3))
    case Direct(load) =>
      var (d, k) := if load then (f[0], f[1]) else (f[1], f[0]);
      var first := (if load then "1001000" else "1001001") + d + "0000";
      if e == Library then One(first + k) else Some([first, k])
    case WordImm(pre) => One(pre + Cut(f[1], 0, 2) + f[0] + From(f[1], 2))
    case Rjmp => One("1100" + f[0])
  }

  /** A template filled from the operands: the first read that raises is the
      error, otherwise the layout of what was read. */
  function Laid(e: Edition, s: Shape, ops: seq<Operand>): (r: Result<Option<seq<string>>>)
    ensures r.Ok? <==> ReadAll(PlanOf(s), ops).Ok?
    ensures r.Ok? ==> r.value == Layout(e, s, ReadAll(PlanOf(s), ops).value)
    ensures r.Err? ==> r.error == ReadAll(PlanOf(s), ops).error
  {
    var f :- ReadAll(PlanOf(s), ops);
    Ok(Layout(e, s, f))
  }

  /** `CALL` looks at its first operand before anything else: `PRINTF` has
      its own pair of words, and a missing operand raises. */
  function Fill(e: Edition, s: Shape, ops: seq<Operand>): (r: Result<Option<seq<string>>>)
    ensures !(s.Far? && s.printf) ==> r == Laid(e, s, ops)
    ensures s.Far? && s.printf && |ops| == 0 ==> r == Err(Crash(ListIndexError))
    ensures s.Far? && s.printf && |ops| > 0 && ops[0] == OStr("PRINTF") ==> r == Ok(Some(PrintfWords))
    ensures s.Far? && s.printf && |ops| > 0 && ops[0] != OStr("PRINTF") ==> r == Laid(e, s, ops)
  {
    if s.Far? && s.printf then
      var o :- OperandAt(ops, 0);
      if o == OStr("PRINTF") then Ok(Some(PrintfWords)) else Laid(e, s, ops)
    else Laid(e, s, ops)
  }

  /** Whether an edition of the encoder has an entry of this shape for the
      mnemonic. */
  predicate Offers(e: Edition, name: string, s: Shape) {
    Table(name).Some? && Table(name).value.shape == s && (e == Simulator || Table(name).value.everywhere)
  }

  /** `get_binary_instruction(instruction)`: `Ok(None)` where the source falls
      off its chain of cases and returns `None`, an error where it raises, and
      otherwise the instruction's word or words. */
  function Encode(e: Edition, name: string, ops: seq<Operand>): (r: Result<Option<seq<string>>>)
    ensures Table(name).None? ==> r == Ok(None)
    ensures Table(name).Some? && e == Library && !Table(name).value.everywhere ==> r == Ok(None)
    ensures forall s :: Offers(e, name, s) ==> r == Fill(e, s, ops)
  {
    match Table(name)
    case None => Ok(None)
    case Some(entry) => if e == Library && !entry.everywhere then Ok(None) else Fill(e, entry.shape, ops)
  }
}

=== FILE: encoderlaws.dfy ===
/** What the encoder's words say. Each operand can be read back out of the
    bits its template puts it in (two registers, one register, a register
    and an immediate, a branch offset, a pointer load or store, a direct
    load or store, a far call or jump); the mnemonics the AVR Instruction
    Set Manual defines as aliases encode as the instruction they stand for;
    and the two editions differ only in the entries the library lacks and in
    how `LDS`/`STS` hand back their two words. The laws are stated per
    template, on `Fill`, so one law covers every mnemonic whose entry has
    that template (`Encoded` ties an entry to its template). */
module EncoderLaws {
  import opened Base
  import opened Program
  import opened Exec
  import opened Bits
  import opened Encoder

  // ------------------------------------------------------------ words

  /** A slice of a word holds the binary digits of `v`. */
  predicate Reads(s: string, v: int) {
    IsBinary(s) && BinValue(s) == v
  }

  /** A slice of a word holds `k` in two's complement. */
  predicate SignedReads(s: string, k: int) {
    IsBinary(s) && TwosValue(s) == k
  }

  /** The single word an encoding produced, when it produced exactly one. */
  predicate OneWord(r: Result<Option<seq<string>>>) {
    r.Ok? && r.value.Some? && |r.value.value| == 1
  }

  /** The pair of words an encoding produced, when it produced two. */
  predicate TwoWords(r: Result<Option<seq<string>>>) {
    r.Ok? && r.value.Some? && |r.value.value| == 2
  }

  /** One word: the opcode `code`, bit 4 of `r`, the five bits of `d`, the
      low four bits of `r`. */
  predicate TwoRegWord(res: Result<Option<seq<string>>>, code: string, d: int, r: int) {
    OneWord(res) &&
    var w, c := res.value.value[0], |code|;
    |w| == c + 10 && w[..c] == code && Reads(w[c + 1..c + 6], d) && Reads(w[c..c + 1] + w[c + 6..], r)
  }

  /** One word: `pre`, the five bits of `d`, `post`. */
  predicate OneRegWord(res: Result<Option<seq<string>>>, pre: string, post: string, d: int) {
    OneWord(res) &&
    var w, c := res.value.value[0], |pre|;
    |w| == c + 5 + |post| && w[..c] == pre && Reads(w[c..c + 5], d) && w[c + 5..] == post
  }

  /** One word: the opcode `code`, the high half of the byte `k`, the low
      four bits of `d`, the low half of `k`. */
  predicate ImmWord(res: Result<Option<seq<string>>>, code: string, d: int, k: int) {
    OneWord(res) &&
    var w, c := res.value.value[0], |code|;
    |w| == c + 12 && w[..c] == code && Reads(w[c + 4..c + 8], d % 16) && Reads(w[c..c + 4] + w[c + 8..], k)
  }

  /** One word: `11110`, `clear`, the offset `k` in seven-bit two's
      complement, then `tail`. */
  predicate BranchWord(res: Result<Option<seq<string>>>, clear: string, k: int, tail: string) {
    OneWord(res) &&
    var w, c := res.value.value[0], 5 + |clear|;
    |w| == c + 7 + |tail| && w[..5] == "11110" && w[5..c] == clear && SignedReads(w[c..c + 7], k) &&
    w[c + 7..] == tail
  }

  /** No word for a pointer spelling with no case; otherwise one word: the
      pointer's first four bits, `mid`, the five bits of `d`, the pointer's
      last four bits. */
  predicate PointerWord(res: Result<Option<seq<string>>>, p: string, mid: string, d: int) {
    if PointerCode(p).None? then res == Ok(None)
    else
      OneWord(res) &&
      var w, (a, b) := res.value.value[0], PointerCode(p).value;
      |w| == 16 && w[..4] == a && w[4..7] == mid && Reads(w[7..12], d) && w[12..] == b
  }

  /** Two words: `code`, the five bits of `d` and `0000`; then the sixteen
      bits of `k`. */
  predicate DirectWords(res: Result<Option<seq<string>>>, code: string, d: int, k: int) {
    TwoWords(res) &&
    var w := res.value.value;
    |w[0]| == 16 && w[0][..7] == code && Reads(w[0][7..12], d) && w[0][12..] == "0000" &&
    |w[1]| == 16 && Reads(w[1], k)
  }

  /** Two words holding a 22-bit address: `1001010`, five bits of it, the
      template's `mid`, one more bit; then its last sixteen bits. */
  predicate FarWords(res: Result<Option<seq<string>>>, mid: string, k: int) {
    TwoWords(res) &&
    var w, c := res.value.value, 12 + |mid|;
    |w[0]| == c + 1 && w[0][..7] == "1001010" && w[0][12..c] == mid && |w[1]| == 16 &&
    Reads(w[0][7..12] + w[0][c..] + w[1], k)
  }

  // ------------------------------------------------------------ reading

  /** The reads most templates are made of. */
  const FirstReg: Read := Reg(0, 5)
  const SecondReg: Read := Reg(1, 5)
  const ByteK: Read := Num(1, 8)
  const InvertedK: Read := Inverse(1, 8)
  const FirstBit: Read := Num(0, 3)
  const FirstOffset: Read := Offset(0, 7)
  const SecondOffset: Read := Offset(1, 7)
  const FirstSpelled: Read := Spelled(0)
  const SecondSpelled: Read := Spelled(1)
  const FirstAddress: Read := Num(0, 16)
  const SecondAddress: Read := Num(1, 16)
  const FarAddress: Read := Num(0, 22)

  /** A plan reads when every field reads, and then as the fields read. */
  lemma {:induction false} ReadsInOrder(plan: seq<Read>, ops: seq<Operand>)
    ensures var r := ReadAll(plan, ops);
      r.Ok? <==> forall k :: 0 <= k < |plan| ==> ReadField(plan[k], ops).Ok?
    ensures var r := ReadAll(plan, ops);
      r.Ok? ==> forall k :: 0 <= k < |plan| ==> ReadField(plan[k], ops) == Ok(r.value[k])
    decreases |plan|
  {
    if plan != [] {
      ReadsInOrder(plan[1..], ops);
      assert forall k :: 1 <= k < |plan| ==> plan[k] == plan[1..][k - 1];
    }
  }

  /** A plan that does not read fails as its first field that fails. */
  lemma {:induction false} FirstFailure(plan: seq<Read>, ops: seq<Operand>)
    ensures var r := ReadAll(plan, ops);
      r.Err? ==> exists k :: 0 <= k < |plan| && ReadField(plan[k], ops) == Err(r.error) &&
                             forall j :: 0 <= j < k ==> ReadField(plan[j], ops).Ok?
    decreases |plan|
  {
    if plan != [] {
      FirstFailure(plan[1..], ops);
      var r := ReadAll(plan, ops);
      var x := ReadField(plan[0], ops);
      if x.Ok? && ReadAll(plan[1..], ops).Err? {
        var k :| 0 <= k < |plan[1..]| && ReadField(plan[1..][k], ops) == Err(ReadAll(plan[1..], ops).error) &&
                 forall j :: 0 <= j < k ==> ReadField(plan[1..][j], ops).Ok?;
        assert forall j :: 1 <= j < k + 1 ==> plan[j] == plan[1..][j - 1];
        assert ReadField(plan[k + 1], ops) == Err(r.error);
      }
    }
  }

  /** A one-operand plan reads as its single field. */
  lemma ReadOne(a: Read, ops: seq<Operand>)
    ensures var x := ReadField(a, ops);
      ReadAll([a], ops) == if x.Err? then Err(x.error) else Ok([x.value])
  {
    assert [a][0] == a && [a][1..] == [];
    assert ReadAll([], ops) == Ok([]);
    var x := ReadField(a, ops);
    if x.Ok? {
      assert [x.value] + [] == [x.value];
    }
  }

  /** A two-operand plan reads left to right; the first failure wins. */
  lemma ReadTwo(a: Read, b: Read, ops: seq<Operand>)
    ensures var x, y := ReadField(a, ops), ReadField(b, ops);
      ReadAll([a, b], ops) ==
        if x.Err? then Err(x.error) else if y.Err? then Err(y.error) else Ok([x.value, y.value])
  {
    assert [a, b][0] == a && [a, b][1..] == [b];
    ReadOne(b, ops);
    var x, y := ReadField(a, ops), ReadField(b, ops);
    if x.Ok? && y.Ok? {
      assert [x.value] + [y.value] == [x.value, y.value];
    }
  }

  lemma Pow2Widths()
    ensures Pow2(2) == 4 && Pow2(3) == 8 && Pow2(5) == 32 && Pow2(6) == 64 && Pow2(8) == 256
  {
    Pow2Values();
    assert Pow2(5) == 2 * Pow2(4);
    assert Pow2(6) == 2 * Pow2(5);
    assert Pow2(8) == 2 * (2 * Pow2(6));
  }

  lemma Pow2Wide()
    ensures Pow2(16) == 0x1_0000 && Pow2(22) == 0x40_0000
  {
    Pow2Widths();
    assert Pow2(16) == 256 * Pow2(8) by {
      assert Pow2(16) == 2 * 2 * 2 * 2 * 2 * 2 * 2 * 2 * Pow2(8);
    }
    assert Pow2(22) == 64 * Pow2(16) by {
      assert Pow2(22) == 2 * 2 * 2 * 2 * 2 * 2 * Pow2(16);
    }
  }

  /** A register number below 32 fills five bits with its digits. */
  lemma FiveBits(d: nat)
    requires d < 32
    ensures |MakeNBit(d, 5)| == 5 && Reads(MakeNBit(d, 5), d)
  {
    Pow2Widths();
    MakeNBitFits(d, 5);
  }

  /** A register operand `Rn` reads as its number in five bits. */
  lemma RegRead(ops: seq<Operand>, i: nat, n: nat)
    requires i < |ops| && ops[i] == RegOp(n)
    ensures ReadField(Reg(i, 5), ops) == Ok(MakeNBit(n, 5))
  {
    RegOpNumber(ops, i, n);
  }

  /** A number operand reads as its digits at the width asked. */
  lemma NumRead(ops: seq<Operand>, i: nat, n: int, w: nat)
    requires i < |ops| && ops[i] == OInt(n)
    ensures ReadField(Num(i, w), ops) == Ok(MakeNBit(n, w))
  {
    NumberOf(ops, i, n);
  }

  /** An offset operand reads as its two's complement. */
  lemma OffsetRead(ops: seq<Operand>, i: nat, k: int, w: Width)
    requires i < |ops| && ops[i] == OInt(k)
    ensures ReadField(Offset(i, w), ops) == Ok(TwosComp(k, w))
  {
  }

  /** An inverted number operand reads as `255 - K` in eight bits. */
  lemma InverseRead(ops: seq<Operand>, i: nat, k: int)
    requires i < |ops| && ops[i] == OInt(k)
    ensures ReadField(Inverse(i, 8), ops) == Ok(MakeNBit(255 - k, 8))
  {
  }

  /** A register field reads the same from two operand lists that hold the
      same operand at the places read. */
  lemma RegAt(ops: seq<Operand>, i: nat, other: seq<Operand>, j: nat)
    requires i < |ops| && j < |other| && ops[i] == other[j]
    ensures ReadField(Reg(i, 5), ops) == ReadField(Reg(j, 5), other)
  {
    assert RegNumber(ops, i) == RegNumber(other, j);
  }

  /** A five-bit register field without its leading bit holds the register
      modulo 16. */
  lemma LowFour(fd: string, d: nat)
    requires |fd| == 5 && Reads(fd, d)
    ensures Reads(fd[1..], d % 16)
  {
    Pow2Values();
    assert fd == fd[..1] + fd[1..];
    BinValueConcat(fd[..1], fd[1..]);
    assert BinValue(fd[1..]) < 16;
  }

  // ------------------------------------------------------------ filling

  /** An entry encodes as its template filled. */
  lemma Encoded(e: Edition, name: string, s: Shape, ops: seq<Operand>)
    requires Offers(e, name, s)
    ensures Encode(e, name, ops) == Fill(e, s, ops)
  {
  }

  /** A template whose operands all read lays them out. */
  lemma Filled(e: Edition, s: Shape, ops: seq<Operand>, f: seq<string>)
    requires !(s.Far? && s.printf) && ReadAll(PlanOf(s), ops) == Ok(f)
    ensures Fill(e, s, ops) == Ok(Layout(e, s, f))
  {
  }

  /** A template whose operands do not all read fails as the first read
      that fails. */
  lemma Failed(e: Edition, s: Shape, ops: seq<Operand>)
    requires !(s.Far? && s.printf) && ReadAll(PlanOf(s), ops).Err?
    ensures Fill(e, s, ops) == Err(ReadAll(PlanOf(s), ops).error)
  {
  }

  /** A template's operands, once read, are laid out. */
  lemma LaidAs(e: Edition, s: Shape, ops: seq<Operand>, f: seq<string>)
    requires ReadAll(PlanOf(s), ops) == Ok(f)
    ensures Laid(e, s, ops) == Ok(Layout(e, s, f))
  {
  }

  // ------------------------------------------------------------ two registers

  /** Both registers of a two-register template read, in five bits each. */
  lemma TwoRegReads(ops: seq<Operand>, d: nat, r: nat)
    requires |ops| == 2 && ops[0] == RegOp(d) && ops[1] == RegOp(r)
    ensures ReadAll([FirstReg, SecondReg], ops) == Ok([MakeNBit(d, 5), MakeNBit(r, 5)])
  {
    RegRead(ops, 0, d);
    RegRead(ops, 1, r);
    ReadTwo(FirstReg, SecondReg, ops);
  }

  /** The two-register template filled from fields already read. */
  lemma TwoRegLaid(e: Edition, code: string, ops: seq<Operand>, fd: string, fr: string)
    requires ReadAll([FirstReg, SecondReg], ops) == Ok([fd, fr])
    ensures Fill(e, TwoReg(code), ops) == Ok(Some([code + Cut(fr, 0, 1) + fd + From(fr, 1)]))
  {
    Filled(e, TwoReg(code), ops, [fd, fr]);
  }

  /** The two-register word's slices: `d` whole after the opcode and one
      bit of `r`, and `r` split around it. */
  lemma TwoRegSlices(code: string, fd: string, fr: string, d: nat, r: nat)
    requires |fd| == 5 && |fr| == 5 && Reads(fd, d) && Reads(fr, r)
    ensures TwoRegWord(Ok(Some([code + Cut(fr, 0, 1) + fd + From(fr, 1)])), code, d, r)
  {
    var w, c := code + fr[..1] + fd + fr[1..], |code|;
    assert w[..c] == code;
    assert w[c + 1..c + 6] == fd;
    assert w[c..c + 1] + w[c + 6..] == fr;
  }

  /** `ADD Rd, Rr` and the other two-register forms: the opcode bits lead,
      then bit 4 of `r`, the five bits of `d`, and the low four bits of `r`. */
  lemma TwoRegFields(e: Edition, code: string, d: nat, r: nat)
    requires d < 32 && r < 32
    ensures TwoRegWord(Fill(e, TwoReg(code), [RegOp(d), RegOp(r)]), code, d, r)
  {
    var fd, fr := MakeNBit(d, 5), MakeNBit(r, 5);
    FiveBits(d);
    FiveBits(r);
    TwoRegReads([RegOp(d), RegOp(r)], d, r);
    TwoRegLaid(e, code, [RegOp(d), RegOp(r)], fd, fr);
    TwoRegSlices(code, fd, fr, d, r);
  }

  // ------------------------------------------------------------ aliases

  /** The one-register template `code + d[0] + d + d[1:]` is the
      two-register template with the same code given its operand twice,
      whatever the operand, errors included. */
  lemma SameRegTwice(e: Edition, code: string, o: Operand)
    ensures Fill(e, SameReg(code), [o]) == Fill(e, TwoReg(code), [o, o])
  {
    var one, two := [o], [o, o];
    RegAt(one, 0, two, 0);
    RegAt(one, 0, two, 1);
    ReadOne(FirstReg, one);
    ReadTwo(FirstReg, SecondReg, two);
    var x := ReadField(FirstReg, one);
    if x.Ok? {
      Filled(e, SameReg(code), one, [x.value]);
      Filled(e, TwoReg(code), two, [x.value, x.value]);
    } else {
      Failed(e, SameReg(code), one);
      Failed(e, TwoReg(code), two);
    }
  }

  /** The table's entries for the register aliases and what they stand for. */
  lemma AliasEntries()
    ensures Table("LSL") == Everywhere(SameReg("000011")) && Table("ADD") == Everywhere(TwoReg("000011"))
    ensures Table("ROL") == Everywhere(SameReg("000111")) && Table("ADC") == Everywhere(TwoReg("000111"))
    ensures Table("CLR") == Everywhere(SameReg("001001")) && Table("EOR") == Everywhere(TwoReg("001001"))
    ensures Table("TST") == SimulatorOnly(SameReg("001000")) && Table("AND") == Everywhere(TwoReg("001000"))
  {
  }

  /** The table's entries for the immediate aliases. */
  lemma ImmEntries()
    ensures Table("CBR") == Everywhere(Imm("0111", true)) && Table("ANDI") == Everywhere(Imm("0111", false))
    ensures Table("SBR") == Everywhere(Imm("0110", false)) && Table("ORI") == Everywhere(Imm("0110", false))
  {
  }

  /** An alias whose entry is `code + d[0] + d + d[1:]` encodes as the
      instruction whose entry is `code + r[0] + d + r[1:]`, with `Rd` as
      both registers. */
  lemma AliasOf(e: Edition, alias: string, name: string, code: string, o: Operand)
    requires Offers(e, alias, SameReg(code)) && Offers(e, name, TwoReg(code))
    ensures Encode(e, alias, [o]) == Encode(e, name, [o, o])
  {
    Encoded(e, alias, SameReg(code), [o]);
    Encoded(e, name, TwoReg(code), [o, o]);
    SameRegTwice(e, code, o);
  }

  /** `LSL Rd` is `ADD Rd, Rd`. */
  lemma LslIsAdd(e: Edition, o: Operand)
    ensures Encode(e, "LSL", [o]) == Encode(e, "ADD", [o, o])
  {
    AliasEntries();
    AliasOf(e, "LSL", "ADD", "000011", o);
  }

  /** `ROL Rd` is `ADC Rd, Rd`. */
  lemma RolIsAdc(e: Edition, o: Operand)
    ensures Encode(e, "ROL", [o]) == Encode(e, "ADC", [o, o])
  {
    AliasEntries();
    AliasOf(e, "ROL", "ADC", "000111", o);
  }

  /** `CLR Rd` is `EOR Rd, Rd`. */
  lemma ClrIsEor(e: Edition, o: Operand)
    ensures Encode(e, "CLR", [o]) == Encode(e, "EOR", [o, o])
  {
    AliasEntries();
    AliasOf(e, "CLR", "EOR", "001001", o);
  }

  /** `TST Rd` is `AND Rd, Rd` in the simulator's encoder; the library's
      has no entry for `TST`. */
  lemma TstIsAnd(o: Operand)
    ensures Encode(Simulator, "TST", [o]) == Encode(Simulator, "AND", [o, o])
    ensures Encode(Library, "TST", [o]) == Ok(None)
  {
    AliasEntries();
    AliasOf(Simulator, "TST", "AND", "001000", o);
  }

  /** The reads of the immediate templates. */
  lemma ImmPlan(code: string)
    ensures PlanOf(Imm(code, false)) == [FirstReg, ByteK]
    ensures PlanOf(Imm(code, true)) == [FirstReg, InvertedK]
  {
  }

  /** The immediate template filled from fields already read. */
  lemma ImmLaid(e: Edition, code: string, inverted: bool, ops: seq<Operand>, fd: string, fk: string)
    requires ReadAll(PlanOf(Imm(code, inverted)), ops) == Ok([fd, fk])
    ensures Fill(e, Imm(code, inverted), ops) == Ok(Some([code + Cut(fk, 0, 4) + From(fd, 1) + From(fk, 4)]))
  {
    Filled(e, Imm(code, inverted), ops, [fd, fk]);
  }

  /** The inverted immediate template reads `255 - K` where the plain one
      reads `K`, whatever the register operand. */
  lemma InvertedReads(code: string, o: Operand, k: int)
    ensures ReadAll(PlanOf(Imm(code, true)), [o, OInt(k)]) == ReadAll(PlanOf(Imm(code, false)), [o, OInt(255 - k)])
  {
    var inv, plain := [o, OInt(k)], [o, OInt(255 - k)];
    var fk := MakeNBit(255 - k, 8);
    InverseRead(inv, 1, k);
    NumRead(plain, 1, 255 - k, 8);
    RegAt(inv, 0, plain, 0);
    ImmPlan(code);
    ReadTwo(FirstReg, InvertedK, inv);
    ReadTwo(FirstReg, ByteK, plain);
    var x := ReadField(FirstReg, inv);
    if x.Ok? {
      assert ReadAll([FirstReg, InvertedK], inv) == Ok([x.value, fk]);
      assert ReadAll([FirstReg, ByteK], plain) == Ok([x.value, fk]);
    } else {
      assert ReadAll([FirstReg, InvertedK], inv) == Err(x.error);
      assert ReadAll([FirstReg, ByteK], plain) == Err(x.error);
    }
  }

  /** Both immediate templates lay their fields out alike. */
  lemma ImmLayouts(e: Edition, code: string, f: seq<string>)
    requires |f| == 2
    ensures Layout(e, Imm(code, true), f) == Layout(e, Imm(code, false), f)
  {
  }

  /** `CBR`'s template with `K` fills as `ANDI`'s with `255 - K`, errors
      included. */
  lemma InvertedImm(e: Edition, code: string, o: Operand, k: int)
    ensures Fill(e, Imm(code, true), [o, OInt(k)]) == Fill(e, Imm(code, false), [o, OInt(255 - k)])
  {
    var inv, plain := [o, OInt(k)], [o, OInt(255 - k)];
    InvertedReads(code, o, k);
    var r := ReadAll(PlanOf(Imm(code, true)), inv);
    if r.Ok? {
      Filled(e, Imm(code, true), inv, r.value);
      Filled(e, Imm(code, false), plain, r.value);
      ImmLayouts(e, code, r.value);
    } else {
      Failed(e, Imm(code, true), inv);
      Failed(e, Imm(code, false), plain);
    }
  }

  /** `CBR Rd, K` is `ANDI Rd, 255 - K`, whatever the register operand. */
  lemma CbrIsAndi(e: Edition, o: Operand, k: int)
    ensures Encode(e, "CBR", [o, OInt(k)]) == Encode(e, "ANDI", [o, OInt(255 - k)])
  {
    ImmEntries();
    Encoded(e, "CBR", Imm("0111", true), [o, OInt(k)]);
    Encoded(e, "ANDI", Imm("0111", false), [o, OInt(255 - k)]);
    InvertedImm(e, "0111", o, k);
  }

  /** `SBR Rd, K` is `ORI Rd, K`: both entries are the same template. */
  lemma SbrIsOri(e: Edition, ops: seq<Operand>)
    ensures Encode(e, "SBR", ops) == Encode(e, "ORI", ops)
  {
    ImmEntries();
    Encoded(e, "SBR", Imm("0110", false), ops);
    Encoded(e, "ORI", Imm("0110", false), ops);
  }

  // ------------------------------------------------------------ one register

  /** The one-register template filled from the field already read. */
  lemma OneRegLaid(e: Edition, pre: string, at: nat, post: string, ops: seq<Operand>, fd: string)
    requires ReadField(Reg(at, 5), ops) == Ok(fd)
    ensures Fill(e, OneReg(pre, at, post), ops) == Ok(Some([pre + fd + post]))
  {
    ReadOne(Reg(at, 5), ops);
    Filled(e, OneReg(pre, at, post), ops, [fd]);
  }

  /** The one-register word's slices. */
  lemma OneRegSlices(pre: string, fd: string, post: string, d: nat)
    requires |fd| == 5 && Reads(fd, d)
    ensures OneRegWord(Ok(Some([pre + fd + post])), pre, post, d)
  {
    var w := pre + fd + post;
    assert w[..|pre|] == pre && w[|pre|..|pre| + 5] == fd && w[|pre| + 5..] == post;
  }

  /** `INC Rd`, `PUSH Rr` and the other one-register forms: the register's
      five bits sit between the template's two fixed parts. */
  lemma OneRegFields(e: Edition, pre: string, at: nat, post: string, ops: seq<Operand>, d: nat)
    requires at < |ops| && ops[at] == RegOp(d) && d < 32
    ensures OneRegWord(Fill(e, OneReg(pre, at, post), ops), pre, post, d)
  {
    FiveBits(d);
    RegRead(ops, at, d);
    OneRegLaid(e, pre, at, post, ops, MakeNBit(d, 5));
    OneRegSlices(pre, MakeNBit(d, 5), post, d);
  }

  // ------------------------------------------------------------ immediates

  /** Both operands of `LDI Rd, K` and its kin read, at five and eight bits. */
  lemma ImmReads(code: string, ops: seq<Operand>, d: nat, k: int)
    requires |ops| == 2 && ops[0] == RegOp(d) && ops[1] == OInt(k)
    ensures ReadAll(PlanOf(Imm(code, false)), ops) == Ok([MakeNBit(d, 5), MakeNBit(k, 8)])
  {
    RegRead(ops, 0, d);
    NumRead(ops, 1, k, 8);
    ImmPlan(code);
    ReadTwo(FirstReg, ByteK, ops);
  }

  /** The immediate word's slices: the opcode, the high half of `K`, the
      low four bits of `d`, the low half of `K`. */
  lemma ImmSlices(code: string, fd: string, fk: string, d: nat, k: nat)
    requires |fd| == 5 && |fk| == 8 && Reads(fd, d) && Reads(fk, k)
    ensures ImmWord(Ok(Some([code + Cut(fk, 0, 4) + From(fd, 1) + From(fk, 4)])), code, d, k)
  {
    LowFour(fd, d);
    var w, c := code + fk[..4] + fd[1..] + fk[4..], |code|;
    assert w[..c] == code;
    assert w[c + 4..c + 8] == fd[1..];
    assert w[c..c + 4] + w[c + 8..] == fk;
  }

  /** `LDI Rd, K`, `ANDI`, `ORI`, `SBR`, `SUBI` and `CPI`: the opcode bits,
      then the high half of the byte, the register's low four bits, the low
      half; the template keeps only the low four bits of the register.
      `CBR` is this with `255 - K` (`InvertedImm`). */
  lemma ImmFields(e: Edition, code: string, d: nat, k: int)
    requires d < 32 && 0 <= k < 256
    ensures ImmWord(Fill(e, Imm(code, false), [RegOp(d), OInt(k)]), code, d, k)
  {
    var fd, fk := MakeNBit(d, 5), MakeNBit(k, 8);
    FiveBits(d);
    Pow2Widths();
    MakeNBitFits(k, 8);
    ImmReads(code, [RegOp(d), OInt(k)], d, k);
    ImmLaid(e, code, false, [RegOp(d), OInt(k)], fd, fk);
    ImmSlices(code, fd, fk, d, k);
  }

  // ------------------------------------------------------------ branches

  /** A signed offset that fits seven bits is seven bits of two's
      complement. */
  lemma SevenBits(k: int)
    requires -64 <= k < 64
    ensures |TwosComp(k, 7)| == 7 && SignedReads(TwosComp(k, 7), k)
  {
    Pow2Widths();
    assert Pow2(6) == 64;
    TwosCompRoundTrip(k, 7);
  }

  /** The branch word's slices around a seven-bit offset. */
  lemma OffsetSlices(clear: string, fk: string, tail: string, k: int)
    requires |fk| == 7 && SignedReads(fk, k)
    ensures BranchWord(Ok(Some(["11110" + clear + fk + tail])), clear, k, tail)
  {
    var w, c := "11110" + clear + fk + tail, 5 + |clear|;
    assert w[..5] == "11110" && w[5..c] == clear && w[c..c + 7] == fk && w[c + 7..] == tail;
  }

  /** The reads and the words of the branch templates. */
  lemma BranchPlan(clear: string, bit: string)
    ensures PlanOf(Branch(clear, bit)) == [FirstOffset]
    ensures PlanOf(BitBranch(clear)) == [FirstBit, SecondOffset]
  {
  }

  lemma BranchLayout(e: Edition, clear: string, bit: string, fk: string)
    ensures Layout(e, Branch(clear, bit), [fk]) == Some(["11110" + clear + fk + bit])
  {
  }

  lemma BitBranchLayout(e: Edition, clear: string, fs: string, fk: string)
    ensures Layout(e, BitBranch(clear), [fs, fk]) == Some(["11110" + clear + fk + fs])
  {
  }

  /** The one-flag branch template filled from its offset. */
  lemma BranchLaid(e: Edition, clear: string, bit: string, ops: seq<Operand>, fk: string)
    requires ReadField(FirstOffset, ops) == Ok(fk)
    ensures Fill(e, Branch(clear, bit), ops) == Ok(Some(["11110" + clear + fk + bit]))
  {
    ReadOne(FirstOffset, ops);
    BranchPlan(clear, bit);
    Filled(e, Branch(clear, bit), ops, [fk]);
    BranchLayout(e, clear, bit, fk);
  }

  /** `BREQ k` and the other branches on one flag: `11110`, the clear-or-set
      bit, the offset in seven-bit two's complement, the flag's number. */
  lemma BranchFields(e: Edition, clear: string, bit: string, k: int)
    requires -64 <= k < 64
    ensures BranchWord(Fill(e, Branch(clear, bit), [OInt(k)]), clear, k, bit)
  {
    var fk := TwosComp(k, 7);
    SevenBits(k);
    OffsetRead([OInt(k)], 0, k, 7);
    BranchLaid(e, clear, bit, [OInt(k)], fk);
    OffsetSlices(clear, fk, bit, k);
  }

  /** The flag-number branch template filled from its two fields. */
  lemma BitBranchLaid(e: Edition, clear: string, ops: seq<Operand>, fs: string, fk: string)
    requires ReadField(FirstBit, ops) == Ok(fs) && ReadField(SecondOffset, ops) == Ok(fk)
    ensures Fill(e, BitBranch(clear), ops) == Ok(Some(["11110" + clear + fk + fs]))
  {
    ReadTwo(FirstBit, SecondOffset, ops);
    BranchPlan(clear, "");
    Filled(e, BitBranch(clear), ops, [fs, fk]);
    BitBranchLayout(e, clear, fs, fk);
  }

  /** `BRBS s, k` and `BRBC s, k`: as a one-flag branch, with the flag's
      number `s` in the last three bits. */
  lemma BitBranchFields(e: Edition, clear: string, s: nat, k: int)
    requires s < 8 && -64 <= k < 64
    ensures BranchWord(Fill(e, BitBranch(clear), [OInt(s), OInt(k)]), clear, k, MakeNBit(s, 3))
    ensures |MakeNBit(s, 3)| == 3 && Reads(MakeNBit(s, 3), s)
  {
    var ops := [OInt(s), OInt(k)];
    var fs, fk := MakeNBit(s, 3), TwosComp(k, 7);
    Pow2Widths();
    MakeNBitFits(s, 3);
    SevenBits(k);
    NumRead(ops, 0, s, 3);
    OffsetRead(ops, 1, k, 7);
    BitBranchLaid(e, clear, ops, fs, fk);
    OffsetSlices(clear, fk, fs, k);
  }

  // ------------------------------------------------------------ pointers

  /** The reads of the pointer templates. */
  lemma PointerPlan()
    ensures PlanOf(Pointer(true)) == [FirstReg, SecondSpelled]
    ensures PlanOf(Pointer(false)) == [SecondReg, FirstSpelled]
  {
  }

  /** A pointer operand reads as it is spelled. */
  lemma SpelledRead(ops: seq<Operand>, i: nat, p: string)
    requires i < |ops| && ops[i] == OStr(p)
    ensures ReadField(Spelled(i), ops) == Ok(p)
  {
  }

  /** A pointer load's operands read: the register at five bits, the
      pointer as spelled. */
  lemma LoadReads(p: string, d: nat)
    ensures ReadAll(PlanOf(Pointer(true)), [RegOp(d), OStr(p)]) == Ok([MakeNBit(d, 5), p])
  {
    var ops := [RegOp(d), OStr(p)];
    RegRead(ops, 0, d);
    SpelledRead(ops, 1, p);
    PointerPlan();
    ReadTwo(FirstReg, SecondSpelled, ops);
  }

  /** A pointer store's operands read, the register first. */
  lemma StoreReads(p: string, d: nat)
    ensures ReadAll(PlanOf(Pointer(false)), [OStr(p), RegOp(d)]) == Ok([MakeNBit(d, 5), p])
  {
    var ops := [OStr(p), RegOp(d)];
    RegRead(ops, 1, d);
    SpelledRead(ops, 0, p);
    PointerPlan();
    ReadTwo(SecondReg, FirstSpelled, ops);
  }

  /** The pointer template's word from its fields: none for a spelling with
      no case in the source. */
  lemma PointerLayout(e: Edition, load: bool, fd: string, p: string)
    ensures PointerCode(p).None? ==> Layout(e, Pointer(load), [fd, p]) == None
    ensures PointerCode(p).Some? ==>
      Layout(e, Pointer(load), [fd, p]) ==
      Some([PointerCode(p).value.0 + (if load then "000" else "001") + fd + PointerCode(p).value.1])
  {
  }

  /** The pointer word's slices. */
  lemma PointerSlices(p: string, mid: string, fd: string, d: nat)
    requires |mid| == 3 && |fd| == 5 && Reads(fd, d)
    ensures PointerCode(p).Some? ==>
      PointerWord(Ok(Some([PointerCode(p).value.0 + mid + fd + PointerCode(p).value.1])), p, mid, d)
    ensures PointerCode(p).None? ==> PointerWord(Ok(None), p, mid, d)
  {
    if PointerCode(p).Some? {
      var (a, b) := PointerCode(p).value;
      var w := a + mid + fd + b;
      assert |a| == 4 && |b| == 4;
      assert w[..4] == a && w[4..7] == mid && w[7..12] == fd && w[12..] == b;
    }
  }

  /** `LD Rd, p`: a spelling with no case in the source gives no word;
      otherwise the pointer's first four bits, `000`, the register, the
      pointer's last four. */
  lemma LoadFields(e: Edition, p: string, d: nat)
    requires d < 32
    ensures PointerWord(Fill(e, Pointer(true), [RegOp(d), OStr(p)]), p, "000", d)
  {
    var fd := MakeNBit(d, 5);
    FiveBits(d);
    LoadReads(p, d);
    Filled(e, Pointer(true), [RegOp(d), OStr(p)], [fd, p]);
    PointerLayout(e, true, fd, p);
    PointerSlices(p, "000", fd, d);
  }

  /** `ST p, Rr`: as `LD`, with `001` in place of `000`. */
  lemma StoreFields(e: Edition, p: string, d: nat)
    requires d < 32
    ensures PointerWord(Fill(e, Pointer(false), [OStr(p), RegOp(d)]), p, "001", d)
  {
    var fd := MakeNBit(d, 5);
    FiveBits(d);
    StoreReads(p, d);
    Filled(e, Pointer(false), [OStr(p), RegOp(d)], [fd, p]);
    PointerLayout(e, false, fd, p);
    PointerSlices(p, "001", fd, d);
  }

  /** A pointer's two groups of bits name it: no two spellings share them. */
  lemma PointerCodeNames(p: string, q: string)
    requires PointerCode(p).Some? && PointerCode(p) == PointerCode(q)
    ensures p == q
  {
  }

  // ------------------------------------------------------------ direct

  /** The reads of the direct templates. */
  lemma DirectPlan()
    ensures PlanOf(Direct(true)) == [FirstReg, SecondAddress]
    ensures PlanOf(Direct(false)) == [FirstAddress, SecondReg]
  {
  }

  /** `LDS Rd, k` reads the register, then the address. */
  lemma LdsReads(d: nat, k: int)
    ensures ReadAll(PlanOf(Direct(true)), [RegOp(d), OInt(k)]) == Ok([MakeNBit(d, 5), MakeNBit(k, 16)])
  {
    var ops := [RegOp(d), OInt(k)];
    RegRead(ops, 0, d);
    NumRead(ops, 1, k, 16);
    DirectPlan();
    ReadTwo(FirstReg, SecondAddress, ops);
  }

  /** `STS k, Rr` reads the address, then the register. */
  lemma StsReads(d: nat, k: int)
    ensures ReadAll(PlanOf(Direct(false)), [OInt(k), RegOp(d)]) == Ok([MakeNBit(k, 16), MakeNBit(d, 5)])
  {
    var ops := [OInt(k), RegOp(d)];
    RegRead(ops, 1, d);
    NumRead(ops, 0, k, 16);
    DirectPlan();
    ReadTwo(FirstAddress, SecondReg, ops);
  }

  /** The direct templates' words from their fields: the library joins the
      head word and the address into one string, the simulator keeps two. */
  lemma DirectLayouts(load: bool, f: seq<string>)
    requires |f| == 2
    ensures var (d, k) := if load then (f[0], f[1]) else (f[1], f[0]);
      Layout(Simulator, Direct(load), f) == Some([(if load then "1001000" else "1001001") + d + "0000", k])
    ensures var (d, k) := if load then (f[0], f[1]) else (f[1], f[0]);
      Layout(Library, Direct(load), f) == Some([(if load then "1001000" else "1001001") + d + "0000" + k])
  {
  }

  /** The head word of `LDS`/`STS` splits into opcode, register and `0000`. */
  lemma HeadSlices(code: string, fd: string, fk: string, d: nat, k: nat)
    requires |code| == 7 && |fd| == 5 && Reads(fd, d) && |fk| == 16 && Reads(fk, k)
    ensures DirectWords(Ok(Some([code + fd + "0000", fk])), code, d, k)
  {
    var w := code + fd + "0000";
    assert w[..7] == code && w[7..12] == fd && w[12..] == "0000";
  }

  /** A sixteen-bit address fills its word with its digits. */
  lemma SixteenBits(k: nat)
    requires k < 0x1_0000
    ensures |MakeNBit(k, 16)| == 16 && Reads(MakeNBit(k, 16), k)
  {
    Pow2Wide();
    MakeNBitFits(k, 16);
  }

  /** `LDS Rd, k` in the simulator's encoder: two words, the first holding
      the register between `1001000` and `0000`, the second the sixteen-bit
      address. */
  lemma LdsFields(d: nat, k: nat)
    requires d < 32 && k < 0x1_0000
    ensures DirectWords(Fill(Simulator, Direct(true), [RegOp(d), OInt(k)]), "1001000", d, k)
  {
    var fd, fk := MakeNBit(d, 5), MakeNBit(k, 16);
    FiveBits(d);
    SixteenBits(k);
    LdsReads(d, k);
    Filled(Simulator, Direct(true), [RegOp(d), OInt(k)], [fd, fk]);
    DirectLayouts(true, [fd, fk]);
    HeadSlices("1001000", fd, fk, d, k);
  }

  /** `STS k, Rr` in the simulator's encoder: as `LDS`, with `1001001`. */
  lemma StsFields(d: nat, k: nat)
    requires d < 32 && k < 0x1_0000
    ensures DirectWords(Fill(Simulator, Direct(false), [OInt(k), RegOp(d)]), "1001001", d, k)
  {
    var fd, fk := MakeNBit(d, 5), MakeNBit(k, 16);
    FiveBits(d);
    SixteenBits(k);
    StsReads(d, k);
    Filled(Simulator, Direct(false), [OInt(k), RegOp(d)], [fk, fd]);
    DirectLayouts(false, [fk, fd]);
    HeadSlices("1001001", fd, fk, d, k);
  }

  // ------------------------------------------------------------ far

  /** `CALL` with any operand but `PRINTF`, and `JMP`, fill as they read. */
  lemma FarIsLaid(e: Edition, mid: string, printf: bool, ops: seq<Operand>)
    requires |ops| > 0 && ops[0] != OStr("PRINTF")
    ensures Fill(e, Far(mid, printf), ops) == Laid(e, Far(mid, printf), ops)
  {
  }

  /** The far template's two words from its address field. */
  lemma FarLayout(e: Edition, mid: string, printf: bool, f: string)
    ensures Layout(e, Far(mid, printf), [f]) == Some(["1001010" + Cut(f, 0, 5) + mid + Cut(f, 5, 6), From(f, 6)])
  {
  }

  /** The far words' slices put the 22-bit address back together. */
  lemma FarSlices(mid: string, f: string, k: nat)
    requires |f| == 22 && Reads(f, k)
    ensures FarWords(Ok(Some(["1001010" + Cut(f, 0, 5) + mid + Cut(f, 5, 6), From(f, 6)])), mid, k)
  {
    var w0 := "1001010" + f[..5] + mid + f[5..6];
    assert w0[..7] == "1001010" && w0[12..12 + |mid|] == mid;
    assert w0[7..12] + w0[12 + |mid|..] + f[6..] == f;
  }

  /** `CALL k` and `JMP k`: the 22-bit address split over two words, five
      bits after `1001010`, one after the template's middle bits, and the
      last sixteen as the second word. */
  lemma FarFields(e: Edition, mid: string, printf: bool, k: nat)
    requires k < 0x40_0000
    ensures FarWords(Fill(e, Far(mid, printf), [OInt(k)]), mid, k)
  {
    var ops := [OInt(k)];
    var f := MakeNBit(k, 22);
    Pow2Wide();
    MakeNBitFits(k, 22);
    NumRead(ops, 0, k, 22);
    ReadOne(FarAddress, ops);
    assert ReadAll(PlanOf(Far(mid, printf)), ops) == Ok([f]);
    FarIsLaid(e, mid, printf, ops);
    LaidAs(e, Far(mid, printf), ops, [f]);
    FarLayout(e, mid, printf, f);
    FarSlices(mid, f, k);
  }

  // ------------------------------------------------------------ editions

  /** Every template but the direct loads and stores lays its fields out the
      same in both editions. */
  lemma LayoutEditions(s: Shape, f: seq<string>)
    requires |f| == |PlanOf(s)| && !s.Direct?
    ensures Layout(Library, s, f) == Layout(Simulator, s, f)
  {
  }

  /** A mnemonic both editions have, other than `LDS` and `STS`, encodes the
      same in both, whatever its operands. */
  lemma EditionsAgree(name: string, ops: seq<Operand>)
    requires Table(name).Some? && Table(name).value.everywhere && !Table(name).value.shape.Direct?
    ensures Encode(Library, name, ops) == Encode(Simulator, name, ops)
  {
    var s := Table(name).value.shape;
    Encoded(Library, name, s, ops);
    Encoded(Simulator, name, s, ops);
    var r := ReadAll(PlanOf(s), ops);
    if r.Ok? {
      LayoutEditions(s, r.value);
    }
  }

  /** The simulator's two words of a direct load or store, as the library
      returns them: one string. */
  function Glued(r: Result<Option<seq<string>>>): Result<Option<seq<string>>> {
    if r.Ok? && r.value.Some? && |r.value.value| == 2 then Ok(Some([r.value.value[0] + r.value.value[1]])) else r
  }

  /** `LDS` and `STS`: the library's string is the simulator's two words
      joined, and both editions fail alike. */
  lemma DirectEditions(load: bool, ops: seq<Operand>)
    ensures Fill(Library, Direct(load), ops) == Glued(Fill(Simulator, Direct(load), ops))
    ensures Fill(Simulator, Direct(load), ops).Ok? ==> TwoWords(Fill(Simulator, Direct(load), ops))
  {
    var r := ReadAll(PlanOf(Direct(load)), ops);
    if r.Ok? {
      Filled(Library, Direct(load), ops, r.value);
      Filled(Simulator, Direct(load), ops, r.value);
      DirectLayouts(load, r.value);
    } else {
      Failed(Library, Direct(load), ops);
      Failed(Simulator, Direct(load), ops);
    }
  }
}

=== FILE: exec.dfy ===
/** What one interpreter step does for every instruction except the stack
    group: operand decoding, the ALU instructions, flag instructions,
    branches and skips, I/O-space access and the pointer loads and stores.
    Each group reads its operands the way the interpreters do (`int(op[1:])`
    for a register, `int(op)` for a number) and follows their write order:
    result register first, then the program counter, then the flags. */
module Exec {
  import opened Base
  import opened Text
  import opened Program
  import opened Alu
  import opened Machine
  import Bits

  /** What a step hands back besides the new state: nothing, the text a
      `PRINTF` call produced (as character codes), or a runtime error the
      interpreter returns instead of raising. */
  datatype Report = Quiet | Printed(codes: seq<int>) | Fault(pc: Word, error: Error)

  datatype Outcome = Outcome(m: Machine, report: Report)

  // --------------------------------------------------------------- operands

  /** `current_inst[i + 1]`. */
  function OperandAt(ops: seq<Operand>, i: nat): (r: Result<Operand>)
    ensures r.Ok? <==> i < |ops|
    ensures r.Ok? ==> r.value == ops[i]
  {
    if i < |ops| then Ok(ops[i]) else Err(Crash(ListIndexError))
  }

  /** `int(current_inst[i + 1][1:])`: the number in a register name. */
  function RegNumber(ops: seq<Operand>, i: nat): (r: Result<int>)
    ensures r.Ok? <==> i < |ops| && ops[i].OStr? && |ops[i].s| >= 1 && PyInt(ops[i].s[1..], 10).Some?
    ensures r.Ok? ==> r.value == PyInt(ops[i].s[1..], 10).value
  {
    var o :- OperandAt(ops, i);
    match o
    case OInt(_) => Err(Crash(IntNotSubscriptable))
    case OStr(s) =>
      if |s| == 0 then Err(Crash(IntLiteralError))
      else match PyInt(s[1..], 10)
        case None => Err(Crash(IntLiteralError))
        case Some(n) => Ok(n)
  }

  /** `int(current_inst[i + 1])`. */
  function Number(ops: seq<Operand>, i: nat): (r: Result<int>)
    ensures r.Ok? <==> i < |ops| && (ops[i].OInt? || PyInt(ops[i].s, 10).Some?)
    ensures r.Ok? ==> r.value == (if ops[i].OInt? then ops[i].n else PyInt(ops[i].s, 10).value)
  {
    var o :- OperandAt(ops, i);
    match o
    case OInt(n) => Ok(n)
    case OStr(s) =>
      match PyInt(s, 10)
      case None => Err(Crash(IntLiteralError))
      case Some(n) => Ok(n)
  }

  /** A pointer operand, which the interpreters search for `X`, `Y`, `Z`,
      `+` and `-`. */
  function Spelling(ops: seq<Operand>, i: nat): (r: Result<string>)
    ensures r.Ok? <==> i < |ops| && ops[i].OStr?
    ensures r.Ok? ==> r.value == ops[i].s
  {
    var o :- OperandAt(ops, i);
    if o.OStr? then Ok(o.s) else Err(Crash(IntNotIterable))
  }

  /** The register operand the parsers produce for register `n`. */
  function RegOp(n: int): Operand {
    OStr("R" + IntToString(n))
  }

  lemma RegOpNumber(ops: seq<Operand>, i: nat, n: int)
    requires i < |ops| && ops[i] == RegOp(n)
    ensures RegNumber(ops, i) == Ok(n)
  {
    assert ops[i].s[1..] == IntToString(n);
    IntToStringRoundTrip(n);
  }

  lemma NumberOf(ops: seq<Operand>, i: nat, n: int)
    requires i < |ops| && ops[i] == OInt(n)
    ensures Number(ops, i) == Ok(n)
  {
  }

  /** A Python list index into the eight status-register entries. */
  function SregIndex(i: int): (r: Result<nat>)
    ensures r.Ok? <==> -8 <= i < 8
    ensures r.Ok? ==> r.value < 8 && (r.value == i || r.value == i + 8)
  {
    if 0 <= i < 8 then Ok(i)
    else if -8 <= i < 0 then Ok(i + 8)
    else Err(Crash(ListIndexError))
  }

  // ------------------------------------------------------------ ALU groups

  /** Writes `x` to register `d`, moves on one word and installs the flags `s`,
      in the interpreters' order. */
  function Commit(m: Machine, d: int, x: int, s: seq<bool>): (r: Result<Machine>)
    requires Valid(m) && Sreg(s)
    ensures r.Ok? ==> Valid(r.value)
    ensures r.Ok? <==> SetValue(m, d, x).Ok?
    ensures r.Ok? ==> r.value == Advance(SetValue(m, d, x).value, 1).(sreg := s)
  {
    var m1 :- SetValue(m, d, x);
    Ok(Advance(m1, 1).(sreg := s))
  }

  const TwoRegNames: set<string> :=
    {"ADD", "ADC", "SUB", "SBC", "AND", "OR", "EOR", "CP", "CPC", "MOV", "MOVW", "MUL", "MULS", "MULSU"}

  /** The register-register instructions. */
  function TwoReg(name: string, ops: seq<Operand>, m: Machine): (r: Result<Machine>)
    requires Valid(m)
    ensures r.Ok? ==> Valid(r.value)
    ensures r.Ok? ==> r.value.layers == m.layers && r.value.count == m.count && r.value.ended == m.ended
    ensures r.Ok? ==> RegNumber(ops, 0).Ok? && RegNumber(ops, 1).Ok?
  {
    var d :- RegNumber(ops, 0);
    var n :- RegNumber(ops, 1);
    if name == "MOV" then
      var rr :- GetValue(m, n);
      var m1 :- SetValue(m, d, rr);
      Ok(Advance(m1, 1))
    else if name == "MOVW" then
      var lo :- GetValue(m, n);
      var hi :- GetValue(m, n + 1);
      var m1 :- SetValue(m, d, lo);
      var m2 :- SetValue(m1, d + 1, hi);
      Ok(Advance(m2, 1))
    else
      var rd :- GetValue(m, d);
      var rr :- GetValue(m, n);
      var s := m.sreg;
      if name == "CP" then Ok(Advance(m, 1).(sreg := Sub(rd, rr, false, false, s).sreg))
      else if name == "CPC" then Ok(Advance(m, 1).(sreg := Sub(rd, rr, s[FlagC], true, s).sreg))
      else if name == "MUL" || name == "MULS" || name == "MULSU" then
        var w := Mul(rd, rr, s);
        var m1 :- SetValue(m, 0, w.lo);
        var m2 :- SetValue(m1, 1, w.hi);
        Ok(Advance(m2, 1).(sreg := w.sreg))
      else
        var o :=
          if name == "ADD" then Add(rd, rr, false, s)
          else if name == "ADC" then Add(rd, rr, s[FlagC], s)
          else if name == "SUB" then Sub(rd, rr, false, false, s)
          else if name == "SBC" then Sub(rd, rr, s[FlagC], false, s)
          else if name == "AND" then Logic(And(rd, rr), s)
          else if name == "OR" then Logic(Or(rd, rr), s)
          else Logic(Xor(rd, rr), s);
        Commit(m, d, o.r, o.sreg)
  }

  const OneRegNames: set<string> :=
    {"COM", "NEG", "INC", "DEC", "ASR", "LSL", "LSR", "ROL", "ROR", "SWAP", "TST", "CLR", "SER"}

  /** The single-register instructions. */
  function OneReg(name: string, ops: seq<Operand>, m: Machine): (r: Result<Machine>)
    requires Valid(m)
    ensures r.Ok? ==> Valid(r.value)
    ensures r.Ok? ==> r.value.layers == m.layers && r.value.count == m.count && r.value.ended == m.ended
    ensures r.Ok? ==> RegNumber(ops, 0).Ok?
  {
    var d :- RegNumber(ops, 0);
    var s := m.sreg;
    if name == "CLR" then Commit(m, d, 0, Clr(s))
    else if name == "SER" then
      var m1 :- SetValue(m, d, 255);
      Ok(Advance(m1, 1))
    else
      var rd :- GetValue(m, d);
      if name == "SWAP" then
        var m1 :- SetValue(m, d, Swap(rd));
        Ok(Advance(m1, 1))
      else
        var o :=
          if name == "COM" then Com(rd, s)
          else if name == "NEG" then Neg(rd, s)
          else if name == "INC" then Inc(rd, s)
          else if name == "DEC" then Dec(rd, s)
          else if name == "ASR" then Asr(rd, s)
          else if name == "LSL" then Lsl(rd, s)
          else if name == "LSR" then Lsr(rd, s)
          else if name == "ROL" then Rol(rd, s)
          else if name == "ROR" then Ror(rd, s)
          else Logic(rd, s);
        Commit(m, d, o.r, o.sreg)
  }

  const ImmediateNames: set<string> :=
    {"ANDI", "ORI", "SUBI", "CPI", "SBR", "CBR", "LDI", "ADIW", "SBIW"}

  /** The register-immediate instructions. `ANDI` and `CBR` mask with `K`
      exactly as Python's `&` does for any `K` (only its low eight bits meet a
      byte); `LDI`, `ADIW` and `SBIW` take any `K`. `ORI`, `SBR`, `SUBI` and
      `CPI` are modelled for `K` in 0..255, the range the current parser
      enforces; outside it they are refused. */
  function Immediate(name: string, ops: seq<Operand>, m: Machine): (r: Result<Machine>)
    requires Valid(m)
    ensures r.Ok? ==> Valid(r.value)
    ensures r.Ok? ==> r.value.layers == m.layers && r.value.count == m.count && r.value.ended == m.ended
    ensures r.Ok? ==> RegNumber(ops, 0).Ok? && Number(ops, 1).Ok?
    ensures r.Ok? && name in {"ORI", "SBR", "SUBI", "CPI"} ==> 0 <= Number(ops, 1).value < 256
  {
    var d :- RegNumber(ops, 0);
    var s := m.sreg;
    if name == "LDI" then
      var k :- Number(ops, 1);
      var m1 :- SetValue(m, d, k);
      Ok(Advance(m1, 1))
    else if name == "ADIW" || name == "SBIW" then
      var lo :- GetValue(m, d);
      var hi :- GetValue(m, d + 1);
      var k :- Number(ops, 1);
      var w := if name == "ADIW" then Adiw(lo, hi, k, s) else Sbiw(lo, hi, k, s);
      var m1 :- SetValue(m, d, w.lo);
      var m2 :- SetValue(m1, d + 1, w.hi);
      Ok(Advance(m2, 1).(sreg := w.sreg))
    else
      var rd :- GetValue(m, d);
      var k :- Number(ops, 1);
      if name == "ANDI" then
        var o := Logic(And(rd, k % 256), s);
        Commit(m, d, o.r, o.sreg)
      else if name == "CBR" then
        var o := Logic(And(rd, (255 - k) % 256), s);
        Commit(m, d, o.r, o.sreg)
      else if !(0 <= k < 256) then Err(Crash(ImmediateRange))
      else if name == "CPI" then Ok(Advance(m, 1).(sreg := Sub(rd, k, false, false, s).sreg))
      else if name == "SUBI" then
        var o := Sub(rd, k, false, false, s);
        Commit(m, d, o.r, o.sreg)
      else
        var o := Logic(Or(rd, k), s);
        Commit(m, d, o.r, o.sreg)
  }

  // ---------------------------------------------------------- flag group

  /** The status-register entry each clear/set instruction addresses. */
  function FlagOf(name: string): (i: Option<nat>)
    ensures i.Some? ==> i.value < 8
  {
    if name == "CLC" || name == "SEC" then Some(FlagC)
    else if name == "CLH" || name == "SEH" then Some(FlagH)
    else if name == "CLI" || name == "SEI" then Some(FlagI)
    else if name == "CLN" || name == "SEN" then Some(FlagN)
    else if name == "CLS" || name == "SES" then Some(FlagS)
    else if name == "CLT" || name == "SET" then Some(FlagT)
    else if name == "CLV" || name == "SEV" then Some(FlagV)
    else if name == "CLZ" || name == "SEZ" then Some(FlagZ)
    else None
  }

  const FlagNames: set<string> :=
    {"BSET", "BCLR", "CLC", "CLH", "CLI", "CLN", "CLS", "CLT", "CLV", "CLZ",
     "SEC", "SEH", "SEI", "SEN", "SES", "SET", "SEV", "SEZ"}

  /** `BSET s`/`BCLR s` write entry `7 - s` (a Python index, so -8..7 is
      accepted); the named forms write their own flag. */
  function FlagOp(name: string, ops: seq<Operand>, m: Machine): (r: Result<Machine>)
    requires Valid(m) && name in FlagNames
    ensures r.Ok? ==> Valid(r.value) && Pc(r.value) == (Pc(m) + 1) % 0x1_0000
    ensures r.Ok? ==> r.value == m.(sreg := r.value.sreg, pcl := r.value.pcl, pch := r.value.pch)
    ensures FlagOf(name).Some? ==>
              r.Ok? && r.value.sreg == m.sreg[FlagOf(name).value := name[0] == 'S']
  {
    var on := name == "BSET" || name[0] == 'S';
    var i :- if name == "BSET" || name == "BCLR" then
               var s :- Number(ops, 0);
               SregIndex(7 - s)
             else Ok(FlagOf(name).value);
    Ok(Advance(m, 1).(sreg := m.sreg[i := on]))
  }

  // ----------------------------------------------------------- branches

  /** What a conditional branch tests: one status flag against a value, or
      (`BRGE`/`BRLT`) whether V and N agree. */
  datatype Test = Flag(i: nat, want: bool) | Signs(differ: bool)

  function BranchTest(name: string): (t: Option<Test>)
    ensures t.Some? && t.value.Flag? ==> t.value.i < 8
  {
    if name == "BRCC" || name == "BRSH" then Some(Flag(FlagC, false))
    else if name == "BRCS" || name == "BRLO" then Some(Flag(FlagC, true))
    else if name == "BREQ" then Some(Flag(FlagZ, true))
    else if name == "BRNE" then Some(Flag(FlagZ, false))
    else if name == "BRHC" then Some(Flag(FlagH, false))
    else if name == "BRHS" then Some(Flag(FlagH, true))
    else if name == "BRID" then Some(Flag(FlagI, false))
    else if name == "BRIE" then Some(Flag(FlagI, true))
    else if name == "BRMI" then Some(Flag(FlagN, true))
    else if name == "BRPL" then Some(Flag(FlagN, false))
    else if name == "BRTC" then Some(Flag(FlagT, false))
    else if name == "BRTS" then Some(Flag(FlagT, true))
    else if name == "BRVC" then Some(Flag(FlagV, false))
    else if name == "BRVS" then Some(Flag(FlagV, true))
    else if name == "BRGE" then Some(Signs(false))
    else if name == "BRLT" then Some(Signs(true))
    else None
  }

  predicate Taken(t: Test, s: seq<bool>)
    requires Sreg(s) && (t.Flag? ==> t.i < 8)
  {
    match t
    case Flag(i, want) => s[i] == want
    case Signs(differ) => (s[FlagV] != s[FlagN]) == differ
  }

  /** A named conditional branch (`t` is what it tests): taken, it moves to
      `pc + k + 1`, untaken to `pc + 1`. */
  function Branch(t: Test, ops: seq<Operand>, m: Machine): (r: Result<Machine>)
    requires Valid(m) && (t.Flag? ==> t.i < 8)
    ensures r.Ok? <==> Number(ops, 0).Ok?
    ensures r.Ok? ==> r.value == m.(pcl := r.value.pcl, pch := r.value.pch) && Valid(r.value)
    ensures r.Ok? && Taken(t, m.sreg) ==> Pc(r.value) == (Pc(m) + Number(ops, 0).value + 1) % 0x1_0000
    ensures r.Ok? && !Taken(t, m.sreg) ==> Pc(r.value) == (Pc(m) + 1) % 0x1_0000
  {
    var k :- Number(ops, 0);
    Ok(Advance(m, if Taken(t, m.sreg) then k + 1 else 1))
  }

  /** `BRBS s, k` (`want`) and `BRBC s, k`: test status-register entry `7 - s`,
      a Python index, so `s` may run from 0 to 15. */
  function BitBranch(want: bool, ops: seq<Operand>, m: Machine): (r: Result<Machine>)
    requires Valid(m)
    ensures r.Ok? <==> Number(ops, 0).Ok? && Number(ops, 1).Ok? && -8 <= 7 - Number(ops, 0).value < 8
    ensures r.Ok? ==> r.value == m.(pcl := r.value.pcl, pch := r.value.pch) && Valid(r.value)
    ensures r.Ok? ==>
              var i := SregIndex(7 - Number(ops, 0).value).value;
              Pc(r.value) == (Pc(m) + (if m.sreg[i] == want then Number(ops, 1).value + 1 else 1)) % 0x1_0000
  {
    var s :- Number(ops, 0);
    var k :- Number(ops, 1);
    var i :- SregIndex(7 - s);
    Ok(Advance(m, if m.sreg[i] == want then k + 1 else 1))
  }

  /** `JMP k`, `RJMP k` and `NOP`. */
  function Jump(name: string, ops: seq<Operand>, m: Machine): (r: Result<Machine>)
    requires Valid(m)
    ensures name == "NOP" ==> r.Ok? && Pc(r.value) == (Pc(m) + 1) % 0x1_0000
    ensures name != "NOP" ==> (r.Ok? <==> Number(ops, 0).Ok?)
    ensures r.Ok? ==> r.value == m.(pcl := r.value.pcl, pch := r.value.pch) && Valid(r.value)
    ensures name == "JMP" && r.Ok? ==> Pc(r.value) == Number(ops, 0).value % 0x1_0000
    ensures name == "RJMP" && r.Ok? ==> Pc(r.value) == (Pc(m) + Number(ops, 0).value + 1) % 0x1_0000
  {
    if name == "NOP" then Ok(Advance(m, 1))
    else
      var k :- Number(ops, 0);
      if name == "JMP" then Ok(SetPc(m, k)) else Ok(Advance(m, k + 1))
  }

  /** Whether `SBRS` (`want`) or `SBRC` skips: bit `b` of the register set
      (clear). Python's `Rr & 2**b` sees no bit above 7 in a byte. */
  predicate Skips(want: bool, rr: Byte, b: nat) {
    Bits.Bit(rr, b) == want
  }

  /** `SBRS r, b` (`want`) and `SBRC r, b` (current simulator only): a skip
      moves two words on when the word after the next instruction is an
      instruction, three when it is the placeholder of a two-word
      instruction. A negative `b` makes `2**b` a float, which Python's `&`
      rejects. */
  function Skip(want: bool, rr: Byte, b: int, pmem: seq<Slot>, m: Machine): (r: Result<Machine>)
    requires Valid(m)
    ensures r.Ok? <==> b >= 0 && (Skips(want, rr, b) ==> Pc(m) + 2 < |pmem|)
    ensures r.Ok? ==> r.value == m.(pcl := r.value.pcl, pch := r.value.pch) && Valid(r.value)
    ensures r.Ok? && !Skips(want, rr, b) ==> Pc(r.value) == (Pc(m) + 1) % 0x1_0000
    ensures r.Ok? && Skips(want, rr, b) ==>
              Pc(r.value) == (Pc(m) + (if pmem[Pc(m) + 2] != Filler then 2 else 3)) % 0x1_0000
  {
    if b < 0 then Err(Crash(AndWithFloat))
    else if !Skips(want, rr, b) then Ok(Advance(m, 1))
    else if Pc(m) + 2 >= |pmem| then Err(Crash(ListIndexError))
    else if pmem[Pc(m) + 2] != Filler then Ok(Advance(m, 2))
    else Ok(Advance(m, 3))
  }

  // ------------------------------------------------------------- I/O space

  /** I/O address `A` is data-memory cell `A + 0x20`. */
  const IoOffset: int := 0x20

  const IoNames: set<string> := {"IN", "OUT", "SBI", "CBI"}

  function Io(name: string, ops: seq<Operand>, m: Machine): (r: Result<Machine>)
    requires Valid(m) && name in IoNames
    ensures r.Ok? ==> Valid(r.value)
    ensures r.Ok? ==> r.value.layers == m.layers && r.value.count == m.count && r.value.ended == m.ended
  {
    if name == "IN" then
      var a :- Number(ops, 1);
      var x :- GetValue(m, a + IoOffset);
      var d :- RegNumber(ops, 0);
      var m1 :- SetValue(m, d, x);
      Ok(Advance(m1, 1))
    else if name == "OUT" then
      var n :- RegNumber(ops, 1);
      var x :- GetValue(m, n);
      var a :- Number(ops, 0);
      var m1 :- SetValue(m, a + IoOffset, x);
      Ok(Advance(m1, 1))
    else
      var a :- Number(ops, 0);
      var b :- Number(ops, 1);
      var m1 :- if name == "SBI" then SetBit(m, a + IoOffset, b) else ClearBit(m, a + IoOffset, b);
      Ok(Advance(m1, 1))
  }

  // --------------------------------------------------------- data memory

  /** Where pointer and direct addresses land in data memory: the current
      simulator addresses memory directly, the library generations add 0x100
      (the start of SRAM). */
  function Offset(v: Variant): (b: nat)
    ensures b == if v == Checked then 0 else DataStart
  {
    if v == Checked then 0 else DataStart
  }

  const MemoryNames: set<string> := {"LD", "LDD", "LDS", "ST", "STD", "STS", "XCH"}

  /** The loads and stores. A load gives the register the stored number
      modulo 256; a store replaces the cell with the register's byte. `-P`
      steps the pointer down before the access and `P+` up after it. */
  function Memory(v: Variant, name: string, ops: seq<Operand>, m: Machine): (r: Result<Machine>)
    requires Valid(m) && name in MemoryNames
    ensures r.Ok? ==> Valid(r.value)
    ensures r.Ok? ==> r.value.layers == m.layers && r.value.count == m.count && r.value.ended == m.ended
  {
    if name == "LD" then LoadVia(v, ops, m)
    else if name == "LDD" then LoadDisplaced(v, ops, m)
    else if name == "LDS" then LoadDirect(v, ops, m)
    else if name == "ST" then StoreVia(v, ops, m)
    else if name == "STD" then StoreDisplaced(v, ops, m)
    else if name == "STS" then StoreDirect(v, ops, m)
    else Exchange(v, ops, m)
  }

  /** `LD Rd, P`. */
  function LoadVia(v: Variant, ops: seq<Operand>, m: Machine): (r: Result<Machine>)
    requires Valid(m)
    ensures r.Ok? ==> Valid(r.value)
    ensures r.Ok? ==> r.value.layers == m.layers && r.value.count == m.count && r.value.ended == m.ended
  {
    var d :- RegNumber(ops, 0);
    var p :- Spelling(ops, 1);
    var m1 :- PreDecrement(m, p);
    var a :- PointerValue(m1, p);
    var k :- Fetch(m1, a + Offset(v));
    var m2 :- SetValue(m1, d, k);
    PostIncrement(Advance(m2, 1), p)
  }

  /** `LDD Rd, P+q`. */
  function LoadDisplaced(v: Variant, ops: seq<Operand>, m: Machine): (r: Result<Machine>)
    requires Valid(m)
    ensures r.Ok? ==> Valid(r.value)
    ensures r.Ok? ==> r.value.layers == m.layers && r.value.count == m.count && r.value.ended == m.ended
  {
    var d :- RegNumber(ops, 0);
    var p :- Spelling(ops, 1);
    var q :- Number(ops, 2);
    var a :- PointerValue(m, p);
    var k :- Fetch(m, a + Offset(v) + q);
    var m1 :- SetValue(m, d, k);
    Ok(Advance(m1, 1))
  }

  /** `LDS Rd, k`, a two-word instruction. */
  function LoadDirect(v: Variant, ops: seq<Operand>, m: Machine): (r: Result<Machine>)
    requires Valid(m)
    ensures r.Ok? ==> Valid(r.value)
    ensures r.Ok? ==> r.value.layers == m.layers && r.value.count == m.count && r.value.ended == m.ended
  {
    var d :- RegNumber(ops, 0);
    var a :- Number(ops, 1);
    var k :- Fetch(m, a + Offset(v));
    var m1 :- SetValue(m, d, k);
    Ok(Advance(m1, 2))
  }

  /** `ST P, Rr`. */
  function StoreVia(v: Variant, ops: seq<Operand>, m: Machine): (r: Result<Machine>)
    requires Valid(m)
    ensures r.Ok? ==> Valid(r.value)
    ensures r.Ok? ==> r.value.layers == m.layers && r.value.count == m.count && r.value.ended == m.ended
  {
    var p :- Spelling(ops, 0);
    var m1 :- PreDecrement(m, p);
    var a :- PointerValue(m1, p);
    var n :- RegNumber(ops, 1);
    var x :- GetValue(m1, n);
    var m2 :- Put(m1, a + Offset(v), x);
    PostIncrement(Advance(m2, 1), p)
  }

  /** `STD P+q, Rr`. */
  function StoreDisplaced(v: Variant, ops: seq<Operand>, m: Machine): (r: Result<Machine>)
    requires Valid(m)
    ensures r.Ok? ==> Valid(r.value)
    ensures r.Ok? ==> r.value.layers == m.layers && r.value.count == m.count && r.value.ended == m.ended
  {
    var p :- Spelling(ops, 0);
    var q :- Number(ops, 1);
    var a :- PointerValue(m, p);
    var n :- RegNumber(ops, 2);
    var x :- GetValue(m, n);
    var m1 :- Put(m, a + Offset(v) + q, x);
    Ok(Advance(m1, 1))
  }

  /** `STS k, Rr`, a two-word instruction. */
  function StoreDirect(v: Variant, ops: seq<Operand>, m: Machine): (r: Result<Machine>)
    requires Valid(m)
    ensures r.Ok? ==> Valid(r.value)
    ensures r.Ok? ==> r.value.layers == m.layers && r.value.count == m.count && r.value.ended == m.ended
  {
    var n :- RegNumber(ops, 1);
    var x :- GetValue(m, n);
    var a :- Number(ops, 0);
    var m1 :- Put(m, a + Offset(v), x);
    Ok(Advance(m1, 2))
  }

  /** `XCH Z, Rd`: the register and the cell Z points at swap contents. */
  function Exchange(v: Variant, ops: seq<Operand>, m: Machine): (r: Result<Machine>)
    requires Valid(m)
    ensures r.Ok? ==> Valid(r.value)
    ensures r.Ok? ==> r.value.layers == m.layers && r.value.count == m.count && r.value.ended == m.ended
  {
    var z :- PointerValue(m, "Z");
    var n :- RegNumber(ops, 1);
    var x :- GetValue(m, n);
    var k :- Fetch(m, z + Offset(v));
    var m1 :- SetValue(m, n, k);
    var m2 :- Put(m1, z + Offset(v), x);
    Ok(Advance(m2, 1))
  }
}

=== FILE: execlaws.dfy ===
/** What the instruction groups leave in the registers, stated in the
    arithmetic the AVR Instruction Set Manual gives the instructions, and the
    round trips of a store followed by a load and of an output followed by
    an input. */
module ExecLaws {
  import opened Base
  import opened Program
  import opened Machine
  import opened Alu
  import opened Exec

  /** Cell `d` is one of the 32 general registers and holds a register object. */
  predicate Plain(m: Machine, d: nat) {
    Valid(m) && d < 32 && m.dmem[d].Reg?
  }

  /** Writing a number to a cell that holds a register object replaces just
      that cell with the number modulo 256. */
  lemma Written(m: Machine, i: nat, x: int)
    requires Valid(m) && i < DmemSize && m.dmem[i].Reg?
    ensures SetValue(m, i, x) == Ok(m.(dmem := m.dmem[i := Reg(x % 256)]))
  {
  }

  /** The machine after one cell is replaced and the counter moves on `n` words. */
  function Wrote(m: Machine, i: nat, c: Cell, n: int): (r: Machine)
    requires i < |m.dmem|
    ensures r.dmem == m.dmem[i := c] && r.sreg == m.sreg && Pc(r) == (Pc(m) + n) % 0x1_0000
  {
    var m1 := m.(dmem := m.dmem[i := c]);
    assert Pc(m1) == Pc(m);
    Advance(m1, n)
  }

  /** The machine after a comparison: the flags become `s` and the counter
      moves on one word; memory is untouched. */
  function Compared(m: Machine, s: seq<bool>): (r: Machine)
    ensures r.dmem == m.dmem && r.sreg == s && Pc(r) == (Pc(m) + 1) % 0x1_0000
  {
    Advance(m, 1).(sreg := s)
  }

  /** A subtraction without borrow sets Z exactly when the bytes are equal. */
  lemma SubZero(rd: Byte, rr: Byte, s: seq<bool>)
    requires Sreg(s)
    ensures Sub(rd, rr, false, false, s).sreg[FlagZ] <==> rd == rr
  {
    assert Sub(rd, rr, false, false, s).r == (rd - rr) % 256;
  }

  /** Committing a byte to a plain register replaces just that cell, installs
      the flags and moves on one word. */
  lemma Committed(m: Machine, d: nat, x: Byte, s: seq<bool>)
    requires Plain(m, d) && Sreg(s)
    ensures Commit(m, d, x, s).Ok?
    ensures var r := Commit(m, d, x, s).value;
            r.dmem == m.dmem[d := Reg(x)] && r.sreg == s && Pc(r) == (Pc(m) + 1) % 0x1_0000
  {
    Written(m, d, x);
  }

  // ----------------------------------------- one dispatch step per mnemonic

  /** The memory group hands `STS` and `LDS` to their own functions. */
  lemma MemoryDispatch(v: Variant, ops: seq<Operand>, m: Machine)
    requires Valid(m)
    ensures Memory(v, "STS", ops, m) == StoreDirect(v, ops, m)
    ensures Memory(v, "LDS", ops, m) == LoadDirect(v, ops, m)
  {
    assert "STS" != "LD" && "STS" != "LDD" && "STS" != "LDS" && "STS" != "ST" && "STS" != "STD";
    assert "LDS" != "LD" && "LDS" != "LDD";
  }

  lemma AddUnfolds(m: Machine, d: nat, n: nat)
    requires Plain(m, d) && Plain(m, n)
    ensures var o := Add(m.dmem[d].v, m.dmem[n].v, false, m.sreg);
            TwoReg("ADD", [RegOp(d), RegOp(n)], m) == Commit(m, d, o.r, o.sreg)
  {
    RegOpNumber([RegOp(d), RegOp(n)], 0, d);
    RegOpNumber([RegOp(d), RegOp(n)], 1, n);
    assert "ADD" != "MOV" && "ADD" != "MOVW" && "ADD" != "CP" && "ADD" != "CPC";
    assert "ADD" != "MUL" && "ADD" != "MULS" && "ADD" != "MULSU";
  }

  lemma SubUnfolds(m: Machine, d: nat, n: nat)
    requires Plain(m, d) && Plain(m, n)
    ensures var o := Sub(m.dmem[d].v, m.dmem[n].v, false, false, m.sreg);
            TwoReg("SUB", [RegOp(d), RegOp(n)], m) == Commit(m, d, o.r, o.sreg)
  {
    RegOpNumber([RegOp(d), RegOp(n)], 0, d);
    RegOpNumber([RegOp(d), RegOp(n)], 1, n);
    assert "SUB" != "MOV" && "SUB" != "MOVW" && "SUB" != "CP" && "SUB" != "CPC";
    assert "SUB" != "MUL" && "SUB" != "MULS" && "SUB" != "MULSU" && "SUB" != "ADD" && "SUB" != "ADC";
  }

  lemma CpUnfolds(m: Machine, d: nat, n: nat)
    requires Plain(m, d) && Plain(m, n)
    ensures TwoReg("CP", [RegOp(d), RegOp(n)], m) ==
            Ok(Compared(m, Sub(m.dmem[d].v, m.dmem[n].v, false, false, m.sreg).sreg))
  {
    RegOpNumber([RegOp(d), RegOp(n)], 0, d);
    RegOpNumber([RegOp(d), RegOp(n)], 1, n);
    assert "CP" != "MOV" && "CP" != "MOVW";
  }

  lemma IncUnfolds(m: Machine, d: nat)
    requires Plain(m, d)
    ensures var o := Inc(m.dmem[d].v, m.sreg);
            OneReg("INC", [RegOp(d)], m) == Commit(m, d, o.r, o.sreg)
  {
    RegOpNumber([RegOp(d)], 0, d);
    assert "INC" != "CLR" && "INC" != "SER" && "INC" != "SWAP" && "INC" != "COM" && "INC" != "NEG";
  }

  lemma SubiUnfolds(m: Machine, d: nat, k: int)
    requires Plain(m, d) && 0 <= k < 256
    ensures var o := Sub(m.dmem[d].v, k, false, false, m.sreg);
            Immediate("SUBI", [RegOp(d), OInt(k)], m) == Commit(m, d, o.r, o.sreg)
  {
    RegOpNumber([RegOp(d), OInt(k)], 0, d);
    NumberOf([RegOp(d), OInt(k)], 1, k);
    assert "SUBI" != "LDI" && "SUBI" != "ADIW" && "SUBI" != "SBIW";
    assert "SUBI" != "ANDI" && "SUBI" != "CBR" && "SUBI" != "CPI";
  }

  lemma OutUnfolds(m: Machine, a: nat, n: nat)
    requires Plain(m, n) && a + IoOffset < DmemSize && m.dmem[a + IoOffset].Reg?
    ensures Io("OUT", [OInt(a), RegOp(n)], m) ==
            Ok(Wrote(m, a + IoOffset, Reg(m.dmem[n].v), 1))
  {
    RegOpNumber([OInt(a), RegOp(n)], 1, n);
    NumberOf([OInt(a), RegOp(n)], 0, a);
    Written(m, a + IoOffset, m.dmem[n].v);
    assert "OUT" != "IN";
  }

  lemma InUnfolds(m: Machine, a: nat, d: nat)
    requires Plain(m, d) && a + IoOffset < DmemSize && m.dmem[a + IoOffset].Reg?
    ensures Io("IN", [RegOp(d), OInt(a)], m) ==
            Ok(Wrote(m, d, Reg(m.dmem[a + IoOffset].v), 1))
  {
    RegOpNumber([RegOp(d), OInt(a)], 0, d);
    NumberOf([RegOp(d), OInt(a)], 1, a);
    Written(m, d, m.dmem[a + IoOffset].v);
  }

  lemma StsUnfolds(v: Variant, m: Machine, k: nat, n: nat)
    requires Plain(m, n) && k + Offset(v) < DmemSize
    ensures StoreDirect(v, [OInt(k), RegOp(n)], m) ==
            Ok(Wrote(m, k + Offset(v), Raw(m.dmem[n].v), 2))
  {
    RegOpNumber([OInt(k), RegOp(n)], 1, n);
    NumberOf([OInt(k), RegOp(n)], 0, k);
    var i := k + Offset(v);
    assert Put(m, i, m.dmem[n].v) == Ok(m.(dmem := m.dmem[i := Raw(m.dmem[n].v)]));
  }

  lemma LdsUnfolds(v: Variant, m: Machine, k: nat, d: nat)
    requires Plain(m, d) && k + Offset(v) < DmemSize && m.dmem[k + Offset(v)].Raw?
    ensures LoadDirect(v, [RegOp(d), OInt(k)], m) ==
            Ok(Wrote(m, d, Reg(m.dmem[k + Offset(v)].n % 256), 2))
  {
    RegOpNumber([RegOp(d), OInt(k)], 0, d);
    NumberOf([RegOp(d), OInt(k)], 1, k);
    var x := m.dmem[k + Offset(v)].n;
    assert Fetch(m, k + Offset(v)) == Ok(x);
    Written(m, d, x);
    var m1 := m.(dmem := m.dmem[d := Reg(x % 256)]);
    assert Wrote(m, d, Reg(x % 256), 2) == Advance(m1, 2);
  }

  // ------------------------------------------------------ register groups

  /** `ADD Rd, Rr`: Rd takes the sum modulo 256, C tells whether the sum
      carried out of the byte, Z whether the result is zero, and the counter
      moves on one word. No other cell changes. */
  lemma AddStep(m: Machine, d: nat, n: nat)
    requires Plain(m, d) && Plain(m, n)
    ensures TwoReg("ADD", [RegOp(d), RegOp(n)], m).Ok?
    ensures var r := TwoReg("ADD", [RegOp(d), RegOp(n)], m).value;
            r.dmem == m.dmem[d := Reg((m.dmem[d].v + m.dmem[n].v) % 256)] && Pc(r) == (Pc(m) + 1) % 0x1_0000
    ensures var r := TwoReg("ADD", [RegOp(d), RegOp(n)], m).value;
            (r.sreg[FlagC] <==> m.dmem[d].v + m.dmem[n].v >= 256) &&
            (r.sreg[FlagZ] <==> (m.dmem[d].v + m.dmem[n].v) % 256 == 0)
  {
    var o := Add(m.dmem[d].v, m.dmem[n].v, false, m.sreg);
    assert o.r == (m.dmem[d].v + m.dmem[n].v) % 256;
    Committed(m, d, o.r, o.sreg);
    AddUnfolds(m, d, n);
  }

  /** `SUB Rd, Rr`: Rd takes the difference modulo 256, C tells whether the
      subtraction borrowed and Z whether the registers were equal. */
  lemma SubStep(m: Machine, d: nat, n: nat)
    requires Plain(m, d) && Plain(m, n)
    ensures TwoReg("SUB", [RegOp(d), RegOp(n)], m).Ok?
    ensures var r := TwoReg("SUB", [RegOp(d), RegOp(n)], m).value;
            r.dmem == m.dmem[d := Reg((m.dmem[d].v - m.dmem[n].v) % 256)] && Pc(r) == (Pc(m) + 1) % 0x1_0000
    ensures var r := TwoReg("SUB", [RegOp(d), RegOp(n)], m).value;
            (r.sreg[FlagC] <==> m.dmem[d].v < m.dmem[n].v) && (r.sreg[FlagZ] <==> m.dmem[d].v == m.dmem[n].v)
  {
    var o := Sub(m.dmem[d].v, m.dmem[n].v, false, false, m.sreg);
    assert o.r == (m.dmem[d].v - m.dmem[n].v) % 256;
    SubZero(m.dmem[d].v, m.dmem[n].v, m.sreg);
    Committed(m, d, o.r, o.sreg);
    SubUnfolds(m, d, n);
  }

  /** `CP Rd, Rr` is `SUB Rd, Rr` without the write-back: the same flags
      and the same counter, with memory left as it was. */
  lemma CpStep(m: Machine, d: nat, n: nat)
    requires Plain(m, d) && Plain(m, n)
    ensures TwoReg("CP", [RegOp(d), RegOp(n)], m).Ok? && TwoReg("SUB", [RegOp(d), RegOp(n)], m).Ok?
    ensures var c, s := TwoReg("CP", [RegOp(d), RegOp(n)], m).value, TwoReg("SUB", [RegOp(d), RegOp(n)], m).value;
            c.dmem == m.dmem && c.sreg == s.sreg && Pc(c) == Pc(s)
  {
    var o := Sub(m.dmem[d].v, m.dmem[n].v, false, false, m.sreg);
    Committed(m, d, o.r, o.sreg);
    SubUnfolds(m, d, n);
    CpUnfolds(m, d, n);
  }

  /** `MOV Rd, Rr`: the machine with Rd holding Rr's byte, the flags as they
      were and the counter one word on. */
  lemma MovStep(m: Machine, d: nat, n: nat)
    requires Plain(m, d) && Plain(m, n)
    ensures TwoReg("MOV", [RegOp(d), RegOp(n)], m) == Ok(Wrote(m, d, Reg(m.dmem[n].v), 1))
  {
    RegOpNumber([RegOp(d), RegOp(n)], 0, d);
    RegOpNumber([RegOp(d), RegOp(n)], 1, n);
    Written(m, d, m.dmem[n].v);
  }

  /** `INC Rd` adds one modulo 256; V is set exactly when 127 became 128, and
      C is left alone. */
  lemma IncStep(m: Machine, d: nat)
    requires Plain(m, d)
    ensures OneReg("INC", [RegOp(d)], m).Ok?
    ensures var r := OneReg("INC", [RegOp(d)], m).value;
            r.dmem == m.dmem[d := Reg((m.dmem[d].v + 1) % 256)] && Pc(r) == (Pc(m) + 1) % 0x1_0000
    ensures var r := OneReg("INC", [RegOp(d)], m).value;
            (r.sreg[FlagV] <==> m.dmem[d].v == 127) && r.sreg[FlagC] == m.sreg[FlagC]
  {
    var o := Inc(m.dmem[d].v, m.sreg);
    Committed(m, d, o.r, o.sreg);
    IncUnfolds(m, d);
  }

  /** `LDI Rd, K`: the machine with Rd holding K modulo 256, for any K, the
      flags as they were and the counter one word on. */
  lemma LdiStep(m: Machine, d: nat, k: int)
    requires Plain(m, d)
    ensures Immediate("LDI", [RegOp(d), OInt(k)], m) == Ok(Wrote(m, d, Reg(k % 256), 1))
  {
    RegOpNumber([RegOp(d), OInt(k)], 0, d);
    NumberOf([RegOp(d), OInt(k)], 1, k);
    Written(m, d, k);
  }

  /** `SUBI Rd, K` for a byte K: Rd takes the difference modulo 256 and C
      tells whether it borrowed. */
  lemma SubiStep(m: Machine, d: nat, k: int)
    requires Plain(m, d) && 0 <= k < 256
    ensures Immediate("SUBI", [RegOp(d), OInt(k)], m).Ok?
    ensures var r := Immediate("SUBI", [RegOp(d), OInt(k)], m).value;
            r.dmem == m.dmem[d := Reg((m.dmem[d].v - k) % 256)] && Pc(r) == (Pc(m) + 1) % 0x1_0000
    ensures var r := Immediate("SUBI", [RegOp(d), OInt(k)], m).value;
            r.sreg[FlagC] <==> m.dmem[d].v < k
  {
    var o := Sub(m.dmem[d].v, k, false, false, m.sreg);
    assert o.r == (m.dmem[d].v - k) % 256;
    Committed(m, d, o.r, o.sreg);
    SubiUnfolds(m, d, k);
  }

  // --------------------------------------------------------- round trips

  /** `OUT A, Rr` followed by `IN Rd, A`, over an I/O cell that holds a
      register object: the output replaces the cell with Rr's byte and the
      input then gives Rd that same byte, each moving the counter one word. */
  lemma OutThenIn(m: Machine, a: nat, n: nat, d: nat)
    requires Plain(m, n) && Plain(m, d) && a + IoOffset < DmemSize && m.dmem[a + IoOffset].Reg?
    ensures var x := m.dmem[n].v;
            Io("OUT", [OInt(a), RegOp(n)], m) == Ok(Wrote(m, a + IoOffset, Reg(x), 1))
    ensures var m1 := Wrote(m, a + IoOffset, Reg(m.dmem[n].v), 1);
            Io("IN", [RegOp(d), OInt(a)], m1) == Ok(Wrote(m1, d, Reg(m.dmem[n].v), 1))
  {
    OutUnfolds(m, a, n);
    InUnfolds(Wrote(m, a + IoOffset, Reg(m.dmem[n].v), 1), a, d);
  }

  /** `STS k, Rr` followed by `LDS Rd, k`, over a data-memory cell: the store
      replaces the cell with Rr's byte as a bare number and the load then
      gives Rd that same byte, each moving the counter two words. */
  lemma StsThenLds(v: Variant, m: Machine, k: nat, n: nat, d: nat)
    requires Plain(m, n) && Plain(m, d) && DataStart <= k + Offset(v) < DmemSize
    ensures StoreDirect(v, [OInt(k), RegOp(n)], m) == Ok(Wrote(m, k + Offset(v), Raw(m.dmem[n].v), 2))
    ensures var m1 := Wrote(m, k + Offset(v), Raw(m.dmem[n].v), 2);
            LoadDirect(v, [RegOp(d), OInt(k)], m1) == Ok(Wrote(m1, d, Reg(m.dmem[n].v), 2))
  {
    var x := m.dmem[n].v;
    StsUnfolds(v, m, k, n);
    var m1 := Wrote(m, k + Offset(v), Raw(x), 2);
    assert m1.dmem[k + Offset(v)] == Raw(x) && x % 256 == x;
    LdsUnfolds(v, m1, k, d);
  }
}

=== FILE: lexer.dfy ===
/** The lexer: source text to one token list per non-blank line, plus the
    source line number of each line that ended with a newline. Both generations
    are modelled; `Dialect` selects the differences. */
module Lexer {
  import opened Base
  import opened Tokens
  import opened Text

  // ----------------------------------------------------------------- scans

  /** A token read from the text and the index where the lexer resumes. */
  datatype Scan = Scan(tok: Token, next: nat)

  function DigitRunEnd(text: string, i: nat): (j: nat)
    requires i <= |text|
    ensures i <= j <= |text|
    ensures forall k :: i <= k < j ==> IsDigit(text[k])
    ensures j < |text| ==> !IsDigit(text[j])
    decreases |text| - i
  {
    if i < |text| && IsDigit(text[i]) then DigitRunEnd(text, i + 1) else i
  }

  /** Characters that end a number: newline, space, comma and semicolon. */
  predicate IsStop(c: char) { c == '\n' || c == ' ' || c == ',' || c == ';' }

  function StopEnd(text: string, i: nat): (j: nat)
    requires i <= |text|
    ensures i <= j <= |text|
    ensures forall k :: i <= k < j ==> !IsStop(text[k])
    ensures j < |text| ==> IsStop(text[j])
    decreases |text| - i
  {
    if i < |text| && !IsStop(text[i]) then StopEnd(text, i + 1) else i
  }

  predicate IsBaseLetter(c: char) { c == 'b' || c == 'o' || c == 'x' }

  function BaseOf(c: char): (b: nat)
    requires IsBaseLetter(c)
    ensures b == 2 || b == 8 || b == 16
  {
    if c == 'b' then 2 else if c == 'o' then 8 else 16
  }

  /** The current lexer stores numbers modulo 256; the older one keeps them as read. */
  function Reduce(d: Dialect, v: int): int {
    if d == Current then v % 256 else v
  }

  /** `make_number`, entered on a digit. A leading `0b`, `0o` or `0x` switches to
      that base, after which every character up to a stop character belongs to
      the literal; otherwise the literal is the run of decimal digits. */
  function ScanNumber(text: string, i: nat, d: Dialect): (r: Result<Scan>)
    requires i < |text| && IsDigit(text[i])
    ensures r.Ok? ==> i < r.value.next <= |text| && r.value.tok.kind == INT && r.value.tok.value.Num?
    ensures r.Ok? && d == Current ==> 0 <= r.value.tok.value.n < 256
    ensures r.Ok? ==> forall k :: i <= k < r.value.next ==> text[k] != '\n'
    ensures r.Err? ==> r.error.Crash?
  {
    if text[i] == '0' && i + 1 < |text| && IsBaseLetter(text[i + 1]) then ScanBased(text, i, d)
    else Ok(ScanDecimal(text, i, d))
  }

  /** A literal with a base prefix: everything up to a stop character, which
      Python's `int` must accept in that base. */
  function ScanBased(text: string, i: nat, d: Dialect): (r: Result<Scan>)
    requires i + 1 < |text| && text[i] == '0' && IsBaseLetter(text[i + 1])
    ensures r.Ok? ==> i < r.value.next <= |text| && r.value.tok.kind == INT && r.value.tok.value.Num?
    ensures r.Ok? && d == Current ==> 0 <= r.value.tok.value.n < 256
    ensures r.Ok? ==> forall k :: i <= k < r.value.next ==> text[k] != '\n'
    ensures r.Err? ==> r.error == Crash(IntLiteralError)
  {
    var j := StopEnd(text, i + 1);
    match PyInt(text[i + 2..j], BaseOf(text[i + 1]))
    case None => Err(Crash(IntLiteralError))
    case Some(v) => Ok(Scan(Token(INT, Num(Reduce(d, v))), j))
  }

  /** A decimal literal: the run of digits. */
  function ScanDecimal(text: string, i: nat, d: Dialect): (r: Scan)
    requires i < |text| && IsDigit(text[i])
    ensures i < r.next <= |text| && r.tok.kind == INT && r.tok.value.Num?
    ensures d == Current ==> 0 <= r.tok.value.n < 256
    ensures forall k :: i <= k < r.next ==> text[k] != '\n'
  {
    var j := DigitRunEnd(text, i);
    Scan(Token(INT, Num(Reduce(d, ValueIn(text[i..j], 10)))), j)
  }

  /** The number of backslashes that end `s`. */
  function TrailingBackslashes(s: string): (n: nat)
    ensures n <= |s|
  {
    if s != [] && s[|s| - 1] == '\\' then 1 + TrailingBackslashes(s[..|s| - 1]) else 0
  }

  /** A quote at `text[k]` is escaped when an odd run of backslashes precedes it
      inside the string that started at `start`. */
  predicate Escaped(text: string, start: nat, k: nat)
    requires start <= k <= |text|
  {
    TrailingBackslashes(text[start..k]) % 2 == 1
  }

  /** Index of the quote that closes a string opened just before `start`,
      scanning from `j`; `slash` is true after an unpaired backslash. */
  function StringEnd(text: string, start: nat, j: nat, slash: bool): (r: Option<nat>)
    requires start <= j <= |text|
    requires slash == Escaped(text, start, j)
    requires forall k :: start <= k < j ==> text[k] != '\n' && (text[k] == '"' ==> Escaped(text, start, k))
    ensures r.Some? ==> j <= r.value < |text| && text[r.value] == '"' && !Escaped(text, start, r.value)
    ensures r.Some? ==> forall k :: start <= k < r.value ==> text[k] != '\n' && (text[k] == '"' ==> Escaped(text, start, k))
    ensures r.None? ==> forall k :: j <= k < FirstLineEnd(text, j) ==> (text[k] == '"' ==> Escaped(text, start, k))
    decreases |text| - j
  {
    if j == |text| || text[j] == '\n' then None
    else if text[j] == '"' && !slash then Some(j)
    else
      assert text[start..j + 1][..j - start] == text[start..j];
      StringEnd(text, start, j + 1, if text[j] == '\\' then !slash else false)
  }

  /** `make_string`, entered on the opening quote. Backslashes are kept as
      written; a NUL is added in a `.string`/`.asciz` line. A string the line
      ends before it is closed does not stop the lexer: the error object is
      returned as the token, and the caller's step past it swallows the
      newline, so the next line's tokens join this one. */
  function ScanString(text: string, i: nat, ctx: bool): (r: Scan)
    requires i < |text| && text[i] == '"'
    ensures i < r.next <= |text| && (r.tok.kind == STR || r.tok.kind == ERR) && r.tok.value.Text?
    ensures r.tok.kind == STR ==> i + 2 <= r.next && text[r.next - 1] == '"'
    ensures r.tok.kind == STR ==> r.tok.value == Text(text[i + 1..r.next - 1] + (if ctx then [0 as char] else []))
    ensures r.tok.kind == STR ==> !Escaped(text, i + 1, r.next - 1)
    ensures r.tok.kind == STR ==> forall k :: i + 1 <= k < r.next - 1 ==>
                                   text[k] != '\n' && (text[k] == '"' ==> Escaped(text, i + 1, k))
    ensures r.tok.kind == ERR ==>
              var e := FirstLineEnd(text, i + 1);
              r.tok.value == Text("\"" + text[i + 1..e] + "\"") &&
              r.next == (if e < |text| then e + 1 else |text|) &&
              forall k :: i + 1 <= k < e ==> (text[k] == '"' ==> Escaped(text, i + 1, k))
  {
    match StringEnd(text, i + 1, i + 1, false)
    case Some(j) =>
      Scan(Token(STR, Text(text[i + 1..j] + (if ctx then [0 as char] else []))), j + 1)
    case None =>
      var e := FirstLineEnd(text, i + 1);
      Scan(Token(ERR, Text("\"" + text[i + 1..e] + "\"")), if e < |text| then e + 1 else |text|)
  }

  /** Whether a scan went past a newline: only an unclosed string's does. */
  predicate Crossed(text: string, s: Scan) {
    s.tok.kind == ERR && 0 < s.next <= |text| && text[s.next - 1] == '\n'
  }

  function FirstLineEnd(text: string, j: nat): (e: nat)
    requires j <= |text|
    ensures j <= e <= |text|
    ensures e < |text| ==> text[e] == '\n'
    ensures forall k :: j <= k < e ==> text[k] != '\n'
    decreases |text| - j
  {
    if j == |text| || text[j] == '\n' then j else FirstLineEnd(text, j + 1)
  }

  predicate IsPointerChar(c: char) { c == 'X' || c == 'Y' || c == 'Z' || c == '-' || c == '+' || c == ' ' }

  function PointerRunEnd(text: string, i: nat): (j: nat)
    requires i <= |text|
    ensures i <= j <= |text|
    ensures forall k :: i <= k < j ==> IsPointerChar(text[k])
    ensures j < |text| ==> !IsPointerChar(text[j])
    decreases |text| - i
  {
    if i < |text| && IsPointerChar(text[i]) then PointerRunEnd(text, i + 1) else i
  }

  function DropSpaces(s: string): (r: string)
    ensures |r| <= |s| && ' ' !in r
  {
    if s == [] then [] else (if s[0] == ' ' then [] else [s[0]]) + DropSpaces(s[1..])
  }

  const PointerSpellings: set<string> := {"X", "X+", "-X", "Y", "Y+", "-Y", "Z", "Z+", "-Z"}

  /** The nine pointer spellings. */
  function PointerKind(s: string): (r: Option<Kind>)
    ensures r.Some? <==> s in PointerSpellings
    ensures r.Some? ==> IsPointerKind(r.value) && PointerSpelling(r.value) == s
  {
    if s == "X" then Some(X) else if s == "X+" then Some(XP) else if s == "-X" then Some(MX)
    else if s == "Y" then Some(Y) else if s == "Y+" then Some(YP) else if s == "-Y" then Some(MY)
    else if s == "Z" then Some(Z) else if s == "Z+" then Some(ZP) else if s == "-Z" then Some(MZ)
    else None
  }

  /** `make_XYZ`: a run of X, Y, Z, '-', '+' and spaces (spaces dropped) that must
      spell a pointer, or a '-' directly followed by a number, which becomes the
      negated number modulo 256. A run that reaches the end of the text asks
      whether `None` is a digit, which raises. */
  function ScanPointer(text: string, i: nat, d: Dialect, ln: int): (r: Result<Scan>)
    requires i < |text| && IsPointerChar(text[i])
    ensures r.Ok? ==> i < r.value.next <= |text|
    ensures r.Ok? ==> IsPointerKind(r.value.tok.kind) ||
                      (r.value.tok.kind == INT && r.value.tok.value.Num? && 0 <= r.value.tok.value.n < 256)
    ensures r.Ok? && IsPointerKind(r.value.tok.kind) ==>
              PointerSpelling(r.value.tok.kind) == DropSpaces(text[i..r.value.next])
    ensures r.Ok? ==> forall k :: i <= k < r.value.next ==> text[k] != '\n'
    ensures r.Err? ==> r.error.InvalidInstruction? || r.error.Crash?
    ensures PointerRunEnd(text, i) == |text| ==> r == Err(Crash(NoneInString))
  {
    var j := PointerRunEnd(text, i);
    var spelled := DropSpaces(text[i..j]);
    if j == |text| then Err(Crash(NoneInString))
    else if IsDigit(text[j]) && spelled == "-" then
      var n :- ScanNumber(text, j, d);
      Ok(Scan(Token(INT, Num((-n.tok.value.n) % 256)), n.next))
    else
      match PointerKind(spelled)
      case Some(k) => Ok(Scan(Token(k, NoValue), j))
      case None => Err(InvalidInstruction(ln, "'" + spelled + "'"))
  }

  function IdEnd(text: string, i: nat): (j: nat)
    requires i <= |text|
    ensures i <= j <= |text|
    ensures forall k :: i <= k < j ==> IsIdChar(text[k])
    ensures j < |text| ==> !IsIdChar(text[j])
    decreases |text| - i
  {
    if i < |text| && IsIdChar(text[i]) then IdEnd(text, i + 1) else i
  }

  /** The classification of an identifier not followed by ':', in the source's
      order: mnemonic, register, directive, built-in function, `lo8(…)`/`hi8(…)`,
      plain string. A longer-than-five identifier ending in ')' that is neither
      `lo8(` nor `hi8(` gets no token at all (`None`). */
  function Classify(id: string, d: Dialect, ctx: bool): (r: Option<Token>)
    requires |id| >= 1
    ensures r.Some? && r.value.kind == INST ==> r.value.value == Text(Upper(id)) && Upper(id) in Mnemonics(d)
    ensures r.Some? && r.value.kind == REG ==> r.value.value == Text(Upper(id)) && Upper(id) in RegisterFile
    ensures r.Some? && r.value.kind == DIR ==> id in Directives(d) && r.value.value == Text(id[1..])
    ensures r.Some? && r.value.kind == FNCT ==> Upper(id) in Functions
    ensures r.Some? && r.value.kind in {LO8, HI8} ==>
              |id| > 5 && id[|id| - 1] == ')' && r.value.value == Text(id[4..|id| - 1])
    ensures r.Some? && r.value.kind == STR ==>
              r.value.value == Text(id + (if ctx then [0 as char] else [])) &&
              Upper(id) !in Mnemonics(d) && Upper(id) !in RegisterFile && id !in Directives(d) &&
              Upper(id) !in Functions && !(|id| > 5 && id[|id| - 1] == ')')
    ensures r.Some? ==> r.value.kind in {INST, REG, DIR, FNCT, LO8, HI8, STR}
    ensures r.None? <==>
              Upper(id) !in Mnemonics(d) && Upper(id) !in RegisterFile && id !in Directives(d) &&
              Upper(id) !in Functions && |id| > 5 && id[|id| - 1] == ')' &&
              Lower(id[..4]) != "lo8(" && Lower(id[..4]) != "hi8("
  {
    var up := Upper(id);
    if up in Mnemonics(d) then Some(Token(INST, Text(up)))
    else if up in RegisterFile then Some(Token(REG, Text(up)))
    else if id in Directives(d) then Some(Token(DIR, Text(id[1..])))
    else if up in Functions then Some(Token(FNCT, Text(up)))
    else if |id| > 5 && id[|id| - 1] == ')' then
      if Lower(id[..4]) == "lo8(" then Some(Token(LO8, Text(id[4..|id| - 1])))
      else if Lower(id[..4]) == "hi8(" then Some(Token(HI8, Text(id[4..|id| - 1])))
      else None
    else Some(Token(STR, Text(id + (if ctx then [0 as char] else []))))
  }

  /** `make_InstRegLabelStrDir`, entered on a letter, '.' or '_'. An identifier
      followed by ':' is a label, except that the current lexer reads
      `Rh:Rl` after a mnemonic or a comma as one register-pair token. */
  function ScanWord(text: string, i: nat, d: Dialect, ctx: bool, last: Option<Token>): (r: Result<Scan>)
    requires i < |text| && IsIdChar(text[i])
    ensures r.Ok? ==> i < r.value.next <= |text|
    ensures r.Ok? && r.value.tok.kind == LABEL ==> text[r.value.next - 1] == ':'
    ensures r.Ok? ==> forall k :: i <= k < r.value.next ==> text[k] != '\n'
    ensures r.Err? ==> r.error.Crash?
  {
    var j := IdEnd(text, i);
    var id := text[i..j];
    if j < |text| && text[j] == ':' then
      if d == Current && last.Some? && last.value.kind in {INST, COMMA} then
        var k := IdEnd(text, j + 1);
        Ok(Scan(Token(REG, Text(Upper(id + ":" + text[j + 1..k]))), k))
      else Ok(Scan(Token(LABEL, Text(id)), j + 1))
    else
      match Classify(id, d, ctx)
      case Some(t) => Ok(Scan(t, j))
      case None => Err(Crash(Unclassified))
  }

  // -------------------------------------------------------------- main loop

  /** What the lexer hands to the parser: the token lists and `line_nums`. */
  datatype Lexed = Lexed(lines: seq<seq<Token>>, lineNums: seq<int>)

  /** Every emitted line holds a token; line numbers are increasing and at least 1;
      every line but possibly the last (one not ended by a newline) has its number. */
  predicate WellFormed(x: Lexed) {
    (forall k :: 0 <= k < |x.lines| ==> x.lines[k] != []) &&
    |x.lineNums| <= |x.lines| <= |x.lineNums| + 1 &&
    (forall k :: 0 <= k < |x.lineNums| ==> x.lineNums[k] >= 1) &&
    (forall a, b :: 0 <= a < b < |x.lineNums| ==> x.lineNums[a] < x.lineNums[b])
  }

  /** The lexer's loop state: finished lines, the current line's tokens, the line
      numbers so far, whether a `.string`/`.asciz` directive is active on this
      line, and the current source line (1-based). */
  datatype LexState = LexState(lines: seq<seq<Token>>, tokens: seq<Token>, lineNums: seq<int>, ctx: bool, ln: int)

  predicate Invariant(st: LexState) {
    st.ln >= 1 &&
    (forall k :: 0 <= k < |st.lines| ==> st.lines[k] != []) &&
    |st.lineNums| == |st.lines| &&
    (forall k :: 0 <= k < |st.lineNums| ==> 1 <= st.lineNums[k] < st.ln) &&
    (forall a, b :: 0 <= a < b < |st.lineNums| ==> st.lineNums[a] < st.lineNums[b])
  }

  function Push(st: LexState, t: Token): (st': LexState)
    requires Invariant(st)
    ensures Invariant(st') && st'.lines == st.lines && st'.ln == st.ln && st'.tokens == st.tokens + [t]
  {
    st.(tokens := st.tokens + [t])
  }

  /** A newline closes a non-empty line, records its number and clears the
      string context. */
  function EndLine(st: LexState): (st': LexState)
    requires Invariant(st)
    ensures Invariant(st') && st'.ln == st.ln + 1 && !st'.ctx && st'.tokens == []
    ensures st'.lines == if st.tokens != [] then st.lines + [st.tokens] else st.lines
  {
    if st.tokens != [] then
      LexState(st.lines + [st.tokens], [], st.lineNums + [st.ln], false, st.ln + 1)
    else st.(ctx := false, ln := st.ln + 1)
  }

  predicate StartsWord(c: char) { IsLetter(c) || c == '.' || c == '_' }

  predicate IsStringDirective(t: Token) {
    t.kind == DIR && t.value in {Text("string"), Text("asciz")}
  }

  /** The token that starts at `text[i]`, for every character that is not a
      blank, a newline or a comment. */
  function ReadToken(text: string, i: nat, d: Dialect, tokens: seq<Token>, ctx: bool, ln: int): (r: Result<Scan>)
    requires i < |text| && text[i] != ' ' && text[i] != '\t' && text[i] != '\n' && text[i] != ';'
    ensures r.Ok? ==> i < r.value.next <= |text|
    ensures r.Ok? && !Crossed(text, r.value) ==> forall k :: i <= k < r.value.next ==> text[k] != '\n'
  {
    var c := text[i];
    if c == ',' then Ok(Scan(Token(COMMA, NoValue), i + 1))
    else if c == '"' then Ok(ScanString(text, i, ctx))
    else if tokens != [] && (c == 'X' || c == 'Y' || c == 'Z') then ScanPointer(text, i, d, ln)
    else if StartsWord(c) then
      var last := if d == Current && tokens != [] then Some(tokens[|tokens| - 1]) else None;
      ScanWord(text, i, d, ctx, last)
    else if c == '+' then Ok(Scan(Token(PLUS, NoValue), i + 1))
    else if c == '-' then ScanPointer(text, i, d, ln)
    else if IsDigit(c) then ScanNumber(text, i, d)
    else if c == '=' && d == Current then Ok(Scan(Token(EQ, NoValue), i + 1))
    else Err(IllegalChar(ln, "'" + [c] + "'"))
  }

  /** One round of `make_tokens`' loop at the character `text[i]`: the index
      where the next round starts and the updated state. */
  function LexStep(text: string, i: nat, d: Dialect, st: LexState): (r: Result<(nat, LexState)>)
    requires i < |text| && Invariant(st)
    ensures r.Ok? ==> i < r.value.0 <= |text| && Invariant(r.value.1)
    ensures r.Ok? ==> |r.value.1.lines| >= |st.lines| && r.value.1.lines[..|st.lines|] == st.lines
    ensures r.Ok? && text[i] != '\n' ==> r.value.1.lines == st.lines
    ensures r.Ok? && text[i] != '\n' ==>
              |r.value.1.tokens| >= |st.tokens| && r.value.1.tokens[..|st.tokens|] == st.tokens
    ensures r.Ok? && text[i] != '\n' ==> r.value.1.ln == st.ln || (text[i] == '"' && r.value.1.ln == st.ln + 1)
    ensures r.Ok? && text[i] == '\n' ==> !r.value.1.ctx && r.value.1.tokens == []
    ensures r.Ok? && text[i] != '\n' && st.ctx ==> r.value.1.ctx
    ensures r.Ok? && text[i] != '\n' && !st.ctx && r.value.1.ctx ==>
              |r.value.1.tokens| > 0 && IsStringDirective(r.value.1.tokens[|r.value.1.tokens| - 1])
  {
    var c := text[i];
    if c == ' ' || c == '\t' then Ok((i + 1, st))
    else if c == '\n' then Ok((i + 1, EndLine(st)))
    else if c == ';' then Ok((FirstLineEnd(text, i + 1), st))
    else TokenStep(text, i, d, st)
  }

  /** A round that reads a token: it joins the current line, a string
      directive turns the string context on, and a string the line ends
      before it is closed moves on to the next line's number. */
  function TokenStep(text: string, i: nat, d: Dialect, st: LexState): (r: Result<(nat, LexState)>)
    requires i < |text| && Invariant(st)
    requires text[i] != ' ' && text[i] != '\t' && text[i] != '\n' && text[i] != ';'
    ensures r.Ok? ==> i < r.value.0 <= |text| && Invariant(r.value.1) && r.value.1.lines == st.lines
    ensures r.Ok? ==> |r.value.1.tokens| == |st.tokens| + 1 && r.value.1.tokens[..|st.tokens|] == st.tokens
    ensures r.Ok? ==> r.value.1.ln == st.ln || (text[i] == '"' && r.value.1.ln == st.ln + 1)
    ensures r.Ok? ==> r.value.1.ctx == (st.ctx || IsStringDirective(r.value.1.tokens[|st.tokens|]))
  {
    var s :- ReadToken(text, i, d, st.tokens, st.ctx, st.ln);
    var ln := if Crossed(text, s) then st.ln + 1 else st.ln;
    Ok((s.next, Push(st, s.tok).(ctx := st.ctx || IsStringDirective(s.tok), ln := ln)))
  }

  /** `make_tokens` from index `i` on. */
  function MakeTokens(text: string, i: nat, d: Dialect, st: LexState): (r: Result<Lexed>)
    requires i <= |text| && Invariant(st)
    ensures r.Ok? ==> WellFormed(r.value)
    ensures r.Ok? ==> |r.value.lines| >= |st.lines| && r.value.lines[..|st.lines|] == st.lines
    decreases |text| - i
  {
    if i == |text| then
      var lines := if st.tokens != [] then st.lines + [st.tokens] else st.lines;
      Ok(Lexed(lines, st.lineNums))
    else
      var (j, st') :- LexStep(text, i, d, st);
      MakeTokens(text, j, d, st')
  }

  /** The lexer over a whole file. */
  function Lex(text: string, d: Dialect): (r: Result<Lexed>)
    ensures r.Ok? ==> WellFormed(r.value)
  {
    MakeTokens(text, 0, d, LexState([], [], [], false, 1))
  }

  // ---------------------------------------------------------------- lemmas

  /** Characters that can start something the lexer accepts. */
  predicate Accepted(d: Dialect, c: char) {
    c == ' ' || c == '\t' || c == '\n' || c == ';' || c == ',' || c == '"' || StartsWord(c) ||
    c == '+' || c == '-' || IsDigit(c) || (c == '=' && d == Current)
  }

  /** Any other character stops the lexer with an IllegalCharError naming it. */
  lemma IllegalCharacter(text: string, i: nat, d: Dialect, st: LexState)
    requires i < |text| && Invariant(st) && !Accepted(d, text[i])
    ensures MakeTokens(text, i, d, st) == Err(IllegalChar(st.ln, "'" + [text[i]] + "'"))
  {
  }

  /** Only spaces and tabs, optionally followed by a `;` comment, up to the end of the line. */
  predicate BlankTail(text: string, i: nat)
    requires i <= |text|
  {
    forall k :: i <= k < |text| ==>
      (text[k] != '\n' && (text[k] != ' ' && text[k] != '\t' ==> exists m :: i <= m <= k && text[m] == ';'))
  }

  /** Blanks and comments produce no tokens: the rest of the text adds nothing. */
  lemma {:induction false} BlankAddsNothing(text: string, i: nat, d: Dialect, st: LexState)
    requires i <= |text| && Invariant(st) && BlankTail(text, i)
    ensures MakeTokens(text, i, d, st) == MakeTokens(text, |text|, d, st)
    decreases |text| - i
  {
    if i < |text| {
      if text[i] == ';' {
        var e := FirstLineEnd(text, i + 1);
        NoNewlineEnd(text, i + 1);
        assert e == |text|;
      } else {
        assert text[i] == ' ' || text[i] == '\t';
        BlankAddsNothing(text, i + 1, d, st);
      }
    }
  }

  lemma {:induction false} NoNewlineEnd(text: string, j: nat)
    requires j <= |text| && forall k :: j <= k < |text| ==> text[k] != '\n'
    ensures FirstLineEnd(text, j) == |text|
    decreases |text| - j
  {
    if j < |text| { NoNewlineEnd(text, j + 1); }
  }

  /** A decimal literal is read in base 10 and, in the current lexer, reduced
      modulo 256; the older lexer keeps the value as written. */
  lemma DecimalNumber(text: string, i: nat, j: nat, d: Dialect)
    requires i < j <= |text| && forall k :: i <= k < j ==> IsDigit(text[k])
    requires j < |text| ==> !IsDigit(text[j])
    requires !(text[i] == '0' && i + 1 < |text| && IsBaseLetter(text[i + 1]))
    ensures ScanNumber(text, i, d) == Ok(Scan(Token(INT, Num(Reduce(d, ValueIn(text[i..j], 10)))), j))
  {
    DigitRunExact(text, i, j);
  }

  lemma {:induction false} DigitRunExact(text: string, i: nat, j: nat)
    requires i <= j <= |text| && forall k :: i <= k < j ==> IsDigit(text[k])
    requires j < |text| ==> !IsDigit(text[j])
    ensures DigitRunEnd(text, i) == j
    decreases j - i
  {
    if i < j { DigitRunExact(text, i + 1, j); }
  }

  lemma {:induction false} StopRunExact(text: string, i: nat, j: nat)
    requires i <= j <= |text| && forall k :: i <= k < j ==> !IsStop(text[k])
    requires j < |text| ==> IsStop(text[j])
    ensures StopEnd(text, i) == j
    decreases j - i
  {
    if i < j { StopRunExact(text, i + 1, j); }
  }

  /** `0b…`, `0o…` and `0x…` are read in base 2, 8 and 16 up to the next stop
      character, and reduced modulo 256 in the current lexer. */
  lemma PrefixedNumber(text: string, i: nat, j: nat, d: Dialect)
    requires i + 2 < j <= |text| && text[i] == '0' && IsBaseLetter(text[i + 1])
    requires forall k :: i + 2 <= k < j ==> DigitValue(text[k]) < BaseOf(text[i + 1]) && !IsStop(text[k])
    requires j < |text| ==> IsStop(text[j])
    requires !(j >= i + 4 && text[i + 2] == '0' && DigitValue(text[i + 3]) >= 11)
    ensures ScanNumber(text, i, d) ==
              Ok(Scan(Token(INT, Num(Reduce(d, ValueIn(text[i + 2..j], BaseOf(text[i + 1]))))), j))
  {
    StopRunExact(text, i + 1, j);
    var s := text[i + 2..j];
    assert forall k :: 0 <= k < |s| ==> s[k] == text[i + 2 + k];
    PyIntDigits(s, BaseOf(text[i + 1]));
  }

  /** Python's digit grouping reaches the lexer: `0x1_F` is read as 31. */
  lemma GroupedHex()
    ensures ScanNumber("0x1_F", 0, Current) == Ok(Scan(Token(INT, Num(31)), 5))
  {
    var text := "0x1_F";
    StopRunExact(text, 1, 5);
    assert text[2..5] == "1" + "_" + "F";
    PyIntGrouped("1", "F", 16);
    assert ValueIn("1" + "F", 16) == 31;
  }

  // ------------------------------------------------------ line numbers

  /** The numbers of the newline-ended lines from `i` on that hold a token: those
      whose first character other than a space or tab is neither `;` nor the
      newline. `ln` is the number of the line `i` is on and `seen` whether a token
      has started on it. A reference for `line_nums`, stated on characters alone. */
  function TokenLines(text: string, i: nat, ln: int, seen: bool): seq<int>
    requires i <= |text|
    decreases |text| - i
  {
    if i == |text| then []
    else if text[i] == '\n' then (if seen then [ln] else []) + TokenLines(text, i + 1, ln + 1, false)
    else if seen || text[i] == ' ' || text[i] == '\t' then TokenLines(text, i + 1, ln, seen)
    else if text[i] == ';' then TokenLines(text, FirstLineEnd(text, i + 1), ln, false)
    else TokenLines(text, i + 1, ln, true)
  }

  /** Once a line holds a token, nothing short of its newline changes what follows. */
  lemma {:induction false} SameLine(text: string, i: nat, e: nat, ln: int)
    requires i <= e <= |text| && forall k :: i <= k < e ==> text[k] != '\n'
    ensures TokenLines(text, i, ln, true) == TokenLines(text, e, ln, true)
    decreases e - i
  {
    if i < e { SameLine(text, i + 1, e, ln); }
  }

  /** No error object among the token lists. */
  predicate Clean(x: Lexed) {
    forall k, t :: 0 <= k < |x.lines| && 0 <= t < |x.lines[k]| ==> x.lines[k][t].kind != ERR
  }

  /** The tokens of the line being read reach the output as the start of its line. */
  lemma {:induction false} TokensKept(text: string, i: nat, d: Dialect, st: LexState)
    requires i <= |text| && Invariant(st) && MakeTokens(text, i, d, st).Ok? && st.tokens != []
    ensures var x := MakeTokens(text, i, d, st).value;
            |x.lines| > |st.lines| && |x.lines[|st.lines|]| >= |st.tokens| &&
            x.lines[|st.lines|][..|st.tokens|] == st.tokens
    decreases |text| - i
  {
    if i < |text| {
      var (j, st') := LexStep(text, i, d, st).value;
      var x := MakeTokens(text, j, d, st').value;
      if text[i] == '\n' {
        assert st'.lines == st.lines + [st.tokens];
        assert x.lines[..|st'.lines|] == st'.lines;
        assert x.lines[|st.lines|] == x.lines[..|st'.lines|][|st.lines|];
      } else {
        TokensKept(text, j, d, st');
        assert st.tokens == st'.tokens[..|st.tokens|];
        assert x.lines[|st.lines|][..|st'.tokens|][..|st.tokens|] == x.lines[|st.lines|][..|st.tokens|];
      }
    }
  }

  /** A token that ends up in a clean result did not come from an unclosed string
      that crossed its newline. */
  lemma NotCrossed(text: string, i: nat, d: Dialect, st: LexState)
    requires i < |text| && Invariant(st) && text[i] !in {' ', '\t', '\n', ';'}
    requires MakeTokens(text, i, d, st).Ok? && Clean(MakeTokens(text, i, d, st).value)
    ensures ReadToken(text, i, d, st.tokens, st.ctx, st.ln).Ok?
    ensures !Crossed(text, ReadToken(text, i, d, st.tokens, st.ctx, st.ln).value)
  {
    var s := ReadToken(text, i, d, st.tokens, st.ctx, st.ln).value;
    var (j, st') := LexStep(text, i, d, st).value;
    assert st'.tokens == st.tokens + [s.tok];
    TokensKept(text, j, d, st');
    var x := MakeTokens(text, j, d, st').value;
    assert x.lines[|st.lines|][..|st'.tokens|][|st'.tokens| - 1] == s.tok;
  }

  /** One round of the loop against one step of the reference numbering. */
  lemma StepLines(text: string, i: nat, d: Dialect, st: LexState)
    requires i < |text| && Invariant(st) && LexStep(text, i, d, st).Ok?
    requires text[i] !in {' ', '\t', '\n', ';'} ==>
               !Crossed(text, ReadToken(text, i, d, st.tokens, st.ctx, st.ln).value)
    ensures var (j, st') := LexStep(text, i, d, st).value;
            st.lineNums + TokenLines(text, i, st.ln, st.tokens != []) ==
            st'.lineNums + TokenLines(text, j, st'.ln, st'.tokens != [])
  {
    var c := text[i];
    if c == '\n' {
      assert LexStep(text, i, d, st) == Ok((i + 1, EndLine(st)));
      NewlineLines(text, i, st);
    } else if c == ';' {
      assert LexStep(text, i, d, st) == Ok((FirstLineEnd(text, i + 1), st));
      CommentLines(text, i, st.ln, st.tokens != []);
    } else if c == ' ' || c == '\t' {
      assert LexStep(text, i, d, st) == Ok((i + 1, st));
    } else {
      var s := ReadToken(text, i, d, st.tokens, st.ctx, st.ln).value;
      var st' := Push(st, s.tok).(ctx := st.ctx || IsStringDirective(s.tok), ln := st.ln);
      assert LexStep(text, i, d, st) == Ok((s.next, st'));
      TokenLinesAt(text, i, s.next, st.ln, st.tokens != []);
    }
  }

  lemma NewlineLines(text: string, i: nat, st: LexState)
    requires i < |text| && Invariant(st) && text[i] == '\n'
    ensures st.lineNums + TokenLines(text, i, st.ln, st.tokens != []) ==
            EndLine(st).lineNums + TokenLines(text, i + 1, st.ln + 1, false)
  {
    assert EndLine(st).lineNums == st.lineNums + (if st.tokens != [] then [st.ln] else []);
  }

  lemma CommentLines(text: string, i: nat, ln: int, seen: bool)
    requires i < |text| && text[i] == ';'
    ensures TokenLines(text, i, ln, seen) == TokenLines(text, FirstLineEnd(text, i + 1), ln, seen)
  {
    if seen { SameLine(text, i + 1, FirstLineEnd(text, i + 1), ln); }
  }

  lemma TokenLinesAt(text: string, i: nat, j: nat, ln: int, seen: bool)
    requires i < j <= |text| && text[i] !in {' ', '\t', '\n', ';'}
    requires forall k :: i <= k < j ==> text[k] != '\n'
    ensures TokenLines(text, i, ln, seen) == TokenLines(text, j, ln, true)
  {
    SameLine(text, i + 1, j, ln);
  }

  /** When every string is closed, `line_nums` from index `i` on extends the numbers
      so far by the reference numbering. */
  lemma {:induction false} LineNumbersFrom(text: string, i: nat, d: Dialect, st: LexState)
    requires i <= |text| && Invariant(st)
    requires MakeTokens(text, i, d, st).Ok? && Clean(MakeTokens(text, i, d, st).value)
    ensures MakeTokens(text, i, d, st).value.lineNums == st.lineNums + TokenLines(text, i, st.ln, st.tokens != [])
    decreases |text| - i
  {
    if i < |text| {
      var (j, st') := LexStep(text, i, d, st).value;
      LineNumbersFrom(text, j, d, st');
      if text[i] !in {' ', '\t', '\n', ';'} { NotCrossed(text, i, d, st); }
      StepLines(text, i, d, st);
    }
  }

  /** The lexer records, in order, the number of every newline-ended line holding a
      token, counting lines from 1; a last line without a newline has no number. */
  lemma LineNumbers(text: string, d: Dialect)
    requires Lex(text, d).Ok? && Clean(Lex(text, d).value)
    ensures Lex(text, d).value.lineNums == TokenLines(text, 0, 1, false)
  {
    LineNumbersFrom(text, 0, d, LexState([], [], [], false, 1));
  }

  /** What the parser is handed. An error object among the tokens has no
      `type`, so the parser's first look at it raises an AttributeError. The
      model raises it as soon as any error object is present, before the
      parser reads a line. */
  function Handoff(x: Lexed): (r: Result<Lexed>)
    ensures r.Ok? <==> Clean(x)
    ensures r.Ok? ==> r.value == x
    ensures r.Err? ==> r.error == Crash(ErrorHasNoType)
  {
    if exists k, t :: 0 <= k < |x.lines| && 0 <= t < |x.lines[k]| && x.lines[k][t].kind == ERR
    then Err(Crash(ErrorHasNoType))
    else Ok(x)
  }

  /** An unclosed string swallows its newline: the next line's tokens join its line,
      which takes the next line's number. */
  lemma UnclosedString()
    ensures Lex("\"a\n,\n", Current) ==
              Ok(Lexed([[Token(ERR, Text("\"a\"")), Token(COMMA, NoValue)]], [2]))
    ensures Handoff(Lex("\"a\n,\n", Current).value) == Err(Crash(ErrorHasNoType))
  {
    var text := "\"a\n,\n";
    var err := Token(ERR, Text("\"a\""));
    var st1 := LexState([], [err], [], false, 2);
    var st2 := LexState([], [err, Token(COMMA, NoValue)], [], false, 2);
    var st3 := LexState([[err, Token(COMMA, NoValue)]], [], [2], false, 3);
    UnclosedFirst();
    UnclosedComma();
    UnclosedEnd();
    assert MakeTokens(text, 5, Current, st3) == Ok(Lexed(st3.lines, [2]));
    assert MakeTokens(text, 3, Current, st1) == MakeTokens(text, 5, Current, st3);
    assert Lex(text, Current).value.lines[0][0].kind == ERR;
  }

  lemma UnclosedEnd()
    ensures var line := [Token(ERR, Text("\"a\"")), Token(COMMA, NoValue)];
            LexStep("\"a\n,\n", 4, Current, LexState([], line, [], false, 2)) ==
              Ok((5, LexState([line], [], [2], false, 3)))
  {
    var text := "\"a\n,\n";
    var line := [Token(ERR, Text("\"a\"")), Token(COMMA, NoValue)];
    var st := LexState([], line, [], false, 2);
    assert text[4] == '\n';
    assert [] + [line] == [line] && [] + [2] == [2];
    assert EndLine(st) == LexState([line], [], [2], false, 3);
  }

  lemma UnclosedFirst()
    ensures LexStep("\"a\n,\n", 0, Current, LexState([], [], [], false, 1)) ==
              Ok((3, LexState([], [Token(ERR, Text("\"a\""))], [], false, 2)))
  {
    UnclosedScan();
  }

  lemma UnclosedScan()
    ensures ScanString("\"a\n,\n", 0, false) == Scan(Token(ERR, Text("\"a\"")), 3)
  {
    var text := "\"a\n,\n";
    assert Escaped(text, 1, 2) == false by { assert text[1..2] == "a"; }
    assert StringEnd(text, 1, 2, false) == None;
    assert StringEnd(text, 1, 1, false) == None by { assert text[1..1] == []; }
    assert FirstLineEnd(text, 1) == 2;
    assert text[2..2] == [] && text[1..2] == "a";
  }

  lemma UnclosedComma()
    ensures var err := Token(ERR, Text("\"a\""));
            LexStep("\"a\n,\n", 3, Current, LexState([], [err], [], false, 2)) ==
              Ok((4, LexState([], [err, Token(COMMA, NoValue)], [], false, 2)))
  {
    var text := "\"a\n,\n";
    var st1 := LexState([], [Token(ERR, Text("\"a\""))], [], false, 2);
    assert text[3] == ',';
    assert ReadToken(text, 3, Current, st1.tokens, false, 2) == Ok(Scan(Token(COMMA, NoValue), 4));
    assert !Crossed(text, Scan(Token(COMMA, NoValue), 4));
    assert !IsStringDirective(Token(COMMA, NoValue));
    assert Push(st1, Token(COMMA, NoValue)) == LexState([], [st1.tokens[0], Token(COMMA, NoValue)], [], false, 2);
  }
}

=== FILE: machine.dfy ===
/** The interpreters' machine state: data memory, the status flags, the stack
    pointer and program counter, and the bookkeeping each interpreter
    generation keeps for its stack checks; with the memory accessors and the
    pointer arithmetic all instructions share. */
module Machine {
  import opened Base
  import opened Program
  import opened Alu
  import R = Register

  const DmemSize: nat := 0x900
  const DmemMax: nat := 0x8FF
  const PmemSize: nat := 0x4000
  const DataStart: nat := 0x100

  /** The three interpreters: the self-contained simulator's (`Checked`: its
      stack starts at the top of memory and PUSH/POP/RET check its bounds), the
      library's (`Layered`: a push/pop balance per subroutine layer) and the
      older package's (`Counted`: a single push/pop balance). */
  datatype Variant = Checked | Layered | Counted

  /** The interpreter's own register objects that may also sit in data memory. */
  datatype Link = Spl | Sph | Pcl | Pch | Status

  /** A data-memory cell: a register object holding a byte, one of the
      interpreter's own registers, or a bare Python number (the cells from
      0x100 on, and any cell a plain store has overwritten). */
  datatype Cell = Reg(v: Byte) | Linked(l: Link) | Raw(n: int)

  datatype Machine = Machine(
    dmem: seq<Cell>,
    sreg: seq<bool>,
    spl: Byte, sph: Byte,
    pcl: Byte, pch: Byte,
    ended: bool,
    layers: seq<int>,
    count: int)

  predicate Valid(m: Machine) {
    |m.dmem| == DmemSize && Sreg(m.sreg)
  }

  // ---------------------------------------------------------------- memory

  /** A Python list index into data memory: negative indices count from the end. */
  function Index(m: Machine, i: int): (r: Result<nat>)
    ensures r.Ok? <==> -|m.dmem| <= i < |m.dmem|
    ensures r.Ok? ==> r.value < |m.dmem| && (r.value == i || r.value == i + |m.dmem|)
  {
    if 0 <= i < |m.dmem| then Ok(i)
    else if -|m.dmem| <= i < 0 then Ok(i + |m.dmem|)
    else Err(Crash(ListIndexError))
  }

  function LinkValue(m: Machine, l: Link): (r: Result<Byte>)
    ensures r.Err? <==> l == Status
  {
    match l
    case Spl => Ok(m.spl)
    case Sph => Ok(m.sph)
    case Pcl => Ok(m.pcl)
    case Pch => Ok(m.pch)
    case Status => Err(Crash(StatusIsList))
  }

  /** `dmem[i].value` used as a number. */
  function GetValue(m: Machine, i: int): (r: Result<Byte>)
    ensures r.Ok? ==> Index(m, i).Ok?
    ensures 0 <= i < |m.dmem| && m.dmem[i].Reg? ==> r == Ok(m.dmem[i].v)
    ensures 0 <= i < |m.dmem| && m.dmem[i].Raw? ==> r.Err?
  {
    var j :- Index(m, i);
    match m.dmem[j]
    case Reg(v) => Ok(v)
    case Linked(l) => LinkValue(m, l)
    case Raw(_) => Err(Crash(IntHasNoValue))
  }

  /** `set_value` on a linked register. The status register's object holds
      a list of flags in the source, which `set_value` would replace by a
      number that the next flag access fails on; the model fails at the
      store instead. */
  function SetLink(m: Machine, l: Link, x: int): (r: Result<Machine>)
    ensures r.Err? <==> l == Status
    ensures r.Ok? ==> r.value.dmem == m.dmem && r.value.sreg == m.sreg
    ensures r.Ok? ==> LinkValue(r.value, l) == Ok(R.Store(x))
  {
    match l
    case Spl => Ok(m.(spl := R.Store(x)))
    case Sph => Ok(m.(sph := R.Store(x)))
    case Pcl => Ok(m.(pcl := R.Store(x)))
    case Pch => Ok(m.(pch := R.Store(x)))
    case Status => Err(Crash(StatusGetsNumber))
  }

  /** `dmem[i].set_value(x)`: the cell's object takes `x` modulo 256. */
  function SetValue(m: Machine, i: int, x: int): (r: Result<Machine>)
    ensures r.Ok? ==> Index(m, i).Ok?
    ensures r.Ok? ==> GetValue(r.value, i) == Ok(R.Store(x))
    ensures r.Ok? ==> |r.value.dmem| == |m.dmem| && r.value.sreg == m.sreg && r.value.ended == m.ended
    ensures r.Ok? ==> r.value.layers == m.layers && r.value.count == m.count
    ensures 0 <= i < |m.dmem| && m.dmem[i].Reg? ==>
              r.Ok? && r.value == m.(dmem := m.dmem[i := Reg(R.Store(x))])
  {
    var j :- Index(m, i);
    match m.dmem[j]
    case Reg(_) => Ok(m.(dmem := m.dmem[j := Reg(R.Store(x))]))
    case Linked(l) => SetLink(m, l, x)
    case Raw(_) => Err(Crash(IntHasNoSetValue))
  }

  /** `dmem[i]` used as a number: only a bare number will do. */
  function Fetch(m: Machine, i: int): (r: Result<int>)
    ensures r.Ok? <==> Index(m, i).Ok? && m.dmem[Index(m, i).value].Raw?
    ensures r.Ok? ==> r.value == m.dmem[Index(m, i).value].n
  {
    var j :- Index(m, i);
    if m.dmem[j].Raw? then Ok(m.dmem[j].n)
    else Err(Crash(RegisterAsNumber))
  }

  /** `dmem[i] = x`: the cell becomes the bare number `x`, whatever it held. */
  function Put(m: Machine, i: int, x: int): (r: Result<Machine>)
    ensures r.Ok? <==> Index(m, i).Ok?
    ensures r.Ok? ==> Fetch(r.value, i) == Ok(x)
    ensures r.Ok? ==> r.value == m.(dmem := m.dmem[Index(m, i).value := Raw(x)])
  {
    var j :- Index(m, i);
    Ok(m.(dmem := m.dmem[j := Raw(x)]))
  }

  /** `dmem[i].set_bit(b)` (`SBI`): sets bit `b` of the cell's object. A bit
      number above 7 is refused here, where the simulator would store a value
      that no longer fits a byte. */
  function SetBit(m: Machine, i: int, b: int): (r: Result<Machine>)
    ensures r.Ok? ==> 0 <= b < 8 && GetValue(m, i).Ok? && GetValue(r.value, i).Ok?
    ensures r.Ok? ==> Bits.Bit(GetValue(r.value, i).value, b)
    ensures r.Ok? ==> forall j :: 0 <= j < 8 && j != b ==>
              (Bits.Bit(GetValue(r.value, i).value, j) <==> Bits.Bit(GetValue(m, i).value, j))
  {
    var v :- GetValue(m, i);
    if b < 0 then Err(Crash(FloatBitMask))
    else if b >= 8 then Err(Crash(BitAboveSeven))
    else SetValue(m, i, R.OrBit(v, b))
  }

  /** `dmem[i].clear_bit(b)` (`CBI`): clears bit `b`; a bit number above 7
      leaves the byte as it is. */
  function ClearBit(m: Machine, i: int, b: int): (r: Result<Machine>)
    ensures r.Ok? ==> 0 <= b && GetValue(m, i).Ok? && GetValue(r.value, i).Ok?
    ensures r.Ok? && b < 8 ==> !Bits.Bit(GetValue(r.value, i).value, b)
    ensures r.Ok? ==> forall j :: 0 <= j < 8 && j != b ==>
              (Bits.Bit(GetValue(r.value, i).value, j) <==> Bits.Bit(GetValue(m, i).value, j))
  {
    var v :- GetValue(m, i);
    if b < 0 then Err(Crash(FloatBitMask))
    else SetValue(m, i, R.AndNotBit(v, b))
  }

  // ------------------------------------------------------ program counter

  /** `get_pc_val`. */
  function Pc(m: Machine): (p: Word) {
    256 * m.pch + m.pcl
  }

  /** `update_pc_val`: the new value modulo 2^16, split into its two bytes. */
  function SetPc(m: Machine, x: int): (m': Machine)
    ensures Pc(m') == x % 0x1_0000
    ensures m' == m.(pcl := m'.pcl, pch := m'.pch)
  {
    var lo := x % 256;
    var hi := (x - lo) / 256;
    assert x % 0x1_0000 == 256 * (hi % 256) + lo;
    m.(pcl := R.Store(lo), pch := R.Store(hi))
  }

  /** Moving the counter by `n` words. */
  function Advance(m: Machine, n: int): (m': Machine)
    ensures Pc(m') == (Pc(m) + n) % 0x1_0000
    ensures m' == m.(pcl := m'.pcl, pch := m'.pch)
  {
    SetPc(m, Pc(m) + n)
  }

  // ---------------------------------------------------------- stack pointer

  /** `get_SP`. */
  function Sp(m: Machine): (s: Word) {
    256 * m.sph + m.spl
  }

  /** `increment_SP`: one up, wrapping from the last memory cell to 0. */
  function IncSp(m: Machine): (m': Machine)
    ensures Sp(m') == if Sp(m) == DmemMax then 0 else (Sp(m) + 1) % 0x1_0000
    ensures m' == m.(spl := m'.spl, sph := m'.sph)
  {
    if m.spl == 255 then
      if m.sph == DmemMax / 256 then m.(spl := 0, sph := 0)
      else m.(spl := 0, sph := R.Store(m.sph + 1))
    else m.(spl := m.spl + 1)
  }

  /** `decrement_SP`: one down, wrapping from 0 to the last memory cell. */
  function DecSp(m: Machine): (m': Machine)
    ensures Sp(m') == if Sp(m) == 0 then DmemMax else Sp(m) - 1
    ensures m' == m.(spl := m'.spl, sph := m'.sph)
  {
    if m.spl == 0 then
      if m.sph == 0 then m.(spl := 255, sph := DmemMax / 256)
      else m.(spl := 255, sph := m.sph - 1)
    else m.(spl := m.spl - 1)
  }

  /** Within memory the two stack-pointer moves undo each other. */
  lemma SpMovesInverse(m: Machine)
    requires Sp(m) <= DmemMax
    ensures Sp(DecSp(IncSp(m))) == Sp(m) && Sp(IncSp(DecSp(m))) == Sp(m)
    ensures DecSp(IncSp(m)) == m && IncSp(DecSp(m)) == m
  {
  }

  // ------------------------------------------------------ X, Y and Z pointers

  datatype Pointer = PX | PY | PZ

  /** The register holding a pointer's low byte; the high byte is the next. */
  function LowReg(p: Pointer): (i: nat)
    ensures i in {26, 28, 30}
  {
    match p
    case PX => 26
    case PY => 28
    case PZ => 30
  }

  function PointerNamed(c: char): Option<Pointer> {
    if c == 'X' then Some(PX) else if c == 'Y' then Some(PY) else if c == 'Z' then Some(PZ) else None
  }

  /** `get_XYZ`'s choice: the first of X, Y, Z the spelling contains. */
  function PointerIn(s: string): (p: Option<Pointer>)
    ensures p == Some(PX) <==> 'X' in s
    ensures p == Some(PY) <==> 'X' !in s && 'Y' in s
    ensures p == Some(PZ) <==> 'X' !in s && 'Y' !in s && 'Z' in s
  {
    if 'X' in s then Some(PX) else if 'Y' in s then Some(PY) else if 'Z' in s then Some(PZ) else None
  }

  /** `get_XYZ`: the 16-bit value of the pointer the spelling names. */
  function PointerValue(m: Machine, s: string): (r: Result<Word>)
    ensures r.Ok? ==> PointerIn(s).Some?
  {
    match PointerIn(s)
    case None => Err(Crash(NoSuchPointer))
    case Some(p) =>
      var lo :- GetValue(m, LowReg(p));
      var hi :- GetValue(m, LowReg(p) + 1);
      Ok(Join(hi, lo))
  }

  /** A pointer's value when both of its registers hold bytes. */
  function PtrWord(m: Machine, p: Pointer): (w: Word)
    requires |m.dmem| > 31 && m.dmem[LowReg(p)].Reg? && m.dmem[LowReg(p) + 1].Reg?
  {
    Join(m.dmem[LowReg(p) + 1].v, m.dmem[LowReg(p)].v)
  }

  /** Adding one to a pointer's register pair, wrapping at 2^16. */
  function BumpUp(m: Machine, p: Pointer): (r: Result<Machine>)
    ensures r.Ok? ==> |m.dmem| > 31 && m.dmem[LowReg(p)].Reg? && m.dmem[LowReg(p) + 1].Reg?
    ensures r.Ok? ==> |r.value.dmem| == |m.dmem| && r.value.dmem[LowReg(p)].Reg? && r.value.dmem[LowReg(p) + 1].Reg?
    ensures r.Ok? ==> PtrWord(r.value, p) == (PtrWord(m, p) + 1) % 0x1_0000
    ensures r.Ok? ==> forall i :: 0 <= i < |m.dmem| && i != LowReg(p) && i != LowReg(p) + 1 ==>
              r.value.dmem[i] == m.dmem[i]
    ensures r.Ok? ==> r.value == m.(dmem := r.value.dmem)
    ensures |m.dmem| > 31 && m.dmem[LowReg(p)].Reg? && m.dmem[LowReg(p) + 1].Reg? ==> r.Ok?
  {
    var i := LowReg(p);
    if !(|m.dmem| > 31 && m.dmem[i].Reg? && m.dmem[i + 1].Reg?) then
      Err(Crash(IntHasNoValue))
    else
    var lo, hi := m.dmem[i].v, m.dmem[i + 1].v;
    if lo == 255 then
      Ok(m.(dmem := m.dmem[i := Reg(0)][i + 1 := Reg(if hi == 255 then 0 else hi + 1)]))
    else Ok(m.(dmem := m.dmem[i := Reg(lo + 1)]))
  }

  /** Subtracting one from a pointer's register pair, wrapping at 0. */
  function BumpDown(m: Machine, p: Pointer): (r: Result<Machine>)
    ensures r.Ok? ==> |m.dmem| > 31 && m.dmem[LowReg(p)].Reg? && m.dmem[LowReg(p) + 1].Reg?
    ensures r.Ok? ==> |r.value.dmem| == |m.dmem| && r.value.dmem[LowReg(p)].Reg? && r.value.dmem[LowReg(p) + 1].Reg?
    ensures r.Ok? ==> PtrWord(r.value, p) == (PtrWord(m, p) - 1) % 0x1_0000
    ensures r.Ok? ==> forall i :: 0 <= i < |m.dmem| && i != LowReg(p) && i != LowReg(p) + 1 ==>
              r.value.dmem[i] == m.dmem[i]
    ensures r.Ok? ==> r.value == m.(dmem := r.value.dmem)
    ensures |m.dmem| > 31 && m.dmem[LowReg(p)].Reg? && m.dmem[LowReg(p) + 1].Reg? ==> r.Ok?
  {
    var i := LowReg(p);
    if !(|m.dmem| > 31 && m.dmem[i].Reg? && m.dmem[i + 1].Reg?) then
      Err(Crash(IntHasNoValue))
    else
    var lo, hi := m.dmem[i].v, m.dmem[i + 1].v;
    if lo == 0 then
      Ok(m.(dmem := m.dmem[i := Reg(255)][i + 1 := Reg(if hi == 0 then 255 else hi - 1)]))
    else Ok(m.(dmem := m.dmem[i := Reg(lo - 1)]))
  }

  /** Stepping a pointer up and back down leaves memory as it was. */
  lemma BumpInverse(m: Machine, p: Pointer)
    requires |m.dmem| > 31 && m.dmem[LowReg(p)].Reg? && m.dmem[LowReg(p) + 1].Reg?
    ensures BumpUp(m, p).Ok? && BumpDown(BumpUp(m, p).value, p) == Ok(m)
    ensures BumpDown(m, p).Ok? && BumpUp(BumpDown(m, p).value, p) == Ok(m)
  {
    UpThenDown(m, p);
    DownThenUp(m, p);
  }

  lemma UpThenDown(m: Machine, p: Pointer)
    requires |m.dmem| > 31 && m.dmem[LowReg(p)].Reg? && m.dmem[LowReg(p) + 1].Reg?
    ensures BumpUp(m, p).Ok? && BumpDown(BumpUp(m, p).value, p) == Ok(m)
  {
    SameWord(m, BumpDown(BumpUp(m, p).value, p).value, p);
  }

  lemma DownThenUp(m: Machine, p: Pointer)
    requires |m.dmem| > 31 && m.dmem[LowReg(p)].Reg? && m.dmem[LowReg(p) + 1].Reg?
    ensures BumpDown(m, p).Ok? && BumpUp(BumpDown(m, p).value, p) == Ok(m)
  {
    SameWord(m, BumpUp(BumpDown(m, p).value, p).value, p);
  }

  /** Two states that differ at most in a pointer's registers, and agree on
      the pointer's value, are the same state. */
  lemma SameWord(m: Machine, n: Machine, p: Pointer)
    requires |m.dmem| > 31 && m.dmem[LowReg(p)].Reg? && m.dmem[LowReg(p) + 1].Reg?
    requires |n.dmem| == |m.dmem| && n.dmem[LowReg(p)].Reg? && n.dmem[LowReg(p) + 1].Reg?
    requires PtrWord(n, p) == PtrWord(m, p) && n == m.(dmem := n.dmem)
    requires forall i :: 0 <= i < |m.dmem| && i != LowReg(p) && i != LowReg(p) + 1 ==> n.dmem[i] == m.dmem[i]
    ensures n == m
  {
    var i := LowReg(p);
    assert n.dmem[i + 1].v == m.dmem[i + 1].v && n.dmem[i].v == m.dmem[i].v;
    assert n.dmem == m.dmem;
  }

  /** `increment_XYZ`: only a spelling with `+` steps, the pointer named by its
      first character. */
  function PostIncrement(m: Machine, s: string): (r: Result<Machine>)
    ensures '+' !in s ==> r == Ok(m)
    ensures '+' in s ==> (r.Ok? <==> PointerNamed(s[0]).Some? && BumpUp(m, PointerNamed(s[0]).value).Ok?)
    ensures '+' in s && r.Ok? ==> r == BumpUp(m, PointerNamed(s[0]).value)
  {
    if '+' !in s then Ok(m)
    else match PointerNamed(s[0])
      case None => Err(Crash(NotAPointer))
      case Some(p) => BumpUp(m, p)
  }

  /** `decrement_XYZ`: only a spelling with `-` steps, the pointer named by its
      second character. */
  function PreDecrement(m: Machine, s: string): (r: Result<Machine>)
    ensures '-' !in s ==> r == Ok(m)
    ensures '-' in s ==> (r.Ok? <==> |s| >= 2 && PointerNamed(s[1]).Some? && BumpDown(m, PointerNamed(s[1]).value).Ok?)
    ensures '-' in s && r.Ok? ==> r == BumpDown(m, PointerNamed(s[1]).value)
  {
    if '-' !in s then Ok(m)
    else if |s| < 2 then Err(Crash(StringIndexError))
    else match PointerNamed(s[1])
      case None => Err(Crash(NotAPointer))
      case Some(p) => BumpDown(m, p)
  }

  // ------------------------------------------------------------ start-up

  /** Memory as the register-file setup leaves it: register objects below 0x100
      (the stack pointer and status register in their I/O slots, and for the
      library generations the program counter too), bare zeros above. */
  function FreshMemory(v: Variant): (d: seq<Cell>)
    ensures |d| == DmemSize
    ensures forall i :: 0x100 <= i < DmemSize ==> d[i] == Raw(0)
    ensures d[0x5D] == Linked(Spl) && d[0x5E] == Linked(Sph) && d[0x5F] == Linked(Status)
    ensures v != Checked <==> d[0x5B] == Linked(Pcl) && d[0x5C] == Linked(Pch)
    ensures forall i :: 0 <= i < 0x5B ==> d[i] == Reg(0)
  {
    seq(DmemSize, i =>
      if i >= 0x100 then Raw(0)
      else if i == 0x5B && v != Checked then Linked(Pcl)
      else if i == 0x5C && v != Checked then Linked(Pch)
      else if i == 0x5D then Linked(Spl)
      else if i == 0x5E then Linked(Sph)
      else if i == 0x5F then Linked(Status)
      else Reg(0))
  }

  /** Program memory: the assembled words, then `NOP`s up to its size. */
  function LoadProgram(code: seq<Slot>): (p: seq<Slot>)
    ensures |p| == PmemSize
    ensures forall i :: 0 <= i < PmemSize ==> p[i] == if i < |code| then code[i] else Inst("NOP", [])
  {
    seq(PmemSize, i requires 0 <= i < PmemSize => if i < |code| then code[i] else Inst("NOP", []))
  }

  /** The data bytes placed from 0x100 on, as bare numbers; data that does
      not fit in memory is an index error. */
  function LoadData(d: seq<Cell>, data: seq<int>): (r: Result<seq<Cell>>)
    requires |d| == DmemSize
    ensures r.Ok? <==> DataStart + |data| <= DmemSize
    ensures r.Ok? ==> |r.value| == DmemSize
    ensures r.Ok? ==> forall i :: 0 <= i < |data| ==> r.value[DataStart + i] == Raw(data[i])
    ensures r.Ok? ==> forall i :: 0 <= i < DmemSize && !(DataStart <= i < DataStart + |data|) ==> r.value[i] == d[i]
  {
    if DataStart + |data| > DmemSize then Err(Crash(ListAssignIndexError))
    else Ok(seq(DmemSize, i requires 0 <= i < DmemSize =>
                  if DataStart <= i < DataStart + |data| then Raw(data[i - DataStart]) else d[i]))
  }

  /** The status register with every flag clear. */
  function Cleared(): (s: seq<bool>)
    ensures Sreg(s) && forall i :: 0 <= i < 8 ==> !s[i]
  {
    seq(8, _ => false)
  }

  /** Where the stack pointer starts: the last memory cell for the simulator,
      0 for the library generations. */
  function StackTop(v: Variant): (t: Word)
    ensures t == if v == Checked then DmemMax else 0
  {
    if v == Checked then 0x8FF else 0
  }

  /** The state an interpreter starts in over memory `d`: PC 0, flags clear,
      no layers open, the stack pointer at `StackTop`. */
  function Reset(v: Variant, d: seq<Cell>): (m: Machine)
    requires |d| == DmemSize
    ensures Valid(m) && m.dmem == d && Pc(m) == 0 && !m.ended && Sp(m) == StackTop(v)
    ensures m.layers == [0] && m.count == 0 && m.sreg == Cleared()
  {
    var t := StackTop(v);
    Machine(d, Cleared(), t % 256, t / 256, 0, 0, false, [0], 0)
  }

  /** Start-up: fresh memory with the data loaded, then `Reset`. */
  function Boot(v: Variant, data: seq<int>): (r: Result<Machine>)
    ensures r.Ok? <==> DataStart + |data| <= DmemSize
    ensures r.Ok? ==> |r.value.dmem| == DmemSize && r.value == Reset(v, r.value.dmem)
    ensures r.Ok? ==> forall i :: 0 <= i < |data| ==> r.value.dmem[DataStart + i] == Raw(data[i])
  {
    var d :- LoadData(FreshMemory(v), data);
    Ok(Reset(v, d))
  }
}

=== FILE: oldparser.dfy ===
/** The older parser: the same two passes over the same token lines, with a
    smaller data section (only labelled directives, no `.def`), label lines
    that never carry an instruction, operands taken as they come, and no
    operand range checks. */
module OldParser {
  import opened Base
  import opened Tokens
  import opened Syntax
  import opened Tables
  import opened Program
  import opened Directives
  import opened TwoPass

  // -------------------------------------------------------- data section

  /** `label: .space n` or `label: .space n, v`: `n` copies of `v` (0 when
      absent), with no check on `v`. Also returns `self.tok` afterwards. */
  function Space(line: seq<Token>, lineNums: seq<int>, k: int): (r: Result<(seq<int>, Option<Token>)>)
    requires ShapedLine(line) && |line| >= 2
    ensures r.Ok? <==>
              (|line| == 3 || |line| == 5) && line[2].kind == INT &&
              (|line| == 5 ==> line[3].kind == COMMA && line[4].kind == INT)
    ensures r.Ok? ==> |r.value.0| == (if NumOf(line[2]) > 0 then NumOf(line[2]) else 0)
    ensures r.Ok? ==> forall i :: 0 <= i < |r.value.0| ==> r.value.0[i] == (if |line| == 5 then NumOf(line[4]) else 0)
  {
    if |line| != 3 && |line| != 5 then
      LineError(lineNums, k, SpaceArity)
    else if line[2].kind != INT then
      LineError(lineNums, k, SpaceNeedsInt)
    else
      var n := NumOf(line[2]);
      if |line| == 5 then
        if line[3].kind != COMMA then LineError(lineNums, k, SpaceNeedsComma)
        else if line[4].kind != INT then
          LineError(lineNums, k, SpaceNeedsInts)
        else Ok((Fill(n, NumOf(line[4])), Some(line[4])))
      else Ok((Fill(n, 0), None))
  }

  /** `data_label_parse` on a labelled data line: the label names the data
      the directive lays down, counted from 0, and the data only grows. Also
      returns `self.tok` afterwards. */
  function DataLabel(line: seq<Token>, st: State, lineNums: seq<int>, k: int): (r: Result<(State, Option<Token>)>)
    requires line != [] && ShapedLine(line) && line[0].kind == LABEL
    ensures r.Ok? ==> |line| >= 2 && line[1].kind == DIR
    ensures r.Ok? ==> r.value.0.code == st.code && r.value.0.labels == st.labels && r.value.0.defs == st.defs
    ensures r.Ok? ==> r.value.0.dataLocs == st.dataLocs[TextOf(line[0]) := |st.data|]
    ensures r.Ok? ==> |r.value.0.data| >= |st.data| && r.value.0.data[..|st.data|] == st.data
    ensures r.Ok? && TextOf(line[1]) == "byte" ==> ByteValues(line, 2, false, lineNums, k).Ok?
    ensures r.Ok? && TextOf(line[1]) == "byte" && ByteValues(line, 2, false, lineNums, k).Ok? ==>
              r.value.0.data == st.data + ByteValues(line, 2, false, lineNums, k).value
  {
    if |line| < 2 then LineError(lineNums, k, TooFewArgs)
    else if line[1].kind != DIR then GluedError(lineNums, k, "'", line[1].value, "'")
    else
      var st1 := st.(dataLocs := st.dataLocs[TextOf(line[0]) := |st.data|]);
      var dir := TextOf(line[1]);
      if dir == "byte" then
        var bytes :- ByteValues(line, 2, false, lineNums, k);
        Ok((st1.(data := st.data + bytes), None))
      else if dir == "space" then
        var (bytes, tok) :- Space(line, lineNums, k);
        Ok((st1.(data := st.data + bytes), tok))
      else if dir in {"string", "ascii", "asciz"} then
        var bytes :- StringValues(line, 2, lineNums, k);
        Ok((st1.(data := st.data + bytes), None))
      else if dir in {"section", "global", "end"} then
        LineError(lineNums, k, "'." + dir + "' is not a valid directive after a label")
      else Ok((st1, Some(line[1])))
  }

  /** The data loop after the last line, still holding the token it last
      stopped at. */
  function RunOff(lines: seq<seq<Token>>, lineNums: seq<int>, tok: Option<Token>): (r: Result<(nat, State)>)
    ensures r.Err?
    ensures tok.None? ==> r.error.Crash?
    ensures tok.Some? && tok.value.kind != LABEL && tok.value.kind != DIR ==> r.error.Diverges?
  {
    match tok
    case None => Err(NoneToken)
    case Some(x) =>
      if x.kind == DIR && x.value == Text("section") then
        Err(Crash(NoneHasNoLen))
      else if x.kind == LABEL then LineError(lineNums, |lines| - 1, TooFewArgs)
      else Err(Diverges(DataNeverEnds))
  }

  /** The data loop from line `k`: only labelled lines add data, other lines
      are passed over; the index of the `.section .text` line that ends it. */
  function DataSection(lines: seq<seq<Token>>, lineNums: seq<int>, k: nat, tok: Option<Token>, st: State)
    : (r: Result<(nat, State)>)
    requires Input(lines) && k <= |lines|
    ensures r.Ok? ==> k <= r.value.0 < |lines| && OpensText(lines[r.value.0])
    ensures r.Ok? ==> forall j :: k <= j < r.value.0 ==> !OpensText(lines[j])
    ensures r.Ok? ==> r.value.1.code == st.code && r.value.1.labels == st.labels
    ensures r.Ok? ==> |r.value.1.data| >= |st.data| && r.value.1.data[..|st.data|] == st.data
    ensures r.Ok? && DataWithin(st, 0) ==> DataWithin(r.value.1, 0)
    decreases |lines| - k
  {
    if k >= |lines| then RunOff(lines, lineNums, tok)
    else
      var line := lines[k];
      if line[0].kind == DIR && line[0].value == Text("section") && |line| == 2 then
        if line[1].kind == STR && line[1].value == Text(".text") then Ok((k, st))
        else DataSection(lines, lineNums, k + 1, Some(line[1]), st)
      else if line[0].kind == LABEL then
        var (st', tok') :- DataLabel(line, st, lineNums, k);
        var r :- DataSection(lines, lineNums, k + 1, tok', st');
        assert r.1.data[..|st.data|] == r.1.data[..|st'.data|][..|st.data|];
        Ok(r)
      else DataSection(lines, lineNums, k + 1, Some(line[0]), st)
  }

  /** `TwoPass.Header` and, after a `.data` header, the older data section,
      which collects only labelled lines. */
  function Front(lines: seq<seq<Token>>, lineNums: seq<int>): (r: Result<(nat, State)>)
    requires Input(lines)
    ensures r.Ok? ==> r.value.0 < |lines| && r.value.1.code == [] && r.value.1.labels == map[]
    ensures r.Ok? && r.value.0 > 0 ==>
              OpensText(lines[r.value.0]) && forall j :: 0 < j < r.value.0 ==> !OpensText(lines[j])
    ensures r.Ok? && r.value.0 == 0 ==> |lines[0]| >= 2 && lines[0][1] == Token(STR, Text(".text"))
    ensures r.Ok? ==> |lines[0]| >= 2 && lines[0][0] == Token(DIR, Text("section"))
    ensures r.Ok? ==> Header(lines, lineNums) == Ok(r.value.0 == 0)
    ensures r.Ok? ==> DataWithin(r.value.1, 0)
    ensures Header(lines, lineNums).Err? ==> r.Err? && r.error == Header(lines, lineNums).error
  {
    var text :- Header(lines, lineNums);
    if text then Ok((0, Start)) else DataSection(lines, lineNums, 1, Some(lines[0][1]), Start)
  }

  // ------------------------------------------------------------ operands

  /** The operand one argument token contributes: a label its address (an
      offset for relative instructions), a data name its address, `lo8`/`hi8`
      a byte of a data address, a number or name itself, a pointer its
      spelling; a comma, and a name that is neither a label nor data,
      contribute nothing. */
  function OperandOf(tok: Token, name: string, st: State, lineNums: seq<int>, k: int): (r: Result<seq<Operand>>)
    requires Shaped(tok)
    ensures r.Ok? ==> |r.value| <= 1
    ensures tok.kind == COMMA ==> r == Ok([])
    ensures tok.kind == STR && TextOf(tok) in st.labels && Relative(name) ==>
              (var off := st.labels[TextOf(tok)] - |st.code| - 1;
               (r.Ok? <==> -2048 <= off <= 2047) && (r.Ok? ==> r.value == [OInt(off)]))
    ensures tok.kind == STR && TextOf(tok) in st.labels && !Relative(name) ==>
              r == Ok([OInt(st.labels[TextOf(tok)])])
    ensures tok.kind == STR && TextOf(tok) !in st.labels && TextOf(tok) !in st.dataLocs ==> r == Ok([])
    ensures tok.kind != COMMA && tok.kind != STR ==> r.Ok? ==> |r.value| == 1
  {
    if tok.kind == COMMA then Ok([])
    else if tok.kind == STR then
      var s := TextOf(tok);
      if s in st.labels then
        if Relative(name) then
          var off :- BranchOffsetAsWritten(name, st.labels[s], |st.code|, s, lineNums, k);
          Ok([OInt(off)])
        else Ok([OInt(st.labels[s])])
      else if s in st.dataLocs then
        var a := st.dataLocs[s];
        if a < 0 || a > 65535 then LineError(lineNums, k, "'" + s + "'") else Ok([OInt(a)])
      else Ok([])
    else if tok.kind in {LO8, HI8} then
      var s := TextOf(tok);
      if s !in st.dataLocs then Err(Crash("KeyError: '" + s + "'"))
      else
        var a := st.dataLocs[s];
        Ok([OInt(if tok.kind == LO8 then a % 256 else (a - a % 256) / 256)])
    else if tok.value.Num? then Ok([OInt(tok.value.n)])
    else if tok.value.Text? then Ok([OStr(tok.value.s)])
    else Ok([OStr(KindName(tok.kind))])
  }

  /** `inst_parse`'s loop from token `t`, the `idx`-th argument. A mnemonic
      without arguments reads none, so whatever follows it is ignored;
      otherwise each token must be of a kind its requirement allows and the
      tokens must match the requirements in number. */
  function Operands(line: seq<Token>, t: nat, reqs: seq<Req>, idx: nat, name: string, st: State,
                    lineNums: seq<int>, k: int): (r: Result<seq<Operand>>)
    requires ShapedLine(line) && t <= |line| && |reqs| >= 1 && idx <= |reqs|
    ensures reqs[0] == NoArg && idx == 0 ==> r == Ok([])
    ensures r.Ok? && reqs[0] != NoArg ==> |line| - t == |reqs| - idx
    ensures r.Ok? && reqs[0] != NoArg ==> forall j :: t <= j < |line| ==> Accepts(reqs[idx + (j - t)], line[j].kind)
    ensures r.Ok? ==> |r.value| <= |line| - t
    decreases |line| - t
  {
    if t >= |line| || reqs[0] == NoArg then
      if idx != |reqs| && !(reqs[0] == NoArg && idx == 0) then LineError(lineNums, k, TooFewArgs)
      else Ok([])
    else if idx >= |reqs| then LineError(lineNums, k, TooManyArgs)
    else if !Accepts(reqs[idx], line[t].kind) then
      LineError(lineNums, k, "Incorrect argument '" + ShowToken(line[t]) + "'")
    else
      assert line[t] in line;
      var here :- OperandOf(line[t], name, st, lineNums, k);
      var rest :- Operands(line, t + 1, reqs, idx + 1, name, st, lineNums, k);
      Ok(here + rest)
  }

  // ------------------------------------------------------------ text section

  /** `inst_parse` on the instruction that starts the line: the instruction
      gets its slots, with its operands resolved but not range-checked. */
  function Instruction(line: seq<Token>, st: State, lineNums: seq<int>, k: int): (r: Result<State>)
    requires ShapedLine(line) && |line| >= 1 && line[0].kind == INST
    ensures r.Ok? ==> Requirements(Older, TextOf(line[0])).Some?
    ensures r.Ok? ==> r.value.(code := st.code) == st
    ensures r.Ok? ==> |r.value.code| == |st.code| + Width(TextOf(line[0]))
    ensures r.Ok? ==> var i := r.value.code[|st.code|];
                      i.Inst? && i.name == TextOf(line[0]) && r.value.code == st.code + Emitted(i)
  {
    var name := TextOf(line[0]);
    match Requirements(Older, name)
    case None => Err(Crash("KeyError: '" + name + "'"))
    case Some(reqs) =>
      var ops :- Operands(line, 1, reqs, 0, name, st, lineNums, k);
      Ok(st.(code := st.code + Emitted(Inst(name, ops))))
  }

  /** One line of the text pass: a label line is passed over whatever follows
      the label. */
  function EmitLine(lines: seq<seq<Token>>, lineNums: seq<int>, k: nat, st: State): (r: Result<State>)
    requires Input(lines) && k < |lines|
    ensures r.Ok? ==> LineStep(Older, lines, k, st, r.value)
    ensures r.Ok? ==> lines[k][0].kind == INST || lines[k][0].kind == LABEL || lines[k][0].kind == DIR
  {
    var line := lines[k];
    assert line[0] in line;
    var tok := line[0];
    if tok.kind == INST then Instruction(line, st, lineNums, k)
    else if tok.kind == LABEL then Ok(st)
    else if tok.kind == DIR then
      var dir := TextOf(tok);
      if dir == "end" then
        if k != |lines| - 1 then LineError(lineNums, k, EndNotLast) else Ok(st)
      else if dir == "global" then Global(line, 0, st, lineNums, k)
      else LineError(lineNums, k, "'" + dir + "'")
    else GluedError(lineNums, k, "'", tok.value, "'")
  }

  /** The text pass from line `k`. */
  function Emit(lines: seq<seq<Token>>, lineNums: seq<int>, k: nat, st: State): (r: Result<State>)
    requires Input(lines) && k <= |lines|
    ensures r.Ok? ==> Laid(Older, lines, k, st, r.value)
    decreases |lines| - k
  {
    if k >= |lines| then Ok(st)
    else
      var st' :- EmitLine(lines, lineNums, k, st);
      var r :- Emit(lines, lineNums, k + 1, st');
      EmitStep(Older, lines, k, st, st', r);
      Ok(r)
  }

  // ------------------------------------------------------------ whole file

  /** The label pass and the text pass from line `start`; the older parser
      does not look at how the file ends. */
  function Assemble(lines: seq<seq<Token>>, lineNums: seq<int>, start: nat, st: State): (r: Result<Assembled>)
    requires Input(lines) && st.code == []
    ensures r.Ok? ==> Aligned(r.value.code) && r.value.data == st.data
  {
    var s := Clamp(lines, start);
    var labels :- CountLabels(Older, AsWritten, lines, lineNums, s, 0, st.labels);
    var done :- Emit(lines, lineNums, s, st.(labels := labels));
    Ok(Assembled(done.code, done.data))
  }

  /** The older parser, with the text section starting on the line after the
      one that opened it. */
  function Parse(lines: seq<seq<Token>>, lineNums: seq<int>): (r: Result<Assembled>)
    requires Input(lines)
    ensures r.Ok? ==> Aligned(r.value.code)
    ensures r.Ok? ==> Front(lines, lineNums).Ok? && r.value.data == Front(lines, lineNums).value.1.data
  {
    var (l, st) :- Front(lines, lineNums);
    Assemble(lines, lineNums, l + 1, st)
  }

  /** The older parser with the text section's start as written. */
  function ParseAsWritten(lines: seq<seq<Token>>, lineNums: seq<int>): (r: Result<Assembled>)
    requires Input(lines)
    ensures r.Ok? ==> Aligned(r.value.code)
    ensures Front(lines, lineNums).Ok? && Front(lines, lineNums).value.0 > 0 ==> r == Parse(lines, lineNums)
  {
    var (l, st) :- Front(lines, lineNums);
    Assemble(lines, lineNums, TextStartAsWritten(l), st)
  }

  // ------------------------------------------------------------ properties

  /** In the older parser a label addresses the next instruction: a label
      defined on line `j` (and not again later) names the word where the text
      pass places the instruction of the first instruction line after it. */
  lemma LabelsAddressNextInstruction(lines: seq<seq<Token>>, lineNums: seq<int>, s: nat, st: State, j: nat, j2: nat)
    requires Input(lines) && s <= j < j2 < |lines| && st.code == []
    requires CountLabels(Older, AsWritten, lines, lineNums, s, 0, st.labels).Ok?
    requires Emit(lines, lineNums, s, st.(labels := CountLabels(Older, AsWritten, lines, lineNums, s, 0, st.labels).value)).Ok?
    requires lines[j][0].kind == LABEL && Undefined(lines, j + 1, TextOf(lines[j][0]))
    requires lines[j2][0].kind == INST && forall i :: j < i < j2 ==> lines[i][0].kind != INST
    ensures var labels := CountLabels(Older, AsWritten, lines, lineNums, s, 0, st.labels).value;
            var code := Emit(lines, lineNums, s, st.(labels := labels)).value.code;
            var n := TextOf(lines[j][0]);
            n in labels && 0 <= labels[n] < |code| && code[labels[n]].Inst? && code[labels[n]].name == TextOf(lines[j2][0])
  {
    var labels := CountLabels(Older, AsWritten, lines, lineNums, s, 0, st.labels).value;
    var st0 := st.(labels := labels);
    var r := Emit(lines, lineNums, s, st0).value;
    LabelPlaces(Older, AsWritten, lines, lineNums, s, 0, st.labels);
    assert Plain(Older, lines, s);
    ChargesPlain(AsWritten, Older, lines, s, j);
    PlacedAt(lines, s, st0, r, j, j2);
  }

  /** The text pass puts the first instruction after line `j` at the word
      count of the lines before `j`. */
  lemma PlacedAt(lines: seq<seq<Token>>, s: nat, st0: State, r: State, j: nat, j2: nat)
    requires Input(lines) && s <= j < j2 < |lines| && st0.code == []
    requires Laid(Older, lines, s, st0, r)
    requires lines[j][0].kind == LABEL
    requires lines[j2][0].kind == INST && forall i :: j < i < j2 ==> lines[i][0].kind != INST
    ensures Slots(Older, lines, s, j) < |r.code|
    ensures r.code[Slots(Older, lines, s, j)].Inst? && r.code[Slots(Older, lines, s, j)].name == TextOf(lines[j2][0])
  {
    NoWords(lines, j, j2);
    SlotsSplit(Older, lines, s, j, j2);
    assert HasInst(Older, lines[j2]) && InstName(Older, lines[j2]) == TextOf(lines[j2][0]);
  }

  /** Lines without an instruction take no words. */
  lemma {:induction false} NoWords(lines: seq<seq<Token>>, a: nat, b: nat)
    requires Input(lines) && a <= b <= |lines|
    requires forall i :: a <= i < b ==> lines[i][0].kind != INST
    ensures Slots(Older, lines, a, b) == 0
    decreases b - a
  {
    if a < b {
      NoWords(lines, a + 1, b);
    }
  }

  /** As written, the older parser drops the sample's operand without a word:
      the text pass starts after the label, and a name that is neither a label
      nor data is passed over. */
  lemma SampleAsWritten(lineNums: seq<int>)
    ensures Input(Sample)
    ensures ParseAsWritten(Sample, lineNums) == Ok(Assembled([Inst("RJMP", [])], []))
  {
    SampleFront(lineNums);
    ParseAsWrittenFrom(Sample, lineNums, 0, Start);
    SampleAssemble(lineNums, 2, Start, []);
  }

  /** With the text section starting on line 1, the older parser gives the
      sample's jump its offset of -1. */
  lemma SampleCorrected(lineNums: seq<int>)
    ensures Input(Sample)
    ensures Parse(Sample, lineNums) == Ok(Assembled([Inst("RJMP", [OInt(-1)])], []))
  {
    SampleFront(lineNums);
    ParseFrom(Sample, lineNums, 0, Start);
    SampleAssemble(lineNums, 1, Start.(labels := map["main" := 0]), [OInt(-1)]);
  }

  /** The parser assembles from the line after the one `Front` stops at. */
  lemma ParseFrom(lines: seq<seq<Token>>, lineNums: seq<int>, l: nat, st: State)
    requires Input(lines) && Front(lines, lineNums) == Ok((l, st))
    ensures st.code == []
    ensures Parse(lines, lineNums) == Assemble(lines, lineNums, l + 1, st)
  {
  }

  lemma ParseAsWrittenFrom(lines: seq<seq<Token>>, lineNums: seq<int>, l: nat, st: State)
    requires Input(lines) && Front(lines, lineNums) == Ok((l, st))
    ensures st.code == []
    ensures ParseAsWritten(lines, lineNums) == Assemble(lines, lineNums, TextStartAsWritten(l), st)
  {
  }

  lemma SampleFront(lineNums: seq<int>)
    ensures Input(Sample) && Front(Sample, lineNums) == Ok((0, Start))
  {
    SampleInput();
  }

  /** The older parser over the sample from line 1 or from line 2. */
  lemma SampleAssemble(lineNums: seq<int>, s: nat, st: State, ops: seq<Operand>)
    requires (s == 1 && st == Start.(labels := map["main" := 0]) && ops == [OInt(-1)]) ||
             (s == 2 && st == Start && ops == [])
    ensures Input(Sample)
    ensures Assemble(Sample, lineNums, s, Start) == Ok(Assembled([Inst("RJMP", ops)], []))
  {
    SampleInput();
    SampleLabels(lineNums, s, st);
    var st' := Start.(labels := st.labels, code := [Inst("RJMP", ops)]);
    if s == 1 {
      SampleLabelLine(lineNums, st);
      EmitOn(Sample, lineNums, 1, st, st);
    }
    SampleJump(lineNums, st, ops);
    SampleEndLine(lineNums, st');
    EmitOn(Sample, lineNums, 3, st', st');
    EmitOn(Sample, lineNums, 2, st, st');
  }

  lemma SampleLabels(lineNums: seq<int>, s: nat, st: State)
    requires (s == 1 && st == Start.(labels := map["main" := 0])) || (s == 2 && st == Start)
    ensures Input(Sample) && CountLabels(Older, AsWritten, Sample, lineNums, s, 0, map[]) == Ok(st.labels)
  {
    SampleInput();
  }

  /** A line the older text pass accepts hands its state on to the next line. */
  lemma EmitOn(lines: seq<seq<Token>>, lineNums: seq<int>, k: nat, st: State, st': State)
    requires Input(lines) && k < |lines| && EmitLine(lines, lineNums, k, st) == Ok(st')
    ensures Emit(lines, lineNums, k, st) == Emit(lines, lineNums, k + 1, st')
  {
  }

  lemma SampleLabelLine(lineNums: seq<int>, st: State)
    ensures Input(Sample) && EmitLine(Sample, lineNums, 1, st) == Ok(st)
  {
    SampleInput();
  }

  lemma SampleEndLine(lineNums: seq<int>, st: State)
    ensures Input(Sample) && EmitLine(Sample, lineNums, 3, st) == Ok(st)
  {
    SampleInput();
  }

  /** The sample's jump, with `main` a label at word 0 or not a label at all. */
  lemma SampleJump(lineNums: seq<int>, st: State, ops: seq<Operand>)
    requires st == Start.(labels := map["main" := 0]) || st == Start
    requires ops == (if "main" in st.labels then [OInt(-1)] else [])
    ensures Input(Sample)
    ensures EmitLine(Sample, lineNums, 2, st) == Ok(st.(code := [Inst("RJMP", ops)]))
  {
    SampleInput();
    SampleInstruction(lineNums, st, ops);
  }

  /** The sample's jump line read as an instruction. */
  lemma SampleInstruction(lineNums: seq<int>, st: State, ops: seq<Operand>)
    requires st == Start.(labels := map["main" := 0]) || st == Start
    requires ops == (if "main" in st.labels then [OInt(-1)] else [])
    ensures Instruction(Sample[2], st, lineNums, 2) == Ok(st.(code := [Inst("RJMP", ops)]))
  {
    SampleOperands(lineNums, st, ops);
    assert Requirements(Older, "RJMP") == Some([One(STR)]);
    assert Emitted(Inst("RJMP", ops)) == [Inst("RJMP", ops)];
    assert st.code + [Inst("RJMP", ops)] == [Inst("RJMP", ops)];
    SampleInput();
    InstructionOk(Sample[2], st, lineNums, 2, [One(STR)], ops);
  }

  /** An instruction line whose operands read emits the instruction. */
  lemma InstructionOk(line: seq<Token>, st: State, lineNums: seq<int>, k: int, reqs: seq<Req>, ops: seq<Operand>)
    requires ShapedLine(line) && |line| >= 1 && line[0].kind == INST
    requires Requirements(Older, TextOf(line[0])) == Some(reqs)
    requires Operands(line, 1, reqs, 0, TextOf(line[0]), st, lineNums, k) == Ok(ops)
    ensures Instruction(line, st, lineNums, k) == Ok(st.(code := st.code + Emitted(Inst(TextOf(line[0]), ops))))
  {
  }

  /** The sample's jump operand: an offset of -1 to `main`, or nothing. */
  lemma SampleOperands(lineNums: seq<int>, st: State, ops: seq<Operand>)
    requires st == Start.(labels := map["main" := 0]) || st == Start
    requires ops == (if "main" in st.labels then [OInt(-1)] else [])
    ensures Operands(Sample[2], 1, [One(STR)], 0, "RJMP", st, lineNums, 2) == Ok(ops)
  {
    SampleInput();
    assert Relative("RJMP") by {
      assert "RJMP"[..2] == "RJ";
    }
    var line := Sample[2];
    assert OperandOf(line[1], "RJMP", st, lineNums, 2) == Ok(ops);
    assert Operands(line, 2, [One(STR)], 1, "RJMP", st, lineNums, 2) == Ok([]);
    assert ops + [] == ops;
  }
}

=== FILE: parser.dfy ===
/** The current parser: from the lexer's token lines to the instruction list
    and the initial data. It checks the `.section` header, reads the data
    section's labels and directives, counts the program words to place the text
    section's labels, then turns every instruction line into a slot whose
    operands are resolved and range-checked. */
module Parser {
  import opened Base
  import opened Tokens
  import opened Text
  import opened Syntax
  import opened Tables
  import opened Program
  import opened Directives
  import opened TwoPass

  /** Data labels address the data memory from 0x100 on, where the data
      section is loaded. */
  const DataBase: int := 0x100

  // -------------------------------------------------------- data section

  /** `.space n` or `.space n, v` whose directive is token `t`: `n` copies of
      `v` (0 when absent), where `v` must be a byte. The token count is checked
      on the whole line, label included. Also returns `self.tok` afterwards. */
  function Space(line: seq<Token>, t: nat, lineNums: seq<int>, k: int): (r: Result<(seq<int>, Option<Token>)>)
    requires ShapedLine(line) && t < |line|
    ensures r.Ok? ==> 1 < |line| < 6 && t + 1 < |line| && line[t + 1].kind == INT
    ensures r.Ok? ==> |r.value.0| == (if NumOf(line[t + 1]) > 0 then NumOf(line[t + 1]) else 0)
    ensures r.Ok? ==> forall i :: 0 <= i < |r.value.0| ==> 0 <= r.value.0[i] < 256
    ensures r.Ok? && |line| in {4, 5} ==>
              t + 3 < |line| && line[t + 2].kind == COMMA && line[t + 3].kind == INT &&
              forall i :: 0 <= i < |r.value.0| ==> r.value.0[i] == NumOf(line[t + 3])
    ensures r.Ok? && |line| !in {4, 5} ==> forall i :: 0 <= i < |r.value.0| ==> r.value.0[i] == 0
  {
    if !(1 < |line| < 6) then
      LineError(lineNums, k, SpaceArity)
    else if t + 1 >= |line| then Err(NoneToken)
    else if line[t + 1].kind != INT then
      LineError(lineNums, k, SpaceNeedsInt)
    else
      var n := NumOf(line[t + 1]);
      if |line| in {4, 5} then
        if t + 2 >= |line| then Err(NoneToken)
        else if line[t + 2].kind != COMMA then LineError(lineNums, k, SpaceNeedsComma)
        else if t + 3 >= |line| then Err(NoneToken)
        else if line[t + 3].kind != INT then
          LineError(lineNums, k, SpaceNeedsInts)
        else
          var v := NumOf(line[t + 3]);
          if !(0 <= v <= 255) then
            LineError(lineNums, k, CellRange)
          else Ok((Fill(n, v), Some(line[t + 3])))
      else Ok((Fill(n, 0), Tok(line, t + 2)))
  }

  /** `.def name = Rn` whose directive is token `t`: the line must have exactly
      four tokens, and the name then stands for the register. */
  function Definition(line: seq<Token>, t: nat, defs: map<string, string>, lineNums: seq<int>, k: int)
    : (r: Result<(map<string, string>, Option<Token>)>)
    requires ShapedLine(line) && t < |line|
    ensures r.Ok? ==> |line| == 4 && t + 3 < |line|
    ensures r.Ok? ==> line[t + 1].kind == STR && line[t + 2].kind == EQ && line[t + 3].kind == REG
    ensures r.Ok? ==> r.value.0 == defs[TextOf(line[t + 1]) := TextOf(line[t + 3])]
  {
    if |line| != 4 then LineError(lineNums, k, WrongArgCount)
    else if t + 1 >= |line| then Err(NoneToken)
    else if line[t + 1].kind != STR then
      LineError(lineNums, k, "Illegal variable name '" + ShowValue(line[t + 1].value) + "'")
    else if t + 2 >= |line| then Err(NoneToken)
    else if line[t + 2].kind != EQ then
      LineError(lineNums, k, DefNeedsEquals)
    else if t + 3 >= |line| then Err(NoneToken)
    else if line[t + 3].kind != REG then LineError(lineNums, k, DefNeedsRegister)
    else Ok((defs[TextOf(line[t + 1]) := TextOf(line[t + 3])], Some(line[t + 3])))
  }

  /** `data_label_parse` on a data-section line that starts with a label or a
      directive. The first token names the data that the directive lays down
      from the current end of the data on; the data only grows. Also returns
      `self.tok` afterwards, which the data loop may go on reading. */
  function DataLabel(line: seq<Token>, st: State, lineNums: seq<int>, k: int): (r: Result<(State, Option<Token>)>)
    requires line != [] && ShapedLine(line) && line[0].kind in {LABEL, DIR}
    ensures r.Ok? ==> r.value.0.code == st.code && r.value.0.labels == st.labels
    ensures r.Ok? ==> r.value.0.dataLocs == st.dataLocs[TextOf(line[0]) := |st.data| + DataBase]
    ensures r.Ok? ==> |r.value.0.data| >= |st.data| && r.value.0.data[..|st.data|] == st.data
    ensures r.Ok? ==> var t := if line[0].kind == LABEL then 1 else 0; t < |line| && line[t].kind == DIR
  {
    var t := if line[0].kind == LABEL then 1 else 0;
    if t >= |line| then LineError(lineNums, k, TooFewArgs)
    else if line[t].kind != DIR then GluedError(lineNums, k, "'", line[t].value, "'")
    else
      var st1 := st.(dataLocs := st.dataLocs[TextOf(line[0]) := |st.data| + DataBase]);
      var dir := TextOf(line[t]);
      if dir == "byte" then
        var bytes :- ByteValues(line, t + 1, true, lineNums, k);
        Ok((st1.(data := st.data + bytes), None))
      else if dir == "space" then
        var (bytes, tok) :- Space(line, t, lineNums, k);
        Ok((st1.(data := st.data + bytes), tok))
      else if dir in {"string", "ascii", "asciz"} then
        var bytes :- StringValues(line, t + 1, lineNums, k);
        Ok((st1.(data := st.data + bytes), None))
      else if dir == "def" then
        var (defs, tok) :- Definition(line, t, st.defs, lineNums, k);
        Ok((st1.(defs := defs), tok))
      else if dir in {"section", "global", "end"} then
        LineError(lineNums, k, "'." + dir + "' is not a valid directive in the data section.")
      else Ok((st1, Some(line[t])))
  }

  /** The data loop after the last line: it keeps reading the token it last
      stopped at, which fails one way or another or never ends. */
  function RunOff(lines: seq<seq<Token>>, lineNums: seq<int>, tok: Option<Token>): (r: Result<(nat, State)>)
    ensures r.Err?
    ensures tok.None? ==> r.error.Crash?
    ensures tok.Some? && !(tok.value.kind in {LABEL, DIR}) ==> r.error.Diverges?
  {
    var last := |lines| - 1;
    match tok
    case None => Err(NoneToken)
    case Some(x) =>
      if x.kind == DIR && x.value == Text("section") then
        Err(Crash(NoneHasNoLen))
      else if x.kind == LABEL then LineError(lineNums, last, TooFewArgs)
      else if x.kind == DIR then
        var dir := TextOf(x);
        if dir == "byte" then LineError(lineNums, last, TrailingComma)
        else if dir in {"space", "def"} then Err(Crash(NoneHasNoLen))
        else if dir in {"string", "ascii", "asciz"} then Err(NoneToken)
        else if dir in {"global", "end"} then
          LineError(lineNums, last, "'." + dir + "' is not a valid directive in the data section.")
        else Err(Diverges(DataNeverEnds))
      else Err(Diverges(DataNeverEnds))
  }

  /** The data-section loop from line `k`, where `tok` is the token the loop
      last stopped at: the index of the `.section .text` line that ends the
      section, and the state it leaves. */
  function DataSection(lines: seq<seq<Token>>, lineNums: seq<int>, k: nat, tok: Option<Token>, st: State)
    : (r: Result<(nat, State)>)
    requires Input(lines) && k <= |lines|
    ensures r.Ok? ==> k <= r.value.0 < |lines| && OpensText(lines[r.value.0])
    ensures r.Ok? ==> forall j :: k <= j < r.value.0 ==> !OpensText(lines[j])
    ensures r.Ok? ==> r.value.1.code == st.code && r.value.1.labels == st.labels
    ensures r.Ok? ==> |r.value.1.data| >= |st.data| && r.value.1.data[..|st.data|] == st.data
    ensures r.Ok? && DataWithin(st, DataBase) ==> DataWithin(r.value.1, DataBase)
    decreases |lines| - k
  {
    if k >= |lines| then RunOff(lines, lineNums, tok)
    else
      var line := lines[k];
      if line[0].kind == DIR && line[0].value == Text("section") && |line| == 2 then
        if line[1].kind == STR && line[1].value == Text(".text") then Ok((k, st))
        else DataSection(lines, lineNums, k + 1, Some(line[1]), st)
      else if line[0].kind in {LABEL, DIR} then
        var (st', tok') :- DataLabel(line, st, lineNums, k);
        var r :- DataSection(lines, lineNums, k + 1, tok', st');
        PrefixOfPrefix(st.data, st'.data, r.1.data);
        Ok(r)
      else DataSection(lines, lineNums, k + 1, Some(line[0]), st)
  }

  /** A prefix of a prefix is a prefix. */
  lemma PrefixOfPrefix<T>(a: seq<T>, b: seq<T>, c: seq<T>)
    requires |b| >= |a| && b[..|a|] == a && |c| >= |b| && c[..|b|] == b
    ensures c[..|a|] == a
  {
    assert c[..|a|] == c[..|b|][..|a|];
  }

  /** `TwoPass.Header` and, after a `.data` header, this generation's data
      section: the index of the line after which the text section starts (0
      for a `.text` header) and the state so far. */
  function Front(lines: seq<seq<Token>>, lineNums: seq<int>): (r: Result<(nat, State)>)
    requires Input(lines)
    ensures r.Ok? ==> r.value.0 < |lines| && r.value.1.code == [] && r.value.1.labels == map[]
    ensures r.Ok? && r.value.0 > 0 ==>
              OpensText(lines[r.value.0]) && forall j :: 0 < j < r.value.0 ==> !OpensText(lines[j])
    ensures r.Ok? && r.value.0 == 0 ==> |lines[0]| >= 2 && lines[0][1] == Token(STR, Text(".text"))
    ensures r.Ok? ==> |lines[0]| >= 2 && lines[0][0] == Token(DIR, Text("section"))
    ensures r.Ok? ==> Header(lines, lineNums) == Ok(r.value.0 == 0)
    ensures r.Ok? ==> DataWithin(r.value.1, DataBase)
    ensures Header(lines, lineNums).Err? ==> r.Err? && r.error == Header(lines, lineNums).error
  {
    var text :- Header(lines, lineNums);
    if text then Ok((0, Start)) else DataSection(lines, lineNums, 1, Some(lines[0][1]), Start)
  }

  // ------------------------------------------------------------ operands

  /** How far a relative instruction reaches: a conditional branch has a
      7-bit offset field, a relative jump or call a 12-bit one. */
  function Reach(name: string): (n: int)
    ensures n == 64 || n == 2048
  {
    if |name| >= 2 && name[..2] == "BR" then 64 else 2048
  }

  /** How far a relative instruction reaches in each version. */
  function ReachOf(v: Version, name: string): (n: int)
    ensures v == AsWritten ==> n == 2048
    ensures v == Intended ==> n == Reach(name)
  {
    if v == Intended then Reach(name) else 2048
  }

  /** The offset check each version runs on a relative label operand. */
  function Offset(v: Version, name: string, target: int, pc: int, lab: string, lineNums: seq<int>, k: int)
    : (r: Result<int>)
    ensures r.Ok? <==> -ReachOf(v, name) <= target - pc - 1 < ReachOf(v, name)
    ensures r.Ok? ==> pc + 1 + r.value == target
  {
    if v == Intended then BranchOffset(name, target, pc, lab, lineNums, k)
    else BranchOffsetAsWritten(name, target, pc, lab, lineNums, k)
  }

  /** The offset from the word after the instruction at `pc` to a label at
      `target`, rejected when the instruction cannot reach it. */
  function BranchOffset(name: string, target: int, pc: int, lab: string, lineNums: seq<int>, k: int): (r: Result<int>)
    ensures r.Ok? <==> -Reach(name) <= target - pc - 1 < Reach(name)
    ensures r.Ok? ==> pc + 1 + r.value == target
    ensures r.Err? && 0 <= k < |lineNums| ==>
              r.error == InvalidInstruction(lineNums[k], "Label too far away to access from '" + lab + "'")
  {
    var off := target - pc - 1;
    if off < -Reach(name) || off >= Reach(name) then
      LineError(lineNums, k, "Label too far away to access from '" + lab + "'")
    else Ok(off)
  }

  /** As written, a branch to a label 100 words ahead passes the offset check
      and is only caught by the operand range check, with a message about the
      offset rather than the label; the intended check names the label. */
  lemma FarBranch()
    ensures BranchOffsetAsWritten("BRNE", 100, 0, "far", [7], 0) == Ok(99)
    ensures CheckOperands("BRNE", [OInt(99)], [7], 0) ==
            Err(InvalidInstruction(7, OutOfBounds('k', OInt(99), "BRNE")))
    ensures BranchOffset("BRNE", 100, 0, "far", [7], 0) ==
            Err(InvalidInstruction(7, "Label too far away to access from 'far'"))
  {
    FarBranchPasses();
    FarBranchRange();
    FarBranchCaught();
  }

  lemma FarBranchPasses()
    ensures BranchOffsetAsWritten("BRNE", 100, 0, "far", [7], 0) == Ok(99)
  {
  }

  lemma FarBranchRange()
    ensures CheckOperands("BRNE", [OInt(99)], [7], 0) ==
            Err(InvalidInstruction(7, OutOfBounds('k', OInt(99), "BRNE")))
  {
    BrneRow();
    FarOperand();
    assert CheckRules("BRNE", [OInt(99)], [Range('k', -64, 63)], 0, [7], 0) ==
           Err(InvalidInstruction(7, OutOfBounds('k', OInt(99), "BRNE")));
  }

  lemma FarOperand()
    ensures CheckOne("BRNE", Range('k', -64, 63), OInt(99), [7], 0) ==
            Err(InvalidInstruction(7, OutOfBounds('k', OInt(99), "BRNE")))
  {
    RangeRefused("BRNE", 'k', -64, 63, OInt(99), [7], 0);
  }

  /** A number outside a range rule's bounds is refused on the line the
      rule is checked for. */
  lemma RangeRefused(name: string, f: char, lo: int, hi: int, op: Operand, lineNums: seq<int>, k: int)
    requires op.OInt? && (op.n < lo || op.n > hi) && 0 <= k < |lineNums|
    ensures CheckOne(name, Range(f, lo, hi), op, lineNums, k) ==
            Err(InvalidInstruction(lineNums[k], OutOfBounds(f, op, name)))
  {
  }

  /** The message names the field and shows the number. */
  lemma FarMessage()
    ensures FieldName('k') == "Address value" && ShowOperand(OInt(99)) == "99"
  {
    assert NatToString(99) == NatToString(9) + [DecimalDigit(9)];
  }

  lemma FarBranchCaught()
    ensures BranchOffset("BRNE", 100, 0, "far", [7], 0) ==
            Err(InvalidInstruction(7, "Label too far away to access from 'far'"))
  {
    assert "BRNE"[..2] == "BR";
  }

  lemma BrneRow()
    ensures Rules("BRNE") == Some([Range('k', -64, 63)])
  {
    assert "BRNE" in Branches;
  }

  /** The operand one argument token contributes: a label becomes its address
      (an offset for relative instructions), a data name its address, `lo8`/
      `hi8` the low or high byte of a data address, a number or name itself, a
      pointer its spelling, and a comma nothing. */
  function OperandOf(v: Version, tok: Token, name: string, st: State, lineNums: seq<int>, k: int): (r: Result<seq<Operand>>)
    requires Shaped(tok)
    ensures r.Ok? ==> |r.value| <= 1 && (r.value == [] <==> tok.kind == COMMA)
    ensures tok.kind == STR && TextOf(tok) in st.labels && Relative(name) ==>
              (var off := st.labels[TextOf(tok)] - |st.code| - 1;
               (r.Ok? <==> -ReachOf(v, name) <= off < ReachOf(v, name)) && (r.Ok? ==> r.value == [OInt(off)]))
    ensures tok.kind == STR && TextOf(tok) in st.labels && !Relative(name) ==>
              r == Ok([OInt(st.labels[TextOf(tok)])])
    ensures tok.kind == STR && TextOf(tok) !in st.labels ==>
              (r.Ok? <==> TextOf(tok) in st.dataLocs && 0 <= st.dataLocs[TextOf(tok)] <= 65535) &&
              (r.Ok? ==> r.value == [OInt(st.dataLocs[TextOf(tok)])])
    ensures tok.kind in {LO8, HI8} ==>
              (r.Ok? <==> TextOf(tok) in st.dataLocs) &&
              (r.Ok? ==> var a := st.dataLocs[TextOf(tok)];
                         r.value == [OInt(if tok.kind == LO8 then a % 256 else a / 256)])
  {
    if tok.kind == STR then
      var s := TextOf(tok);
      if s in st.labels then
        if Relative(name) then
          var off :- Offset(v, name, st.labels[s], |st.code|, s, lineNums, k);
          Ok([OInt(off)])
        else Ok([OInt(st.labels[s])])
      else if s in st.dataLocs then
        var a := st.dataLocs[s];
        if a < 0 || a > 65535 then LineError(lineNums, k, "'" + s + "'") else Ok([OInt(a)])
      else LineError(lineNums, k, "Illegal argument given: " + s)
    else if tok.kind in {LO8, HI8} then
      var s := TextOf(tok);
      if s !in st.dataLocs then Err(Crash("KeyError: '" + s + "'"))
      else
        var a := st.dataLocs[s];
        Ok([OInt(if tok.kind == LO8 then a % 256 else (a - a % 256) / 256)])
    else if tok.value.Num? then Ok([OInt(tok.value.n)])
    else if tok.value.Text? then Ok([OStr(tok.value.s)])
    else if tok.kind != COMMA then Ok([OStr(KindName(tok.kind))])
    else Ok([])
  }

  /** `inst_parse`'s loop from token `t`, the `idx`-th argument: each token must
      be of a kind its requirement allows, there must be neither more nor fewer
      tokens than requirements, and a mnemonic without arguments takes none. */
  function Operands(v: Version, line: seq<Token>, t: nat, reqs: seq<Req>, idx: nat, name: string, st: State,
                    lineNums: seq<int>, k: int): (r: Result<seq<Operand>>)
    requires ShapedLine(line) && t <= |line| && |reqs| >= 1 && idx <= |reqs|
    ensures r.Ok? ==> idx + (|line| - t) <= |reqs|
    ensures r.Ok? ==> forall j :: t <= j < |line| ==> Accepts(reqs[idx + (j - t)], line[j].kind)
    ensures r.Ok? && reqs[0] != NoArg && idx <= |reqs| ==> |line| - t == |reqs| - idx
    ensures r.Ok? && reqs[0] == NoArg && idx == 0 ==> t == |line|
    ensures r.Ok? ==> |r.value| <= |line| - t
    decreases |line| - t
  {
    if t >= |line| then
      if (if reqs[0] == NoArg then idx + 1 else idx) < |reqs| then LineError(lineNums, k, TooFewArgs)
      else Ok([])
    else if idx >= |reqs| then LineError(lineNums, k, TooManyArgs)
    else if !Accepts(reqs[idx], line[t].kind) then
      LineError(lineNums, k, "Incorrect argument '" + ShowToken(line[t]) + "'")
    else
      assert line[t] in line;
      var here :- OperandOf(v, line[t], name, st, lineNums, k);
      var rest :- Operands(v, line, t + 1, reqs, idx + 1, name, st, lineNums, k);
      Ok(here + rest)
  }

  // ------------------------------------------------------ check_operands

  /** The register number of a register operand: the digits after its last
      'R' (for a pair `Rh:Rl`, the low register). */
  function RegNum(op: Operand): Option<int> {
    if op.OStr? then PyInt(AfterLast(op.s, 'R'), 10) else None
  }

  /** The high register of a pair `Rh:Rl`. */
  function HighReg(s: string): Option<int> {
    match SecondLastPiece(s, 'R')
    case None => None
    case Some(p) => PyInt(StripRightChar(p, ':'), 10)
  }

  /** `int(op)`. */
  function IntValue(op: Operand): Option<int> {
    if op.OInt? then Some(op.n) else PyInt(op.s, 10)
  }

  /** `str(op)` in messages. */
  function ShowOperand(op: Operand): string {
    if op.OInt? then IntToString(op.n) else op.s
  }

  /** Whether rule `i` is checked at all: a free rule is not, and nor is any
      rule of a call to a built-in function. */
  predicate Applies(name: string, ops: seq<Operand>, rules: seq<Rule>, i: nat)
    requires i < |rules| && |ops| >= 1
  {
    !rules[i].Free? && !(name == "CALL" && ops[0].OStr? && ops[0].s in Functions)
  }

  /** What `check_operands` accepts of an operand under a rule: a register in
      range, a pair `Rh:Rl` with `l` allowed and `h == l + 1` (a single
      register is not checked at all), a number in range. */
  predicate Admits(rule: Rule, op: Operand) {
    match rule
    case Free => true
    case Reg(lo, hi) => RegNum(op).Some? && lo <= RegNum(op).value <= hi
    case Pair(allowed) =>
      op.OStr? && RegNum(op).Some? &&
      (':' in op.s ==> RegNum(op).value in allowed && HighReg(op.s) == Some(RegNum(op).value + 1))
    case Range(_, lo, hi) => IntValue(op).Some? && lo <= IntValue(op).value <= hi
  }

  /** The operand `check_operands` leaves: a pair becomes its low register. */
  function Settle(rule: Rule, op: Operand): Operand
    requires Admits(rule, op)
  {
    if rule.Pair? && ':' in op.s then OStr("R" + IntToString(RegNum(op).value)) else op
  }

  function FieldName(f: char): string {
    if f == 'K' then "Immediate value"
    else if f == 'k' then "Address value"
    else if f == 'q' then "Offset"
    else if f == 'A' then "I/O address"
    else "Bit"
  }

  /** One rule of `check_operands` on one operand: an operand that cannot be
      read as the rule's register or number stops the parser, one out of range
      is an error, and an admitted one is settled. */
  function CheckOne(name: string, rule: Rule, op: Operand, lineNums: seq<int>, k: int): (r: Result<Operand>)
    ensures r.Ok? <==> Admits(rule, op)
    ensures r.Ok? ==> r.value == Settle(rule, op)
  {
    match rule
    case Free => Ok(op)
    case Reg(lo, hi) =>
      if RegNum(op).None? then Err(Crash(RegisterOperandError))
      else if RegNum(op).value < lo || RegNum(op).value > hi then LineError(lineNums, k, RegisterError(name, op))
      else Ok(op)
    case Pair(allowed) => CheckPair(name, allowed, op, lineNums, k)
    case Range(f, lo, hi) =>
      if IntValue(op).None? then Err(Crash(IntLiteralError))
      else if IntValue(op).value < lo || IntValue(op).value > hi then
        LineError(lineNums, k, OutOfBounds(f, op, name))
      else Ok(op)
  }

  /** The message for a number outside a range rule's bounds. */
  function OutOfBounds(f: char, op: Operand, name: string): string {
    FieldName(f) + " '" + ShowOperand(op) + "' out of bounds for " + name
  }

  function RegisterError(name: string, op: Operand): string {
    "Register '" + ShowOperand(op) + "' not allowed for " + name
  }

  /** A register-pair rule: only an operand written `Rh:Rl` is checked, and it
      becomes `Rl`. */
  function CheckPair(name: string, allowed: set<int>, op: Operand, lineNums: seq<int>, k: int): (r: Result<Operand>)
    ensures r.Ok? <==> Admits(Pair(allowed), op)
    ensures r.Ok? ==> Admits(Pair(allowed), op) && r.value == Settle(Pair(allowed), op)
  {
    var d := RegNum(op);
    if d.None? then Err(Crash(RegisterOperandError))
    else if ':' !in op.s then Ok(op)
    else
      var h := HighReg(op.s);
      if h.None? then Err(Crash(RegisterPairError))
      else if d.value !in allowed || d.value + 1 != h.value then LineError(lineNums, k, RegisterError(name, op))
      else Ok(OStr("R" + IntToString(d.value)))
  }

  /** Every rule from `i` on that applies admits its operand. */
  predicate Passes(name: string, ops: seq<Operand>, rules: seq<Rule>, i: nat)
    requires |ops| >= 1
  {
    forall j :: i <= j < |rules| && Applies(name, ops, rules, j) ==> j < |ops| && Admits(rules[j], ops[j])
  }

  /** The operands once the rules from `i` on have settled them. */
  function Settled(name: string, ops: seq<Operand>, rules: seq<Rule>, i: nat): (r: seq<Operand>)
    requires |ops| >= 1 && Passes(name, ops, rules, i)
    ensures |r| == |ops|
  {
    seq(|ops|, j requires 0 <= j < |ops| =>
      if i <= j < |rules| && Applies(name, ops, rules, j) then Settle(rules[j], ops[j]) else ops[j])
  }

  /** `check_operands`' loop from rule `i`: the operands pass exactly when every
      rule that applies admits its operand, and pairs are then settled. */
  function CheckRules(name: string, ops: seq<Operand>, rules: seq<Rule>, i: nat, lineNums: seq<int>, k: int)
    : (r: Result<seq<Operand>>)
    requires |ops| >= 1 && i <= |rules|
    ensures r.Ok? <==> Passes(name, ops, rules, i)
    ensures r.Ok? ==> r.value == Settled(name, ops, rules, i)
    decreases |rules| - i
  {
    if i >= |rules| then
      assert Settled(name, ops, rules, i) == ops;
      Ok(ops)
    else
      PassesStep(name, ops, rules, i);
      if !Applies(name, ops, rules, i) then
        CheckRules(name, ops, rules, i + 1, lineNums, k)
      else if i >= |ops| then Err(Crash(ListIndexError))
      else
        var op :- CheckOne(name, rules[i], ops[i], lineNums, k);
        var rest :- CheckRules(name, ops, rules, i + 1, lineNums, k);
        Ok(rest[i := op])
  }

  /** Rule `i` and the rules after it: the operands pass from `i` exactly when
      rule `i` admits its operand (if it applies) and they pass from `i + 1`;
      settling from `i` is settling from `i + 1` and then by rule `i`. */
  lemma PassesStep(name: string, ops: seq<Operand>, rules: seq<Rule>, i: nat)
    requires |ops| >= 1 && i < |rules|
    ensures Passes(name, ops, rules, i) <==>
            (Applies(name, ops, rules, i) ==> i < |ops| && Admits(rules[i], ops[i])) && Passes(name, ops, rules, i + 1)
    ensures Passes(name, ops, rules, i) && !Applies(name, ops, rules, i) ==>
            Settled(name, ops, rules, i) == Settled(name, ops, rules, i + 1)
    ensures Passes(name, ops, rules, i) && Applies(name, ops, rules, i) ==>
            Settled(name, ops, rules, i) == Settled(name, ops, rules, i + 1)[i := Settle(rules[i], ops[i])]
  {
    if Passes(name, ops, rules, i) {
      SettledStep(name, ops, rules, i);
    }
  }

  lemma SettledStep(name: string, ops: seq<Operand>, rules: seq<Rule>, i: nat)
    requires |ops| >= 1 && i < |rules| && Passes(name, ops, rules, i)
    ensures Passes(name, ops, rules, i + 1)
    ensures !Applies(name, ops, rules, i) ==> Settled(name, ops, rules, i) == Settled(name, ops, rules, i + 1)
    ensures Applies(name, ops, rules, i) ==>
            Settled(name, ops, rules, i) == Settled(name, ops, rules, i + 1)[i := Settle(rules[i], ops[i])]
  {
    SettledElsewhere(name, ops, rules, i);
    var a, b := Settled(name, ops, rules, i), Settled(name, ops, rules, i + 1);
    if Applies(name, ops, rules, i) {
      assert a == b[i := Settle(rules[i], ops[i])];
    } else {
      assert a == b;
    }
  }

  /** Settling from `i` and from `i + 1` differ at most at operand `i`. */
  lemma SettledElsewhere(name: string, ops: seq<Operand>, rules: seq<Rule>, i: nat)
    requires |ops| >= 1 && i < |rules| && Passes(name, ops, rules, i)
    ensures Passes(name, ops, rules, i + 1)
    ensures var a, b := Settled(name, ops, rules, i), Settled(name, ops, rules, i + 1);
            (forall j | 0 <= j < |ops| && j != i :: a[j] == b[j]) &&
            (i < |ops| ==> a[i] == if Applies(name, ops, rules, i) then Settle(rules[i], ops[i]) else ops[i]) &&
            (i < |ops| ==> b[i] == ops[i])
  {
  }

  /** `check_operands` on an instruction's operands: nothing to check without
      operands; otherwise the mnemonic must have a row of rules. */
  function CheckOperands(name: string, ops: seq<Operand>, lineNums: seq<int>, k: int): (r: Result<seq<Operand>>)
    ensures r.Ok? ==> |r.value| == |ops|
    ensures |ops| >= 1 ==>
              (r.Ok? <==> Rules(name).Some? && Passes(name, ops, Rules(name).value, 0)) &&
              (r.Ok? ==> r.value == Settled(name, ops, Rules(name).value, 0))
    ensures |ops| == 0 ==> r == Ok(ops)
  {
    if |ops| == 0 then Ok(ops)
    else match Rules(name)
      case None => Err(Crash("KeyError: '" + name + "'"))
      case Some(rules) => CheckRules(name, ops, rules, 0, lineNums, k)
  }

  // ------------------------------------------------------------ text section

  /** The `.def` names on an instruction line replaced by their registers. */
  function Substitute(line: seq<Token>, defs: map<string, string>): (r: seq<Token>)
    requires ShapedLine(line)
    ensures |r| == |line| && ShapedLine(r)
    ensures forall i :: 0 <= i < |line| ==> r[i] == line[i] || r[i].kind == REG
  {
    if line == [] then []
    else
      var t := line[0];
      var t' := if t.value.Text? && t.value.s in defs then Token(REG, Text(Upper(defs[t.value.s]))) else t;
      assert t in line;
      var rest := Substitute(line[1..], defs);
      assert forall x :: x in rest ==> x in rest;
      [t'] + rest
  }

  /** An instruction line as the text pass leaves it: instruction lines have
      had their `.def` names replaced. */
  function AsLeft(line: seq<Token>, defs: map<string, string>): seq<Token>
    requires ShapedLine(line)
  {
    if HasInst(Current, line) then Substitute(line, defs) else line
  }

  /** `inst_parse` and `check_operands` on the instruction at token `t`: the
      instruction gets its slots, with its operands resolved and checked. */
  function Instruction(v: Version, line: seq<Token>, t: nat, st: State, lineNums: seq<int>, k: int): (r: Result<State>)
    requires ShapedLine(line) && t < |line| && line[t].kind == INST
    ensures r.Ok? ==> r.value.(code := st.code) == st
    ensures r.Ok? ==> |r.value.code| == |st.code| + Width(TextOf(line[t])) &&
                      r.value.code[..|st.code|] == st.code
    ensures r.Ok? ==> var i := r.value.code[|st.code|];
                      i.Inst? && i.name == TextOf(line[t]) && r.value.code == st.code + Emitted(i)
    ensures r.Ok? ==> Requirements(Current, TextOf(line[t])).Some?
  {
    var name := TextOf(line[t]);
    var line' := Substitute(line, st.defs);
    match Requirements(Current, name)
    case None => Err(Crash("KeyError: '" + name + "'"))
    case Some(reqs) =>
      var ops :- Operands(v, line', t + 1, reqs, 0, name, st, lineNums, k);
      var ops' :- CheckOperands(name, ops, lineNums, k);
      var i := Inst(name, ops');
      assert (st.code + Emitted(i))[..|st.code|] == st.code;
      Ok(st.(code := st.code + Emitted(i)))
  }

  /** One line of the text pass, line `k` of the file. */
  function EmitLine(v: Version, lines: seq<seq<Token>>, lineNums: seq<int>, k: nat, st: State): (r: Result<State>)
    requires Input(lines) && k < |lines|
    ensures r.Ok? ==> LineStep(Current, lines, k, st, r.value)
    ensures r.Ok? ==> lines[k][0].kind in {INST, LABEL, DIR}
  {
    var line := lines[k];
    assert line[0] in line;
    var t := if line[0].kind == LABEL && |line| > 1 then 1 else 0;
    assert line[t] in line;
    var tok := line[t];
    if tok.kind == INST then Instruction(v, line, t, st, lineNums, k)
    else if tok.kind == LABEL then
      if |line| > 1 then LineError(lineNums, k, "'" + TextOf(tok) + "'") else Ok(st)
    else if tok.kind == DIR then
      var dir := TextOf(tok);
      if dir == "end" then
        if k != |lines| - 1 then LineError(lineNums, k, EndNotLast) else Ok(st)
      else if dir == "global" then Global(line, t, st, lineNums, k)
      else LineError(lineNums, k, "'" + dir + "'")
    else GluedError(lineNums, k, "'", tok.value, "'")
  }

  /** The text pass from line `k`: every line in turn, with the instruction of
      each line placed where the label pass counted it. */
  function Emit(v: Version, lines: seq<seq<Token>>, lineNums: seq<int>, k: nat, st: State): (r: Result<State>)
    requires Input(lines) && k <= |lines|
    ensures r.Ok? ==> Laid(Current, lines, k, st, r.value)
    decreases |lines| - k
  {
    if k >= |lines| then Ok(st)
    else
      var st' :- EmitLine(v, lines, lineNums, k, st);
      var r :- Emit(v, lines, lineNums, k + 1, st');
      EmitStep(Current, lines, k, st, st', r);
      Ok(r)
  }

  // ------------------------------------------------------------ whole file

  /** The label pass and the text pass from line `start` (none past the end),
      then the check that the file's last line, as the text pass left it,
      starts with `end`. */
  function Assemble(v: Version, lines: seq<seq<Token>>, lineNums: seq<int>, start: nat, st: State): (r: Result<Assembled>)
    requires Input(lines) && |lines| >= 1 && st.code == []
    ensures r.Ok? ==> Aligned(r.value.code) && r.value.data == st.data
  {
    var s := Clamp(lines, start);
    var labels :- CountLabels(Current, v, lines, lineNums, s, 0, st.labels);
    var done :- Emit(v, lines, lineNums, s, st.(labels := labels));
    var last := lines[|lines| - 1];
    assert last in lines;
    var final := if s < |lines| then AsLeft(last, done.defs) else last;
    if final[0].value != Text("end") then
      LineError(lineNums, |lineNums| - 1, EndNotLast)
    else Ok(Assembled(done.code, done.data))
  }

  /** The whole parser as intended: the text section starts on the line after
      the one that opened it, and a conditional branch reaches 64 words. */
  function Parse(lines: seq<seq<Token>>, lineNums: seq<int>): (r: Result<Assembled>)
    requires Input(lines)
    ensures r.Ok? ==> Aligned(r.value.code)
    ensures r.Ok? ==> |lines| >= 1 && Front(lines, lineNums).Ok?
    ensures r.Ok? ==> r.value.data == Front(lines, lineNums).value.1.data
  {
    var (l, st) :- Front(lines, lineNums);
    Assemble(Intended, lines, lineNums, l + 1, st)
  }

  /** The whole parser as written: the text section's start skips a line
      after a leading `.section .text`, and every relative instruction gets
      the 12-bit reach. */
  function ParseAsWritten(lines: seq<seq<Token>>, lineNums: seq<int>): (r: Result<Assembled>)
    requires Input(lines)
    ensures r.Ok? ==> Aligned(r.value.code)
    ensures r.Ok? ==> |lines| >= 1 && Front(lines, lineNums).Ok?
    ensures r.Ok? ==> r.value.data == Front(lines, lineNums).value.1.data
  {
    var (l, st) :- Front(lines, lineNums);
    Assemble(AsWritten, lines, lineNums, TextStartAsWritten(l), st)
  }

  // ------------------------------------------------------------ properties

  /** The label pass and the text pass agree: a label defined on line `j` (and
      not again later) names the word the text pass places line `j`'s
      instruction at, and never lies beyond the program. As written this
      needs every label from the text start on to be followed by nothing or
      by an instruction (see `LabelShift`). */
  lemma LabelsAddressCode(v: Version, lines: seq<seq<Token>>, lineNums: seq<int>, s: nat, st: State, j: nat)
    requires Input(lines) && s <= j < |lines| && st.code == []
    requires v == Intended || Plain(Current, lines, s)
    requires CountLabels(Current, v, lines, lineNums, s, 0, st.labels).Ok?
    requires Emit(v, lines, lineNums, s, st.(labels := CountLabels(Current, v, lines, lineNums, s, 0, st.labels).value)).Ok?
    requires lines[j][0].kind == LABEL && Undefined(lines, j + 1, TextOf(lines[j][0]))
    ensures var labels := CountLabels(Current, v, lines, lineNums, s, 0, st.labels).value;
            var code := Emit(v, lines, lineNums, s, st.(labels := labels)).value.code;
            var n := TextOf(lines[j][0]);
            n in labels && 0 <= labels[n] <= |code| &&
            (HasInst(Current, lines[j]) ==> labels[n] < |code| && code[labels[n]].Inst? && code[labels[n]].name == InstName(Current, lines[j]))
  {
    var labels := CountLabels(Current, v, lines, lineNums, s, 0, st.labels).value;
    var st0 := st.(labels := labels);
    var r := Emit(v, lines, lineNums, s, st0).value;
    var n := TextOf(lines[j][0]);
    LabelPlaces(Current, v, lines, lineNums, s, 0, st.labels);
    ChargesPlain(v, Current, lines, s, j);
    assert n in labels && labels[n] == Slots(Current, lines, s, j);
    assert Laid(Current, lines, s, st0, r);
    assert |r.code| == Slots(Current, lines, s, |lines|);
    SlotsSplit(Current, lines, s, j, |lines|);
  }

  /** The text pass reads only the lines from where it starts, and the line
      count. */
  lemma {:induction false} EmitFrame(v: Version, lines: seq<seq<Token>>, other: seq<seq<Token>>, lineNums: seq<int>, k: nat, st: State)
    requires Input(lines) && Input(other) && |lines| == |other| && k <= |lines|
    requires lines[k..] == other[k..]
    ensures Emit(v, lines, lineNums, k, st) == Emit(v, other, lineNums, k, st)
    decreases |lines| - k
  {
    if k < |lines| {
      SameFrom(lines, other, k);
      assert EmitLine(v, lines, lineNums, k, st) == EmitLine(v, other, lineNums, k, st);
      var r := EmitLine(v, lines, lineNums, k, st);
      if r.Ok? {
        EmitFrame(v, lines, other, lineNums, k + 1, r.value);
      }
    }
  }

  /** As written, a file that opens with `.section .text` never has its second
      line read: whatever stands there (when it is not the last line), the
      outcome is the same. */
  lemma AsWrittenSkipsSecondLine(lines: seq<seq<Token>>, lineNums: seq<int>, line: seq<Token>)
    requires Input(lines) && |lines| >= 3
    requires |lines[0]| >= 2 && lines[0][0] == Token(DIR, Text("section")) && lines[0][1] == Token(STR, Text(".text"))
    requires line != [] && ShapedLine(line)
    ensures Input(lines[1 := line])
    ensures ParseAsWritten(lines[1 := line], lineNums) == ParseAsWritten(lines, lineNums)
  {
    var other := lines[1 := line];
    StillInput(lines, 1, line);
    TextFront(lines, lineNums);
    TextFront(other, lineNums);
    ParseAsWrittenFrom(lines, lineNums, 0, Start);
    ParseAsWrittenFrom(other, lineNums, 0, Start);
    AssembleFrame(AsWritten, lines, other, lineNums);
  }

  /** Replacing one line by another well-shaped one keeps the input well shaped. */
  lemma StillInput(lines: seq<seq<Token>>, i: nat, line: seq<Token>)
    requires Input(lines) && i < |lines| && line != [] && ShapedLine(line)
    ensures Input(lines[i := line])
  {
    var other := lines[i := line];
    forall k | 0 <= k < |other| ensures other[k] != [] && ShapedLine(other[k]) {
      if k != i { assert other[k] == lines[k]; }
    }
  }

  /** A file that opens with `.section .text` starts in the text section
      with nothing collected yet. */
  lemma TextFront(lines: seq<seq<Token>>, lineNums: seq<int>)
    requires Input(lines) && |lines| >= 3
    requires |lines[0]| >= 2 && lines[0][0] == Token(DIR, Text("section")) && lines[0][1] == Token(STR, Text(".text"))
    ensures Front(lines, lineNums) == Ok((0, Start))
  {
  }

  /** Assembling from the third line sees neither of the first two. */
  lemma AssembleFrame(v: Version, lines: seq<seq<Token>>, other: seq<seq<Token>>, lineNums: seq<int>)
    requires Input(lines) && Input(other) && |lines| == |other| >= 3 && lines[2..] == other[2..]
    ensures Assemble(v, lines, lineNums, TextStartAsWritten(0), Start) == Assemble(v, other, lineNums, TextStartAsWritten(0), Start)
  {
    CountFrame(Current, v, lines, other, lineNums, 2, 0, map[]);
    var c := CountLabels(Current, v, lines, lineNums, 2, 0, map[]);
    if c.Ok? {
      EmitFrame(v, lines, other, lineNums, 2, Start.(labels := c.value));
    }
    assert lines[|lines| - 1] == other[|other| - 1];
  }

  /** As written, the sample's label is never seen and the jump is rejected. */
  lemma SampleAsWritten()
    ensures Input(Sample)
    ensures ParseAsWritten(Sample, [1, 2, 3, 4]) == Err(InvalidInstruction(3, "Illegal argument given: main"))
  {
    SampleFront([1, 2, 3, 4]);
    ParseAsWrittenFrom(Sample, [1, 2, 3, 4], 0, Start);
    SampleStuck(AsWritten);
  }

  lemma SampleStuck(v: Version)
    ensures Input(Sample)
    ensures Assemble(v, Sample, [1, 2, 3, 4], 2, Start) == Err(InvalidInstruction(3, "Illegal argument given: main"))
  {
    SampleInput();
    assert CountLabels(Current, v, Sample, [1, 2, 3, 4], 2, 0, map[]) == Ok(map[]);
    SampleUnknown(v);
  }

  lemma SampleUnknown(v: Version)
    ensures Input(Sample)
    ensures EmitLine(v, Sample, [1, 2, 3, 4], 2, Start) == Err(InvalidInstruction(3, "Illegal argument given: main"))
  {
    SampleInput();
    RjmpRow();
    assert OperandOf(v, Sample[2][1], "RJMP", Start, [1, 2, 3, 4], 2) == Err(InvalidInstruction(3, "Illegal argument given: main"));
  }

  /** With the text section starting on line 1, the sample's jump assembles to
      an offset of -1: back to itself. */
  lemma SampleCorrected(lineNums: seq<int>)
    ensures Input(Sample)
    ensures Parse(Sample, lineNums) == Ok(Assembled([Inst("RJMP", [OInt(-1)])], []))
  {
    SampleFront(lineNums);
    ParseFrom(Sample, lineNums, 0, Start);
    SampleAssemble(Intended, lineNums);
  }

  /** As written, the label pass charges the `.global` line a word the text
      pass never emits, so `main` is counted at word 1 instead of the `NOP` at
      word 0, and the jump meant for the `NOP` lands on itself. */
  lemma ShiftedAsWritten(lineNums: seq<int>)
    ensures Input(Shifted)
    ensures ParseAsWritten(Shifted, lineNums) == Ok(Assembled([Inst("NOP", []), Inst("RJMP", [OInt(-1)])], []))
  {
    ShiftedFront(lineNums);
    ParseAsWrittenFrom(Shifted, lineNums, 1, Start);
    ShiftedAssemble(AsWritten, lineNums);
  }

  /** Charging only the words the text pass emits, the jump goes back to the
      `NOP`. */
  lemma ShiftedCorrected(lineNums: seq<int>)
    ensures Input(Shifted)
    ensures Parse(Shifted, lineNums) == Ok(Assembled([Inst("NOP", []), Inst("RJMP", [OInt(-2)])], []))
  {
    ShiftedFront(lineNums);
    ParseFrom(Shifted, lineNums, 1, Start);
    ShiftedAssemble(Intended, lineNums);
  }

  lemma ShiftedFront(lineNums: seq<int>)
    ensures Input(Shifted) && Front(Shifted, lineNums) == Ok((1, Start))
  {
    ShiftedInput();
    assert DataSection(Shifted, lineNums, 1, Some(Shifted[0][1]), Start) == Ok((1, Start));
  }

  /** Where each version's label pass puts `main`. */
  function MainAt(v: Version): int {
    if v == AsWritten then 1 else 0
  }

  lemma ShiftedAssemble(v: Version, lineNums: seq<int>)
    ensures Input(Shifted)
    ensures Assemble(v, Shifted, lineNums, 2, Start) ==
            Ok(Assembled([Inst("NOP", []), Inst("RJMP", [OInt(MainAt(v) - 2)])], []))
  {
    ShiftedInput();
    ShiftedLabels(v, lineNums);
    ShiftedEmit(v, lineNums);
    assert Clamp(Shifted, 2) == 2;
    assert AsLeft(Shifted[5], map[]) == Shifted[5];
  }

  lemma ShiftedLabels(v: Version, lineNums: seq<int>)
    ensures Input(Shifted) &&
            CountLabels(Current, v, Shifted, lineNums, 2, 0, map[]) == Ok(map["start" := 0, "main" := MainAt(v)])
  {
    ShiftedInput();
    assert Charge(v, Current, Shifted[2]) == MainAt(v);
  }

  /** The text pass over the file from line 2. */
  lemma ShiftedEmit(v: Version, lineNums: seq<int>)
    ensures Input(Shifted)
    ensures var labels := map["start" := 0, "main" := MainAt(v)];
            Emit(v, Shifted, lineNums, 2, Start.(labels := labels)) ==
            Ok(Start.(labels := labels, code := [Inst("NOP", []), Inst("RJMP", [OInt(MainAt(v) - 2)])]))
  {
    ShiftedInput();
    var st := Start.(labels := map["start" := 0, "main" := MainAt(v)]);
    var st1 := st.(code := [Inst("NOP", [])]);
    var st2 := st.(code := [Inst("NOP", []), Inst("RJMP", [OInt(MainAt(v) - 2)])]);
    assert EmitLine(v, Shifted, lineNums, 2, st) == Ok(st);
    ShiftedNop(v, lineNums, st);
    ShiftedJump(v, lineNums, st1);
    assert EmitLine(v, Shifted, lineNums, 5, st2) == Ok(st2);
    EmitOn(v, Shifted, lineNums, 5, st2, st2);
    EmitOn(v, Shifted, lineNums, 4, st1, st2);
    EmitOn(v, Shifted, lineNums, 3, st, st1);
    EmitOn(v, Shifted, lineNums, 2, st, st);
  }

  /** The `NOP` after the label `main` is emitted at word 0. */
  lemma ShiftedNop(v: Version, lineNums: seq<int>, st: State)
    requires st.code == [] && st.defs == map[]
    ensures Input(Shifted)
    ensures EmitLine(v, Shifted, lineNums, 3, st) == Ok(st.(code := [Inst("NOP", [])]))
  {
    ShiftedInput();
    var line := Shifted[3];
    assert Substitute(line, map[]) == line;
    assert Requirements(Current, "NOP") == Some([NoArg]);
    assert Operands(v, line, 2, [NoArg], 0, "NOP", st, lineNums, 3) == Ok([]);
    InstructionOk(v, line, 1, st, lineNums, 3, [NoArg], [], []);
  }

  /** The jump to `main`, read from word 1. */
  lemma ShiftedJump(v: Version, lineNums: seq<int>, st: State)
    requires st == Start.(labels := map["start" := 0, "main" := MainAt(v)], code := [Inst("NOP", [])])
    ensures Input(Shifted)
    ensures EmitLine(v, Shifted, lineNums, 4, st) ==
            Ok(st.(code := [Inst("NOP", []), Inst("RJMP", [OInt(MainAt(v) - 2)])]))
  {
    ShiftedInput();
    ShiftedInstruction(v, lineNums, st);
  }

  /** The jump line read as an instruction. */
  lemma ShiftedInstruction(v: Version, lineNums: seq<int>, st: State)
    requires st == Start.(labels := map["start" := 0, "main" := MainAt(v)], code := [Inst("NOP", [])])
    ensures Instruction(v, Shifted[4], 0, st, lineNums, 4) ==
            Ok(st.(code := [Inst("NOP", []), Inst("RJMP", [OInt(MainAt(v) - 2)])]))
  {
    ShiftedInput();
    var line := Shifted[4];
    var o := OInt(MainAt(v) - 2);
    assert Substitute(line, map[]) == line;
    RjmpRow();
    ShiftedOperands(v, lineNums, st);
    ShiftedChecked(v, lineNums);
    InstructionOk(v, line, 0, st, lineNums, 4, [One(STR)], [o], [o]);
    assert st.code + Emitted(Inst("RJMP", [o])) == [Inst("NOP", []), Inst("RJMP", [o])];
  }

  /** The jump's operand: `main`'s word less the word after the jump. */
  lemma ShiftedOperands(v: Version, lineNums: seq<int>, st: State)
    requires st == Start.(labels := map["start" := 0, "main" := MainAt(v)], code := [Inst("NOP", [])])
    ensures Operands(v, Shifted[4], 1, [One(STR)], 0, "RJMP", st, lineNums, 4) == Ok([OInt(MainAt(v) - 2)])
  {
    ShiftedInput();
    var line := Shifted[4];
    var o := OInt(MainAt(v) - 2);
    assert Relative("RJMP") by {
      assert "RJMP"[..2] == "RJ";
    }
    assert OperandOf(v, line[1], "RJMP", st, lineNums, 4) == Ok([o]);
    assert Operands(v, line, 2, [One(STR)], 1, "RJMP", st, lineNums, 4) == Ok([]);
    assert [o] + [] == [o];
  }

  /** Both offsets are within `RJMP`'s range. */
  lemma ShiftedChecked(v: Version, lineNums: seq<int>)
    ensures CheckOperands("RJMP", [OInt(MainAt(v) - 2)], lineNums, 4) == Ok([OInt(MainAt(v) - 2)])
  {
    RjmpRow();
    var o := OInt(MainAt(v) - 2);
    var rules := [Range('k', -2048, 2047)];
    assert CheckOne("RJMP", rules[0], o, lineNums, 4) == Ok(o);
    assert CheckRules("RJMP", [o], rules, 1, lineNums, 4) == Ok([o]);
    assert [o][0 := o] == [o];
  }

  /** The parser assembles from the line after the one `Front` stops at. */
  lemma ParseFrom(lines: seq<seq<Token>>, lineNums: seq<int>, l: nat, st: State)
    requires Input(lines) && Front(lines, lineNums) == Ok((l, st))
    ensures |lines| >= 1 && st.code == []
    ensures Parse(lines, lineNums) == Assemble(Intended, lines, lineNums, l + 1, st)
  {
  }

  lemma ParseAsWrittenFrom(lines: seq<seq<Token>>, lineNums: seq<int>, l: nat, st: State)
    requires Input(lines) && Front(lines, lineNums) == Ok((l, st))
    ensures |lines| >= 1 && st.code == []
    ensures ParseAsWritten(lines, lineNums) == Assemble(AsWritten, lines, lineNums, TextStartAsWritten(l), st)
  {
  }

  lemma SampleAssemble(v: Version, lineNums: seq<int>)
    ensures Input(Sample)
    ensures Assemble(v, Sample, lineNums, 1, Start) == Ok(Assembled([Inst("RJMP", [OInt(-1)])], []))
  {
    SampleLabels(v, lineNums);
    SampleEmit(v, lineNums);
    assert Clamp(Sample, 1) == 1;
    assert AsLeft(Sample[3], map[]) == Sample[3];
  }

  lemma SampleFront(lineNums: seq<int>)
    ensures Input(Sample) && Front(Sample, lineNums) == Ok((0, Start))
  {
    SampleInput();
  }

  lemma SampleLabels(v: Version, lineNums: seq<int>)
    ensures Input(Sample) && CountLabels(Current, v, Sample, lineNums, 1, 0, map[]) == Ok(map["main" := 0])
  {
    SampleInput();
  }

  /** The text pass over the sample from line 1. */
  lemma SampleEmit(v: Version, lineNums: seq<int>)
    ensures Input(Sample)
    ensures Emit(v, Sample, lineNums, 1, Start.(labels := map["main" := 0])) ==
            Ok(Start.(labels := map["main" := 0], code := [Inst("RJMP", [OInt(-1)])]))
  {
    SampleInput();
    var st := Start.(labels := map["main" := 0]);
    var st' := st.(code := [Inst("RJMP", [OInt(-1)])]);
    SampleLabelLine(v, lineNums, st);
    SampleJump(v, lineNums, st);
    SampleEndLine(v, lineNums, st');
    EmitOn(v, Sample, lineNums, 3, st', st');
    EmitOn(v, Sample, lineNums, 2, st, st');
    EmitOn(v, Sample, lineNums, 1, st, st);
  }

  /** A line the text pass accepts hands its state on to the next line. */
  lemma EmitOn(v: Version, lines: seq<seq<Token>>, lineNums: seq<int>, k: nat, st: State, st': State)
    requires Input(lines) && k < |lines| && EmitLine(v, lines, lineNums, k, st) == Ok(st')
    ensures Emit(v, lines, lineNums, k, st) == Emit(v, lines, lineNums, k + 1, st')
  {
  }

  lemma SampleLabelLine(v: Version, lineNums: seq<int>, st: State)
    ensures Input(Sample) && EmitLine(v, Sample, lineNums, 1, st) == Ok(st)
  {
    SampleInput();
  }

  lemma SampleEndLine(v: Version, lineNums: seq<int>, st: State)
    ensures Input(Sample) && EmitLine(v, Sample, lineNums, 3, st) == Ok(st)
  {
    SampleInput();
  }

  /** The sample's jump, with `main` at word 0 and nothing emitted yet. */
  lemma SampleJump(v: Version, lineNums: seq<int>, st: State)
    requires st == Start.(labels := map["main" := 0])
    ensures Input(Sample)
    ensures EmitLine(v, Sample, lineNums, 2, st) == Ok(st.(code := [Inst("RJMP", [OInt(-1)])]))
  {
    SampleInput();
    SampleInstruction(v, lineNums, st);
  }

  /** The sample's jump line read as an instruction. */
  lemma SampleInstruction(v: Version, lineNums: seq<int>, st: State)
    requires st == Start.(labels := map["main" := 0])
    ensures Instruction(v, Sample[2], 0, st, lineNums, 2) == Ok(st.(code := [Inst("RJMP", [OInt(-1)])]))
  {
    var line := Sample[2];
    assert Substitute(line, map[]) == line;
    SampleOperands(v, lineNums, st);
    SampleChecked(lineNums);
    RjmpRow();
    SampleInput();
    InstructionOk(v, line, 0, st, lineNums, 2, [One(STR)], [OInt(-1)], [OInt(-1)]);
  }

  /** An instruction line whose operands read and pass their checks emits
      the instruction. */
  lemma InstructionOk(v: Version, line: seq<Token>, t: nat, st: State, lineNums: seq<int>, k: int,
                      reqs: seq<Req>, ops: seq<Operand>, ops': seq<Operand>)
    requires ShapedLine(line) && t < |line| && line[t].kind == INST
    requires Requirements(Current, TextOf(line[t])) == Some(reqs)
    requires Operands(v, Substitute(line, st.defs), t + 1, reqs, 0, TextOf(line[t]), st, lineNums, k) == Ok(ops)
    requires CheckOperands(TextOf(line[t]), ops, lineNums, k) == Ok(ops')
    ensures Instruction(v, line, t, st, lineNums, k) == Ok(st.(code := st.code + Emitted(Inst(TextOf(line[t]), ops'))))
  {
  }

  /** The sample's jump operand: `main` at word 0, one word back from word 1. */
  lemma SampleOperands(v: Version, lineNums: seq<int>, st: State)
    requires st == Start.(labels := map["main" := 0])
    ensures Operands(v, Sample[2], 1, [One(STR)], 0, "RJMP", st, lineNums, 2) == Ok([OInt(-1)])
  {
    SampleInput();
    var line := Sample[2];
    assert Relative("RJMP") by {
      assert "RJMP"[..2] == "RJ";
    }
    assert OperandOf(v, line[1], "RJMP", st, lineNums, 2) == Ok([OInt(-1)]);
    assert Operands(v, line, 2, [One(STR)], 1, "RJMP", st, lineNums, 2) == Ok([]);
    assert [OInt(-1)] + [] == [OInt(-1)];
  }

  /** An offset of -1 is within `RJMP`'s range. */
  lemma SampleChecked(lineNums: seq<int>)
    ensures CheckOperands("RJMP", [OInt(-1)], lineNums, 2) == Ok([OInt(-1)])
  {
    RjmpRow();
    var rules := [Range('k', -2048, 2047)];
    assert CheckOne("RJMP", rules[0], OInt(-1), lineNums, 2) == Ok(OInt(-1));
    assert CheckRules("RJMP", [OInt(-1)], rules, 1, lineNums, 2) == Ok([OInt(-1)]);
    assert [OInt(-1)][0 := OInt(-1)] == [OInt(-1)];
  }

  /** The rows of the tables for `RJMP`. */
  lemma RjmpRow()
    ensures Requirements(Current, "RJMP") == Some([One(STR)])
    ensures Rules("RJMP") == Some([Range('k', -2048, 2047)])
  {
  }
}

=== FILE: position.dfy ===
/** A cursor into the source text: character index, line and column, plus the
    file name and text it points into. */
module Position {

  datatype Position = Position(idx: int, ln: int, col: int, fn: string, ftxt: string)

  /** `advance(c)`: one character further; a newline starts the next line at column 0. */
  function Advance(p: Position, c: char): (q: Position)
    ensures q.idx == p.idx + 1
    ensures c != '\n' ==> q.ln == p.ln && q.col == p.col + 1
    ensures c == '\n' ==> q.ln == p.ln + 1 && q.col == 0
    ensures q.fn == p.fn && q.ftxt == p.ftxt
  {
    if c == '\n' then p.(idx := p.idx + 1, ln := p.ln + 1, col := 0)
    else p.(idx := p.idx + 1, col := p.col + 1)
  }

  /** `copy()`: positions are values here, so a copy is equal field by field and
      later advances of either leave the other as it was. */
  function Copy(p: Position): (q: Position)
    ensures q.idx == p.idx && q.ln == p.ln && q.col == p.col
    ensures q.fn == p.fn && q.ftxt == p.ftxt
  {
    Position(p.idx, p.ln, p.col, p.fn, p.ftxt)
  }

  /** Advancing over a whole text. */
  function AdvanceAll(p: Position, text: string): (q: Position)
    decreases |text|
  {
    if text == [] then p else AdvanceAll(Advance(p, text[0]), text[1..])
  }

  function CountNewlines(text: string): (n: nat)
    ensures n <= |text|
  {
    if text == [] then 0 else (if text[0] == '\n' then 1 else 0) + CountNewlines(text[1..])
  }

  /** After walking over a text, the index has moved by its length and the line
      number by the number of newlines in it. */
  lemma {:induction false} AdvanceAllCounts(p: Position, text: string)
    ensures AdvanceAll(p, text).idx == p.idx + |text|
    ensures AdvanceAll(p, text).ln == p.ln + CountNewlines(text)
    decreases |text|
  {
    if text != [] {
      AdvanceAllCounts(Advance(p, text[0]), text[1..]);
    }
  }
}

=== FILE: program.dfy ===
/** The assembled program both parsers produce and the interpreters and the
    encoder consume: one slot per program word, and the initial data bytes. */
module Program {
  import opened Base

  /** An instruction operand after parsing: a number (an immediate, an address,
      a resolved label or branch offset) or a name (a register, a register pair,
      a pointer spelling such as `X+`, or a built-in function). */
  datatype Operand = OInt(n: int) | OStr(s: string)

  /** A program word: an instruction, or the placeholder (`None` in the
      instruction list) that occupies the second word of a two-word instruction. */
  datatype Slot = Inst(name: string, ops: seq<Operand>) | Filler

  datatype Assembled = Assembled(code: seq<Slot>, data: seq<int>)

  /** The instructions that take two program words. */
  const DoubleLength: set<string> := {"CALL", "JMP", "LDS", "STS"}

  /** The number of program words an instruction occupies. */
  function Width(name: string): (w: nat)
    ensures w == 1 || w == 2
    ensures w == 2 <==> name in DoubleLength
  {
    if name in DoubleLength then 2 else 1
  }

  /** The slots an instruction adds to the program. */
  function Emitted(i: Slot): (s: seq<Slot>)
    requires i.Inst?
    ensures |s| == Width(i.name) && s[0] == i
    ensures |s| == 2 ==> s[1] == Filler
  {
    if i.name in DoubleLength then [i, Filler] else [i]
  }

  /** Every two-word instruction is followed by a placeholder, and every
      placeholder follows a two-word instruction. */
  predicate Aligned(code: seq<Slot>) {
    (forall i :: 0 <= i < |code| && code[i].Inst? && code[i].name in DoubleLength ==>
       i + 1 < |code| && code[i + 1] == Filler) &&
    (forall i :: 0 <= i < |code| && code[i] == Filler ==>
       i > 0 && code[i - 1].Inst? && code[i - 1].name in DoubleLength)
  }

  /** Appending an instruction's slots keeps the layout aligned. */
  lemma EmitKeepsAligned(code: seq<Slot>, i: Slot)
    requires Aligned(code) && i.Inst?
    ensures Aligned(code + Emitted(i))
  {
    var c := code + Emitted(i);
    forall j | 0 <= j < |c| && c[j].Inst? && c[j].name in DoubleLength
      ensures j + 1 < |c| && c[j + 1] == Filler
    {
      if j < |code| {
        assert c[j] == code[j];
      }
    }
    forall j | 0 <= j < |c| && c[j] == Filler
      ensures j > 0 && c[j - 1].Inst? && c[j - 1].name in DoubleLength
    {
      if j < |code| {
        assert c[j] == code[j];
      }
    }
  }
}

=== FILE: register.dfy ===
/** The simulator's 8-bit register: a named byte with a `changed` flag that the
    display uses to colour values written by the last instruction. The byte
    operations are shared by the two generations of the class; the older one has
    the same operations without the flag. */
module Register {
  import opened Base
  import opened Bits

  // ------------------------------------------------------------ byte operations

  /** `set_value`: Python's `%` keeps the stored value in 0..255 for any integer. */
  function Store(v: int): (b: Byte)
    ensures (b - v) % 256 == 0
    ensures 0 <= v < 256 ==> b == v
  {
    v % 256
  }

  function Com(b: Byte): (r: Byte)
    ensures r + b == 255
  {
    Store(255 - b)
  }

  function Neg(b: Byte): (r: Byte)
    ensures (r + b) % 256 == 0
    ensures b == 0 <==> r == 0
  {
    Store(256 - b)
  }

  function Inc(b: Byte): (r: Byte)
    ensures b < 255 ==> r == b + 1
    ensures b == 255 ==> r == 0
  {
    Store(b + 1)
  }

  function Dec(b: Byte): (r: Byte)
    ensures b > 0 ==> r == b - 1
    ensures b == 0 ==> r == 255
  {
    Store(b - 1)
  }

  /** `value | 2**bit`, for the bit numbers an instruction can name. */
  function OrBit(b: Byte, i: nat): (r: Byte)
    requires i < 8
    ensures Bit(r, i)
    ensures forall j :: 0 <= j < 8 && j != i ==> (Bit(r, j) <==> Bit(b, j))
  {
    BitCases(b, i);
    if Bit(b, i) then b else b + Pow2(i)
  }

  /** `value & (255 - 2**bit)`. For a bit number above 7 the mask's low
      byte is all ones, so the byte is left as it was. */
  function AndNotBit(b: Byte, i: nat): (r: Byte)
    ensures i < 8 ==> !Bit(r, i)
    ensures i >= 8 ==> r == b
    ensures forall j :: 0 <= j < 8 && j != i ==> (Bit(r, j) <==> Bit(b, j))
  {
    if i >= 8 then b
    else
      BitCases(b, i);
      if Bit(b, i) then b - Pow2(i) else b
  }

  /** Adding or removing the weight of a bit that is clear or set touches no other bit. */
  lemma BitCases(b: Byte, i: nat)
    requires i < 8
    ensures !Bit(b, i) ==> b + Pow2(i) < 256 && Bit(b + Pow2(i), i)
    ensures Bit(b, i) ==> b >= Pow2(i) && !Bit(b - Pow2(i), i)
    ensures !Bit(b, i) ==> forall j :: 0 <= j < 8 && j != i ==> (Bit(b + Pow2(i), j) <==> Bit(b, j))
    ensures Bit(b, i) ==> forall j :: 0 <= j < 8 && j != i ==> (Bit(b - Pow2(i), j) <==> Bit(b, j))
  {
    if Bit(b, i) {
      SubBit(b, i, i);
      forall j | 0 <= j < 8 && j != i ensures (Bit(b - Pow2(i), j) <==> Bit(b, j)) { SubBit(b, i, j); }
    } else {
      forall j | 0 <= j < 8 && j != i ensures (Bit(b + Pow2(i), j) <==> Bit(b, j)) { AddBit(b, i, j); }
      AddBit(b, i, i);
      BitDiv(b, i);
      // b's bit i is clear, so the part of b at or above 2^i is a multiple of 2^(i+1)
      HeadroomBit(b, i);
    }
  }

  lemma HeadroomBit(b: Byte, i: nat)
    requires i < 8 && !Bit(b, i)
    ensures b + Pow2(i) < 256
  {
    var s := b + Pow2(i);
    assert Pow2(8) == 256;
    AddBit(b, i, 8);
    BitAbove(b, 8);
    BitDiv(s, 8);
    PowMono(i, 7);
    assert Pow2(7) == 128;
    assert s < 384;
  }

  // ------------------------------------------------------------------- register

  datatype Register = Register(name: string, value: Byte, changed: bool)

  /** `new_instruct`: the start of an instruction clears the display flag. */
  function NewInstruct(r: Register): (r': Register)
    ensures !r'.changed && r'.name == r.name && r'.value == r.value
  {
    r.(changed := false)
  }

  /** `set_value`: any integer is reduced into a byte and the register is marked changed. */
  function SetValue(r: Register, v: int): (r': Register)
    ensures r'.name == r.name && r'.changed
    ensures (r'.value - v) % 256 == 0
  {
    r.(value := Store(v), changed := true)
  }

  /** `get_bits`: the value as an MSB-first binary string of eight characters. */
  function GetBits(r: Register): (s: string)
    ensures |s| == 8 && IsBinary(s) && BinValue(s) == r.value
  {
    Bits8Value(r.value);
    Bits8(r.value)
  }

  function Clr(r: Register): (r': Register)
    ensures r'.value == 0 && r'.changed && r'.name == r.name
  {
    SetValue(r, 0)
  }

  function Ser(r: Register): (r': Register)
    ensures r'.value == 255 && r'.changed && r'.name == r.name
  {
    SetValue(r, 255)
  }

  /** `set_bit` assigns the field directly, so the display flag is left as it was. */
  function SetBit(r: Register, i: nat): (r': Register)
    requires i < 8
    ensures Bit(r'.value, i)
    ensures forall j :: 0 <= j < 8 && j != i ==> (Bit(r'.value, j) <==> Bit(r.value, j))
    ensures r'.changed == r.changed && r'.name == r.name
  {
    r.(value := OrBit(r.value, i))
  }

  /** `clear_bit` assigns the field directly too; a bit number above 7 leaves
      the byte as it was. */
  function ClearBit(r: Register, i: nat): (r': Register)
    ensures i < 8 ==> !Bit(r'.value, i)
    ensures i >= 8 ==> r'.value == r.value
    ensures forall j :: 0 <= j < 8 && j != i ==> (Bit(r'.value, j) <==> Bit(r.value, j))
    ensures r'.changed == r.changed && r'.name == r.name
  {
    r.(value := AndNotBit(r.value, i))
  }

  function ComReg(r: Register): (r': Register)
    ensures r'.value + r.value == 255 && r'.changed
  {
    SetValue(r, 255 - r.value)
  }

  function NegReg(r: Register): (r': Register)
    ensures (r'.value + r.value) % 256 == 0 && r'.changed
  {
    SetValue(r, 256 - r.value)
  }

  function IncReg(r: Register): (r': Register)
    ensures r'.value == Inc(r.value) && r'.changed
  {
    SetValue(r, r.value + 1)
  }

  function DecReg(r: Register): (r': Register)
    ensures r'.value == Dec(r.value) && r'.changed
  {
    SetValue(r, r.value - 1)
  }

  // --------------------------------------------------------------------- lemmas

  /** `inc` and `dec` undo each other, including across the 255/0 wrap. */
  lemma IncDecInverse(b: Byte)
    ensures Dec(Inc(b)) == b && Inc(Dec(b)) == b
  {
  }

  /** `com` applied twice gives back the value. */
  lemma ComInvolution(r: Register)
    ensures ComReg(ComReg(r)).value == r.value
  {
  }

  /** Setting then clearing a bit that was clear restores the value. */
  lemma SetClearBit(b: Byte, i: nat)
    requires i < 8 && !Bit(b, i)
    ensures AndNotBit(OrBit(b, i), i) == b
  {
    BitCases(b, i);
  }
}

=== FILE: stack.dfy ===
/** The stack group of one interpreter step — `CALL` (including the built-in
    `PRINTF`), `RET`, `PUSH` and `POP` — in the three disciplines:

    - `Checked` (the current simulator): the stack grows down from the last
      memory cell, SP pointing at the next free cell; a call frame is the two
      bytes of the return address; `PUSH`, `POP` and `RET` check SP's bounds.
    - `Layered` (the library): SP starts at 0 and is decremented before each
      store, so the first byte lands in the last memory cell; a call frame is
      three bytes, and a list keeps one push/pop balance per open call.
    - `Counted` (the older package): the library's stack with a single
      push/pop balance. */
module Stack {
  import opened Base
  import opened Text
  import opened Program
  import opened Machine
  import opened Exec
  import R = Register

  /** The return-address bytes a call pushes. */
  function FrameSize(v: Variant): (n: nat)
    ensures n == if v == Checked then 2 else 3
  {
    if v == Checked then 2 else 3
  }

  /** `pushpop[-1] += n`. */
  function AddTop(l: seq<int>, n: int): (r: seq<int>)
    requires |l| > 0
    ensures |r| == |l| && r[..|l| - 1] == l[..|l| - 1] && r[|l| - 1] == l[|l| - 1] + n
  {
    l[..|l| - 1] + [l[|l| - 1] + n]
  }

  /** Closing the layer a call opened, and taking the call's frame off the
      layer below, restores the balances as they were before the call. */
  lemma CloseOpened(l: seq<int>)
    requires |l| > 0
    ensures var o := AddTop(l, 3) + [0];
            |o| > 1 && o[|o| - 1] == 0 && AddTop(o[..|o| - 1], -3) == l
  {
    var o := AddTop(l, 3) + [0];
    assert o[..|o| - 1] == AddTop(l, 3);
  }

  // ------------------------------------------------------------------ PRINTF

  /** Whether the X register pair holds register objects, as it does unless a
      plain store has overwritten one of them. */
  predicate XReady(m: Machine) {
    |m.dmem| > 31 && m.dmem[LowReg(PX)].Reg? && m.dmem[LowReg(PX) + 1].Reg?
  }

  datatype Printout = Printout(codes: seq<int>, m: Machine)

  /** The text a `PRINTF` finds at cell `a`: the numbers up to the first 0,
      each a code `chr` accepts. `None` when a cell on the way is not a bare
      number or holds a code out of range, or memory ends first. */
  function TextAt(d: seq<Cell>, a: nat): (t: Option<seq<int>>)
    ensures t.Some? ==> a + |t.value| < |d| && d[a + |t.value|] == Raw(0)
    ensures t.Some? ==> forall i :: 0 <= i < |t.value| ==> d[a + i] == Raw(t.value[i]) && 0 < t.value[i] <= 0x10FFFF
    decreases |d| - a
  {
    if a >= |d| || !d[a].Raw? then None
    else if d[a].n == 0 then Some([])
    else if !(0 < d[a].n <= 0x10FFFF) then None
    else match TextAt(d, a + 1)
      case None => None
      case Some(rest) => Some([d[a].n] + rest)
  }

  /** The loop of `PRINTF`: read the cell X (plus `off`) addresses, step X
      up, and stop after a 0; every other cell becomes a character, so it
      must be a code `chr` accepts. Only X changes. */
  function PrintFrom(m: Machine, off: nat): (r: Result<Printout>)
    requires Valid(m)
    ensures r.Ok? ==> Valid(r.value.m) && r.value.m == m.(dmem := r.value.m.dmem) && XReady(m) && XReady(r.value.m)
    ensures r.Ok? ==> forall i :: 0 <= i < |m.dmem| && i != LowReg(PX) && i != LowReg(PX) + 1 ==>
                        r.value.m.dmem[i] == m.dmem[i]
    decreases if XReady(m) then 0x1_0000 - PtrWord(m, PX) else 0
  {
    if !XReady(m) then Err(Crash(IntHasNoValue))
    else
      var x := PtrWord(m, PX);
      var m1 := BumpUp(m, PX).value;
      var k :- Fetch(m1, x + off);
      if k == 0 then Ok(Printout([], m1))
      else if !(0 <= k <= 0x10FFFF) then Err(Crash(ChrRangeError))
      else
        var rest :- PrintFrom(m1, off);
        Ok(Printout([k] + rest.codes, rest.m))
  }

  /** Two memories that agree on every bare number hold the same texts. */
  lemma {:induction false} TextAtAgrees(d: seq<Cell>, e: seq<Cell>, a: nat)
    requires |d| == |e|
    requires forall i :: 0 <= i < |d| && (d[i].Raw? || e[i].Raw?) ==> d[i] == e[i]
    ensures TextAt(d, a) == TextAt(e, a)
    decreases |d| - a
  {
    if a < |d| && d[a].Raw? && d[a].n != 0 && 0 < d[a].n <= 0x10FFFF {
      TextAtAgrees(d, e, a + 1);
    }
  }

  /** One round of the `PRINTF` loop: a cell that is no code stops it, a 0
      ends it, and any other code comes first, with X one further on and
      every bare number in memory as it was. */
  lemma PrintUnfold(m: Machine, off: nat)
    requires Valid(m) && XReady(m)
    ensures var x, m1 := PtrWord(m, PX), BumpUp(m, PX).value;
            var a := x + off;
            if a >= DmemSize || !m.dmem[a].Raw? || !(0 <= m.dmem[a].n <= 0x10FFFF) then
              PrintFrom(m, off).Err?
            else if m.dmem[a].n == 0 then
              PrintFrom(m, off) == Ok(Printout([], m1)) && PtrWord(m1, PX) == x + 1
            else
              Valid(m1) && XReady(m1) && PtrWord(m1, PX) == x + 1 &&
              (forall i :: 0 <= i < |m.dmem| && (m.dmem[i].Raw? || m1.dmem[i].Raw?) ==> m.dmem[i] == m1.dmem[i]) &&
              (PrintFrom(m, off).Ok? <==> PrintFrom(m1, off).Ok?) &&
              (PrintFrom(m1, off).Ok? ==>
                 PrintFrom(m, off).value.codes == [m.dmem[a].n] + PrintFrom(m1, off).value.codes &&
                 PrintFrom(m, off).value.m == PrintFrom(m1, off).value.m)
  {
    var x := PtrWord(m, PX);
    var m1 := BumpUp(m, PX).value;
    if x + off < DmemSize {
      assert PtrWord(m1, PX) == x + 1;
      assert m1.dmem[x + off] == m.dmem[x + off] || (m1.dmem[x + off].Reg? && m.dmem[x + off].Reg?);
    }
  }

  /** `PRINTF` prints exactly the text at X (plus `off`), failing exactly when
      there is none, and leaves X just past its terminating 0. */
  lemma {:induction false} PrintReadsText(m: Machine, off: nat)
    requires Valid(m) && XReady(m)
    ensures PrintFrom(m, off).Ok? <==> TextAt(m.dmem, PtrWord(m, PX) + off).Some?
    ensures PrintFrom(m, off).Ok? ==>
              var codes := PrintFrom(m, off).value.codes;
              TextAt(m.dmem, PtrWord(m, PX) + off) == Some(codes) &&
              PtrWord(PrintFrom(m, off).value.m, PX) == PtrWord(m, PX) + |codes| + 1
    decreases 0x1_0000 - PtrWord(m, PX)
  {
    var x := PtrWord(m, PX);
    var m1 := BumpUp(m, PX).value;
    PrintUnfold(m, off);
    var a := x + off;
    if a < DmemSize && m.dmem[a].Raw? && 0 < m.dmem[a].n <= 0x10FFFF {
      TextAtAgrees(m.dmem, m1.dmem, a + 1);
      PrintReadsText(m1, off);
    }
  }

  /** The start of `CALL PRINTF`: the string's address comes off the stack
      into X, low byte first. The current simulator moves SP before each
      read, the others after it. */
  function PopAddress(v: Variant, m: Machine): (r: Result<Machine>)
    requires Valid(m)
    ensures r.Ok? ==> Valid(r.value) && r.value.layers == m.layers && r.value.count == m.count && r.value.ended == m.ended
  {
    if v == Checked then
      var m1 := IncSp(m);
      var lo :- Fetch(m1, Sp(m1));
      var m2 :- SetValue(m1, LowReg(PX), lo);
      var m3 := IncSp(m2);
      var hi :- Fetch(m3, Sp(m3));
      SetValue(m3, LowReg(PX) + 1, hi)
    else
      var lo :- Fetch(m, Sp(m));
      var m1 :- SetValue(m, LowReg(PX), lo);
      var m2 := IncSp(m1);
      var hi :- Fetch(m2, Sp(m2));
      var m3 :- SetValue(m2, LowReg(PX) + 1, hi);
      Ok(IncSp(m3))
  }

  /** Storing one byte on the stack the way the variant does: the current
      simulator writes at SP and then moves it down, the others move it down
      first. */
  function PushByte(v: Variant, m: Machine, x: int): (r: Result<Machine>)
    ensures r.Ok? ==> Fetch(r.value, PushSlot(v, Sp(m))) == Ok(x)
    ensures r.Ok? ==> Sp(r.value) == Below(Sp(m))
    ensures r.Ok? ==> r.value == m.(dmem := r.value.dmem, spl := r.value.spl, sph := r.value.sph)
    ensures r.Ok? ==> |r.value.dmem| == |m.dmem|
    ensures |m.dmem| == DmemSize && Sp(m) <= DmemMax ==>
              r.Ok? && r.value.dmem == m.dmem[PushSlot(v, Sp(m)) := Raw(x)] &&
              Sp(r.value) == Below(Sp(m))
  {
    if v == Checked then
      var m1 :- Put(m, Sp(m), x);
      Ok(DecSp(m1))
    else
      var m1 := DecSp(m);
      Put(m1, Sp(m1), x)
  }

  /** `CALL PRINTF`, after the counter has moved past the call: the string's
      address comes off the stack into X, the text is read, and X is pushed
      back, high byte first. */
  function Printf(v: Variant, m: Machine): (r: Result<Outcome>)
    requires Valid(m)
    ensures r.Ok? ==> Valid(r.value.m) && r.value.report.Printed?
    ensures r.Ok? ==> r.value.m.layers == m.layers && r.value.m.count == m.count && r.value.m.ended == m.ended
  {
    var m1 :- PopAddress(v, m);
    var out :- PrintFrom(m1, Offset(v));
    var xh := out.m.dmem[LowReg(PX) + 1].v;
    var m2 :- PushByte(v, out.m, xh);
    var xl :- GetValue(m2, LowReg(PX));
    var m3 :- PushByte(v, m2, xl);
    Ok(Outcome(m3, Printed(out.codes)))
  }

  /** The frame a call pushes: the counter's low byte, then its high byte,
      then, in the library generations, a 0. */
  function PushReturn(v: Variant, m: Machine): (r: Result<Machine>)
    ensures r.Ok? ==> r.value == m.(dmem := r.value.dmem, spl := r.value.spl, sph := r.value.sph)
    ensures r.Ok? ==> |r.value.dmem| == |m.dmem|
    ensures r.Ok? && Sp(m) >= FrameSize(v) ==> Sp(r.value) == Sp(m) - FrameSize(v)
  {
    var m2 :- PushByte(v, m, m.pcl);
    var m3 :- PushByte(v, m2, m2.pch);
    if v == Checked then Ok(m3) else PushByte(v, m3, 0)
  }

  // -------------------------------------------------------------------- CALL

  /** `CALL k`: the counter moves past the two-word call, its two bytes go on
      the stack (PCL first, so PCH sits below it; the library generations add
      a 0 byte below both), and the counter jumps to `k`. The library opens a
      new balance layer after charging the frame to the current one; the
      older package charges its single counter. `CALL PRINTF` runs the
      built-in printer instead. */
  function Call(v: Variant, ops: seq<Operand>, m: Machine): (r: Result<Outcome>)
    requires Valid(m)
    ensures r.Ok? ==> Valid(r.value.m) && !r.value.report.Fault?
    ensures r.Ok? ==> r.value.m.ended == m.ended
    ensures r.Ok? && r.value.report == Quiet ==>
              Number(ops, 0).Ok? && Pc(r.value.m) == Number(ops, 0).value % 0x1_0000 &&
              (Sp(m) >= FrameSize(v) ==> Sp(r.value.m) == Sp(m) - FrameSize(v)) &&
              r.value.m.sreg == m.sreg
    ensures r.Ok? && r.value.report == Quiet && v == Layered ==>
              |m.layers| > 0 && r.value.m.layers == AddTop(m.layers, 3) + [0]
    ensures r.Ok? && r.value.report == Quiet ==>
              r.value.m.count == if v == Counted then m.count + 3 else m.count
    ensures r.Ok? && r.value.report == Quiet && v != Layered ==> r.value.m.layers == m.layers
  {
    var target :- OperandAt(ops, 0);
    var m1 := Advance(m, 2);
    if target == OStr("PRINTF") then Printf(v, m1)
    else CallFrom(v, ops, m1)
  }

  /** A call to a label, once the counter has moved past the instruction:
      the frame goes on the stack, the counter jumps, the balance is charged
      and, in the library, a new layer opens. */
  function CallFrom(v: Variant, ops: seq<Operand>, m: Machine): (r: Result<Outcome>)
    requires Valid(m)
    ensures r.Ok? ==> Valid(r.value.m) && r.value.report == Quiet
    ensures r.Ok? ==> r.value.m.ended == m.ended && r.value.m.sreg == m.sreg
    ensures r.Ok? ==> Number(ops, 0).Ok? && Pc(r.value.m) == Number(ops, 0).value % 0x1_0000
    ensures r.Ok? && Sp(m) >= FrameSize(v) ==> Sp(r.value.m) == Sp(m) - FrameSize(v)
    ensures r.Ok? && v == Layered ==> |m.layers| > 0 && r.value.m.layers == AddTop(m.layers, 3) + [0]
    ensures r.Ok? ==> r.value.m.count == if v == Counted then m.count + 3 else m.count
    ensures r.Ok? && v != Layered ==> r.value.m.layers == m.layers
  {
    var m4 :- PushReturn(v, m);
    var k :- Number(ops, 0);
    var m5 :- Land(v, m4, k);
    Ok(Outcome(m5, Quiet))
  }

  /** After the frame is pushed: the counter jumps to `k`, the balance is
      charged with the frame and, in the library, a new layer opens. */
  function Land(v: Variant, m: Machine, k: int): (r: Result<Machine>)
    ensures r.Ok? <==> (v == Layered ==> |m.layers| > 0)
    ensures r.Ok? ==> r.value == m.(pcl := r.value.pcl, pch := r.value.pch, layers := r.value.layers, count := r.value.count)
    ensures r.Ok? ==> Pc(r.value) == k % 0x1_0000
    ensures r.Ok? ==> r.value.layers == if v == Layered then AddTop(m.layers, 3) + [0] else m.layers
    ensures r.Ok? ==> r.value.count == if v == Counted then m.count + 3 else m.count
  {
    var m1 := SetPc(m, k);
    var m2 :- Charge(v, m1, 3);
    Ok(if v == Layered then m2.(layers := m2.layers + [0]) else m2)
  }

  // -------------------------------------------------------------------- PUSH

  /** The stack address one below `a`, wrapping from 0 to the last memory
      cell: `decrement_SP`. */
  function Below(a: Word): (b: Word)
    ensures b == if a == 0 then DmemMax else a - 1
  {
    if a == 0 then DmemMax else a - 1
  }

  /** The stack address one above `a`, wrapping from the last memory cell to
      0: `increment_SP`. */
  function Above(a: Word): (b: Word)
    ensures b == if a == DmemMax then 0 else (a + 1) % 0x1_0000
  {
    if a == DmemMax then 0 else (a + 1) % 0x1_0000
  }

  /** On the stack the two moves undo each other. */
  lemma AboveBelow(a: Word)
    requires a <= DmemMax
    ensures Above(Below(a)) == a && Below(Above(a)) == a
  {
  }

  /** The cell a push fills: SP itself for the current simulator, which
      decrements afterwards; SP after its decrement for the others. */
  function PushSlot(v: Variant, sp: Word): (a: Word)
    ensures a == if v == Checked then sp else Below(sp)
  {
    if v == Checked then sp else Below(sp)
  }

  /** `PUSH r`: the current simulator refuses when SP is below 0x100,
      leaving everything as it was; otherwise the push goes ahead. */
  function Push(v: Variant, ops: seq<Operand>, m: Machine): (r: Result<Outcome>)
    requires Valid(m)
    ensures v == Checked && Sp(m) < 0x100 ==>
              r == Ok(Outcome(m, Fault(Pc(m), StackOverflow(PushOverflow))))
    ensures !(v == Checked && Sp(m) < 0x100) ==>
              r.Err? == Pushed(v, ops, m).Err? && (r.Ok? ==> r.value == Outcome(Pushed(v, ops, m).value, Quiet))
  {
    if v == Checked && Sp(m) < 0x100 then
      Ok(Outcome(m, Fault(Pc(m), StackOverflow(PushOverflow))))
    else
      var m1 :- Pushed(v, ops, m);
      Ok(Outcome(m1, Quiet))
  }

  /** A push that goes ahead: the byte of the register the operand names is
      pushed. */
  function Pushed(v: Variant, ops: seq<Operand>, m: Machine): (r: Result<Machine>)
    requires Valid(m)
    ensures r.Ok? ==>
              RegNumber(ops, 0).Ok? && GetValue(m, RegNumber(ops, 0).value).Ok? &&
              r == PushCharged(v, m, GetValue(m, RegNumber(ops, 0).value).value)
  {
    var n :- RegNumber(ops, 0);
    var x :- GetValue(m, n);
    PushCharged(v, m, x)
  }

  /** The byte `x` goes into `PushSlot` and SP moves down one; the library
      charges the push to the current layer and the older package to its
      counter. */
  function PushCharged(v: Variant, m: Machine, x: Byte): (r: Result<Machine>)
    requires Valid(m)
    ensures r.Ok? ==> (v == Layered ==> |m.layers| > 0)
    ensures r.Ok? ==> Valid(r.value) && r.value.ended == m.ended && r.value.sreg == m.sreg
    ensures r.Ok? ==>
              Fetch(r.value, PushSlot(v, Sp(m))) == Ok(x) &&
              Sp(r.value) == Below(Sp(m)) && Pc(r.value) == (Pc(m) + 1) % 0x1_0000
    ensures r.Ok? ==>
              r.value.layers == (if v == Layered then AddTop(m.layers, 1) else m.layers) &&
              r.value.count == (if v == Counted then m.count + 1 else m.count)
    ensures r.Ok? && Sp(m) <= DmemMax ==> r.value.dmem == m.dmem[PushSlot(v, Sp(m)) := Raw(x)]
  {
    var m1 :- PushOne(v, m, x);
    Charge(v, m1, 1)
  }

  /** The byte `x` goes into `PushSlot`, SP moves down one and the counter
      past the instruction. */
  function PushOne(v: Variant, m: Machine, x: Byte): (r: Result<Machine>)
    requires Valid(m)
    ensures r.Ok? ==> Valid(r.value) && r.value.ended == m.ended && r.value.sreg == m.sreg
    ensures r.Ok? ==> r.value.layers == m.layers && r.value.count == m.count
    ensures r.Ok? ==>
              Fetch(r.value, PushSlot(v, Sp(m))) == Ok(x) &&
              Sp(r.value) == Below(Sp(m)) && Pc(r.value) == (Pc(m) + 1) % 0x1_0000
    ensures r.Ok? && Sp(m) <= DmemMax ==> r.value.dmem == m.dmem[PushSlot(v, Sp(m)) := Raw(x)]
  {
    var m1 :- PushByte(v, m, x);
    var m2 := Advance(m1, 1);
    AdvancedPast(m, m1, m2, 1);
    Ok(m2)
  }

  /** The balance a stack operation of `k` cells is charged to: the
      library's current layer, the older package's counter, nothing for the
      current simulator. */
  function Charge(v: Variant, m: Machine, k: int): (r: Result<Machine>)
    ensures r.Ok? <==> (v == Layered ==> |m.layers| > 0)
    ensures r.Ok? ==> r.value == m.(layers := r.value.layers, count := r.value.count)
    ensures r.Ok? ==> r.value.layers == (if v == Layered then AddTop(m.layers, k) else m.layers)
    ensures r.Ok? ==> r.value.count == (if v == Counted then m.count + k else m.count)
  {
    match v
    case Checked => Ok(m)
    case Counted => Ok(m.(count := m.count + k))
    case Layered => if |m.layers| == 0 then Err(Crash(ListIndexError)) else Ok(m.(layers := AddTop(m.layers, k)))
  }

  /** A step that leaves the counter alone, followed by an advance of `n`,
      advances the counter by `n`. */
  lemma AdvancedPast(m: Machine, m1: Machine, m2: Machine, n: int)
    requires m1.pch == m.pch && m1.pcl == m.pcl
    requires Pc(m2) == (Pc(m1) + n) % 0x1_0000
    ensures Pc(m2) == (Pc(m) + n) % 0x1_0000
  {
  }

  // --------------------------------------------------------------------- POP

  /** The cell a pop reads: one above SP for the current simulator, SP itself
      for the others. */
  function PopSlot(v: Variant, sp: Word): (a: Word)
    ensures a == if v == Checked then Above(sp) else sp
  {
    if v == Checked then Above(sp) else sp
  }

  /** Whether `POP` may go ahead: the current simulator needs SP below the
      last cell, the library a positive balance in its first layer (the whole
      stack's balance: each open call has charged its frame to the layer
      below it), the older package a positive counter. */
  predicate MayPop(v: Variant, m: Machine) {
    match v
    case Checked => Sp(m) < DmemMax
    case Layered => |m.layers| > 0 && m.layers[0] > 0
    case Counted => m.count > 0
  }

  /** `POP d`: register `d` takes the number in `PopSlot` modulo 256 and SP
      moves up one. When `MayPop` fails the current simulator and the
      library report an error, and the older package does nothing at all
      (it only prints a message). */
  function Pop(v: Variant, ops: seq<Operand>, m: Machine): (r: Result<Outcome>)
    requires Valid(m)
    ensures r.Ok? ==> Valid(r.value.m) && r.value.m.ended == m.ended
    ensures !MayPop(v, m) && v == Checked ==>
              r == Ok(Outcome(m, Fault(Pc(m), RetError(NothingToPop))))
    ensures !MayPop(v, m) && v == Layered && |m.layers| > 0 ==>
              r == Ok(Outcome(m, Fault(Pc(m), RetError(NothingToPop))))
    ensures !MayPop(v, m) && v == Counted ==> r == Ok(Outcome(m, Quiet))
    ensures r.Ok? && r.value.report.Fault? ==> !MayPop(v, m)
    ensures r.Ok? ==> r.value.report == Quiet || r.value.report.Fault?
    ensures MayPop(v, m) && r.Ok? ==>
              r.value.report == Quiet && Fetch(m, PopSlot(v, Sp(m))).Ok? && RegNumber(ops, 0).Ok? &&
              r.value.m.sreg == m.sreg &&
              (v == Layered ==> r.value.m.layers == AddTop(m.layers, -1)) &&
              (v != Layered ==> r.value.m.layers == m.layers) &&
              r.value.m.count == (if v == Counted then m.count - 1 else m.count)
  {
    if !MayPop(v, m) then
      if v == Counted then Ok(Outcome(m, Quiet))
      else if v == Layered && |m.layers| == 0 then Err(Crash(ListIndexError))
      else Ok(Outcome(m, Fault(Pc(m), RetError(NothingToPop))))
    else if v == Checked then PopChecked(ops, m)
    else PopFramed(v, ops, m)
  }

  /** The current simulator's pop: SP moves up, then the register takes the
      cell SP now points at. */
  function PopChecked(ops: seq<Operand>, m: Machine): (r: Result<Outcome>)
    requires Valid(m)
    ensures r.Ok? ==> Valid(r.value.m) && r.value.report == Quiet && r.value.m.ended == m.ended
    ensures r.Ok? ==> Fetch(m, PopSlot(Checked, Sp(m))).Ok? && RegNumber(ops, 0).Ok?
    ensures r.Ok? ==> r.value.m.sreg == m.sreg && r.value.m.layers == m.layers && r.value.m.count == m.count
  {
    var m1 := IncSp(m);
    var m2 :- PopInto(m1, Sp(m1), ops);
    Ok(Outcome(Advance(m2, 1), Quiet))
  }

  /** The library generations' pop: the register takes the cell at SP, SP
      moves up, and the balance drops by one. */
  function PopFramed(v: Variant, ops: seq<Operand>, m: Machine): (r: Result<Outcome>)
    requires Valid(m) && v != Checked && (v == Layered ==> |m.layers| > 0)
    ensures r.Ok? ==> Valid(r.value.m) && r.value.report == Quiet && r.value.m.ended == m.ended
    ensures r.Ok? ==> Fetch(m, PopSlot(v, Sp(m))).Ok? && RegNumber(ops, 0).Ok? && r.value.m.sreg == m.sreg
    ensures r.Ok? ==> r.value.m.layers == (if v == Layered then AddTop(m.layers, -1) else m.layers)
    ensures r.Ok? ==> r.value.m.count == (if v == Counted then m.count - 1 else m.count)
  {
    var m1 :- PopInto(m, Sp(m), ops);
    var m2 := Advance(IncSp(m1), 1);
    if v == Counted then Ok(Outcome(m2.(count := m2.count - 1), Quiet))
    else Ok(Outcome(m2.(layers := AddTop(m2.layers, -1)), Quiet))
  }

  /** The register named by the first operand takes the number in cell `a`. */
  function PopInto(m: Machine, a: int, ops: seq<Operand>): (r: Result<Machine>)
    requires Valid(m)
    ensures r.Ok? ==> Fetch(m, a).Ok? && RegNumber(ops, 0).Ok?
    ensures r.Ok? ==> GetValue(r.value, RegNumber(ops, 0).value) == Ok(R.Store(Fetch(m, a).value))
    ensures r.Ok? ==> Valid(r.value) && r.value.sreg == m.sreg && r.value.ended == m.ended
    ensures r.Ok? ==> r.value.layers == m.layers && r.value.count == m.count
  {
    var x :- Fetch(m, a);
    var n :- RegNumber(ops, 0);
    SetValue(m, n, x)
  }

  // ------------------------------------------------------- PUSH, then POP

  /** What a push that went ahead leaves: the pushed byte in `PushSlot`, SP one
      down, the balance one up. */
  lemma PushedState(v: Variant, m: Machine, m1: Machine, ops: seq<Operand>, r: int)
    requires Valid(m) && Sp(m) <= DmemMax && RegNumber(ops, 0) == Ok(r)
    requires Push(v, ops, m) == Ok(Outcome(m1, Quiet))
    ensures GetValue(m, r).Ok? && (v == Checked ==> Sp(m) >= 0x100)
    ensures Valid(m1) && m1.dmem == m.dmem[PushSlot(v, Sp(m)) := Raw(GetValue(m, r).value)]
    ensures Sp(m1) == Below(Sp(m)) && Pc(m1) == (Pc(m) + 1) % 0x1_0000
    ensures m1.layers == (if v == Layered then AddTop(m.layers, 1) else m.layers)
    ensures m1.count == (if v == Counted then m.count + 1 else m.count)
  {
    PushIsCharged(v, m, m1, ops, r);
    ChargedState(v, m, m1, GetValue(m, r).value);
  }

  /** A push that goes ahead is `PushCharged` of the named register's byte. */
  lemma PushIsCharged(v: Variant, m: Machine, m1: Machine, ops: seq<Operand>, r: int)
    requires Valid(m) && RegNumber(ops, 0) == Ok(r)
    requires Push(v, ops, m) == Ok(Outcome(m1, Quiet))
    ensures GetValue(m, r).Ok? && (v == Checked ==> Sp(m) >= 0x100)
    ensures PushCharged(v, m, GetValue(m, r).value) == Ok(m1)
  {
    assert !(v == Checked && Sp(m) < 0x100);
  }

  lemma ChargedState(v: Variant, m: Machine, m1: Machine, x: Byte)
    requires Valid(m) && Sp(m) <= DmemMax && PushCharged(v, m, x) == Ok(m1)
    ensures Valid(m1) && m1.dmem == m.dmem[PushSlot(v, Sp(m)) := Raw(x)]
    ensures Sp(m1) == Below(Sp(m)) && Pc(m1) == (Pc(m) + 1) % 0x1_0000
    ensures m1.layers == (if v == Layered then AddTop(m.layers, 1) else m.layers)
    ensures m1.count == (if v == Counted then m.count + 1 else m.count)
  {
  }

  /** What a pop that may go ahead leaves when its target is a plain register
      and the cell it reads holds a number. */
  lemma PoppedState(v: Variant, m: Machine, ops: seq<Operand>, d: nat, x: Byte)
    requires Valid(m) && MayPop(v, m) && Sp(m) <= DmemMax && RegNumber(ops, 0) == Ok(d)
    requires d < 32 && m.dmem[d].Reg? && Fetch(m, PopSlot(v, Sp(m))) == Ok(x)
    ensures Pop(v, ops, m).Ok? && Pop(v, ops, m).value.report == Quiet
    ensures Pop(v, ops, m).Ok? ==> Pop(v, ops, m).value.m.dmem == m.dmem[d := Reg(x)]
    ensures Pop(v, ops, m).Ok? ==> Sp(Pop(v, ops, m).value.m) == Above(Sp(m))
    ensures Pop(v, ops, m).Ok? ==> Pc(Pop(v, ops, m).value.m) == (Pc(m) + 1) % 0x1_0000
    ensures Pop(v, ops, m).Ok? ==>
              Pop(v, ops, m).value.m.layers == (if v == Layered then AddTop(m.layers, -1) else m.layers) &&
              Pop(v, ops, m).value.m.count == (if v == Counted then m.count - 1 else m.count)
  {
    if v == Checked { PoppedChecked(m, ops, d, x); } else { PoppedFramed(v, m, ops, d, x); }
  }

  lemma PoppedChecked(m: Machine, ops: seq<Operand>, d: nat, x: Byte)
    requires Valid(m) && MayPop(Checked, m) && Sp(m) <= DmemMax && RegNumber(ops, 0) == Ok(d)
    requires d < 32 && m.dmem[d].Reg? && Fetch(m, PopSlot(Checked, Sp(m))) == Ok(x)
    ensures Pop(Checked, ops, m).Ok? && Pop(Checked, ops, m).value.report == Quiet
    ensures Pop(Checked, ops, m).Ok? ==> Pop(Checked, ops, m).value.m.dmem == m.dmem[d := Reg(x)]
    ensures Pop(Checked, ops, m).Ok? ==> Sp(Pop(Checked, ops, m).value.m) == Above(Sp(m))
    ensures Pop(Checked, ops, m).Ok? ==> Pc(Pop(Checked, ops, m).value.m) == (Pc(m) + 1) % 0x1_0000
    ensures Pop(Checked, ops, m).Ok? ==>
              Pop(Checked, ops, m).value.m.layers == m.layers && Pop(Checked, ops, m).value.m.count == m.count
  {
    var m1 := IncSp(m);
    var m2 := m1.(dmem := m.dmem[d := Reg(x)]);
    assert Fetch(m1, Sp(m1)) == Ok(x);
    assert SetValue(m1, d, x) == Ok(m2);
    assert PopInto(m1, Sp(m1), ops) == Ok(m2);
    assert Pop(Checked, ops, m) == Ok(Outcome(Advance(m2, 1), Quiet));
    SameSp(Advance(m2, 1), m1);
    IncSpAbove(m);
    AdvanceOne(m2, m);
  }

  lemma PoppedFramed(v: Variant, m: Machine, ops: seq<Operand>, d: nat, x: Byte)
    requires Valid(m) && MayPop(v, m) && Sp(m) <= DmemMax && RegNumber(ops, 0) == Ok(d)
    requires d < 32 && m.dmem[d].Reg? && Fetch(m, PopSlot(v, Sp(m))) == Ok(x)
    requires v != Checked
    ensures Pop(v, ops, m).Ok? && Pop(v, ops, m).value.report == Quiet
    ensures Pop(v, ops, m).Ok? ==> Pop(v, ops, m).value.m.dmem == m.dmem[d := Reg(x)]
    ensures Pop(v, ops, m).Ok? ==> Sp(Pop(v, ops, m).value.m) == Above(Sp(m))
    ensures Pop(v, ops, m).Ok? ==> Pc(Pop(v, ops, m).value.m) == (Pc(m) + 1) % 0x1_0000
    ensures Pop(v, ops, m).Ok? ==>
            Pop(v, ops, m).value.m.layers == (if v == Layered then AddTop(m.layers, -1) else m.layers) &&
            Pop(v, ops, m).value.m.count == (if v == Counted then m.count - 1 else m.count)
  {
    var m1 := m.(dmem := m.dmem[d := Reg(x)]);
    assert SetValue(m, d, x) == Ok(m1);
    assert PopInto(m, Sp(m), ops) == Ok(m1);
    var m2 := Advance(IncSp(m1), 1);
    var m3 := if v == Counted then m2.(count := m2.count - 1) else m2.(layers := AddTop(m2.layers, -1));
    assert Pop(v, ops, m) == Ok(Outcome(m3, Quiet));
    SameSp(m3, IncSp(m1));
    SameSp(m1, m);
    IncSpAbove(m1);
    AdvanceOne(IncSp(m1), m);
    SamePc(m3, m2);
  }

  lemma IncSpAbove(m: Machine)
    requires Sp(m) <= DmemMax
    ensures Sp(IncSp(m)) == Above(Sp(m))
  {
  }

  lemma SameSp(a: Machine, b: Machine)
    requires a.spl == b.spl && a.sph == b.sph
    ensures Sp(a) == Sp(b)
  {
  }

  lemma AdvanceOne(a: Machine, b: Machine)
    requires a.pcl == b.pcl && a.pch == b.pch
    ensures Pc(Advance(a, 1)) == (Pc(b) + 1) % 0x1_0000
  {
  }

  lemma SamePc(a: Machine, b: Machine)
    requires a.pcl == b.pcl && a.pch == b.pch
    ensures Pc(a) == Pc(b)
  {
  }

  /** When a pop may follow a push: SP lies inside memory, the cell the push
      fills is not the pop's target `d`, a plain register, and the library's
      whole-stack balance is not negative (and positive while a call is open),
      as it is from the start of a run. */
  predicate PushPopFrame(v: Variant, m: Machine, d: nat) {
    Valid(m) && Sp(m) <= DmemMax && d < 32 && m.dmem[d].Reg? && PushSlot(v, Sp(m)) != d &&
    (v == Layered ==> |m.layers| > 0 && m.layers[0] >= 0 && (|m.layers| > 1 ==> m.layers[0] > 0)) &&
    (v == Counted ==> m.count >= 0)
  }

  /** The machine a push of `x` leaves lets a pop read `x` back and move SP
      and the balances back to where they were. */
  lemma PopReadsPush(v: Variant, m: Machine, m1: Machine, d: nat, x: Byte)
    requires PushPopFrame(v, m, d) && Valid(m1)
    requires m1.dmem == m.dmem[PushSlot(v, Sp(m)) := Raw(x)] && Sp(m1) == Below(Sp(m))
    requires v == Checked ==> Sp(m) >= 0x100
    requires m1.layers == (if v == Layered then AddTop(m.layers, 1) else m.layers)
    requires m1.count == (if v == Counted then m.count + 1 else m.count)
    ensures MayPop(v, m1) && Sp(m1) <= DmemMax && Above(Sp(m1)) == Sp(m)
    ensures m1.dmem[d].Reg? && Fetch(m1, PopSlot(v, Sp(m1))) == Ok(x)
    ensures (if v == Layered then AddTop(m1.layers, -1) else m1.layers) == m.layers
    ensures (if v == Counted then m1.count - 1 else m1.count) == m.count
  {
    AboveBelow(Sp(m));
    assert PopSlot(v, Sp(m1)) == PushSlot(v, Sp(m));
    if v == Layered { UndoTop(m.layers, 1); }
  }

  /** A `PUSH r` that goes ahead, followed by `POP d`, leaves register `d`
      holding what `r` held and the pushed byte behind in the freed cell, all
      other memory as it was. */
  lemma PushThenPop(v: Variant, m: Machine, m1: Machine, src: seq<Operand>, dst: seq<Operand>, r: int, d: nat)
    requires PushPopFrame(v, m, d) && RegNumber(src, 0) == Ok(r) && RegNumber(dst, 0) == Ok(d)
    requires Push(v, src, m) == Ok(Outcome(m1, Quiet))
    ensures GetValue(m, r).Ok? && Valid(m1)
    ensures Pop(v, dst, m1).Ok? && Pop(v, dst, m1).value.report == Quiet
    ensures Pop(v, dst, m1).Ok? ==> GetValue(Pop(v, dst, m1).value.m, d) == GetValue(m, r)
    ensures Pop(v, dst, m1).Ok? ==>
              Pop(v, dst, m1).value.m.dmem == m.dmem[PushSlot(v, Sp(m)) := Raw(GetValue(m, r).value)][d := Reg(GetValue(m, r).value)]
  {
    PushedState(v, m, m1, src, r);
    var x := GetValue(m, r).value;
    PopReadsPush(v, m, m1, d, x);
    PoppedState(v, m1, dst, d, x);
    assert Pop(v, dst, m1).value.m.dmem[d] == Reg(x);
  }

  /** ... and SP, the balances and the counter, moved past both instructions,
      are as a push and a pop leave them together: the stack is as it was. */
  lemma PushThenPopStack(v: Variant, m: Machine, m1: Machine, src: seq<Operand>, dst: seq<Operand>, r: int, d: nat)
    requires PushPopFrame(v, m, d) && RegNumber(src, 0) == Ok(r) && RegNumber(dst, 0) == Ok(d)
    requires Push(v, src, m) == Ok(Outcome(m1, Quiet))
    ensures Valid(m1) && Pop(v, dst, m1).Ok?
    ensures Pop(v, dst, m1).Ok? ==> Sp(Pop(v, dst, m1).value.m) == Sp(m)
    ensures Pop(v, dst, m1).Ok? ==>
              Pop(v, dst, m1).value.m.layers == m.layers && Pop(v, dst, m1).value.m.count == m.count
    ensures Pop(v, dst, m1).Ok? ==> Pc(Pop(v, dst, m1).value.m) == (Pc(m) + 2) % 0x1_0000
  {
    PushedState(v, m, m1, src, r);
    PopReadsPush(v, m, m1, d, GetValue(m, r).value);
    PoppedState(v, m1, dst, d, GetValue(m, r).value);
    TwoAdvances(m, m1, Pop(v, dst, m1).value.m);
  }

  /** Two advances of one make an advance of two. */
  lemma TwoAdvances(a: Machine, b: Machine, c: Machine)
    requires Pc(b) == (Pc(a) + 1) % 0x1_0000 && Pc(c) == (Pc(b) + 1) % 0x1_0000
    ensures Pc(c) == (Pc(a) + 2) % 0x1_0000
  {
  }

  /** Charging a layer and taking the charge back restores the balances. */
  lemma UndoTop(l: seq<int>, n: int)
    requires |l| > 0
    ensures AddTop(AddTop(l, n), -n) == l
  {
    assert AddTop(AddTop(l, n), -n)[..|l| - 1] == l[..|l| - 1];
  }

  // --------------------------------------------------------------------- RET

  /** The return address two stack cells hold, once both are numbers. */
  function ReturnAddress(h: Cell, l: Cell): (r: Result<int>)
    ensures r.Ok? <==> h.Raw? && l.Raw?
    ensures r.Ok? ==> r.value == 256 * h.n + l.n
  {
    if h.Raw? && l.Raw? then Ok(256 * h.n + l.n)
    else Err(Crash(RegisterAsNumber))
  }

  /** `RET`.
      - Current simulator: SP at the last cell means the program is over; one
        below it is an error; otherwise the high and then the low byte of the
        return address come off the stack.
      - Library: SP at 0 means the program is over; otherwise the three frame
        bytes come off the stack, and an unbalanced current layer is an error
        naming the surplus; a balanced one is closed, and closing the last
        layer ends the program; otherwise the frame is taken off the layer
        below and the counter returns.
      - Older package: SP at 0 ends the program; otherwise the three bytes
        come off and the frame is taken off the counter, a negative counter
        being an error. */
  function Ret(v: Variant, m: Machine): (r: Result<Outcome>)
    requires Valid(m)
    ensures r.Ok? ==> Valid(r.value.m) && r.value.m.sreg == m.sreg
    ensures v == Checked && Sp(m) == DmemMax ==> r == Ok(Outcome(m.(ended := true), Quiet))
    ensures v == Checked && Sp(m) == DmemMax - 1 ==>
              r == Ok(Outcome(m, Fault(Pc(m), RetError(BadReturnPointer))))
    ensures v != Checked && Sp(m) == 0 ==> r == Ok(Outcome(m.(ended := true), Quiet))
    ensures r.Ok? && r.value.report.Fault? ==> Pc(r.value.m) == Pc(m)
    ensures r.Ok? ==> r.value.report == Quiet || r.value.report.Fault?
    ensures r.Ok? && !r.value.m.ended ==> r.value.m.dmem == m.dmem
  {
    if v == Checked then
      if Sp(m) == DmemMax then Ok(Outcome(m.(ended := true), Quiet))
      else if Sp(m) == DmemMax - 1 then
        Ok(Outcome(m, Fault(Pc(m), RetError(BadReturnPointer))))
      else ReturnChecked(m)
    else if Sp(m) == 0 then Ok(Outcome(m.(ended := true), Quiet))
    else ReturnFramed(v, m)
  }

  /** The current simulator's return proper: the high and then the low byte
      of the return address come off the stack. */
  function ReturnChecked(m: Machine): (r: Result<Outcome>)
    requires Valid(m)
    ensures r.Ok? ==> Valid(r.value.m) && r.value.m.sreg == m.sreg && r.value.report == Quiet
    ensures r.Ok? ==> r.value.m.dmem == m.dmem && r.value.m.ended == m.ended
  {
    var m1 := IncSp(m);
    var kh :- Fetch(m1, Sp(m1));
    var m2 := IncSp(m1);
    var kl :- Fetch(m2, Sp(m2));
    Ok(Outcome(SetPc(m2, 256 * kh + kl), Quiet))
  }

  /** The library generations' return proper: the three frame cells are
      read and the books settled with SP above them. */
  function ReturnFramed(v: Variant, m: Machine): (r: Result<Outcome>)
    requires Valid(m) && v != Checked
    ensures r.Ok? ==> Valid(r.value.m) && r.value.m.sreg == m.sreg && r.value.m.dmem == m.dmem
    ensures r.Ok? ==> r.value.report == Quiet || r.value.report.Fault?
    ensures r.Ok? && r.value.report.Fault? ==> Pc(r.value.m) == Pc(m)
  {
    var _ :- Index(m, Sp(m));
    var m1 := IncSp(m);
    var ih :- Index(m1, Sp(m1));
    var m2 := IncSp(m1);
    var il :- Index(m2, Sp(m2));
    Settle(v, IncSp(m2), m.dmem[ih], m.dmem[il], Pc(m))
  }

  /** Whether the library generations' `RET` finds the books balanced: the
      older package's counter covers the frame; the library's current layer
      is settled and is not the outermost one. */
  predicate Balanced(v: Variant, m: Machine) {
    match v
    case Checked => true
    case Counted => m.count >= 3
    case Layered => |m.layers| > 1 && m.layers[|m.layers| - 1] == 0
  }

  /** The balance after a balanced return: the frame taken off the older
      package's counter; the library's closed layer dropped and the frame
      taken off the layer below it. */
  function Settled(v: Variant, m: Machine): (m': Machine)
    requires Balanced(v, m)
    ensures m' == m.(layers := m'.layers, count := m'.count)
  {
    match v
    case Checked => m
    case Counted => m.(count := m.count - 3)
    case Layered => m.(layers := AddTop(m.layers[..|m.layers| - 1], -3))
  }

  /** The error a library return reports when the current layer is
      unbalanced: how many pops or pushes too many it saw. */
  function Imbalance(top: int): (e: Error)
    requires top != 0
    ensures e.RetError?
  {
    if top < 0 then RetError(IntToString(-top) + " too many pops from the stack to return correctly.")
    else RetError(IntToString(top) + " too many pushes to the stack to return correctly.")
  }

  /** The rest of the library generations' `RET` once its three cells are
      read (`h` and `l` hold the return address, `pc` is where the return
      stands): an unbalanced count is an error naming the surplus, closing
      the library's outermost layer ends the program, and otherwise the
      counter returns to the address. */
  function Settle(v: Variant, m: Machine, h: Cell, l: Cell, pc: Word): (r: Result<Outcome>)
    requires Valid(m) && v != Checked
    ensures r.Ok? ==> Valid(r.value.m) && r.value.m.sreg == m.sreg && r.value.m.dmem == m.dmem
    ensures r.Ok? ==> r.value.report == Quiet || r.value.report.Fault?
    ensures r.Ok? && r.value.report.Fault? ==>
              !Balanced(v, m) && r.value.report.pc == pc && Pc(r.value.m) == Pc(m)
    ensures v == Counted && m.count < 3 ==>
              r == Ok(Outcome(m.(count := m.count - 3), Fault(pc, RetError(TooManyPops))))
    ensures v == Layered && |m.layers| > 0 && m.layers[|m.layers| - 1] != 0 ==>
              r == Ok(Outcome(m, Fault(pc, Imbalance(m.layers[|m.layers| - 1]))))
    ensures v == Layered && m.layers == [0] ==> r == Ok(Outcome(m.(layers := [], ended := true), Quiet))
    ensures Balanced(v, m) ==>
              (r.Ok? <==> h.Raw? && l.Raw?) &&
              (r.Ok? ==> r == Ok(Outcome(SetPc(Settled(v, m), 256 * h.n + l.n), Quiet)))
  {
    if v == Counted then
      var m4 := m.(count := m.count - 3);
      if m4.count < 0 then
        Ok(Outcome(m4, Fault(pc, RetError(TooManyPops))))
      else
        var k :- ReturnAddress(h, l);
        Ok(Outcome(SetPc(m4, k), Quiet))
    else if |m.layers| == 0 then Err(Crash(ListIndexError))
    else
      var top := m.layers[|m.layers| - 1];
      if top != 0 then Ok(Outcome(m, Fault(pc, Imbalance(top))))
      else
        var rest := m.layers[..|m.layers| - 1];
        if |rest| == 0 then Ok(Outcome(m.(layers := rest, ended := true), Quiet))
        else
          var k :- ReturnAddress(h, l);
          Ok(Outcome(SetPc(m.(layers := AddTop(rest, -3)), k), Quiet))
  }

  // ------------------------------------------------------------ the stack's error messages

  const PushOverflow := "Cannot push another element to the stack."
  const NothingToPop := "No elements left to pop."
  const BadReturnPointer := "Invalid stack pointer to return from correctly."
  const TooManyPops := "Too many pops from the stack to return correctly."
}

=== FILE: step.dfy ===
/** One interpreter step: fetch the slot the program counter names, dispatch
    on the instruction's name, and report what the step printed or which
    error it raised. */
module Step {
  import opened Base
  import opened Text
  import opened Program
  import opened Alu
  import opened Machine
  import opened Exec
  import opened Stack

  const StackNames: set<string> := {"CALL", "RET", "PUSH", "POP"}

  const BranchNames: set<string> :=
    {"BRCC", "BRCS", "BREQ", "BRGE", "BRHC", "BRHS", "BRID", "BRIE",
     "BRLO", "BRLT", "BRMI", "BRNE", "BRPL", "BRSH", "BRTC", "BRTS", "BRVC", "BRVS"}

  const ControlNames: set<string> := {"BRBS", "BRBC", "SBRC", "SBRS", "JMP", "RJMP", "NOP"}

  /** Instructions only the current simulator executes. */
  const CheckedOnly: set<string> := {"ADIW", "ASR", "MOVW", "SBIW", "SBRC", "SBRS", "TST"}

  const AllNames: set<string> :=
    TwoRegNames + OneRegNames + ImmediateNames + FlagNames + BranchNames + ControlNames
    + IoNames + MemoryNames + StackNames

  /** Whether variant `v`'s step recognises an instruction; any other name
      is passed over without effect. */
  predicate Known(v: Variant, name: string) {
    name in AllNames && (v == Checked || name !in CheckedOnly)
  }

  lemma BranchNamesKnown(name: string)
    ensures name in BranchNames <==> BranchTest(name).Some?
  {
  }

  /** Every instruction outside the stack group: none of them ends the
      program, prints, or touches the push/pop balance. A name outside every
      group changes nothing. */
  function Execute(v: Variant, name: string, ops: seq<Operand>, pmem: seq<Slot>, m: Machine): (r: Result<Machine>)
    requires Valid(m)
    ensures r.Ok? ==> Valid(r.value)
    ensures r.Ok? ==> r.value.layers == m.layers && r.value.count == m.count && r.value.ended == m.ended
  {
    if name in TwoRegNames then TwoReg(name, ops, m)
    else if name in OneRegNames then OneReg(name, ops, m)
    else if name in ImmediateNames then Immediate(name, ops, m)
    else if name in FlagNames then FlagOp(name, ops, m)
    else if BranchTest(name).Some? then Branch(BranchTest(name).value, ops, m)
    else if name == "BRBS" || name == "BRBC" then BitBranch(name == "BRBS", ops, m)
    else if name == "SBRC" || name == "SBRS" then
      var n :- RegNumber(ops, 0);
      var rr :- GetValue(m, n);
      var b :- Number(ops, 1);
      Skip(name == "SBRS", rr, b, pmem, m)
    else if name == "JMP" || name == "RJMP" || name == "NOP" then Jump(name, ops, m)
    else if name in IoNames then Io(name, ops, m)
    else if name in MemoryNames then Memory(v, name, ops, m)
    else Ok(m)
  }

  /** One step of variant `v` over program memory `pmem`. A finished program,
      or a counter past the end of program memory, marks the machine ended
      and does nothing else; the placeholder after a two-word instruction
      cannot be executed; an unrecognised name is passed over without even
      moving the counter. Only `RET` ends a program, only `CALL PRINTF`
      prints, and only the stack instructions report errors. */
  function Step(v: Variant, pmem: seq<Slot>, m: Machine): (r: Result<Outcome>)
    requires Valid(m)
    ensures r.Ok? ==> Valid(r.value.m)
    ensures m.ended || Pc(m) >= |pmem| ==> r == Ok(Outcome(m.(ended := true), Quiet))
    ensures !m.ended && Pc(m) < |pmem| && pmem[Pc(m)] == Filler ==> r.Err?
    ensures !m.ended && Pc(m) < |pmem| && pmem[Pc(m)].Inst? && !Known(v, pmem[Pc(m)].name) ==>
              r == Ok(Outcome(m, Quiet))
    ensures r.Ok? && !m.ended && Pc(m) < |pmem| && r.value.m.ended ==> pmem[Pc(m)].Inst? && pmem[Pc(m)].name == "RET"
    ensures r.Ok? && r.value.report.Printed? ==> Pc(m) < |pmem| && pmem[Pc(m)].Inst? && pmem[Pc(m)].name == "CALL"
    ensures r.Ok? && r.value.report.Fault? ==>
              Pc(m) < |pmem| && pmem[Pc(m)].Inst? && pmem[Pc(m)].name in {"PUSH", "POP", "RET"} &&
              r.value.report.pc == Pc(m)
  {
    if m.ended || Pc(m) >= |pmem| then Ok(Outcome(m.(ended := true), Quiet))
    else match pmem[Pc(m)]
      case Filler => Err(Crash(NoneNotSubscriptable))
      case Inst(name, ops) =>
        if !Known(v, name) then Ok(Outcome(m, Quiet))
        else if name == "CALL" then Call(v, ops, m)
        else if name == "RET" then Ret(v, m)
        else if name == "PUSH" then Push(v, ops, m)
        else if name == "POP" then Pop(v, ops, m)
        else
          var m1 :- Execute(v, name, ops, pmem, m);
          Ok(Outcome(m1, Quiet))
  }

  // ------------------------------------------------------ round trips

  /** SP after a call has pushed its frame. */
  function FrameBase(v: Variant, sp: Word): (b: Word) {
    if v == Checked then Below(Below(sp)) else Below(Below(Below(sp)))
  }

  /** Two bytes pushed in turn land in `PushSlot` and the cell below it. */
  lemma TwoPushed(v: Variant, m: Machine, x: int, y: int)
    requires Valid(m) && Sp(m) <= DmemMax
    ensures PushByte(v, m, x).Ok? && PushByte(v, PushByte(v, m, x).value, y).Ok?
    ensures var m2, s := PushByte(v, PushByte(v, m, x).value, y).value, PushSlot(v, Sp(m));
            Valid(m2) && Sp(m2) == Below(Below(Sp(m))) && m2.dmem[s] == Raw(x) && m2.dmem[Below(s)] == Raw(y)
  {
    var m1 := PushByte(v, m, x).value;
    assert PushSlot(v, Sp(m1)) == Below(PushSlot(v, Sp(m)));
  }

  /** The frame pushed for a return to `Pc(m)`: SP moved down by the frame
      size (round the end of memory), the low byte of the address in
      `PushSlot` and its high byte just below it. */
  lemma ReturnPushed(v: Variant, m: Machine)
    requires Valid(m) && Sp(m) <= DmemMax
    ensures PushReturn(v, m).Ok?
    ensures var m1, s := PushReturn(v, m).value, PushSlot(v, Sp(m));
            Sp(m1) == FrameBase(v, Sp(m)) &&
            m1.dmem[s] == Raw(Pc(m) % 256) && m1.dmem[Below(s)] == Raw(Pc(m) / 256)
  {
    assert m.pcl == Pc(m) % 256 && m.pch == Pc(m) / 256;
    var s := PushSlot(v, Sp(m));
    var m2 := PushByte(v, m, m.pcl).value;
    TwoPushed(v, m, m.pcl, m.pch);
    var m3 := PushByte(v, m2, m.pch).value;
    if v == Checked {
      assert PushReturn(v, m) == Ok(m3);
    } else {
      ZeroPushed(v, m3, Sp(m));
      assert PushReturn(v, m) == PushByte(v, m3, 0);
    }
  }

  /** The library generations' third frame byte lands below the other two
      and leaves them alone. */
  lemma ZeroPushed(v: Variant, m: Machine, sp: Word)
    requires Valid(m) && sp <= DmemMax && v != Checked && Sp(m) == Below(Below(sp))
    ensures PushByte(v, m, 0).Ok?
    ensures var m1, s := PushByte(v, m, 0).value, Below(sp);
            Valid(m1) && Sp(m1) == Below(Sp(m)) && m1.dmem[s] == m.dmem[s] && m1.dmem[Below(s)] == m.dmem[Below(s)]
  {
  }

  /** What `CALL k` from `m` leaves in `m1`: the frame for a return to the
      word after the call below the old SP, the counter at `k`, the balance
      charged with the frame. */
  predicate Called(v: Variant, m: Machine, m1: Machine, k: int)
    requires Valid(m) && Valid(m1) && Sp(m) <= DmemMax && (v == Layered ==> |m.layers| > 0)
  {
    var ret, s := (Pc(m) + 2) % 0x1_0000, PushSlot(v, Sp(m));
    Sp(m1) == FrameBase(v, Sp(m)) && Pc(m1) == k % 0x1_0000 &&
    m1.dmem[s] == Raw(ret % 256) && m1.dmem[Below(s)] == Raw(ret / 256) &&
    m1.sreg == m.sreg && m1.ended == m.ended &&
    m1.layers == (if v == Layered then AddTop(m.layers, 3) + [0] else m.layers) &&
    m1.count == (if v == Counted then m.count + 3 else m.count)
  }

  /** `CALL k` pushes the frame for a return to the word after the call and
      moves the counter to `k`; the library opens a new layer after charging
      the frame to the current one, the older package charges its counter. */
  lemma CallPushesFrame(v: Variant, m: Machine, k: int)
    requires Valid(m) && Sp(m) <= DmemMax && (v == Layered ==> |m.layers| > 0)
    ensures Call(v, [OInt(k)], m).Ok? && Call(v, [OInt(k)], m).value.report == Quiet
    ensures Valid(Call(v, [OInt(k)], m).value.m) && Called(v, m, Call(v, [OInt(k)], m).value.m, k)
  {
    CallLands(v, m, k);
    FrameLanded(v, m, k);
  }

  /** The frame pushed from the word after the call survives the landing. */
  lemma FrameLanded(v: Variant, m: Machine, k: int)
    requires Valid(m) && Sp(m) <= DmemMax && (v == Layered ==> |m.layers| > 0)
    ensures PushReturn(v, Advance(m, 2)).Ok?
    ensures Land(v, PushReturn(v, Advance(m, 2)).value, k).Ok?
    ensures var m5 := Land(v, PushReturn(v, Advance(m, 2)).value, k).value;
            Valid(m5) && Called(v, m, m5, k)
  {
    var a := Advance(m, 2);
    ReturnPushed(v, a);
    var m4 := PushReturn(v, a).value;
    var m5 := Land(v, m4, k).value;
    assert Sp(m5) == Sp(m4) && m5.dmem == m4.dmem;
  }

  /** A call to a number pushes the frame and lands. */
  lemma CallLands(v: Variant, m: Machine, k: int)
    requires Valid(m) && Sp(m) <= DmemMax && (v == Layered ==> |m.layers| > 0)
    ensures PushReturn(v, Advance(m, 2)).Ok?
    ensures Land(v, PushReturn(v, Advance(m, 2)).value, k).Ok?
    ensures Call(v, [OInt(k)], m) == Ok(Outcome(Land(v, PushReturn(v, Advance(m, 2)).value, k).value, Quiet))
  {
    NumberOf([OInt(k)], 0, k);
    ReturnPushed(v, Advance(m, 2));
  }

  /** The stack conditions under which `RET` finds a frame at SP: the bytes
      of the return address in the two cells above SP, and a balance that
      settles. */
  predicate FrameAt(v: Variant, m: Machine, hi: Byte, lo: Byte) {
    |m.dmem| == DmemSize && Sp(m) <= DmemMax &&
    (if v == Checked then Sp(m) < DmemMax - 1 else Sp(m) != 0) &&
    m.dmem[Above(Sp(m))] == Raw(hi) && m.dmem[Above(Above(Sp(m)))] == Raw(lo) &&
    Balanced(v, m)
  }

  /** SP after a return has taken its frame off. */
  function FrameTop(v: Variant, sp: Word): (t: Word) {
    if v == Checked then Above(Above(sp)) else Above(Above(Above(sp)))
  }

  /** What a `RET` over such a frame leaves: the counter at the return
      address, SP moved up past the frame, and the balance the call charged
      taken back; nothing else changes. */
  predicate Returned(v: Variant, m: Machine, m1: Machine, hi: Byte, lo: Byte)
    requires FrameAt(v, m, hi, lo)
  {
    Pc(m1) == 256 * hi + lo && Sp(m1) == FrameTop(v, Sp(m)) &&
    m1.sreg == m.sreg && m1.dmem == m.dmem && m1.ended == m.ended &&
    m1.layers == Settled(v, m).layers && m1.count == Settled(v, m).count
  }

  lemma RetChecked(m: Machine, hi: Byte, lo: Byte)
    requires Valid(m) && FrameAt(Checked, m, hi, lo)
    ensures Ret(Checked, m).Ok? && Ret(Checked, m).value.report == Quiet
    ensures Returned(Checked, m, Ret(Checked, m).value.m, hi, lo)
  {
    var m1 := IncSp(m);
    assert Fetch(m1, Sp(m1)) == Ok(hi);
    var m2 := IncSp(m1);
    assert Fetch(m2, Sp(m2)) == Ok(lo);
    assert Ret(Checked, m) == Ok(Outcome(SetPc(m2, 256 * hi + lo), Quiet));
  }

  /** The library generations' `RET` reads the frame and hands over to
      `Settle` with SP moved up three cells. */
  lemma FramedReads(v: Variant, m: Machine, hi: Byte, lo: Byte)
    requires Valid(m) && v != Checked && FrameAt(v, m, hi, lo)
    ensures var m3 := IncSp(IncSp(IncSp(m)));
            Sp(m3) == FrameTop(v, Sp(m)) && m3 == m.(spl := m3.spl, sph := m3.sph) &&
            Ret(v, m) == Settle(v, m3, Raw(hi), Raw(lo), Pc(m))
  {
    var m1 := IncSp(m);
    var m2 := IncSp(m1);
    assert Sp(m1) == Above(Sp(m)) && Sp(m2) == Above(Above(Sp(m)));
    assert Ret(v, m) == ReturnFramed(v, m);
  }

  /** Settling does not look at the stack pointer. */
  lemma SettledIgnoresSp(v: Variant, m: Machine, n: Machine)
    requires Balanced(v, m) && n == m.(spl := n.spl, sph := n.sph)
    ensures Balanced(v, n) && Settled(v, n) == Settled(v, m).(spl := n.spl, sph := n.sph)
  {
  }

  /** The state the library generations' `RET` settles into. */
  lemma SettledReturn(v: Variant, m: Machine, hi: Byte, lo: Byte)
    requires Valid(m) && v != Checked && FrameAt(v, m, hi, lo)
    ensures var r := Settle(v, IncSp(IncSp(IncSp(m))), Raw(hi), Raw(lo), Pc(m));
            r.Ok? && r.value.report == Quiet && Returned(v, m, r.value.m, hi, lo)
  {
    var m3 := IncSp(IncSp(IncSp(m)));
    SettledState(v, m, hi, lo);
    assert Settle(v, m3, Raw(hi), Raw(lo), Pc(m)) == Ok(Outcome(SetPc(Settled(v, m3), 256 * hi + lo), Quiet));
  }

  /** The state a balanced library return settles into is the one `Returned`
      describes. */
  lemma SettledState(v: Variant, m: Machine, hi: Byte, lo: Byte)
    requires Valid(m) && v != Checked && FrameAt(v, m, hi, lo)
    ensures var m3 := IncSp(IncSp(IncSp(m)));
            Valid(m3) && Balanced(v, m3) && Returned(v, m, SetPc(Settled(v, m3), 256 * hi + lo), hi, lo)
  {
    var m3 := IncSp(IncSp(IncSp(m)));
    assert Sp(m3) == FrameTop(v, Sp(m)) && m3 == m.(spl := m3.spl, sph := m3.sph);
    SettledIgnoresSp(v, m, m3);
    assert 0 <= 256 * hi + lo < 0x1_0000;
  }

  lemma RetFramed(v: Variant, m: Machine, hi: Byte, lo: Byte)
    requires Valid(m) && v != Checked && FrameAt(v, m, hi, lo)
    ensures Ret(v, m).Ok? && Ret(v, m).value.report == Quiet
    ensures Returned(v, m, Ret(v, m).value.m, hi, lo)
  {
    FramedReads(v, m, hi, lo);
    SettledReturn(v, m, hi, lo);
  }

  /** `RET` over a frame whose return-address bytes sit just above SP. */
  lemma RetPopsFrame(v: Variant, m: Machine, hi: Byte, lo: Byte)
    requires Valid(m) && FrameAt(v, m, hi, lo)
    ensures Ret(v, m).Ok? && Ret(v, m).value.report == Quiet
    ensures Returned(v, m, Ret(v, m).value.m, hi, lo)
  {
    if v == Checked {
      RetChecked(m, hi, lo);
    } else {
      RetFramed(v, m, hi, lo);
    }
  }

  /** The step at a `CALL` is that call. */
  lemma StepIsCall(v: Variant, pmem: seq<Slot>, m: Machine, ops: seq<Operand>)
    requires Valid(m) && !m.ended && Pc(m) < |pmem| && pmem[Pc(m)] == Inst("CALL", ops)
    ensures Step(v, pmem, m) == Call(v, ops, m)
  {
  }

  /** The step at a `RET` is that return. */
  lemma StepIsRet(v: Variant, pmem: seq<Slot>, m: Machine)
    requires Valid(m) && !m.ended && Pc(m) < |pmem| && pmem[Pc(m)].Inst? && pmem[Pc(m)].name == "RET"
    ensures Step(v, pmem, m) == Ret(v, m)
  {
  }

  /** The stack conditions under which a call and its return balance: room
      for the frame without the return pointing SP at the end marker, and a
      balance the return can settle. */
  predicate CallFits(v: Variant, m: Machine) {
    Sp(m) <= DmemMax &&
    match v
    case Checked => Sp(m) >= 2
    case Layered => Sp(m) != 3 && |m.layers| > 0
    case Counted => Sp(m) != 3 && m.count >= 0
  }

  /** A step at `CALL k` pushes the frame for a return to the word after the
      call and moves the counter to `k`. */
  lemma CallStep(v: Variant, pmem: seq<Slot>, m: Machine, k: nat)
    requires Valid(m) && !m.ended && Pc(m) < |pmem| && pmem[Pc(m)] == Inst("CALL", [OInt(k)])
    requires Sp(m) <= DmemMax && (v == Layered ==> |m.layers| > 0)
    ensures Step(v, pmem, m).Ok? && Step(v, pmem, m).value.report == Quiet
    ensures Valid(Step(v, pmem, m).value.m) && Called(v, m, Step(v, pmem, m).value.m, k)
  {
    StepIsCall(v, pmem, m, [OInt(k)]);
    CallPushesFrame(v, m, k);
  }

  /** A step at `RET` over a frame returns through it. */
  lemma RetStep(v: Variant, pmem: seq<Slot>, m: Machine, hi: Byte, lo: Byte)
    requires Valid(m) && !m.ended && Pc(m) < |pmem| && pmem[Pc(m)].Inst? && pmem[Pc(m)].name == "RET"
    requires FrameAt(v, m, hi, lo)
    ensures Step(v, pmem, m).Ok? && Step(v, pmem, m).value.report == Quiet
    ensures Returned(v, m, Step(v, pmem, m).value.m, hi, lo)
  {
    StepIsRet(v, pmem, m);
    RetPopsFrame(v, m, hi, lo);
  }

  /** The frame a call leaves is one its return can take off, and taking it
      off restores what the call changed. */
  lemma CallBalances(v: Variant, m: Machine, m1: Machine, m2: Machine, k: int)
    requires Valid(m) && Valid(m1) && !m.ended && CallFits(v, m) && Called(v, m, m1, k)
    ensures var ret := (Pc(m) + 2) % 0x1_0000; FrameAt(v, m1, ret / 256, ret % 256)
    ensures var ret := (Pc(m) + 2) % 0x1_0000;
            Returned(v, m1, m2, ret / 256, ret % 256) ==>
              !m2.ended && Pc(m2) == ret && Sp(m2) == Sp(m) &&
              m2.sreg == m.sreg && m2.layers == m.layers && m2.count == m.count
  {
    var s := PushSlot(v, Sp(m));
    AboveBelow(Sp(m));
    AboveBelow(s);
    AboveBelow(Below(s));
    if v == Layered {
      CloseOpened(m.layers);
    }
    var ret := (Pc(m) + 2) % 0x1_0000;
    assert Above(Sp(m1)) == Below(s);
    assert Above(Above(Sp(m1))) == s;
    assert FrameTop(v, Sp(m1)) == Sp(m);
    assert Balanced(v, m1);
    assert if v == Checked then Sp(m1) < DmemMax - 1 else Sp(m1) != 0;
    assert FrameAt(v, m1, ret / 256, ret % 256);
    assert 256 * (ret / 256) + ret % 256 == ret;
    assert Settled(v, m1).layers == m.layers;
    assert Settled(v, m1).count == m.count;
  }

  /** The return that follows a `CALL k` from `m` takes the frame off. */
  lemma RetAfterCall(v: Variant, m: Machine, m1: Machine, k: int)
    requires Valid(m) && Valid(m1) && !m.ended && CallFits(v, m) && Called(v, m, m1, k)
    ensures Ret(v, m1).Ok?
    ensures var o := Ret(v, m1).value;
            o.report == Quiet && !o.m.ended && Pc(o.m) == (Pc(m) + 2) % 0x1_0000 && Sp(o.m) == Sp(m) &&
            o.m.sreg == m.sreg && o.m.layers == m.layers && o.m.count == m.count
  {
    var ret := (Pc(m) + 2) % 0x1_0000;
    CallBalances(v, m, m1, m1, k);
    RetPopsFrame(v, m1, ret / 256, ret % 256);
    CallBalances(v, m, m1, Ret(v, m1).value.m, k);
  }

  /** The step at the `RET` at `k` after a `CALL k` from `m` is that return. */
  lemma ReturnAfterCall(v: Variant, pmem: seq<Slot>, m1: Machine, k: nat)
    requires Valid(m1) && !m1.ended && Pc(m1) == k % 0x1_0000
    requires k < |pmem| <= PmemSize && pmem[k].Inst? && pmem[k].name == "RET"
    ensures Pc(m1) == k && Step(v, pmem, m1) == Ret(v, m1)
  {
    WordFits(k);
    StepIsRet(v, pmem, m1);
  }

  lemma WordFits(k: int)
    requires 0 <= k < 0x1_0000
    ensures k % 0x1_0000 == k
  {
  }

  /** `CALL k` followed by the `RET` at `k` comes back to the word after the
      call, with the stack pointer, the status register and the push/pop
      balance as they were. */
  lemma CallThenReturn(v: Variant, pmem: seq<Slot>, m: Machine, k: nat)
    requires Valid(m) && !m.ended && Pc(m) < |pmem| <= PmemSize
    requires pmem[Pc(m)] == Inst("CALL", [OInt(k)]) && k < |pmem| && pmem[k].Inst? && pmem[k].name == "RET"
    requires CallFits(v, m)
    ensures Step(v, pmem, m).Ok? && Step(v, pmem, m).value.report == Quiet
    ensures var m1 := Step(v, pmem, m).value.m;
            Pc(m1) == k && Step(v, pmem, m1).Ok? &&
            var o := Step(v, pmem, m1).value;
            o.report == Quiet && !o.m.ended && Pc(o.m) == (Pc(m) + 2) % 0x1_0000 && Sp(o.m) == Sp(m) &&
            o.m.sreg == m.sreg && o.m.layers == m.layers && o.m.count == m.count
  {
    CallStep(v, pmem, m, k);
    var m1 := Step(v, pmem, m).value.m;
    ReturnAfterCall(v, pmem, m1, k);
    RetAfterCall(v, m, m1, k);
  }
}

=== FILE: syntax.dfy ===
/** What both parsers share: argument requirements, the way error messages show
    a token, the line an error points at, and the escape sequences of string
    data. */
module Syntax {
  import opened Base
  import opened Tokens
  import opened Text

  /** One entry of an instruction's argument list: no argument at all (`None`),
      one token kind, or a choice of kinds (a nested list). */
  datatype Req = NoArg | One(kind: Kind) | AnyOf(kinds: set<Kind>)

  predicate Accepts(r: Req, k: Kind) {
    match r
    case NoArg => false
    case One(x) => k == x
    case AnyOf(s) => k in s
  }

  /** `str(value)`. */
  function ShowValue(v: Value): (s: string)
    ensures v.Text? ==> s == v.s
    ensures v.Num? ==> PyInt(s, 10) == Some(v.n)
  {
    match v
    case NoValue => "None"
    case Num(n) => IntToStringRoundTrip(n); IntToString(n)
    case Text(t) => t
  }

  /** How an argument error names the token: its value, or its kind when it
      carries none. */
  function ShowToken(t: Token): (s: string)
    ensures t.value.NoValue? ==> s == KindName(t.kind)
    ensures !t.value.NoValue? ==> s == ShowValue(t.value)
  {
    if t.value.NoValue? then KindName(t.kind) else ShowValue(t.value)
  }

  /** An error at the parser's line `k`, reported with the source line number
      `lineNums[k]`; a line without a recorded number makes the lookup fail. */
  function LineError<T>(lineNums: seq<int>, k: int, msg: string): (r: Result<T>)
    ensures r.Err?
    ensures 0 <= k < |lineNums| ==> r.error == InvalidInstruction(lineNums[k], msg)
    ensures !(0 <= k < |lineNums|) ==> r.error.Crash?
  {
    if 0 <= k < |lineNums| then Err(InvalidInstruction(lineNums[k], msg))
    else Err(Crash(ListIndexError))
  }

  /** An error whose message glues a token value between two strings with `+`,
      which only works when the value is a string. */
  function GluedError<T>(lineNums: seq<int>, k: int, before: string, v: Value, after: string): (r: Result<T>)
    ensures r.Err?
    ensures v.Text? && 0 <= k < |lineNums| ==>
              r.error == InvalidInstruction(lineNums[k], before + v.s + after)
    ensures !v.Text? ==> r.error.Crash?
  {
    if v.Text? then LineError(lineNums, k, before + v.s + after)
    else Err(Crash("TypeError: can only concatenate str (not \"" +
                   (if v.Num? then "int" else "NoneType") + "\") to str"))
  }

  // ------------------------------------------------------ string escapes

  /** The character a backslash escape stands for; other escapes are not in the
      table and make the lookup fail. */
  function Unescape(c: char): (r: Option<char>)
    ensures r.Some? <==> c in {'n', '\'', '"', 't', '\\'}
  {
    if c == 'n' then Some('\n')
    else if c == '\'' then Some('\'')
    else if c == '"' then Some('"')
    else if c == 't' then Some('\t')
    else if c == '\\' then Some('\\')
    else None
  }

  /** The data bytes (character codes) of a string operand of `.string`,
      `.ascii` or `.asciz`, from character `i` on; `slash` says whether the
      previous character opened an escape. A trailing lone backslash adds
      nothing. */
  function Decode(s: string, i: nat, slash: bool): (r: Result<seq<int>>)
    requires i <= |s|
    ensures r.Ok? ==> |r.value| <= |s| - i
    ensures r.Err? ==> r.error.Crash?
    decreases |s| - i
  {
    if i == |s| then Ok([])
    else if s[i] == '\\' && !slash then Decode(s, i + 1, true)
    else if slash then
      match Unescape(s[i])
      case None => Err(Crash("KeyError: '\\" + [s[i]] + "'"))
      case Some(e) =>
        var rest :- Decode(s, i + 1, false);
        Ok([e as int] + rest)
    else
      var rest :- Decode(s, i + 1, false);
      Ok([s[i] as int] + rest)
  }

  /** The character codes of a string. */
  function Codes(s: string): (r: seq<int>)
    ensures |r| == |s| && forall k :: 0 <= k < |s| ==> r[k] == s[k] as int
  {
    if s == [] then [] else [s[0] as int] + Codes(s[1..])
  }

  /** The escape sequence a string literal uses for a character. */
  function Escape(c: char): (r: string)
  {
    if c == '\n' then "\\n"
    else if c == '\t' then "\\t"
    else if c == '"' then "\\\""
    else if c == '\\' then "\\\\"
    else [c]
  }

  /** A string written with escapes. */
  function EscapeAll(s: string): (r: string)
    ensures |r| >= |s|
  {
    if s == [] then [] else Escape(s[0]) + EscapeAll(s[1..])
  }

  /** Decoding undoes escaping: the data bytes of an escaped string literal are
      the codes of the characters it denotes. */
  lemma {:induction false} DecodeEscaped(s: string, rest: string)
    ensures Decode(EscapeAll(s) + rest, 0, false) ==
            (var tail := Decode(rest, 0, false); if tail.Ok? then Ok(Codes(s) + tail.value) else tail)
    decreases |s|
  {
    if s != [] {
      var c := s[0];
      DecodeEscaped(s[1..], rest);
      var w := EscapeAll(s[1..]) + rest;
      assert EscapeAll(s) + rest == Escape(c) + w;
      DecodeOne(c, w);
      assert Codes(s) == [c as int] + Codes(s[1..]);
      var tail := Decode(rest, 0, false);
      if tail.Ok? {
        assert [c as int] + (Codes(s[1..]) + tail.value) == Codes(s) + tail.value;
      }
    } else {
      assert EscapeAll(s) + rest == rest;
      assert Codes(s) + [] == [];
      var tail := Decode(rest, 0, false);
      if tail.Ok? {
        assert Codes(s) + tail.value == tail.value;
      }
    }
  }

  /** Decoding a string that starts with one escaped character. */
  lemma DecodeOne(c: char, w: string)
    ensures Decode(Escape(c) + w, 0, false) ==
            (var tail := Decode(w, 0, false); if tail.Ok? then Ok([c as int] + tail.value) else tail)
  {
    var e := Escape(c);
    var t := e + w;
    DecodeSuffix(t, |e|, w);
    if |e| == 2 {
      assert t[0] == '\\' && Unescape(t[1]) == Some(c);
    } else {
      assert t[0] == c && c != '\\';
    }
  }

  /** Decoding from index `k` of `t` is decoding the suffix that starts there. */
  lemma {:induction false} DecodeSuffix(t: string, k: nat, w: string)
    requires k <= |t| && t[k..] == w
    ensures Decode(t, k, false) == Decode(w, 0, false)
    ensures Decode(t, k, true) == Decode(w, 0, true)
    decreases |t| - k
  {
    if k < |t| {
      assert w[0] == t[k];
      DecodeSuffix(t, k + 1, w[1..]);
      DecodeSuffix(w, 1, w[1..]);
    }
  }

  // ------------------------------------------------------------ the assembler's error messages

  const EndNotLast := ".end must be the last line of the file"
  const GlobalNotFirst := ".global must be the first line in the text section"
  const GlobalNeedsName := ".global must have another argument"
  const TrailingComma := "Cannot end a line with a comma"
  const NoSectionHeader := "First line must be a '.section' directive"
  const BadSectionHeader := "First line must be a '.section .data' or '.section .text' directive"
  const WrongArgCount := "Incorrect number of arguments given"
  const TooFewArgs := "Not enough arguments given"
  const TooManyArgs := "Too many arguments given"
  const DefNeedsEquals := "Must have an equals sign following a variable name"
  const DefNeedsRegister := "Must set variable name to a register"
  const CellRange := "RAM cells cannot store a number outside of the range: 0 - 255"
  const SpaceArity := "The .space directive has an incorrect number of arguments"
  const SpaceNeedsComma := "The .space directive needs a comma"
  const SpaceNeedsInt := "The .space directive needs an integer as an argument"
  const SpaceNeedsInts := "The .space directive needs an integer for both arguments"
}

=== FILE: tables.dfy ===
/** The instruction tables of the parsers: the tokens each mnemonic takes, and
    the ranges its operands must fall in. */
module Tables {
  import opened Base
  import opened Tokens
  import opened Syntax

  const AllPointers: set<Kind> := {X, Y, Z, XP, YP, ZP, MX, MY, MZ}

  const RegReg: seq<Req> := [One(REG), One(COMMA), One(REG)]
  const RegInt: seq<Req> := [One(REG), One(COMMA), One(INT)]
  const IntInt: seq<Req> := [One(INT), One(COMMA), One(INT)]

  const Branches: set<string> := {
    "BRCC", "BRCS", "BREQ", "BRGE", "BRHC", "BRHS", "BRID", "BRIE", "BRLO",
    "BRLT", "BRMI", "BRNE", "BRPL", "BRSH", "BRTC", "BRTS", "BRVC", "BRVS"}

  const NoOperand: set<string> := {
    "CLC", "CLH", "CLI", "CLN", "CLS", "CLT", "CLV", "CLZ", "NOP", "RET",
    "SEC", "SEH", "SEI", "SEN", "SES", "SET", "SEV", "SEZ"}

  /** Two registers, in either generation. */
  const RegPairOps: set<string> := {
    "ADC", "ADD", "AND", "CP", "CPC", "EOR", "MOV", "MUL", "MULS", "MULSU", "OR", "SBC", "SUB"}

  /** A register and an immediate, in either generation. */
  const RegImmOps: set<string> := {"ANDI", "CBR", "CPI", "IN", "ORI", "SBR", "SUBI"}

  /** One register, in either generation. */
  const OneRegOps: set<string> := {
    "CLR", "COM", "DEC", "INC", "LSL", "LSR", "NEG", "POP", "PUSH", "ROL", "ROR", "SER", "SWAP"}

  /** The argument list of a mnemonic (`INST_REQUIREMENTS`); `None` where the
      table has no entry. The two generations differ in the mnemonics the older
      one lacks and in the pointers `LDD`/`STD` accept. */
  function Requirements(d: Dialect, m: string): (r: Option<seq<Req>>)
    ensures r.Some? ==> |r.value| >= 1
    ensures r.Some? && r.value[0] == NoArg ==> r.value == [NoArg]
  {
    var ydisp := if d == Current then {YP, ZP} else {XP, YP, ZP};
    if m in RegPairOps || (d == Current && m == "MOVW") then Some(RegReg)
    else if m in RegImmOps || (d == Current && m in {"ADIW", "SBIW", "SBRC", "SBRS"}) then Some(RegInt)
    else if m in OneRegOps || (d == Current && m in {"ASR", "TST"}) then Some([One(REG)])
    else if m in {"BCLR", "BSET"} then Some([One(INT)])
    else if m in {"CBI", "SBI"} then Some(IntInt)
    else if m in Branches || m in {"JMP", "RJMP"} then Some([One(STR)])
    else if m in {"BRBC", "BRBS"} then Some([One(INT), One(COMMA), One(STR)])
    else if m == "CALL" then Some([AnyOf({STR, FNCT})])
    else if m in NoOperand then Some([NoArg])
    else if m == "OUT" then Some([One(INT), One(COMMA), One(REG)])
    else if m == "LD" then Some([One(REG), One(COMMA), AnyOf(AllPointers)])
    else if m == "LDD" then Some([One(REG), One(COMMA), AnyOf(ydisp), One(INT)])
    else if m == "LDI" then Some([One(REG), One(COMMA), AnyOf({INT, LO8, HI8})])
    else if m == "LDS" then Some([One(REG), One(COMMA), AnyOf({STR, INT})])
    else if m == "ST" then Some([AnyOf(AllPointers), One(COMMA), One(REG)])
    else if m == "STD" then Some([AnyOf(ydisp), One(INT), One(COMMA), One(REG)])
    else if m == "STS" then Some([AnyOf({STR, INT}), One(COMMA), One(REG)])
    else if m == "XCH" then Some([One(Z), One(COMMA), One(REG)])
    else None
  }

  /** The check an operand gets in `check_operands`: none, a register number in
      a range, a register pair `Rh:Rl` whose low register is in a list, or a
      number in a range (`field` is the table's letter: K, k, q, A, b or s). */
  datatype Rule = Free | Reg(lo: int, hi: int) | Pair(allowed: set<int>) | Range(field: char, lo: int, hi: int)

  const Evens: set<int> := {0, 2, 4, 6, 8, 10, 12, 14, 16, 18, 20, 22, 24, 26, 28, 30}
  const WordRegs: set<int> := {24, 26, 28, 30}

  /** The operand ranges of a mnemonic (`INST_OPERANDS`, current generation). */
  function Rules(m: string): (r: Option<seq<Rule>>)
    ensures r.Some? ==> |r.value| >= 1
  {
    if m in {"ADC", "ADD", "AND", "CP", "CPC", "EOR", "MOV", "MUL", "OR", "SBC", "SUB"} then
      Some([Reg(0, 31), Reg(0, 31)])
    else if m == "MULS" then Some([Reg(16, 31), Reg(16, 31)])
    else if m == "MULSU" then Some([Reg(16, 23), Reg(16, 23)])
    else if m == "MOVW" then Some([Pair(Evens), Pair(Evens)])
    else if m in {"ADIW", "SBIW"} then Some([Pair(WordRegs), Range('K', 0, 63)])
    else if m in {"ANDI", "CBR", "CPI", "LDI", "ORI", "SBR", "SUBI"} then Some([Reg(16, 31), Range('K', 0, 255)])
    else if m in OneRegOps || m in {"ASR", "TST", "LD"} then Some([Reg(0, 31)])
    else if m in {"BCLR", "BSET"} then Some([Range('s', 0, 7)])
    else if m in {"BRBC", "BRBS"} then Some([Range('s', 0, 7), Range('k', -64, 63)])
    else if m in Branches then Some([Range('k', -64, 63)])
    else if m in {"CALL", "JMP"} then Some([Range('k', 0, 4194303)])
    else if m in {"CBI", "SBI"} then Some([Range('A', 0, 31), Range('b', 0, 7)])
    else if m in NoOperand then Some([Free])
    else if m == "IN" then Some([Reg(0, 31), Range('A', 0, 63)])
    else if m == "OUT" then Some([Range('A', 0, 63), Reg(0, 31)])
    else if m == "LDD" then Some([Reg(0, 31), Free, Range('q', 0, 63)])
    else if m == "LDS" then Some([Reg(0, 31), Range('k', 256, 65535)])
    else if m == "RJMP" then Some([Range('k', -2048, 2047)])
    else if m in {"SBRC", "SBRS"} then Some([Reg(0, 31), Range('b', 0, 7)])
    else if m == "ST" then Some([Free, Reg(0, 31)])
    else if m == "STD" then Some([Free, Range('q', 0, 63), Reg(0, 31)])
    else if m == "STS" then Some([Range('k', 256, 65535), Reg(0, 31)])
    else if m == "XCH" then Some([Free, Reg(0, 31)])
    else None
  }
}

=== FILE: text.dfy ===
/** Python's text primitives as the simulator uses them: ASCII case mapping,
    `int(s, base)`, `str(n)` for integers, and `str.split` on one separator. */
module Text {
  import opened Base

  // ------------------------------------------------------------ characters

  predicate IsDigit(c: char) { '0' <= c <= '9' }
  predicate IsLetter(c: char) { 'a' <= c <= 'z' || 'A' <= c <= 'Z' }
  predicate IsIdChar(c: char) { IsLetter(c) || IsDigit(c) || c == '.' || c == '_' || c == '(' || c == ')' }

  function UpperChar(c: char): char {
    if 'a' <= c <= 'z' then (c as int - 32) as char else c
  }

  function LowerChar(c: char): char {
    if 'A' <= c <= 'Z' then (c as int + 32) as char else c
  }

  /** `str.upper()` on the ASCII identifiers the lexer builds. */
  function Upper(s: string): (r: string)
    ensures |r| == |s| && forall k :: 0 <= k < |s| ==> r[k] == UpperChar(s[k])
  {
    if s == [] then [] else [UpperChar(s[0])] + Upper(s[1..])
  }

  function Lower(s: string): (r: string)
    ensures |r| == |s| && forall k :: 0 <= k < |s| ==> r[k] == LowerChar(s[k])
  {
    if s == [] then [] else [LowerChar(s[0])] + Lower(s[1..])
  }

  // ----------------------------------------------- Python's int(s, base)

  /** The value of a digit or letter in bases up to 36, as `int()` reads it. */
  function DigitValue(c: char): (v: nat)
    ensures IsDigit(c) ==> v < 10
  {
    if IsDigit(c) then c as int - '0' as int
    else if 'a' <= c <= 'z' then c as int - 'a' as int + 10
    else if 'A' <= c <= 'Z' then c as int - 'A' as int + 10
    else 36
  }

  predicate AllDigitsIn(s: string, base: nat) {
    forall k :: 0 <= k < |s| ==> DigitValue(s[k]) < base
  }

  /** The positional value of a digit string, most significant digit first. */
  function ValueIn(s: string, base: nat): nat
    requires AllDigitsIn(s, base)
  {
    if s == [] then 0 else ValueIn(s[..|s| - 1], base) * base + DigitValue(s[|s| - 1])
  }

  /** ASCII whitespace, which `int()` ignores around the digits. */
  predicate IsSpace(c: char) {
    c == ' ' || (9 <= c as int <= 13) || (28 <= c as int <= 31)
  }

  function StripLeft(s: string): (r: string)
    ensures |r| <= |s| && (r != [] ==> !IsSpace(r[0]))
  {
    if s != [] && IsSpace(s[0]) then StripLeft(s[1..]) else s
  }

  function StripRight(s: string): (r: string)
    ensures |r| <= |s| && (r != [] ==> !IsSpace(r[|r| - 1]))
  {
    if s != [] && IsSpace(s[|s| - 1]) then StripRight(s[..|s| - 1]) else s
  }

  /** A `0b`, `0o` or `0x` prefix, which `int()` accepts again after the sign
      when it matches a base of 2, 8 or 16. */
  predicate HasPrefix(s: string, base: nat) {
    |s| >= 2 && s[0] == '0' &&
    ((base == 2 && (s[1] == 'b' || s[1] == 'B')) ||
     (base == 8 && (s[1] == 'o' || s[1] == 'O')) ||
     (base == 16 && (s[1] == 'x' || s[1] == 'X')))
  }

  /** What `int()` reads as digits after a sign: a matching prefix goes, and
      so does one underscore right after it. */
  function DropPrefix(s: string, base: nat): (r: string)
  {
    if HasPrefix(s, base) then
      if |s| > 2 && s[2] == '_' then s[3..] else s[2..]
    else s
  }

  /** `int(s, base)`: `None` where Python raises ValueError. */
  function PyInt(s: string, base: nat): (r: Option<int>)
    requires 2 <= base <= 36
  {
    var t := StripRight(StripLeft(s));
    var neg := t != [] && t[0] == '-';
    var u := if t != [] && (t[0] == '-' || t[0] == '+') then t[1..] else t;
    var w := if base == 10 then u else DropPrefix(u, base);
    match GroupedValue(w, base)
    case None => None
    case Some(n) => Some(if neg then -(n as int) else n)
  }

  /** The value of the digits `int()` reads after the sign and prefix, or
      `None` when they are not Python's digit grouping: digits of the base
      with single underscores between them, none at either end and never two
      in a row. Read from the last digit back, like `ValueIn`. */
  function GroupedValue(w: string, base: nat): (r: Option<nat>)
    decreases |w|
  {
    if w == [] || DigitValue(w[|w| - 1]) >= base then None
    else if |w| == 1 then Some(DigitValue(w[0]))
    else
      var p := if w[|w| - 2] == '_' then w[..|w| - 2] else w[..|w| - 1];
      if p == [] then None
      else match GroupedValue(p, base)
        case None => None
        case Some(n) => Some(n * base + DigitValue(w[|w| - 1]))
  }

  /** Plain digits are read as their positional value. */
  lemma {:induction false} PlainValue(d: string, base: nat)
    requires base <= 36 && d != [] && AllDigitsIn(d, base)
    ensures GroupedValue(d, base) == Some(ValueIn(d, base))
    decreases |d|
  {
    if |d| > 1 {
      var p := d[..|d| - 1];
      assert DigitValue(d[|d| - 2]) < base;
      PlainValue(p, base);
    }
  }

  /** `int(s, base)` on a plain digit string is its positional value. */
  lemma PyIntDigits(s: string, base: nat)
    requires 2 <= base <= 36 && s != [] && AllDigitsIn(s, base)
    requires base != 10 ==> !(|s| >= 2 && s[0] == '0' && DigitValue(s[1]) >= 11)
    ensures PyInt(s, base) == Some(ValueIn(s, base))
  {
    NotSpace(s[0], base);
    NotSpace(s[|s| - 1], base);
    PlainValue(s, base);
    assert StripRight(StripLeft(s)) == s by {
      assert StripLeft(s) == s;
    }
    assert !HasPrefix(s, base) by {
      if |s| >= 2 && s[0] == '0' {
        assert DigitValue(s[1]) < 11;
      }
    }
  }

  /** Python's grouping: `int()` reads `a_b` as the digits `a` and `b` joined,
      in any base. */
  lemma PyIntGrouped(a: string, b: string, base: nat)
    requires 2 <= base <= 36 && a != [] && b != [] && AllDigitsIn(a, base) && AllDigitsIn(b, base)
    requires !HasPrefix(a, base)
    ensures PyInt(a + "_" + b, base) == Some(ValueIn(a + b, base))
  {
    var s := a + "_" + b;
    GroupedJoin(a, b, base);
    NotSpace(s[0], base);
    NotSpace(s[|s| - 1], base);
    assert StripRight(StripLeft(s)) == s by {
      assert StripLeft(s) == s;
    }
    assert !HasPrefix(s, base) by {
      if |a| == 1 { assert s[1] == '_'; } else { assert s[1] == a[1]; }
    }
  }

  /** The digits of `a_b` are those of `a` and `b` joined. */
  lemma {:induction false} GroupedJoin(a: string, b: string, base: nat)
    requires base <= 36 && a != [] && b != [] && AllDigitsIn(a, base) && AllDigitsIn(b, base)
    ensures GroupedValue(a + "_" + b, base) == Some(ValueIn(a + b, base))
    decreases |b|
  {
    var s := a + "_" + b;
    var c := b[|b| - 1];
    assert s[|s| - 1] == c && (a + b)[|a + b| - 1] == c;
    if |b| == 1 {
      assert s[|s| - 2] == '_' && s[..|s| - 2] == a && (a + b)[..|a + b| - 1] == a;
      PlainValue(a, base);
    } else {
      var b' := b[..|b| - 1];
      assert s[|s| - 2] == b[|b| - 2] && s[..|s| - 1] == a + "_" + b';
      assert DigitValue(b[|b| - 2]) < base;
      assert (a + b)[..|a + b| - 1] == a + b';
      GroupedJoin(a, b', base);
    }
  }

  /** Doubled, leading or trailing underscores make `int()` raise. */
  lemma PyIntBadGrouping(base: nat)
    requires 2 <= base <= 36
    ensures PyInt("1__1", base) == None
    ensures PyInt("_1", base) == None
    ensures PyInt("1_", base) == None
  {
    assert StripRight(StripLeft("1__1")) == "1__1";
    assert StripRight(StripLeft("_1")) == "_1";
    assert StripRight(StripLeft("1_")) == "1_";
    assert GroupedValue("1_", base) == None;
  }

  /** A digit of the base is neither blank nor a sign. */
  lemma NotSpace(c: char, base: nat)
    requires base <= 36 && DigitValue(c) < base
    ensures !IsSpace(c) && c != '-' && c != '+'
  {
  }

  // ------------------------------------------------------------- str(n)

  function DecimalDigit(n: nat): (c: char)
    requires n < 10
    ensures IsDigit(c) && DigitValue(c) == n
  {
    ('0' as int + n) as char
  }

  /** `str(n)` for a natural number: decimal digits, no leading zero. */
  function NatToString(n: nat): (s: string)
    ensures |s| >= 1 && forall k :: 0 <= k < |s| ==> IsDigit(s[k])
    decreases n
  {
    if n < 10 then [DecimalDigit(n)] else NatToString(n / 10) + [DecimalDigit(n % 10)]
  }

  /** `str(n)` for any integer. */
  function IntToString(n: int): (s: string)
    ensures |s| >= 1 && IsDigit(s[|s| - 1])
    ensures n >= 0 ==> forall k :: 0 <= k < |s| ==> IsDigit(s[k])
    ensures n < 0 ==> s[0] == '-' && forall k :: 1 <= k < |s| ==> IsDigit(s[k])
  {
    if n < 0 then "-" + NatToString(-n) else NatToString(n)
  }

  /** Reading back the digits `str` wrote gives the number. */
  lemma {:induction false} NatToStringValue(n: nat)
    ensures AllDigitsIn(NatToString(n), 10) && ValueIn(NatToString(n), 10) == n
    decreases n
  {
    var s := NatToString(n);
    if n >= 10 {
      NatToStringValue(n / 10);
      assert s[..|s| - 1] == NatToString(n / 10);
    }
  }

  /** `int(str(n)) == n`: the parser's register-name normalisation and the
      interpreters' register lookup agree. */
  lemma IntToStringRoundTrip(n: int)
    ensures PyInt(IntToString(n), 10) == Some(n)
  {
    var d := NatToString(if n < 0 then -n else n);
    NatToStringValue(if n < 0 then -n else n);
    if n < 0 {
      PyIntNegated(d);
    } else {
      PyIntDigits(d, 10);
    }
  }

  /** `int()` in base 10 reads a minus sign and a digit string as the
      negated value. */
  lemma PyIntNegated(d: string)
    requires d != [] && AllDigitsIn(d, 10)
    ensures PyInt("-" + d, 10) == Some(-(ValueIn(d, 10) as int))
  {
    SignedStrip(d);
    assert ("-" + d)[1..] == d;
    PlainValue(d, 10);
  }

  lemma SignedStrip(d: string)
    requires d != [] && AllDigitsIn(d, 10)
    ensures StripRight(StripLeft("-" + d)) == "-" + d
  {
    NotSpace(d[|d| - 1], 10);
    assert ("-" + d)[|d|] == d[|d| - 1];
  }

  // ----------------------------------------------------------- str.split

  /** `s.split(c)[-1]`: what follows the last `c`, or all of `s` without one. */
  function AfterLast(s: string, c: char): (r: string)
    ensures |r| <= |s| && r == s[|s| - |r|..]
    ensures forall k :: 0 <= k < |r| ==> r[k] != c
    ensures |r| < |s| ==> s[|s| - |r| - 1] == c
  {
    if s == [] || s[|s| - 1] == c then [] else AfterLast(s[..|s| - 1], c) + [s[|s| - 1]]
  }

  /** `s.split(c)[-2]`, which exists only when `s` holds a `c`. */
  function SecondLastPiece(s: string, c: char): (r: Option<string>)
    ensures r.Some? <==> c in s
  {
    var tail := AfterLast(s, c);
    if |tail| == |s| then
      assert forall k :: 0 <= k < |s| ==> s[k] != c;
      None
    else Some(AfterLast(s[..|s| - |tail| - 1], c))
  }

  /** `s.rstrip(c)`. */
  function StripRightChar(s: string, c: char): (r: string)
    ensures |r| <= |s| && r == s[..|r|] && (r != [] ==> r[|r| - 1] != c)
    ensures forall k :: |r| <= k < |s| ==> s[k] == c
  {
    if s != [] && s[|s| - 1] == c then StripRightChar(s[..|s| - 1], c) else s
  }

  /** What follows a separator that does not occur again is the last piece. */
  lemma {:induction false} AfterLastClean(p: string, t: string, c: char)
    requires forall k :: 0 <= k < |t| ==> t[k] != c
    ensures AfterLast(p + [c] + t, c) == t
    decreases |t|
  {
    var s := p + [c] + t;
    if t == [] {
      assert s[|s| - 1] == c;
    } else {
      assert s[..|s| - 1] == p + [c] + t[..|t| - 1];
      AfterLastClean(p, t[..|t| - 1], c);
      assert t == t[..|t| - 1] + [t[|t| - 1]];
    }
  }

  /** A register name `R<n>` splits back to the digits of `n`. */
  lemma RegisterNameSplits(n: int)
    ensures AfterLast("R" + IntToString(n), 'R') == IntToString(n)
  {
    var t := IntToString(n);
    assert forall k :: 0 <= k < |t| ==> t[k] != 'R';
    AfterLastClean([], t, 'R');
    assert [] + ['R'] + t == "R" + t;
  }
}

=== FILE: tokens.dfy ===
/** Token kinds, token values and the name tables the lexer classifies
    identifiers with. Two generations of the lexer exist: `Current` (the
    self-contained simulator) and `Older` (the library lexer), which lacks a few
    mnemonics, the `.def` directive, the `=` token, register pairs and the
    reduction of numbers modulo 256. */
module Tokens {

  datatype Kind =
    | INST | INT | REG | COMMA | LABEL | DIR | PLUS | EQ
    | X | XP | MX | Y | YP | MY | Z | ZP | MZ
    | STR | LO8 | HI8 | FNCT
    | ERR  // an error object the lexer left among a line's tokens

  /** A Python token value: `None`, an integer or a string. */
  datatype Value = NoValue | Num(n: int) | Text(s: string)

  datatype Token = Token(kind: Kind, value: Value)

  datatype Dialect = Current | Older

  predicate IsPointerKind(k: Kind) {
    k in {X, XP, MX, Y, YP, MY, Z, ZP, MZ}
  }

  /** The spelling of a pointer token, which the parser stores as the operand. */
  function PointerSpelling(k: Kind): (s: string)
    requires IsPointerKind(k)
    ensures |s| >= 1
  {
    match k
    case X => "X" case XP => "X+" case MX => "-X"
    case Y => "Y" case YP => "Y+" case MY => "-Y"
    case Z => "Z" case ZP => "Z+" case MZ => "-Z"
  }

  /** The mnemonics both generations know. */
  const CommonMnemonics: seq<string> := [
    "ADC", "ADD", "AND", "ANDI", "ASR", "BCLR", "BRBC", "BRBS", "BRCC", "BRCS",
    "BREQ", "BRGE", "BRHC", "BRHS", "BRID", "BRIE", "BRLO", "BRLT", "BRMI", "BRNE",
    "BRPL", "BRSH", "BRTC", "BRTS", "BRVC", "BRVS", "BSET", "CALL", "CBI", "CBR",
    "CLC", "CLH", "CLI", "CLN", "CLR", "CLS", "CLT", "CLV", "CLZ", "COM",
    "CP", "CPC", "CPI", "DEC", "EOR", "IN", "INC", "JMP", "LD", "LDD",
    "LDI", "LDS", "LSL", "LSR", "MOV", "MUL", "MULS", "MULSU", "NEG", "NOP",
    "OR", "ORI", "OUT", "POP", "PUSH", "RJMP", "RET", "ROL", "ROR", "SBC",
    "SBI", "SBR", "SEC", "SEH", "SEI", "SEN", "SER", "SES", "SET", "SEV",
    "SEZ", "ST", "STD", "STS", "SUB", "SUBI", "SWAP", "XCH"]

  /** The mnemonics only the current generation knows. */
  const NewMnemonics: seq<string> := ["ADIW", "MOVW", "SBIW", "SBRC", "SBRS", "TST"]

  function Mnemonics(d: Dialect): (m: seq<string>)
    ensures forall s :: s in CommonMnemonics ==> s in m
    ensures d == Current ==> forall s :: s in NewMnemonics ==> s in m
  {
    if d == Current then CommonMnemonics + NewMnemonics else CommonMnemonics
  }

  const CommonDirectives: seq<string> :=
    [".section", ".end", ".global", ".byte", ".string", ".ascii", ".asciz", ".space"]

  function Directives(d: Dialect): (m: seq<string>)
    ensures (".def" in m) <==> d == Current
  {
    if d == Current then CommonDirectives + [".def"] else CommonDirectives
  }

  const Functions: seq<string> := ["PRINTF"]

  const RegisterFile: seq<string> := [
    "R0", "R1", "R2", "R3", "R4", "R5", "R6", "R7", "R8", "R9",
    "R10", "R11", "R12", "R13", "R14", "R15", "R16", "R17", "R18", "R19",
    "R20", "R21", "R22", "R23", "R24", "R25", "R26", "R27", "R28", "R29",
    "R30", "R31"]

  /** The value each kind of token carries as the lexer builds it: names and
      strings carry text, numbers an integer, punctuation and pointers nothing. */
  predicate Shaped(t: Token) {
    if t.kind == INT then t.value.Num?
    else if t.kind in {INST, REG, LABEL, DIR, STR, LO8, HI8, FNCT, ERR} then t.value.Text?
    else t.value.NoValue?
  }

  /** The `TT_…` name of a kind, which error messages and pointer operands show. */
  function KindName(k: Kind): (s: string)
    ensures |s| >= 1
    ensures IsPointerKind(k) ==> s == PointerSpelling(k)
  {
    match k
    case INST => "INST" case INT => "INT" case REG => "REG" case COMMA => "COMMA"
    case LABEL => "LABEL" case DIR => "DIR" case PLUS => "PLUS" case EQ => "EQUALS"
    case X => "X" case XP => "X+" case MX => "-X"
    case Y => "Y" case YP => "Y+" case MY => "-Y"
    case Z => "Z" case ZP => "Z+" case MZ => "-Z"
    case STR => "STR" case LO8 => "LO8" case HI8 => "HI8" case FNCT => "FNCT"
    case ERR => "ERROR"
  }
}

=== FILE: twopass.dfy ===
/** What both parsers share: the token lines they read, the state they build,
    the way the two passes over the text section lay out program words, and
    the checks of `.global` and of relative label operands. */
module TwoPass {
  import opened Base
  import opened Tokens
  import opened Syntax
  import opened Tables
  import opened Program
  import opened Directives

  /** What the lexer hands over: every line holds a token, and every token
      carries the value its kind calls for. */
  predicate Input(lines: seq<seq<Token>>) {
    forall k :: 0 <= k < |lines| ==> lines[k] != [] && ShapedLine(lines[k])
  }

  /** The parser's accumulators: the instruction list, the text labels, the
      data bytes, the data labels and the `.def` names. */
  datatype State = State(
    code: seq<Slot>,
    labels: map<string, int>,
    data: seq<int>,
    dataLocs: map<string, int>,
    defs: map<string, string>)

  const Start: State := State([], map[], [], map[], map[])

  /** `self.tok` after moving to token `t`: `None` past the end of the line. */
  function Tok(line: seq<Token>, t: nat): (r: Option<Token>)
    ensures r.Some? <==> t < |line|
    ensures t < |line| ==> r.value == line[t]
  {
    if t < |line| then Some(line[t]) else None
  }

  /** Reading a field of `self.tok` when it is `None`. */
  const NoneToken: Error := Crash(NoneHasNoType)

  /** The line `.section .text` that ends the data section. */
  predicate OpensText(line: seq<Token>) {
    |line| == 2 && line[0] == Token(DIR, Text("section")) && line[1] == Token(STR, Text(".text"))
  }

  /** The header rules both parser generations share: the first line is
      `.section` followed by `.text` or `.data` (more tokens may follow). The
      result says whether the file opens in the text section. */
  function Header(lines: seq<seq<Token>>, lineNums: seq<int>): (r: Result<bool>)
    requires Input(lines)
    ensures r.Ok? <==> |lines| >= 1 && |lines[0]| >= 2 && lines[0][0] == Token(DIR, Text("section")) &&
                       lines[0][1] in {Token(STR, Text(".text")), Token(STR, Text(".data"))}
    ensures r.Ok? ==> (r.value <==> lines[0][1] == Token(STR, Text(".text")))
    ensures r.Err? && |lines| >= 1 && |lineNums| >= 1 ==>
              r.error == InvalidInstruction(lineNums[0],
                if lines[0][0] != Token(DIR, Text("section")) then NoSectionHeader else BadSectionHeader)
    ensures |lines| == 0 ==> r == Err(Crash(ParserHasNoToken))
  {
    if |lines| == 0 then Err(Crash(ParserHasNoToken))
    else
      var head := lines[0];
      if head[0] != Token(DIR, Text("section")) then
        LineError(lineNums, 0, NoSectionHeader)
      else if |head| < 2 || (head[1] != Token(STR, Text(".text")) && head[1] != Token(STR, Text(".data"))) then
        LineError(lineNums, 0, BadSectionHeader)
      else Ok(head[1] == Token(STR, Text(".text")))
  }

  /** Every data label names a place in the collected data, counted from
      `base`: the data memory address in the current generation, the offset
      into the data in the older one. */
  predicate DataWithin(st: State, base: int) {
    forall n :: n in st.dataLocs ==> base <= st.dataLocs[n] <= base + |st.data|
  }

  function Clamp(lines: seq<seq<Token>>, start: nat): (s: nat)
    ensures s <= |lines| && (start <= |lines| ==> s == start)
  {
    if start <= |lines| then start else |lines|
  }

  /** The line the text section starts on as the parser computes it: after a
      `.section .text` header it has already moved to line 1 when it records
      where the text section begins, and then moves on once more. */
  function TextStartAsWritten(l: nat): nat {
    if l == 0 then 2 else l + 1
  }

  /** The parser as its source is written, or with its three slips
      corrected: the text section's start (`TextStartAsWritten`), the words
      charged to a label line (`ChargedAsWritten`) and the reach of a
      conditional branch (`BranchOffsetAsWritten`). */
  datatype Version = AsWritten | Intended

  /** The program words the text pass emits for a line: the width of its
      instruction, if it has one (see `HasInst`), and nothing otherwise. */
  function Words(d: Dialect, line: seq<Token>): (w: nat)
    requires line != []
    ensures w <= 2
    ensures w > 0 <==> HasInst(d, line)
  {
    if line[0].kind == LABEL then
      (if d == Current && |line| > 1 && line[1].kind == INST then
         (if line[1].value.Text? && line[1].value.s in DoubleLength then 2 else 1)
       else 0)
    else if line[0].kind == INST then
      (if line[0].value.Text? && line[0].value.s in DoubleLength then 2 else 1)
    else 0
  }

  /** The words the current label pass charges to a line as written: after a
      label it counts one word, two for a double-length name, for whatever
      token follows, an instruction or not. */
  function ChargedAsWritten(d: Dialect, line: seq<Token>): (w: nat)
    requires line != []
    ensures w <= 2
    ensures w == Words(d, line) <==> !LabelDir(d, line)
  {
    if line[0].kind == LABEL then
      (if d == Current && |line| > 1 then (if line[1].value.Text? && line[1].value.s in DoubleLength then 2 else 1) else 0)
    else if line[0].kind == INST then
      (if line[0].value.Text? && line[0].value.s in DoubleLength then 2 else 1)
    else 0
  }

  /** The words a version of the label pass charges to a line. */
  function Charge(v: Version, d: Dialect, line: seq<Token>): (w: nat)
    requires line != []
    ensures v == Intended || !LabelDir(d, line) ==> w == Words(d, line)
    ensures v == AsWritten ==> w == ChargedAsWritten(d, line)
  {
    if v == AsWritten then ChargedAsWritten(d, line) else Words(d, line)
  }

  /** The words a version of the label pass charges to lines `a` up to `b`. */
  function Charges(v: Version, d: Dialect, lines: seq<seq<Token>>, a: nat, b: nat): (n: nat)
    requires Input(lines) && a <= b <= |lines|
    decreases b - a
  {
    if a == b then 0 else Charge(v, d, lines[a]) + Charges(v, d, lines, a + 1, b)
  }

  /** The label pass charges the words the text pass emits: always once
      corrected, and as written when no label is followed by anything but an
      instruction. */
  lemma {:induction false} ChargesPlain(v: Version, d: Dialect, lines: seq<seq<Token>>, a: nat, b: nat)
    requires Input(lines) && a <= b <= |lines| && (v == Intended || Plain(d, lines, a))
    ensures Charges(v, d, lines, a, b) == Slots(d, lines, a, b)
    decreases b - a
  {
    if a < b {
      ChargesPlain(v, d, lines, a + 1, b);
    }
  }

  /** The words charged to lines `a` up to `b`. */
  function Slots(d: Dialect, lines: seq<seq<Token>>, a: nat, b: nat): (n: nat)
    requires Input(lines) && a <= b <= |lines|
    decreases b - a
  {
    if a == b then 0 else Words(d, lines[a]) + Slots(d, lines, a + 1, b)
  }

  /** Words add up over adjacent stretches of lines. */
  lemma {:induction false} SlotsSplit(d: Dialect, lines: seq<seq<Token>>, a: nat, b: nat, c: nat)
    requires Input(lines) && a <= b <= c <= |lines|
    ensures Slots(d, lines, a, c) == Slots(d, lines, a, b) + Slots(d, lines, b, c)
    decreases b - a
  {
    if a < b {
      SlotsSplit(d, lines, a + 1, b, c);
    }
  }

  /** Line `line` defines label `n`. */
  predicate Defines(line: seq<Token>, n: string) {
    |line| >= 1 && line[0].kind == LABEL && TextOf(line[0]) == n
  }

  /** No line from `k` on defines label `n`. */
  predicate Undefined(lines: seq<seq<Token>>, k: nat, n: string) {
    forall i :: k <= i < |lines| ==> !Defines(lines[i], n)
  }

  /** The label pass's places from line `k + 1` on, seen from line `k`. */
  lemma CountStep(v: Version, d: Dialect, lines: seq<seq<Token>>, k: nat, count: int, labels: map<string, int>, r: map<string, int>)
    requires Input(lines) && k < |lines|
    requires forall j :: k + 1 <= j < |lines| && lines[j][0].kind == LABEL && Undefined(lines, j + 1, TextOf(lines[j][0])) ==>
               TextOf(lines[j][0]) in r && r[TextOf(lines[j][0])] == count + Charge(v, d, lines[k]) + Charges(v, d, lines, k + 1, j)
    ensures forall j :: k + 1 <= j < |lines| && lines[j][0].kind == LABEL && Undefined(lines, j + 1, TextOf(lines[j][0])) ==>
              TextOf(lines[j][0]) in r && r[TextOf(lines[j][0])] == count + Charges(v, d, lines, k, j)
  {
    forall j | k + 1 <= j < |lines| && lines[j][0].kind == LABEL && Undefined(lines, j + 1, TextOf(lines[j][0]))
      ensures TextOf(lines[j][0]) in r && r[TextOf(lines[j][0])] == count + Charges(v, d, lines, k, j)
    {
      assert Charges(v, d, lines, k, j) == Charge(v, d, lines[k]) + Charges(v, d, lines, k + 1, j);
    }
  }

  /** A line the text pass emits an instruction for: one that starts with an
      instruction or, in the current parser, has one after a label. */
  predicate HasInst(d: Dialect, line: seq<Token>) {
    |line| >= 1 &&
    (line[0].kind == INST || (d == Current && line[0].kind == LABEL && |line| > 1 && line[1].kind == INST))
  }

  /** Where that instruction stands on the line. */
  function InstIndex(d: Dialect, line: seq<Token>): (t: nat)
    requires HasInst(d, line)
    ensures t < |line| && line[t].kind == INST
  {
    if line[0].kind == INST then 0 else 1
  }

  function InstName(d: Dialect, line: seq<Token>): string
    requires HasInst(d, line)
  {
    TextOf(line[InstIndex(d, line)])
  }

  /** A label followed on its line by something other than an instruction,
      such as `start: .global start`: the current label pass as written
      charges it a word, but the text pass emits nothing for it. */
  predicate LabelDir(d: Dialect, line: seq<Token>) {
    d == Current && |line| > 1 && line[0].kind == LABEL && line[1].kind != INST
  }

  /** No line from `k` on is a label followed by anything but an instruction. */
  predicate Plain(d: Dialect, lines: seq<seq<Token>>, k: nat) {
    forall j :: k <= j < |lines| ==> !LabelDir(d, lines[j])
  }

  /** A `.global` directive at token `t`: only before any instruction, and it
      must name a label of the file. */
  function Global(line: seq<Token>, t: nat, st: State, lineNums: seq<int>, k: int): (r: Result<State>)
    requires ShapedLine(line) && t < |line|
    ensures r.Ok? <==> st.code == [] && t + 1 < |line| && line[t + 1].kind == STR && TextOf(line[t + 1]) in st.labels
    ensures r.Ok? ==> r.value == st
  {
    if |st.code| != 0 then LineError(lineNums, k, GlobalNotFirst)
    else if t + 1 >= |line| then LineError(lineNums, k, GlobalNeedsName)
    else if line[t + 1].kind != STR || TextOf(line[t + 1]) !in st.labels then
      LineError(lineNums, k, "Cannot find label '" + ShowValue(line[t + 1].value) + "' in this file")
    else Ok(st)
  }

  /** What one line of the text pass does to the state: only the code
      changes; a line with an instruction appends that instruction's slots,
      any other line nothing; so the code grows by the line's `Words`. */
  predicate LineStep(d: Dialect, lines: seq<seq<Token>>, k: nat, st: State, st': State)
    requires Input(lines) && k < |lines|
  {
    st'.(code := st.code) == st &&
    (!HasInst(d, lines[k]) ==> st' == st) &&
    (HasInst(d, lines[k]) ==>
       |st'.code| > |st.code| &&
       var i := st'.code[|st.code|];
       i.Inst? && i.name == InstName(d, lines[k]) && st'.code == st.code + Emitted(i) &&
       Requirements(d, i.name).Some?) &&
    |st'.code| == |st.code| + Words(d, lines[k])
  }

  /** What the text pass from line `k` does: only the code changes, it only
      grows and stays aligned, and each line's instruction sits at the number
      of words emitted for the lines before it. */
  predicate Laid(d: Dialect, lines: seq<seq<Token>>, k: nat, st: State, r: State)
    requires Input(lines) && k <= |lines|
  {
    r.(code := st.code) == st &&
    |r.code| >= |st.code| && r.code[..|st.code|] == st.code &&
    (Aligned(st.code) ==> Aligned(r.code)) &&
    Placed(d, lines, k, st.code, r.code)
  }

  /** Code `rc` laid after `c` from line `k` on has the words of those lines,
      and each line's instruction after the words of the lines before it. */
  predicate Placed(d: Dialect, lines: seq<seq<Token>>, k: nat, c: seq<Slot>, rc: seq<Slot>)
    requires Input(lines) && k <= |lines|
  {
    |rc| == |c| + Slots(d, lines, k, |lines|) &&
    forall j :: k <= j < |lines| && HasInst(d, lines[j]) ==>
      |c| + Slots(d, lines, k, j) < |rc| &&
      rc[|c| + Slots(d, lines, k, j)].Inst? &&
      rc[|c| + Slots(d, lines, k, j)].name == InstName(d, lines[j])
  }

  /** What one more line of the text pass adds to what the rest of it does. */
  lemma EmitStep(d: Dialect, lines: seq<seq<Token>>, k: nat, st: State, st': State, r: State)
    requires Input(lines) && k < |lines|
    requires LineStep(d, lines, k, st, st') && Laid(d, lines, k + 1, st', r)
    ensures Laid(d, lines, k, st, r)
  {
    EmitPrefix(d, lines, k, st, st', r);
    EmitAligned(d, lines, k, st, st', r);
    EmitCounted(d, lines, k, st, st', r);
  }

  lemma EmitPrefix(d: Dialect, lines: seq<seq<Token>>, k: nat, st: State, st': State, r: State)
    requires Input(lines) && k < |lines|
    requires LineStep(d, lines, k, st, st') && Laid(d, lines, k + 1, st', r)
    ensures r.(code := st.code) == st && |r.code| >= |st.code| && r.code[..|st.code|] == st.code
  {
    assert r.code[..|st.code|] == r.code[..|st'.code|][..|st.code|];
  }

  lemma EmitAligned(d: Dialect, lines: seq<seq<Token>>, k: nat, st: State, st': State, r: State)
    requires Input(lines) && k < |lines|
    requires LineStep(d, lines, k, st, st') && Laid(d, lines, k + 1, st', r)
    ensures Aligned(st.code) ==> Aligned(r.code)
  {
    if Aligned(st.code) && HasInst(d, lines[k]) {
      EmitKeepsAligned(st.code, st'.code[|st.code|]);
    }
  }

  lemma EmitCounted(d: Dialect, lines: seq<seq<Token>>, k: nat, st: State, st': State, r: State)
    requires Input(lines) && k < |lines|
    requires LineStep(d, lines, k, st, st') && Laid(d, lines, k + 1, st', r)
    ensures Placed(d, lines, k, st.code, r.code)
  {
    assert r.code[..|st'.code|] == st'.code;
    PlacesStep(d, lines, k, st.code, st'.code, r.code);
  }

  /** The placement part of `EmitStep`. */
  lemma PlacesStep(d: Dialect, lines: seq<seq<Token>>, k: nat, c: seq<Slot>, c': seq<Slot>, rc: seq<Slot>)
    requires Input(lines) && k < |lines|
    requires |c'| == |c| + Words(d, lines[k])
    requires HasInst(d, lines[k]) ==> |c'| > |c| && c'[|c|].Inst? && c'[|c|].name == InstName(d, lines[k])
    requires |rc| >= |c'| && rc[..|c'|] == c'
    requires Placed(d, lines, k + 1, c', rc)
    ensures Placed(d, lines, k, c, rc)
  {
    assert Slots(d, lines, k, |lines|) == Words(d, lines[k]) + Slots(d, lines, k + 1, |lines|);
    forall j | k <= j < |lines| && HasInst(d, lines[j])
      ensures |c| + Slots(d, lines, k, j) < |rc| &&
              rc[|c| + Slots(d, lines, k, j)].Inst? &&
              rc[|c| + Slots(d, lines, k, j)].name == InstName(d, lines[j])
    {
      if j == k {
        assert rc[|c|] == rc[..|c'|][|c|];
      } else {
        assert Slots(d, lines, k, j) == Words(d, lines[k]) + Slots(d, lines, k + 1, j);
      }
    }
  }

  /** Branches, relative jumps and relative calls take a label as an offset
      from the next word rather than as an address. */
  predicate Relative(name: string) {
    (if |name| >= 2 then name[..2] else name) in {"RC", "RJ", "BR"}
  }

  /** The offset check as written: the test meant for branches compares the
      method `upper` itself with a string, which never holds, so every
      relative instruction gets the 12-bit range. */
  function BranchOffsetAsWritten(name: string, target: int, pc: int, lab: string, lineNums: seq<int>, k: int)
    : (r: Result<int>)
    ensures r.Ok? <==> -2048 <= target - pc - 1 <= 2047
    ensures r.Ok? ==> pc + 1 + r.value == target
  {
    var off := target - pc - 1;
    if off < -2048 || off > 2047 then
      LineError(lineNums, k, "Label too far away to access from '" + lab + "'")
    else Ok(off)
  }

  /** The label pass from line `k`, where `count` words precede it: every
      label gets the count of the words before it (see `LabelPlaces`), as
      version `v` charges them. */
  function CountLabels(d: Dialect, v: Version, lines: seq<seq<Token>>, lineNums: seq<int>, k: nat, count: int,
                       labels: map<string, int>): (r: Result<map<string, int>>)
    requires Input(lines) && k <= |lines|
    ensures r.Ok? ==> labels.Keys <= r.value.Keys
    decreases |lines| - k
  {
    if k >= |lines| then Ok(labels)
    else
      var tok := lines[k][0];
      if tok.kind == LABEL then
        CountLabels(d, v, lines, lineNums, k + 1, count + Charge(v, d, lines[k]), labels[TextOf(tok) := count])
      else if tok.kind == INST || tok.kind == FNCT then
        CountLabels(d, v, lines, lineNums, k + 1, count + Charge(v, d, lines[k]), labels)
      else if tok.kind == DIR then
        if TextOf(tok) !in {"global", "end"} then LineError(lineNums, k, "'" + TextOf(tok) + "'")
        else CountLabels(d, v, lines, lineNums, k + 1, count, labels)
      else GluedError(lineNums, k, "'", tok.value, "'")
  }

  /** What the label pass computes: a label defined on line `j` (and not again
      later) gets the number of words charged to the lines before `j`. */
  lemma {:induction false} LabelPlaces(d: Dialect, v: Version, lines: seq<seq<Token>>, lineNums: seq<int>, k: nat, count: int,
                                       labels: map<string, int>)
    requires Input(lines) && k <= |lines| && CountLabels(d, v, lines, lineNums, k, count, labels).Ok?
    ensures var r := CountLabels(d, v, lines, lineNums, k, count, labels).value;
            forall j :: k <= j < |lines| && lines[j][0].kind == LABEL && Undefined(lines, j + 1, TextOf(lines[j][0])) ==>
              TextOf(lines[j][0]) in r && r[TextOf(lines[j][0])] == count + Charges(v, d, lines, k, j)
    decreases |lines| - k
  {
    if k < |lines| {
      var tok := lines[k][0];
      var r := CountLabels(d, v, lines, lineNums, k, count, labels).value;
      var count' := if tok.kind == DIR then count else count + Charge(v, d, lines[k]);
      var labels' := if tok.kind == LABEL then labels[TextOf(tok) := count] else labels;
      assert CountLabels(d, v, lines, lineNums, k + 1, count', labels') == Ok(r);
      LabelPlaces(d, v, lines, lineNums, k + 1, count', labels');
      assert Charge(v, d, lines[k]) == 0 || tok.kind != DIR;
      if tok.kind == LABEL {
        LabelsKept(d, v, lines, lineNums, k + 1, count', labels');
      }
      CountStep(v, d, lines, k, count, labels, r);
    }
  }

  /** Labels no line from `k` on defines keep the place they had. */
  lemma {:induction false} LabelsKept(d: Dialect, v: Version, lines: seq<seq<Token>>, lineNums: seq<int>, k: nat, count: int,
                                      labels: map<string, int>)
    requires Input(lines) && k <= |lines| && CountLabels(d, v, lines, lineNums, k, count, labels).Ok?
    ensures var r := CountLabels(d, v, lines, lineNums, k, count, labels).value;
            forall n :: n in labels && Undefined(lines, k, n) ==> n in r && r[n] == labels[n]
    decreases |lines| - k
  {
    if k < |lines| {
      var tok := lines[k][0];
      var count' := if tok.kind == DIR then count else count + Charge(v, d, lines[k]);
      var labels' := if tok.kind == LABEL then labels[TextOf(tok) := count] else labels;
      assert CountLabels(d, v, lines, lineNums, k + 1, count', labels') == CountLabels(d, v, lines, lineNums, k, count, labels);
      LabelsKept(d, v, lines, lineNums, k + 1, count', labels');
    }
  }

  /** The label pass reads only the lines from where it starts. */
  lemma {:induction false} CountFrame(d: Dialect, v: Version, lines: seq<seq<Token>>, other: seq<seq<Token>>, lineNums: seq<int>,
                                      k: nat, count: int, labels: map<string, int>)
    requires Input(lines) && Input(other) && |lines| == |other| && k <= |lines|
    requires lines[k..] == other[k..]
    ensures CountLabels(d, v, lines, lineNums, k, count, labels) == CountLabels(d, v, other, lineNums, k, count, labels)
    decreases |lines| - k
  {
    if k < |lines| {
      SameFrom(lines, other, k);
      var tok := lines[k][0];
      if tok.kind == LABEL || tok.kind == INST || tok.kind == FNCT || tok.kind == DIR {
        var count' := if tok.kind == DIR then count else count + Charge(v, d, lines[k]);
        var labels' := if tok.kind == LABEL then labels[TextOf(tok) := count] else labels;
        CountFrame(d, v, lines, other, lineNums, k + 1, count', labels');
      }
    }
  }

  /** Two files that agree from line `k` on agree on line `k` and from the
      next line on. */
  lemma SameFrom(lines: seq<seq<Token>>, other: seq<seq<Token>>, k: nat)
    requires |lines| == |other| && k < |lines| && lines[k..] == other[k..]
    ensures lines[k] == other[k] && lines[k + 1..] == other[k + 1..]
  {
    assert other[k] == other[k..][0] == lines[k..][0] == lines[k];
    assert lines[k + 1..] == lines[k..][1..] && other[k + 1..] == other[k..][1..];
  }

  /** The smallest file the skipped line breaks: a `.text` header, the label
      `main`, a jump to it, and `.end`. */
  const Sample: seq<seq<Token>> := [
    [Token(DIR, Text("section")), Token(STR, Text(".text"))],
    [Token(LABEL, Text("main"))],
    [Token(INST, Text("RJMP")), Token(STR, Text("main"))],
    [Token(DIR, Text("end"))]]

  lemma SampleInput()
    ensures Input(Sample)
  {
    forall k | 0 <= k < |Sample| ensures Sample[k] != [] && ShapedLine(Sample[k]) {
    }
  }

  /** The smallest file the label charge breaks: a label on the `.global`
      line, then `main` on a `NOP` line and a jump back to it. */
  const Shifted: seq<seq<Token>> := [
    [Token(DIR, Text("section")), Token(STR, Text(".data"))],
    [Token(DIR, Text("section")), Token(STR, Text(".text"))],
    [Token(LABEL, Text("start")), Token(DIR, Text("global")), Token(STR, Text("start"))],
    [Token(LABEL, Text("main")), Token(INST, Text("NOP"))],
    [Token(INST, Text("RJMP")), Token(STR, Text("main"))],
    [Token(DIR, Text("end"))]]

  lemma ShiftedInput()
    ensures Input(Shifted)
  {
    forall k | 0 <= k < |Shifted| ensures Shifted[k] != [] && ShapedLine(Shifted[k]) {
    }
  }
}
